=== FILE: README.md ===
# UnitySerializationBridge, modelled in Dafny

UnitySerializationBridge is a BepInEx plugin for Unity games. Unity's `Instantiate` copies only the fields Unity itself can serialize. The plugin carries the rest across: dictionaries, interfaces, nested generic collections, and references between components.

The plugin works in these parts, each a module here:

- **Registry and type classification** (`SerializationRegistry`, `AssemblyUtils`, `CollectionUtils`). These find the component fields worth bridging. A field qualifies when its type is something Unity cannot serialize but the JSON serializer can handle.
- **Capture and restore** (`SerializationHandler`). This records each such field as JSON before the copy and writes it back onto the clone afterwards.
- **Identity maps and destroy hooks** (`ComponentMapper`, `GameObjectMaps`, `GameObjectMapper`, `SerializationDetector` and their `...Destroy` modules). These keep source-to-clone chains of components and GameObjects, which are re-stitched when a member of a chain is destroyed.
- **Instantiation observer** (`SerializationObserver`, `ComponentInterrupter`). This correlates the source and clone hierarchies by position, blocks the clone's `Awake` and `OnEnable` while it is being fixed up, then replays the lifecycle callbacks in order.
- **JSON conventions** (`ValueReferenceConverter`, `UnityConverters`, `ContractResolver`). These are the three converters' envelopes (`$hash`, `$keys`/`$values`, `$type`/`$default`), mapping references to the clone's counterparts, and the rules for which members the serializer sees.
- **Caches** (`LruCache`, `CacheUtils`). These are the bounded memo tables that every other part consults.

How the model represents the host:

- Host objects are integer instance ids (`ObjId`).
- Unity's "destroyed" test is membership in a set of live ids.
- Types are a finite datatype `Ty` carrying kind, marker traits, assembly, generic arguments, element type and base type.
- Everything the plugin asks of Unity, reflection or Newtonsoft is a function parameter. This includes `GetComponents`, the hierarchy walk, declared fields, field getters, the serializer, and type-name lookup.
- A field write through a setter is modelled as an update of a map from (component, field) to value, which `SerializationHandler` carries in its state.
- Exceptions are `Err` values of a `Result` type. They are named after the exception the code would throw.

The files come from more than one revision of the plugin, and their signatures do not always agree. For example, the observer calls `Register` with a component, while the registry takes a type. Each file is modelled as written against its own collaborators.

## Model

| member | source | states |
|---|---|---|
| LruCache.Empty | Core/Models/LRUCache.cs:6-10 | a new cache holds no keys, has no stale nodes and keeps the requested `maxSize` |
| LruCache.TryGetValue | Core/Models/LRUCache.cs:23-35 | a hit answers the key's current value and moves that node to the front without changing keys, size or identities; a miss answers the default and changes nothing |
| LruCache.WithoutSplices | Core/Models/LRUCache.cs:28 | with distinct node identities, unlinking a node removes exactly its one position and keeps every other node in its order |
| LruCache.HitReorders | Core/Models/LRUCache.cs:25-29 | a hit makes the key's node the front and keeps the nodes before and after it in their previous order |
| LruCache.GetKeepsValid | Core/Models/LRUCache.cs:23-35 | a lookup keeps identities distinct and every key's node in the history, keeps the history's length and its set of nodes, and keeps a stale-free cache stale-free |
| LruCache.MissChangesNothing | Core/Models/LRUCache.cs:33-34 | a miss returns false with the default and leaves the cache as it was |
| LruCache.Add | Core/Models/LRUCache.cs:37-50 | `Add` throws (a null `Last`) exactly when the cache is full, the key is new and the history is empty; otherwise the key maps to the new value through the node now at the front |
| LruCache.AddKeys | Core/Models/LRUCache.cs:39-49 | which keys remain after `Add`: a present key changes none; a new key joins; when full the tail node's key leaves; the old history follows the new node, less its tail when one was evicted |
| LruCache.AddOthers | Core/Models/LRUCache.cs:39-49 | every other key keeps its entry unless it was the evicted key |
| LruCache.AddValid | Core/Models/LRUCache.cs:37-50 | with `maxSize > 0` `Add` never throws, and it keeps node identities fresh and distinct with every key's node in the history |
| LruCache.AddThenGet | Core/Models/LRUCache.cs:23-50 | after `Add(k, v)` a lookup of `k` hits, answers `v` and leaves `k`'s node at the front |
| LruCache.TidyCount | Core/Models/LRUCache.cs:9-10 | in a cache without stale nodes the history holds exactly one node per key |
| LruCache.EvictTidy | Core/Models/LRUCache.cs:42-44 | dropping the tail of a stale-free cache removes exactly one key and leaves no stale node |
| LruCache.TidyPush | Core/Models/LRUCache.cs:47-49 | pushing a new key onto a stale-free cache adds exactly one key and leaves no stale node |
| LruCache.AddAbsentKeepsBound | Core/Models/LRUCache.cs:39-49 | adding a key that is not present keeps a stale-free cache stale-free and within `maxSize` |
| LruCache.ReAddLeavesStaleNode | Core/Models/LRUCache.cs:47-49 | re-adding a present key keeps the key count, but the key's old node stays in the history, so the history outgrows the key count |
| LruCache.StaleEvictionOverflows | Core/Models/LRUCache.cs:39-49 | with `maxSize` 1, adding keys 1, 1, 2, 3 leaves two keys: eviction through a stale node removes an already-replaced key |
| LruCache.UnlinkTidy | Core/Models/LRUCache.cs:42-44 | unlinking a key's entry and node from a stale-free cache removes exactly that key and leaves no stale node |
| LruCache.AddFixed | Core/Models/LRUCache.cs:37-50 | the corrected `Add`: re-adding a present key replaces its node, keeping the key set; a new key behaves as `Add` |
| LruCache.AddFixedKeepsBound | Core/Models/LRUCache.cs:37-50 | the corrected `Add` never throws on a positive `maxSize`, keeps the cache stale-free and never lets the key count exceed `maxSize` |
| LruCache.Run | Core/Models/LRUCache.cs:23-50 | any sequence of lookups and corrected insertions keeps a stale-free cache stale-free and within its `maxSize` |
| CacheUtils.NullableAdd | Utils/CacheUtils.cs:7 | on an absent cache nothing happens; on a present one the outcome is `Add`'s, its exception included |
| CacheUtils.NullableTryGetValue | Utils/CacheUtils.cs:8-14 | an absent cache always misses with the default; a present one answers the stored value exactly when the key is present, with the key set unchanged |
| CacheUtils.GetAgrees | Utils/CacheUtils.cs:8-14 | a cache whose entries all hold `f` of their key answers `f` on a hit and still agrees with `f` afterwards |
| CacheUtils.AddAgrees | Utils/CacheUtils.cs:7 | storing `f`'s own value keeps a cache in agreement with `f` |
| CacheUtils.NullableAddThenGet | Utils/CacheUtils.cs:7-14 | on a valid present cache with room an added value is what the next lookup finds; on an absent cache the next lookup misses |
| CollectionUtils.HasOfType | Utils/CollectionUtils.cs:8-16 | the scan answers true iff an element of exactly type `t` comes before any null element; it throws iff a null element comes first; it answers false iff no element is null or of type `t` |
| CollectionUtils.HasOfTypeAgrees | Utils/CollectionUtils.cs:8-16 | the loop agrees with a recursive first-stopping-element definition on every list |
| CollectionUtils.VerdictMeaning | Utils/CollectionUtils.cs:8-16 | the recursive definition's three outcomes are characterised by the first element that stops the scan |
| CollectionUtils.SubtypeDoesNotCount | Utils/CollectionUtils.cs:12 | an element whose type is a proper subtype of `t` does not count, because the test is type equality |
| ComponentMap.Registered | Core/Serialization/ComponentMap.cs:16 | the kept list holds exactly the components that are not the map itself, a handler or a Transform |
| ComponentMap.GetComponentsRegistered | Core/Serialization/ComponentMap.cs:8-20 | the previous list is discarded and the result is the filtered components in `GetComponents` order |
| ComponentMap.RegisteredAppend | Core/Serialization/ComponentMap.cs:13-19 | the filter preserves order: it distributes over concatenation |
| ComponentMap.RegisteredIdempotent | Core/Serialization/ComponentMap.cs:8-20 | filtering an already filtered list changes nothing, so refreshing twice gives the same list |
| AssemblyUtils.IsGameAssembly | Utils/AssemblyUtils.cs:36-49 | a cache hit answers the stored verdict; a miss answers "no directory, or a directory outside `BepInEx/plugins`", and stores it only while the cache is marked available |
| AssemblyUtils.IsFromGameAssemblies | Utils/AssemblyUtils.cs:22-34 | the handler type and plugin types always count as game types; any other type counts iff its assembly gets the game-assembly verdict |
| AssemblyUtils.IsStandardCollection | Utils/AssemblyUtils.cs:106-109 | arrays and `IList`s are standard collections whatever the flag; any other type is one iff dictionaries are asked for and it is an `IDictionary` |
| AssemblyUtils.IsUnityComponentType | Utils/AssemblyUtils.cs:99-103 | a type that is not a standard collection is a component type iff it is `GameObject` or assignable to `Component` |
| AssemblyUtils.IsUnityAssembly | Utils/AssemblyUtils.cs:51-76 | a cache hit answers the stored verdict; a miss answers "a game assembly whose file name does not start with `Assembly-CSharp`", so a plugin assembly is never a Unity one |
| AssemblyUtils.IsGameAssemblyCoherent | Utils/AssemblyUtils.cs:36-49 | a cache that only ever stored verdicts keeps answering the verdict and keeps storing only verdicts |
| AssemblyUtils.IsUnityAssemblyCoherent | Utils/AssemblyUtils.cs:51-76 | the same coherence for the Unity-assembly cache |
| AssemblyUtils.Leaves | Utils/AssemblyUtils.cs:131-170 | the expansion of nested collection types is never empty, every leaf is the type itself or structurally smaller, and with no depth limit every leaf is a non-collection or a collection without element or argument types |
| AssemblyUtils.ArgLeaves | Utils/AssemblyUtils.cs:148-156 | the leaves of the generic arguments, in argument order, are all smaller than the collection |
| AssemblyUtils.NormalizeLayers | Utils/AssemblyUtils.cs:114-115 | a depth limit of zero or less means "no limit", written -1; a positive limit is kept |
| AssemblyUtils.TypesFromArray | Utils/AssemblyUtils.cs:111-129 | a type that is not a collection expands to itself alone |
| AssemblyUtils.GetTypesFromArray | Utils/AssemblyUtils.cs:111-129 | with no cache the answer is the uncached expansion; a hit on (type, normalised depth) answers the stored list |
| AssemblyUtils.GetTypesFromArrayCoherent | Utils/AssemblyUtils.cs:117-128 | a cache that only ever held expansions answers the uncached expansion and keeps holding only expansions |
| AssemblyUtils.DepthOneGeneric | Utils/AssemblyUtils.cs:134-155 | with a depth limit of one a generic collection expands to exactly its type arguments, unexpanded |
| AssemblyUtils.ExpansionIdempotent | Utils/AssemblyUtils.cs:131-170 | unbounded expansion is a closure: expanding any leaf again gives just that leaf |
| AssemblyUtils.ArgLeavesIncludes | Utils/AssemblyUtils.cs:150-154 | the leaves of each generic argument occur among the collection's leaves |
| AssemblyUtils.CanUnitySerialize | Utils/AssemblyUtils.cs:78-97 | a type that is not an array or a list always gets a verdict: serializable iff it is a primitive, string or enum, or it is not a dictionary and is a Unity object or a class or value type from a game assembly (arrays and lists: `CollectionSerializableIffLeaves`) |
| AssemblyUtils.AllSerializeMeaning | Utils/AssemblyUtils.cs:95-96 | `TrueForAll` holds iff every leaf is serializable, and a false verdict names a leaf that is not |
| AssemblyUtils.CollectionSerializableIffLeaves | Utils/AssemblyUtils.cs:91-96 | an array or list type is serializable iff every leaf of its unbounded expansion is a different, serializable type |
| AssemblyUtils.SelfLeafDiverges | Utils/AssemblyUtils.cs:95-96 | a non-generic `IList` that is not an array is its own only leaf, so `CanUnitySerialize` calls itself on the same type and never returns |
| AssemblyUtils.ComponentTypeCases | Utils/AssemblyUtils.cs:99-103 | a non-collection is a component type iff it is `GameObject` or a `Component`; a generic collection with a non-collection component argument is one too |
| SerializationRegistry.ScanComponent | Core/Serialization/SerializationRegistry.cs:64-114 | every target names the scanned type and an admitted field of it, every admitted field has a target, no more targets than fields; nothing is appended iff no field is an instance field of a traversable, serializable type that is public or `[SerializeField]` |
| SerializationRegistry.IsTraversable | Core/Serialization/SerializationRegistry.cs:116-126 | only classes and structs that are not Unity-internal are traversed: never primitives, strings, enums or interfaces |
| SerializationRegistry.ScanConcat | Core/Serialization/SerializationRegistry.cs:71-111 | the loop runs field by field: two runs of fields scan to the first run's targets followed by the second's, and one field yields its target exactly when admitted, so the targets are the admitted fields, each once, in declaration order |
| SerializationRegistry.Register | Core/Serialization/SerializationRegistry.cs:19-21 | a type already in the cache answers its cached verdict and changes nothing |
| SerializationRegistry.WalkStep | Core/Serialization/SerializationRegistry.cs:34-58 | one iteration scans and caches the current type, then moves two `BaseType` steps up |
| SerializationRegistry.Walk | Core/Serialization/SerializationRegistry.cs:34-60 | a null or game type ends the walk with the verdict so far and no change; otherwise the start type is cached, the cache and the target list only grow, and a verdict already true stays true |
| SerializationRegistry.WalkThrowsIff | Core/Serialization/SerializationRegistry.cs:48-57 | the walk throws exactly when a scanned type has a null base type, so that the second step dereferences null |
| SerializationRegistry.WalkVerdict | Core/Serialization/SerializationRegistry.cs:34-60 | the answer is the OR of the scans of the visited types, and the walk throws exactly when it meets a null base type |
| SerializationRegistry.WalkCachesOwnScan | Core/Serialization/SerializationRegistry.cs:40-46 | each visited type's cached verdict is its own scan, not the OR over its chain |
| SerializationRegistry.WalkKeepsOthers | Core/Serialization/SerializationRegistry.cs:45-46 | the walk leaves cached verdicts of unvisited types alone and adds only visited types |
| SerializationRegistry.WalkTargets | Core/Serialization/SerializationRegistry.cs:99-103 | the walk only appends targets, each for a visited type and an admitted field |
| SerializationRegistry.RegisterCaches | Core/Serialization/SerializationRegistry.cs:19-61 | `Register` never forgets a cached type, caches the type asked about unless it is a game type, and only appends targets |
| SerializationRegistry.VisitsBelow | Core/Serialization/SerializationRegistry.cs:48-57 | every type the walk visits above the root is a proper ancestor, so the root is never visited twice |
| SerializationRegistry.VisitsAlternate | Core/Serialization/SerializationRegistry.cs:34-58 | the walk visits the ancestors at even distance, in order: the root, its grandparent, and so on; it stops only at the end of the chain or at the first of them that is a game type |
| SerializationRegistry.SkippedParentLosesTargets | Core/Serialization/SerializationRegistry.cs:48-57 | for `Leaf : Mid : Top : object` with only `Mid` declaring a bridgeable field, `Register(Leaf)` answers false, registers no target and never caches `Mid` |
| SerializationRegistry.SecondRegisterDisagrees | Core/Serialization/SerializationRegistry.cs:19-46 | for the same chain with only `Top` bridgeable, the first `Register(Leaf)` answers true but caches false for `Leaf`, so the second call answers false |
| SerializationRegistry.WalkFixed | Core/Serialization/SerializationRegistry.cs:34-58 | the corrected walk only appends targets and cache keys, and caches for every non-game type it starts from the verdict it answers |
| SerializationRegistry.RegisterFixed | Core/Serialization/SerializationRegistry.cs:19-61 | the corrected `Register` answers a cached type from the cache and otherwise caches the answer it gives |
| SerializationRegistry.WalkFixedSound | Core/Serialization/SerializationRegistry.cs:34-58 | on a registry whose cached verdicts all mean "some ancestor up to the first game type is worth bridging", the corrected walk answers exactly that and keeps the registry so |
| SerializationRegistry.RegisterFixedIdempotent | Core/Serialization/SerializationRegistry.cs:19-61 | the corrected `Register` answers whether any ancestor is worth bridging, and a second call answers the same and changes nothing |
| ContractResolver.CreateProperty | Core/JSON/UnityContractResolver.cs:18-47 | a member is dropped exactly when it is `[NonSerialized]`, or is a property or backing field declared outside a Unity assembly; a kept member is the base property, marked as a reference iff the base did or it is `[SerializeReference]`, and given the Unity converter iff it had one or the converter handles its type |
| ContractResolver.Filter | Core/JSON/UnityContractResolver.cs:128-139 | reference definition of the filter: never longer than its input |
| ContractResolver.FilterMembers | Core/JSON/UnityContractResolver.cs:128-139 | the filter keeps exactly the properties that are not a component-typed member of a component type |
| ContractResolver.RemoveComponentPairs | Core/JSON/UnityContractResolver.cs:128-139 | the backwards `RemoveAt` loop computes the reference filter |
| ContractResolver.RemoveStep | Core/JSON/UnityContractResolver.cs:131-135 | one removal step leaves the unvisited prefix followed by the filtered suffix |
| ContractResolver.GetPropertiesFromCache | Core/JSON/UnityContractResolver.cs:117-144 | the cache is used exactly when it exists and holds the type, answering its list and changing nothing; a miss on a null cache throws `NullReferenceException`; any other miss answers the filtered base properties and caches them |
| ContractResolver.Candidate | Core/JSON/UnityContractResolver.cs:71-98 | a declared field yields a property only if it is a non-static, non-public `[SerializeField]` or `[SerializeReference]` field that is not a component pair and that `CreateProperty` keeps, and then it is that property made readable and writable |
| ContractResolver.AddFieldsMeaning | Core/JSON/UnityContractResolver.cs:69-105 | the inner loop only appends; every addition comes from an admitted field and is readable and writable; no addition repeats an earlier key; every admitted field's key ends up present |
| ContractResolver.WalkTypesMeaning | Core/JSON/UnityContractResolver.cs:63-107 | the same four facts for the walk from the type up to, but not including, `System.Object` |
| ContractResolver.CreateProperties | Core/JSON/UnityContractResolver.cs:49-112 | a cached type answers its cached list; a null cache throws; on success the cache entry for the type is exactly the list returned |
| ContractResolver.CreatePropertiesMeaning | Core/JSON/UnityContractResolver.cs:49-112 | on a miss the result starts with the filtered base properties and then holds exactly deduplicated admitted fields of the type and its ancestors, with every admitted field's key present |
| ContractResolver.CreatePropertiesCached | Core/JSON/UnityContractResolver.cs:117-123 | a second call for the same type answers the same list and leaves the cache as it is |
| ComponentMapper.RegisterParentChild | Patches/Serialization/ComponentMapper.cs:97-105 | the child's back link is always overwritten with the parent, even a null one; the parent's forward link is written only when the parent is alive |
| ComponentMapper.RegisterKeepsConsistent | Patches/Serialization/ComponentMapper.cs:97-105 | registering a link whose child has no other live parent and whose live parent has no other live child keeps the two dictionaries in agreement |
| ComponentMapper.SecondCloneBreaksConsistent | Patches/Serialization/ComponentMapper.cs:97-105 | registering one source with a first and then a second clone leaves the first clone naming the source while the source names only the second, so the dictionaries disagree |
| ComponentMapper.RemoveComponentFromMap | Patches/Serialization/ComponentMapper.cs:65-95 | a null or destroyed component changes nothing; a live one ends up in neither dictionary |
| ComponentMapper.RemoveStitches | Patches/Serialization/ComponentMapper.cs:74-79 | removing the middle of a live chain `parent <-> comp <-> child` links parent and child directly and leaves every other entry alone |
| ComponentMapper.RemoveCutsEnd | Patches/Serialization/ComponentMapper.cs:80-90 | removing a chain end drops the live neighbour's link to the component and leaves every other entry alone |
| ComponentMapper.GetParent | Patches/Serialization/ComponentMapper.cs:107-122 | answers a parent only for a live mapped component whose mapped parent is alive, and then changes nothing; a destroyed parent answers null and unlinks the component; anything else answers null and changes nothing |
| ComponentMapper.RegisterThenGetParent | Patches/Serialization/ComponentMapper.cs:97-122 | after registering a link between two live components, `GetParent` of the child answers the parent |
| ComponentMapper.FirstParent | Patches/Serialization/ComponentMapper.cs:124-136 | the walk answers the start itself when it is null or destroyed, and otherwise a live component that has no live parent |
| ComponentMapper.GetParentKeepsRanked | Patches/Serialization/ComponentMapper.cs:113-118 | lazy cleanup never adds a link, so a strictly ranked parent relation stays ranked |
| ComponentMapper.FirstParentTerminates | Patches/Serialization/ComponentMapper.cs:129-133 | when every live parent link goes down a rank, the loop finishes within one step more than the starting rank |
| ComponentMapper.CycleNeverEnds | Patches/Serialization/ComponentMapper.cs:129-133 | two live components that are each other's parent make the loop run forever |
| ComponentMapper.RemoveAll | Patches/Serialization/GameObjectMapper.Resources.cs:107-111 | removing only destroyed components changes nothing |
| ComponentMapper.RemoveKeepsConsistent | Patches/Serialization/ComponentMapper.cs:65-95 | on dictionaries that agree with each other, removal keeps them agreeing and adds no key |
| ComponentMapper.RemoveAllUnlinks | Patches/Serialization/ComponentMapper.cs:65-95 | on agreeing dictionaries, removing live components one after another unlinks every one of them; no later stitch writes a removed component back |
| ComponentMapper.CollectDead | Patches/Serialization/ComponentMapper.cs:31-37 | the scan collects exactly the destroyed keys for removal and exactly the live keys with a null or destroyed value for nullification |
| ComponentMapper.Apply | Patches/Serialization/ComponentMapper.cs:40-43 | the loops remove exactly the collected keys and null exactly the collected values, leaving the rest alone |
| ComponentMapper.PruneMap | Patches/Serialization/ComponentMapper.cs:31-43 | pruning a dictionary keeps exactly its live keys, nulling every null or destroyed value |
| ComponentMapper.Prune | Patches/Serialization/ComponentMapper.cs:25-63 | `Prune` prunes both dictionaries in that way |
| ComponentMapper.PrunedLinks | Patches/Serialization/ComponentMapper.cs:25-63 | after pruning, each dictionary's keys are its live keys |
| ComponentMapper.PruneKeepsConsistent | Patches/Serialization/ComponentMapper.cs:25-63 | pruning keeps agreeing dictionaries agreeing |
| ComponentMapper.PrunedKeepsLiveLinks | Patches/Serialization/ComponentMapper.cs:31-43 | pruning never touches a live-to-live entry, and a second prune changes nothing |
| GameObjectMaps.RemoveNodeAndStitch | Patches/Serialization/GameObjectMapper.Resources.cs:63-112 | a null or destroyed node changes nothing; a live node leaves both maps and every one of its components is unlinked from the component maps |
| GameObjectMaps.StitchRewires | Patches/Serialization/GameObjectMapper.Resources.cs:74-104 | the live parent's forward link skips to the node's child; the live child's back link skips to the node's live parent, or is dropped when there is none; every other entry stays, and no container key is added |
| GameObjectMaps.StitchKeepsConsistent | Patches/Serialization/GameObjectMapper.Resources.cs:63-104 | when every live forward link is answered by the clone's back link, removing a node keeps that so and adds no key to either map |
| GameObjectMaps.GetChild | Patches/Serialization/GameObjectMapper.Resources.cs:132 | the forward link of a live tracked GameObject; null for anything else |
| GameObjectMaps.IsTracked | Patches/Serialization/GameObjectMapper.Resources.cs:143-146 | a GameObject is tracked iff it is a key of `ContainerMap` or of `ParentMap`, whether or not it is alive |
| GameObjectMaps.GetLastChild | Patches/Serialization/GameObjectMapper.Resources.cs:115-130 | the walk answers the start when it is not alive, and otherwise a live GameObject with no live forward link |
| GameObjectMaps.LastChildOfChain | Patches/Serialization/GameObjectMapper.Resources.cs:115-130 | on a chain of distinct live GameObjects whose end has no live forward link, the walk from the head answers the end within as many steps as the chain has links |
| GameObjectMaps.LastChildCycle | Patches/Serialization/GameObjectMapper.Resources.cs:122-127 | two live GameObjects that are each other's forward link make the walk run forever |
| GameObjectMaps.RegisterParent | Patches/Serialization/GameObjectMapper.Resources.cs:134-141 | a null or destroyed endpoint changes nothing; otherwise only the child's back link is set, overwriting any earlier one |
| GameObjectMaps.RemoveDeadKeys | Patches/Serialization/GameObjectMapper.Resources.cs:25-33 | exactly the destroyed keys go and every live key keeps its value |
| GameObjectMaps.Prune | Patches/Serialization/GameObjectMapper.Resources.cs:20-48 | a GameObject is tracked afterwards exactly when it was tracked and is alive, and every kept entry keeps its value |
| GameObjectMapperDestroy.RemoveTracked | Patches/Serialization/GameObjectMapper.DeletePatch.cs:20-30 | the loop adds no container key, and when the hierarchy is alive none of it keeps a forward link entry |
| GameObjectMapperDestroy.RemoveCache | Patches/Serialization/GameObjectMapper.DeletePatch.cs:12-43 | destroying anything but a GameObject or Component changes nothing; a Component is unlinked and the component maps pruned; after a GameObject the component maps hold only live keys |
| GameObjectMapperDestroy.RemoveTrackedUntracks | Patches/Serialization/GameObjectMapper.DeletePatch.cs:20-30 | on consistent chains, destroying a live hierarchy leaves none of its GameObjects tracked, keeps the chains consistent and adds no key |
| GameObjectMapper.EvaluateTypeRegistering | Patches/Serialization/GameObjectMapper.cs:165-174 | a game-assembly type answers false and leaves the registry alone; any other type answers the registry's verdict and is cached afterwards |
| GameObjectMapper.Evaluate | Patches/Serialization/GameObjectMapper.cs:61-70 | every component is evaluated, even after a worthy one; on success every non-game component type is cached, and the answer is true only if some component is of a non-game type |
| GameObjectMapper.PrefixNode | Patches/Serialization/GameObjectMapper.cs:47-84 | the GameObject's ComponentMap is refreshed and the registry only grows, whatever happens; a GameObject already in `ContainerMap` changes nothing else; a new one is entered as `(null, worth)` and given a handler exactly when worth bridging; an exception during its evaluation leaves it out of `ContainerMap` and without a new handler, yet keeps the refreshed ComponentMap and the types registered before it |
| GameObjectMapper.PrefixNodes | Patches/Serialization/GameObjectMapper.cs:45-85 | the prefix's loop, whether or not it throws, never touches the component links or the back links, and only adds to the registry cache |
| GameObjectMapper.PrefixFails | Patches/Serialization/GameObjectMapper.cs:45-85 | a loop that throws ran without an exception over the GameObjects before some position, and the GameObject at that position threw, leaving the state the loop ends with |
| GameObjectMapper.PrefixMaps | Patches/Serialization/GameObjectMapper.cs:50-52 | every GameObject of the hierarchy has its ComponentMap list refreshed and every other list stays |
| GameObjectMapper.PrefixEntries | Patches/Serialization/GameObjectMapper.cs:55-74 | every GameObject of the hierarchy is tracked afterwards, no other key is added, existing entries are untouched, and each new entry has a null forward link |
| GameObjectMapper.PrefixHandlers | Patches/Serialization/GameObjectMapper.cs:76-84 | no handler is removed, and a GameObject gains one exactly when it was newly entered as worth bridging |
| GameObjectMapper.Prefix | Patches/Serialization/GameObjectMapper.cs:34-40 | an original with no live GameObject changes nothing; otherwise the loop runs over its whole hierarchy |
| GameObjectMapper.TrackedNotReevaluated | Patches/Serialization/GameObjectMapper.cs:55-58 | a GameObject already tracked keeps its entry, is not evaluated again and gets no handler, though its ComponentMap is still refreshed |
| GameObjectMapper.PairComponents | Patches/Serialization/GameObjectMapper.cs:138-150 | pairing never changes the back link of a component that is not a clone component |
| GameObjectMapper.PairComponentsLinks | Patches/Serialization/GameObjectMapper.cs:138-150 | up to the shorter list, each distinct clone component is linked back to the source component at its index, and each distinct live source component forward to the clone component at its index |
| GameObjectMapper.PairKeepsParents | Patches/Serialization/GameObjectMapper.cs:138-150 | pairing never changes the forward link of a component that is not a source component |
| GameObjectMapper.PostfixNodes | Patches/Serialization/GameObjectMapper.cs:115-159 | the mapping loop adds no handler, leaves the registry alone and keeps the set of ComponentMaps |
| GameObjectMapper.PostfixTracks | Patches/Serialization/GameObjectMapper.cs:121-124 | every clone GameObject is tracked afterwards and no entry of `ContainerMap` is dropped |
| GameObjectMapper.PostfixCallbacks | Patches/Serialization/GameObjectMapper.cs:134-157 | the callback list is only appended to, and only with clone GameObjects that carry a handler; every clone that carries a handler and whose source and own ComponentMaps are both present is in it |
| GameObjectMapper.PostfixFrame | Patches/Serialization/GameObjectMapper.cs:115-159 | the loop leaves the `ContainerMap` entry of a non-source, the back link of a non-clone and the ComponentMap list of any other GameObject alone, and an untracked clone ends as `(null, true)` |
| GameObjectMapper.PostfixLinksAll | Patches/Serialization/GameObjectMapper.cs:115-154 | for every position of two live hierarchies with no GameObject in common: a tracked source's forward link is the clone at its position and the clone's back link is the source; an untracked clone is entered as `(null, true)`; both ComponentMap lists end empty when both are present |
| GameObjectMapper.PostfixPairsAll | Patches/Serialization/GameObjectMapper.cs:134-150 | at every position with both ComponentMaps, each clone component up to the shorter list is linked back to the source component at its index, when no component belongs to two clones |
| GameObjectMapper.PostfixForwardAll | Patches/Serialization/GameObjectMapper.cs:134-150 | at every position with both ComponentMaps, each live source component up to the shorter list is linked forward to the clone component at its index, when no component belongs to two sources or two clones |
| GameObjectMapper.Postfix | Patches/Serialization/GameObjectMapper.cs:89-163 | without two live roots, or when the two hierarchies differ in size, nothing is mapped and nothing is called back; otherwise every clone GameObject ends tracked, no handler is added, and every callback goes to a clone GameObject that carries a handler |
| GameObjectMapper.MapOneNode | Patches/Serialization/GameObjectMapper.cs:117-158 | for a tracked source and its new clone: the clone is entered as `(null, true)`, the forward and back links join the two, both ComponentMap lists are paired and emptied, and the clone's handler is called back |
| SerializationDetector.Enter | Patches/Serialization/SerializationDetector.cs:44-62 | a tracked GameObject answers its stored worth flag and changes nothing; any other is entered as `(null, worth)`, every non-game component type under it is cached, and it is worth bridging only if some component is of a non-game type; an exception in the scan keeps the types registered before it and leaves the GameObject out of `ContainerMap` |
| SerializationDetector.Prefix | Patches/Serialization/SerializationDetector.cs:34-77 | no live GameObject: nothing happens and the state is null; an exception leaves the map, links and handlers as they were and the registry grown; otherwise the GameObject is tracked, the component links stay, and the state is a handler exactly when the GameObject is worth bridging: the one it has, or a new one added |
| SerializationDetector.PairRefs | Patches/Serialization/SerializationDetector.cs:106-111 | the loop registers the same links as pairing by index, and throws `ArgumentOutOfRangeException` exactly when the clone handler lists more components than the source handler |
| SerializationDetector.MapRefs | Patches/Serialization/SerializationDetector.cs:101-115 | only the component links change; without a live state handler, or when the clone has no handler, nothing happens; otherwise the clone's components are linked back by index and the clone handler's callbacks run unless the loop threw |
| SerializationDetector.EnterClone | Patches/Serialization/SerializationDetector.cs:95-96 | the clone becomes a key, as `(null, true)` when new, and no other entry changes |
| SerializationDetector.Postfix | Patches/Serialization/SerializationDetector.cs:82-116 | without two live roots nothing happens; otherwise the clone is entered and the components mapped; no existing entry of `ContainerMap` changes, because the source's entry is copied into a local tuple before its forward link is set |
| SerializationDetector.PostfixFixed | Patches/Serialization/SerializationDetector.cs:97-98 | the corrected postfix stores the clone as the source's forward link, keeps the source's worth flag, and answers as the original |
| SerializationDetector.ForwardLinksStayNull | Patches/Serialization/SerializationDetector.cs:59-61 | as written, neither the prefix, with or without an exception, nor the postfix ever sets a forward link in `ContainerMap` |
| SerializationDetector.CloneNotReachedOnDestroy | Patches/Serialization/SerializationDetector.cs:95-98 | after cloning a tracked source, destroying the source leaves the clone's entry behind as written; after the corrected postfix both entries go |
| SerializationDetectorDestroy.ChainRemove | Patches/Serialization/SerializationDetector.DeletePatch.cs:25-34 | the walk only removes entries, starting with the destroyed GameObject, and stops at a GameObject that is no longer a key, which is the start or a live clone |
| SerializationDetectorDestroy.ChainRemoveMeaning | Patches/Serialization/SerializationDetector.DeletePatch.cs:25-34 | on a chain of distinct live GameObjects linked forward, whose end has no live forward link, the walk removes exactly the chain's entries and stops at its end |
| SerializationDetectorDestroy.RemoveCache | Patches/Serialization/SerializationDetector.DeletePatch.cs:12-49 | no live GameObject: nothing changes; otherwise the chain walk runs; a destroyed live component is unlinked alone and the links pruned; a destroyed GameObject has the components under the last GameObject the walk reached unlinked |
| SerializationDetectorDestroy.RemoveCacheFixed | Patches/Serialization/SerializationDetector.DeletePatch.cs:12-49 | the corrected patch removes the same map entries |
| SerializationDetectorDestroy.FixedUnlinksDestroyed | Patches/Serialization/SerializationDetector.DeletePatch.cs:45-48 | with agreeing component links, the corrected patch leaves no component of a destroyed live GameObject linked, and the links keep agreeing |
| SerializationDetector.CloneIntoB | Patches/Serialization/SerializationDetector.cs:33-116 | cloning a tracked prefab `A` into `B` answers `A`'s handler from the prefix, and the corrected postfix enters `B`, points `A` at it and pairs their components |
| SerializationDetector.CloneIntoC | Patches/Serialization/SerializationDetector.cs:33-116 | cloning `B`, tracked since its own entry, into `C` extends the forward links to `A -> B -> C` and the component links to `a -> b -> c` |
| SerializationDetector.ChainWalk | Patches/Serialization/SerializationDetector.DeletePatch.cs:25-35 | on that map the destroy walk from `A` removes all three entries and stops at `C` |
| SerializationDetector.DestroyUnlinksWrongComponents | Patches/Serialization/SerializationDetector.DeletePatch.cs:25-48 | on the map the corrected postfix builds, destroying `A` as written unlinks `C`'s component, leaving the destroyed `a` linked to `b`; the corrected patch unlinks `a` and keeps `b -> c` |
| ComponentInterrupter.RegisterBlockedCall | Patches/Serialization/SerializationObserver.ComponentInterrupter.cs:23-29 | the type's count goes up by one, from 0 for a new type; no other type's count or presence changes; counts stay positive |
| ComponentInterrupter.RemoveBlockedCall | Patches/Serialization/SerializationObserver.ComponentInterrupter.cs:30-39 | an absent type changes nothing; otherwise the count goes down by one and the key goes exactly when no block is left; no other type changes; counts stay positive |
| ComponentInterrupter.BlockedIffOutstanding | Patches/Serialization/SerializationObserver.ComponentInterrupter.cs:50-55 | with positive counts, a patched method returns early for a receiver type exactly when that type has an outstanding block |
| ComponentInterrupter.RegisterAll | Patches/Serialization/SerializationObserver.ComponentInterrupter.cs:23-29 | registering a sequence keeps counts positive |
| ComponentInterrupter.RemoveAll | Patches/Serialization/SerializationObserver.ComponentInterrupter.cs:30-39 | removing a sequence keeps counts positive |
| ComponentInterrupter.RegisterAllCounts | Patches/Serialization/SerializationObserver.ComponentInterrupter.cs:23-29 | registering a sequence adds each type's number of occurrences to its count |
| ComponentInterrupter.RemoveAllCounts | Patches/Serialization/SerializationObserver.ComponentInterrupter.cs:30-39 | with positive counts, removing no more than the outstanding blocks takes each type's occurrences off its count |
| ComponentInterrupter.SameCountsSameTable | Patches/Serialization/SerializationObserver.ComponentInterrupter.cs:19 | two tables with positive counts that agree on every count are the same table |
| ComponentInterrupter.RegisterThenRemoveRestores | Patches/Serialization/SerializationObserver.ComponentInterrupter.cs:23-39 | registering a list of types and then removing the same types, in any order, gives back the table as it was |
| ComponentInterrupter.EnsurePatched | Patches/Serialization/SerializationObserver.ComponentInterrupter.cs:67-73 | a non-null method is patched afterwards; a null or already patched one changes nothing; a new one is hooked exactly once, so every method stays hooked at most once |
| ComponentInterrupter.LookupAgrees | Patches/Serialization/SerializationObserver.ComponentInterrupter.cs:78 | a lookup in a delegate cache whose entries are each type's own delegate or null finds that entry and keeps the cache so |
| ComponentInterrupter.InsertAgrees | Patches/Serialization/SerializationObserver.ComponentInterrupter.cs:98 | inserting a type's own delegate, or null when it has no method, keeps the cache agreeing |
| ComponentInterrupter.Block | Patches/Serialization/SerializationObserver.ComponentInterrupter.cs:83-87 | with an active context the type's count goes up and the context logs the type; without one nothing changes |
| ComponentInterrupter.BlockTracks | Patches/Serialization/SerializationObserver.ComponentInterrupter.cs:83-87 | one registration keeps the blocked-call table equal to the starting table plus one count per logged type |
| ComponentInterrupter.GetDelegate | Patches/Serialization/SerializationObserver.ComponentInterrupter.cs:75-142 | without an active context no block is registered; no patch is undone and every method is hooked once; counts stay positive; an agreeing cache stays agreeing; a type with its own method answers its own delegate, and that method ends up patched unless the answer came from the cache; a type without a method that missed the cache answers null |
| ComponentInterrupter.Recursive | Patches/Serialization/SerializationObserver.ComponentInterrupter.cs:134-141 | a type with no base type, or with a game-assembly base type, answers null and changes nothing; otherwise the same guarantees as for the base type's lookup |
| ComponentInterrupter.GetDelegateTracks | Patches/Serialization/SerializationObserver.ComponentInterrupter.cs:75-142 | through the whole walk up the base types, the blocks registered are exactly the types logged in the context |
| ComponentInterrupter.RecursiveTracks | Patches/Serialization/SerializationObserver.ComponentInterrupter.cs:134-141 | the step to the base type keeps the table in step with the context's log |
| ComponentInterrupter.NullHitAnswersBase | Patches/Serialization/SerializationObserver.ComponentInterrupter.cs:78-81 | a cache hit on the null cached for a type without the method answers the base type's delegate instead |
| SerializationObserver.SanitizeEvents | Patches/Serialization/SerializationObserver.cs:77-90 | a worth component has `Awake` sanitized exactly when it is a MonoBehaviour, its type blocked exactly when it is a callback receiver, and `OnBeforeSerialize` invoked exactly when it is a callback receiver whose sanitizer answers a delegate |
| SerializationObserver.Records | Patches/Serialization/SerializationObserver.cs:75 | one record per component, in order, each with the registry's verdict |
| SerializationObserver.ScanComps | Patches/Serialization/SerializationObserver.cs:67-91 | the state becomes true exactly when it was or some component is worth bridging; the metadata gains the components' records; only metadata and events change, and events are only appended |
| SerializationObserver.Carried | Patches/Serialization/SerializationObserver.cs:95 | `TryGetComponent<SerializationHandler>` finds a handler among the components exactly when one of them has the handler type, and what it finds is such a component |
| SerializationObserver.HandlerFor | Patches/Serialization/SerializationObserver.cs:95-97 | a GameObject ends up with the handler it carries when it carries one, else with the one `AddComponent` creates |
| SerializationObserver.EnsureHandler | Patches/Serialization/SerializationObserver.cs:95-104 | the GameObject's handler entry becomes the handler it carries, else a new one, and that handler's capture is the last event; other entries stay; a carried handler adds no record, a new one is recorded as one more unworthy component and counted for this GameObject |
| SerializationObserver.PrefixGo | Patches/Serialization/SerializationObserver.cs:57-106 | the count recorded is the GameObject's component count plus one exactly when a new handler was needed; its records follow; once the state is true the handler it carries or was given captures last |
| SerializationObserver.PrefixGos | Patches/Serialization/SerializationObserver.cs:57-106 | one count per GameObject, the relations untouched, and a true state stays true |
| SerializationObserver.PrefixGrows | Patches/Serialization/SerializationObserver.cs:57-106 | the prefix only appends to the counts, the metadata and the events, and a handler entry, once there, stays, holding the earlier handler or the one its GameObject ends up with |
| SerializationObserver.Prefix | Patches/Serialization/SerializationObserver.cs:44-56 | without a live GameObject the state is false and nothing changes; otherwise the caches and blocks are cleared and the hierarchy walked |
| SerializationObserver.PrefixState | Patches/Serialization/SerializationObserver.cs:72 | the prefix's state is true exactly when some traversed component was worth bridging |
| SerializationObserver.PrefixCounts | Patches/Serialization/SerializationObserver.cs:65-101 | the recorded metadata is exactly as long as the recorded counts add up to, added handlers included |
| SerializationObserver.PrefixSegments | Patches/Serialization/SerializationObserver.cs:65-101 | the GameObject traversed at each position has its components' records in the metadata where the counts before it add up to |
| SerializationObserver.PrefixHandlers | Patches/Serialization/SerializationObserver.cs:93-105 | from the first worth component on, the GameObject being traversed and every later one have as handler the one they carry or were given, and its capture ran |
| SerializationObserver.Relate | Patches/Serialization/SerializationObserver.cs:151 | the source component now maps to the clone, a later call for the same source overwrites, and no other relation changes |
| SerializationObserver.PairComps | Patches/Serialization/SerializationObserver.cs:144-154 | the inner loop consumes one record per component, throws `ArgumentOutOfRangeException` exactly when the records run out, and changes only relations of components it consumed |
| SerializationObserver.PairCompsRelates | Patches/Serialization/SerializationObserver.cs:144-154 | with distinct records, each clone component that is not a handler is related as the clone of the record at the same offset |
| SerializationObserver.CloneComps | Patches/Serialization/SerializationObserver.cs:133-138 | a clone GameObject lists the handler it ends up with: the one copied from its source when it carries one, with nothing added; otherwise a new handler after its components |
| SerializationObserver.PostfixGos | Patches/Serialization/SerializationObserver.cs:130-155 | the walk changes only handlers and relations, lists one handler per visited GameObject, and throws only `ArgumentOutOfRangeException` or `InvalidOperationException`; a completed walk found each clone GameObject's count, a carried handler counted once and a new one added, equal to the recorded one |
| SerializationObserver.PostfixKeepsHandlers | Patches/Serialization/SerializationObserver.cs:133-135 | the walk drops no handler entry, and the only entries it sets are those of visited GameObjects, each to the handler that GameObject carries or was given |
| SerializationObserver.PostfixKeepsOutside | Patches/Serialization/SerializationObserver.cs:144-154 | the walk touches only relations of components recorded in the stretch of metadata it consumed |
| SerializationObserver.PostfixPairs | Patches/Serialization/SerializationObserver.cs:130-155 | when the walk succeeds on distinct records, the k-th clone component in traversal order that is not a handler is related as the clone of the k-th record |
| SerializationObserver.PostfixSucceeds | Patches/Serialization/SerializationObserver.cs:141-147 | the walk succeeds exactly when every clone GameObject, its handler ensured, has the count recorded at its position and the records last |
| SerializationObserver.PostfixHead | Patches/Serialization/SerializationObserver.cs:133-135 | whatever happens later, the first clone GameObject's handler, the carried one or a new one, is listed first and is its handler entry |
| SerializationObserver.PostfixCache | Patches/Serialization/SerializationObserver.cs:133-135 | `_handlerCache` lists, position by position, the handler each visited clone GameObject carries or was given |
| SerializationObserver.Lifecycle | Patches/Serialization/SerializationObserver.cs:167-177 | an unworthy record runs nothing; a worth one invokes `OnAfterDeserialize` exactly for a callback receiver with the delegate and `Awake` exactly for a MonoBehaviour with the delegate, the first before the second, only on that component |
| SerializationObserver.Finalize | Patches/Serialization/SerializationObserver.cs:166-177 | the lifecycle loop neither restores a handler nor clears the blocks |
| SerializationObserver.FinalizeAppend | Patches/Serialization/SerializationObserver.cs:166-177 | the lifecycle loop runs record by record |
| SerializationObserver.FinalizeInvokes | Patches/Serialization/SerializationObserver.cs:166-177 | a component is invoked exactly when some worth record holds it and its type has that callback's delegate |
| SerializationObserver.AfterAll | Patches/Serialization/SerializationObserver.cs:161-162 | one `PatchedAfterDeserializePoint` per listed handler, in list order |
| SerializationObserver.Postfix | Patches/Serialization/SerializationObserver.cs:112-184 | a false state or null result only clears the blocks; no live root changes nothing; an exception leaves the records and events as they were; success relates the original root to the clone root and ends with the records and relations cleared |
| SerializationObserver.PostfixKeepsKnownHandlers | Patches/Serialization/SerializationObserver.cs:112-184 | whatever its outcome, a postfix drops no handler entry and sets only those of clone GameObjects, each to the handler it carries or was given |
| SerializationObserver.PostfixOk | Patches/Serialization/SerializationObserver.cs:112-184 | a successful postfix is the complete walk, then every handler's restore, the clearing of the blocks and the lifecycle loop, with the roots related last |
| SerializationObserver.TailReplays | Patches/Serialization/SerializationObserver.cs:161-177 | every GameObject's handler, the carried or the new one, restores before the blocks are cleared; the callbacks run only after that, and exactly for worth records whose type has the delegate |
| SerializationObserver.PostfixReplay | Patches/Serialization/SerializationObserver.cs:157-177 | a successful postfix appends that replay to the event trace |
| SerializationObserver.PostfixRelates | Patches/Serialization/SerializationObserver.cs:144-157 | with distinct records, the relations handed to the handlers relate each non-handler clone component to the record at its position, the roots to each other, and nothing else |
| SerializationObserver.PostfixSucceedsIff | Patches/Serialization/SerializationObserver.cs:130-155 | a postfix that reaches the walk returns relations exactly when every clone GameObject's components, with a new handler only when it carries none, number as recorded and the records last |
| SerializationObserver.HandlerAddedBeforeCheck | Patches/Serialization/SerializationObserver.cs:133-142 | a clone whose first GameObject does not match the records fails, yet that GameObject's handler entry already names the handler it carries or was given |
| SerializationObserver.ExamplePrefix | Patches/Serialization/SerializationObserver.cs:44-106 | on a source GameObject with a Transform and a worth MonoBehaviour and no handler, the prefix answers true and records a count of three: the two components, then the new handler |
| SerializationObserver.ExamplePostfix | Patches/Serialization/SerializationObserver.cs:112-157 | a clone copied with both components and the handler matches that count; the walk skips the carried handler and relates each other component to its source and the clone root to the original root |
| SerializationObserver.OrdinaryCloneSucceeds | Patches/Serialization/SerializationObserver.cs:44-157 | an ordinary instantiation, prefix then postfix, succeeds and returns exactly those relations |
| UnityObjects.RootOf | Patches/Serialization/GameObjectMapper.cs:36-40 | the GameObject an `Instantiate` or `Destroy` argument stands for exists exactly for a live GameObject or a component on a live GameObject, and is then that GameObject |
| Json.ParseInt | Core/JSON/UniversalUnityValueReferenceConverter.cs:112 | a text converts to `int` only when it is an optional sign then digits whose value fits the range; an empty or non-numeric text is a format error, a value outside the range an overflow |
| Json.ToInt | Core/JSON/UniversalUnityValueReferenceConverter.cs:112 | an integer token converts to itself when it fits `int` and overflows otherwise; a string token converts by `ParseInt`; any other token is a cast error |
| Json.ToObjectInt | Core/JSON/UniversalUnityValueConverter.cs:40 | `ToObject<int>()` agrees with `Value<int>()` on numbers and strings, and is an argument error exactly for a null, object or array token |
| Json.ShowNatDigits | Core/JSON/UniversalUnityValueReferenceConverter.cs:112 | the decimal text of a natural number is a non-empty run of digits whose value is that number |
| Json.ParseShow | Core/JSON/UniversalUnityValueReferenceConverter.cs:112 | every `int` converts back from its decimal text, and from its integer token |
| UnityConverters.WriteJson | Core/JSON/UniversalUnityReferenceConverter.cs:15-28 | null writes JSON null; a Unity object, destroyed or not, writes the envelope with its instance id; anything else writes an empty object |
| UnityConverters.CanConvert | Core/JSON/UniversalUnityReferenceConverter.cs:13 | both Unity converters take exactly the types assignable to `UnityEngine.Object` |
| UnityConverters.ReadEnvelope | Core/JSON/UniversalUnityReferenceConverter.cs:30-40 | a null token reads as null; a non-object token throws; an empty or missing tag or a missing `$hash` reads as null; otherwise the `$hash` token is read by `ToObject<int>()`: a number in range or its decimal text gives the id, a null, object or array `$hash` is an argument error, and any other failure is that conversion's exception; the tag and the id are those of the token |
| UnityConverters.ValueReadJson | Core/JSON/UniversalUnityValueConverter.cs:30-47 | the value converter answers null or a fresh copy of some live object |
| UnityConverters.ReferenceReadJson | Core/JSON/UniversalUnityReferenceConverter.cs:42-46 | the reference converter answers null or a live object |
| UnityConverters.ReferenceRoundTrip | Core/JSON/UniversalUnityReferenceConverter.cs:15-47 | writing then reading gives a live Unity object back as itself, and null for a destroyed object or anything else; an id outside `int` throws an overflow |
| UnityConverters.ValueRoundTrip | Core/JSON/UniversalUnityValueConverter.cs:15-47 | writing then reading gives a copy of a live Unity object, and null for a destroyed object or anything else; an id outside `int` throws an overflow |
| UnityConverters.StringHashReads | Core/JSON/UniversalUnityReferenceConverter.cs:40 | an envelope whose `$hash` is the decimal text of the id reads exactly as the envelope with the number, through both converters |
| UnityConverters.ForeignTagDiffers | Core/JSON/UniversalUnityReferenceConverter.cs:42-46 | an envelope whose tag is not "unity" reads as null through the reference converter yet resolves through the value converter |
| ValueReferenceConverter.UpdateComponentRegister | Core/JSON/UniversalUnityValueReferenceConverter.cs:20-21 | the register is null exactly when the pair map is empty, and is the map itself otherwise |
| ValueReferenceConverter.CanConvert | Core/JSON/UniversalUnityValueReferenceConverter.cs:23-31 | strings and primitives are never taken; any other type is taken iff the Unity converters take it or it is a standard collection, so every other dictionary type is taken |
| ValueReferenceConverter.WriteJson | Core/JSON/UniversalUnityValueReferenceConverter.cs:33-95 | null and destroyed Unity objects write JSON null; a live one writes `{"$hash": id}`; a dictionary writes an array with one item per entry, a standard collection an array with one item per element; anything else writes an object tagged with its type name and carrying a `$default` payload |
| ValueReferenceConverter.WriteJsonElements | Core/JSON/UniversalUnityValueReferenceConverter.cs:55-79 | each item of an encoded collection is the encoding of the element, or of the key and value, at the same position |
| ValueReferenceConverter.ResolveHash | Core/JSON/UniversalUnityValueReferenceConverter.cs:110-128 | an id token that does not convert to `int` throws that conversion's exception (a cast error for a non-number, a format error for non-numeric text, an overflow outside the range); a destroyed or unknown id reads as null; a live component reads as its clone through the pairs, or as itself when unpaired, and throws when the register is null; any other live object reads as a copy |
| ValueReferenceConverter.TagType | Core/JSON/UniversalUnityValueReferenceConverter.cs:169-172 | an object or array tag throws a cast error; a null tag throws `ArgumentNullException` from the type lookup; any other tag gives the type it names, or the declared type when the name does not resolve |
| ValueReferenceConverter.ProcessToken | Core/JSON/UniversalUnityValueReferenceConverter.cs:105-185 | null decodes to null; an object with `$hash` is a Unity reference; any other object goes to the serializer as the tagged or declared type, unless the tag throws; an array becomes a dictionary with no more entries than items, or an array or list of exactly as many elements, or throws when the generic arguments are missing; numbers and strings convert without the serializer |
| ValueReferenceConverter.DecodeEntries | Core/JSON/UniversalUnityValueReferenceConverter.cs:131-145 | an array item throws `ArgumentException` on the string key and any other non-object item `InvalidOperationException`; a completed loop saw only objects, and only appends, at most one entry per item |
| ValueReferenceConverter.DecodeItems | Core/JSON/UniversalUnityValueReferenceConverter.cs:152-153 | the list loop, when it succeeds, appends exactly one element per array item |
| ValueReferenceConverter.DecodeEntriesKeys | Core/JSON/UniversalUnityValueReferenceConverter.cs:138-143 | the dictionary loop only appends, and each appended entry has a non-null key; unless that key is a list or dictionary, which `Dictionary.Add` compares by reference and which is a new object, no earlier entry has it |
| ValueReferenceConverter.RepeatedItem | Core/JSON/UniversalUnityValueReferenceConverter.cs:131-145 | the same entry twice gives two entries when its key decodes to a list or dictionary, a new object each time, and a duplicate-key exception for any other non-null key |
| ValueReferenceConverter.NullKeyDropped | Core/JSON/UniversalUnityValueReferenceConverter.cs:140-142 | an entry whose key token is null is dropped rather than added |
| ValueReferenceConverter.DecodeItemsOrder | Core/JSON/UniversalUnityValueReferenceConverter.cs:152-153 | item k of the array decodes into position k of the list, and the loop succeeds when every item decodes |
| ValueReferenceConverter.RoundTrip | Core/JSON/UniversalUnityValueReferenceConverter.cs:33-185 | decoding the encoding of a value, with the pairs registered, gives the value back: for live unpaired components, collections typed as their target, dictionaries whose non-null keys repeat no earlier key unless they are lists or dictionaries, and objects the serializer reads back |
| ValueReferenceConverter.ItemsRoundTrip | Core/JSON/UniversalUnityValueReferenceConverter.cs:148-161 | the list loop over an encoded list gives its elements back |
| ValueReferenceConverter.EntriesRoundTrip | Core/JSON/UniversalUnityValueReferenceConverter.cs:131-145 | the dictionary loop over an encoded dictionary gives its entries back |
| ValueReferenceConverter.EmptyPairsThrow | Core/JSON/UniversalUnityValueReferenceConverter.cs:20-21 | after registering an empty pair map, decoding a reference to any live component throws `NullReferenceException` |
| ValueReferenceConverter.UpdateComponentRegisterFixed | Core/JSON/UniversalUnityValueReferenceConverter.cs:20-21 | the corrected register always holds the pairs given, empty or not |
| ValueReferenceConverter.FixedRegisterResolves | Core/JSON/UniversalUnityValueReferenceConverter.cs:118-122 | with the corrected register a live component reference always decodes, to its clone when paired and to itself otherwise |
| SerializationHandler.WrapIfNecessary | Core/Serialization/SerializationHandler.cs:178-188 | unwrapping gives the value back; exactly a dictionary is wrapped, and then the wrapper type is `DictionaryWrapper` over the dictionary's own generic arguments |
| SerializationHandler.EntryOf | Core/Serialization/SerializationHandler.cs:84-118 | a target contributes an entry exactly when its component is present and its value is non-null, and the entry names the field and the component type |
| SerializationHandler.Capture | Core/Serialization/SerializationHandler.cs:62-119 | capture leaves four lists of equal length, never longer than the registered targets |
| SerializationHandler.PatchedBeforeSerializePoint | Core/Serialization/SerializationHandler.cs:53-123 | the loop with its per-call component buffer computes capture over the registered targets, whatever the lists held before |
| SerializationHandler.KeptMeaning | Core/Serialization/SerializationHandler.cs:91-107 | the kept indices are exactly the recorded targets', each once, in increasing order |
| SerializationHandler.CaptureFollowsTargets | Core/Serialization/SerializationHandler.cs:82-119 | entry j of the captured lists is the entry of the j-th recorded target |
| SerializationHandler.CaptureStep | Core/Serialization/SerializationHandler.cs:82-119 | capture over one more target extends the lists by that target's entry, if any |
| SerializationHandler.GetTable | Core/Serialization/SerializationHandler.cs:23 | the type's table is present afterwards; a hit keeps the index; a miss adds an empty table; it throws `NullReferenceException` exactly when the miss cannot be added |
| SerializationHandler.GetFastField | Core/Serialization/SerializationHandler.cs:19-30 | without a cache, a direct lookup; a throw leaves the cache unchanged; otherwise the answer is memoised in the type's table under the field name |
| SerializationHandler.GetFastFieldCoherent | Core/Serialization/SerializationHandler.cs:19-30 | a cache whose entries match the lookup answers what a direct lookup would, and keeps matching |
| SerializationHandler.SecondLookupMemoised | Core/Serialization/SerializationHandler.cs:24-28 | once a name is in its type's table, a second call answers the same without consulting the lookup |
| SerializationHandler.Store | Core/Serialization/SerializationHandler.cs:27 | writing the table back changes only that type's entry, keeping history length, bound and ids |
| SerializationHandler.StoreValid | Core/Serialization/SerializationHandler.cs:27 | writing a table in place keeps the cache well formed |
| SerializationHandler.GetFastFieldValid | Core/Serialization/SerializationHandler.cs:19-30 | on a well-formed cache with room for an entry, the lookup never throws and keeps the cache well formed |
| SerializationHandler.FromJsonOverwrite | Utils/JsonUtils.cs:35 | an empty or `"null"` text is null without decoding; any other text is decoded |
| SerializationHandler.ApplyJsonToPath | Core/Serialization/SerializationHandler.cs:147-175 | a component type name that does not resolve gets the engine's answer to a null type, finding nothing or throwing; no component: nothing happens; a throw from the field lookup leaves the state unchanged; a missing field changes nothing; `"null"` sets the field to null; a decoding error is swallowed; otherwise the field gets the unwrapped decoded value |
| SerializationHandler.Restore | Core/Serialization/SerializationHandler.cs:125-144 | restore throws only `ArgumentOutOfRangeException`, `NullReferenceException` or the engine's exception for a null component type, the first (when it is not the engine's) only when the four lists differ in length |
| SerializationHandler.RestoreAppend | Core/Serialization/SerializationHandler.cs:138-143 | restoring one more entry runs it after all the earlier ones |
| SerializationHandler.RestoreCompletes | Core/Serialization/SerializationHandler.cs:138-143 | restoring aligned lists with no field cache, or a well-formed one with room, never throws, provided every component type name resolves or the engine finds nothing for a null type |
| SerializationHandler.CaptureRestoreField | Core/Serialization/SerializationHandler.cs:84-175 | when the names resolve and the decoder reads back what was written, capturing one target and restoring it onto a clone leaves the clone's field holding the source value |

## Left out

- Logging, the debug flags and their benchmark timers. These have no effect on the maps or on the values returned.
- Harmony and ILHook patching mechanics, IL emission in `ApplyPermanentBlock`, and delegate compilation in `GetDelegate`. A patch is modelled as membership in a set of patched methods, and a delegate as the method it calls.
- Expression-tree getters, setters and activators from `Utils/ReflectionUtils.cs`, and `Type.GetType`. Getters, activators and type lookup are function parameters; a setter is the value-map update described above. `ReflectionUtils.GetGenericWrapperConstructor` is not part of this model.
- Newtonsoft's serializer, `JToken` parsing and `JsonConvert`. They are parameters over a small `Json` datatype. Only `FromJsonOverwrite`'s `"null"` short-circuit is modelled.
- Unity's `Instantiate`, `GetComponents`, `GetComponentsInChildren`, `FindObjectFromInstanceID` and destroyed-object semantics. These are parameters plus a set of live ids.
- `ConditionalWeakTable` and `ConcurrentDictionary`. Both are modelled as plain maps. Weak-reference collection and thread interleavings are not modelled.
- `BridgeManager`, `CacheInitializer`, `LRUCacheInitializer`, the scene-unload cache clearing, `GetInstantiationMethods`, `MathUtils` and `PathUtils`. These are bootstrap and wiring code. The plugin directory is an optional string.
- `LRUCache.GetValue` is not part of this model. Its uses are modelled as a `TryGetValue` followed by an `Add`.
- `SerializationHandler.ApplyJsonToPath`: the engine's answer to `TryGetComponent` with a null type is a parameter (`nullType`), either finding nothing or throwing a given exception. Which one Unity gives is not modelled.
- `Json.ToInt`: leading or trailing white space, non-ASCII digits, and floating-point or boolean tokens are not modelled, because the `Json` datatype holds only integers and strings. The model rejects such texts as format errors.
- `AssemblyUtils.IsUnityAssembly`: the `Assembly-CSharp` prefix test is ordinal. The source's `StartsWith(string)` compares under the current culture, which can also ignore zero-width characters in a file name. That culture behaviour is not modelled.
- `ComponentMapper.Consistent`: the removal, pruning and destroy guarantees that assume it hold only while each source component has at most one live clone linked to it. Instantiating the same source twice breaks that agreement (`SecondCloneBreaksConsistent`), and the model then promises nothing about removal.
- `UnityObjects.RootOf`: for a destroyed component whose GameObject is still alive, `.gameObject` answers that GameObject. Unity would throw here.
- `ComponentMapper.FirstParent`: takes a `fuel` bound. `None` means the bound ran out. `FirstParentTerminates` shows enough fuel exists on a ranked (acyclic) chain. `CycleNeverEnds` shows that a two-element cycle exhausts any fuel.
- `GameObjectMaps.GetLastChild`: takes a `fuel` bound, for the same reason and with the same two lemmas (`LastChildOfChain`, `LastChildCycle`).
- `AssemblyUtils.CanUnitySerialize`: answers `None` for the self-leaf `IList` on which the code recurses forever (`SelfLeafDiverges`). It does not model a stack overflow.
- The source files come from different revisions. Their signatures are not reconciled. Each module states its own collaborators.

## Findings

| source | as written | input that shows it | evidently intended | confidence | as-written member | corrected member |
|---|---|---|---|---|---|---|
| Core/Models/LRUCache.cs:39-49 | re-adding a present key pushes a second node and leaves the old one in the history; a later eviction through that stale node removes a key that was already replaced, so nothing is freed | `maxSize` 1, then `Add(1)`, `Add(1)`, `Add(2)`, `Add(3)` leaves two keys | re-adding replaces the old node, so the key count never exceeds `maxSize` | not executed | LruCache.StaleEvictionOverflows | LruCache.AddFixedKeepsBound |
| Core/Serialization/SerializationRegistry.cs:48-57 | the ancestor walk steps to `BaseType` twice per iteration, so every other ancestor is never scanned | `Leaf : Mid : Top`, where only `Mid` declares a bridgeable field: `Register(Leaf)` answers false and registers no target | every ancestor up to the first game type is scanned | not executed | SerializationRegistry.SkippedParentLosesTargets | SerializationRegistry.WalkFixedSound |
| Core/Serialization/SerializationRegistry.cs:40-46 | each visited type caches its own scan, while the call answers the OR over the whole walk | `Leaf : Mid : Top`, where only `Top` has a target: the first `Register(Leaf)` is true and the second is false | a cached type answers what its first registration answered | not executed | SerializationRegistry.SecondRegisterDisagrees | SerializationRegistry.RegisterFixedIdempotent |
| Core/JSON/UniversalUnityValueReferenceConverter.cs:20-21 | an empty pair map is stored as null, and decoding a component reference then dereferences it | a restore with no pairs decoding `{"$hash": id}` for a live component throws `NullReferenceException` | the component decodes to itself when no clone is mapped | not executed | ValueReferenceConverter.EmptyPairsThrow | ValueReferenceConverter.FixedRegisterResolves |
| Patches/Serialization/SerializationDetector.DeletePatch.cs:25-48 | destroying a GameObject unlinks the components under the last node of the walk rather than the destroyed object's own. This is latent as written, since no forward link is ever set (next row); it shows once that is corrected | prefab `A` cloned to `B`, and `B` cloned to `C`, with forward links set: destroying `A` unlinks `c` and leaves the destroyed `a` linked to `b` | the destroyed object's components are unlinked, and `b -> c` survives | not executed | SerializationDetector.DestroyUnlinksWrongComponents | SerializationDetectorDestroy.FixedUnlinksDestroyed |
| Patches/Serialization/SerializationDetector.cs:97-98 | the forward link is written into a copy of the value tuple, so no map entry ever gets a forward link | a tracked source cloned into a new GameObject: destroying the source leaves the clone's entry behind | the source's entry points at its clone, and the destroy walk removes both | not executed | SerializationDetector.CloneNotReachedOnDestroy | SerializationDetector.PostfixFixed |

=== FILE: assembly_utils.dfy ===
/** `AssemblyUtils`: which assemblies belong to the game, which types Unity serializes on its
    own, and the flattening of nested collection types into their element types.

    `sep` is `Path.DirectorySeparatorChar` of the host.
 */
module AssemblyUtils {
  import opened Wrappers
  import opened Types
  import opened LruCache
  import opened CacheUtils

  /** `"BepInEx" + sep + "plugins"`, the folder that holds mod assemblies. */
  function PluginsFolder(sep: char): string {
    "BepInEx" + [sep] + "plugins"
  }

  /** `sub` occurs in `s` at position `i`. */
  predicate OccursAt(s: string, sub: string, i: int) {
    0 <= i && i + |sub| <= |s| && s[i..i + |sub|] == sub
  }

  /** `string.Contains`, ordinal. */
  predicate Contains(s: string, sub: string) {
    exists i | 0 <= i <= |s| - |sub| :: OccursAt(s, sub, i)
  }

  /** `string.StartsWith`, ordinal. */
  predicate StartsWith(s: string, prefix: string) {
    |prefix| <= |s| && s[..|prefix|] == prefix
  }

  /** The verdict `IsGameAssembly` computes on a cache miss (`AssemblyUtils.cs` lines 43-44). */
  predicate GameAssemblyVerdict(asm: Assembly, sep: char) {
    asm.directory.None? || !Contains(asm.directory.value, PluginsFolder(sep))
  }

  /** The verdict `IsUnityAssembly` computes on a cache miss (`AssemblyUtils.cs` lines 58-75). */
  predicate UnityAssemblyVerdict(asm: Assembly, sep: char) {
    GameAssemblyVerdict(asm, sep) && !StartsWith(asm.fileName, "Assembly-CSharp")
  }

  /** `IsGameAssembly` over the optional `TypeIsManagedCache`: a hit answers from the cache; a miss
      computes the verdict and stores it only while `_cacheIsAvailable`. */
  function IsGameAssembly(cache: Option<Cache<Assembly, bool>>, cacheIsAvailable: bool, asm: Assembly, sep: char)
    : (r: Result<(bool, Option<Cache<Assembly, bool>>)>)
    ensures cache.Some? && asm in cache.value.index ==> r.Ok? && r.value.0 == cache.value.index[asm].value
    ensures (cache.None? || asm !in cache.value.index) && r.Ok? ==> r.value.0 == GameAssemblyVerdict(asm, sep)
    ensures (cache.None? || asm !in cache.value.index) && !cacheIsAvailable ==> r == Ok((GameAssemblyVerdict(asm, sep), cache))
    ensures cache.None? ==> r == Ok((GameAssemblyVerdict(asm, sep), None))
  {
    var g := NullableTryGetValue(cache, asm, false);
    if g.found then Ok((g.value, g.cache))
    else
      var managed := GameAssemblyVerdict(asm, sep);
      if cacheIsAvailable then
        var c' :- NullableAdd(g.cache, asm, managed);
        Ok((managed, c'))
      else
        Ok((managed, g.cache))
  }

  /** `IsUnityAssembly` over the optional `TypeIsUnityManagedCache`; every miss stores its verdict. */
  function IsUnityAssembly(cache: Option<Cache<Assembly, bool>>, asm: Assembly, sep: char)
    : (r: Result<(bool, Option<Cache<Assembly, bool>>)>)
    ensures cache.Some? && asm in cache.value.index ==> r.Ok? && r.value.0 == cache.value.index[asm].value
    ensures (cache.None? || asm !in cache.value.index) && r.Ok? ==> r.value.0 == UnityAssemblyVerdict(asm, sep)
    ensures !GameAssemblyVerdict(asm, sep) && r.Ok? && (cache.None? || asm !in cache.value.index) ==> !r.value.0
    ensures cache.None? ==> r == Ok((UnityAssemblyVerdict(asm, sep), None))
  {
    var g := NullableTryGetValue(cache, asm, false);
    if g.found then Ok((g.value, g.cache))
    else
      var isInManagedFolder := GameAssemblyVerdict(asm, sep);
      if !isInManagedFolder then
        var c' :- NullableAdd(g.cache, asm, false);
        Ok((false, c'))
      else
        var isNotAssemblyCsharp := !StartsWith(asm.fileName, "Assembly-CSharp");
        var c' :- NullableAdd(g.cache, asm, isNotAssemblyCsharp);
        Ok((isNotAssemblyCsharp, c'))
  }

  /** A cache that only ever held verdicts keeps answering with the verdict, and keeps holding only verdicts. */
  lemma IsGameAssemblyCoherent(cache: Option<Cache<Assembly, bool>>, cacheIsAvailable: bool, asm: Assembly, sep: char)
    requires Agrees(cache, a => GameAssemblyVerdict(a, sep))
    ensures var r := IsGameAssembly(cache, cacheIsAvailable, asm, sep);
            r.Ok? ==> r.value.0 == GameAssemblyVerdict(asm, sep) && Agrees(r.value.1, a => GameAssemblyVerdict(a, sep))
  {
    var f := a => GameAssemblyVerdict(a, sep);
    GetAgrees(cache, f, asm, false);
    var g := NullableTryGetValue(cache, asm, false);
    AddAgrees(g.cache, f, asm);
  }

  lemma IsUnityAssemblyCoherent(cache: Option<Cache<Assembly, bool>>, asm: Assembly, sep: char)
    requires Agrees(cache, a => UnityAssemblyVerdict(a, sep))
    ensures var r := IsUnityAssembly(cache, asm, sep);
            r.Ok? ==> r.value.0 == UnityAssemblyVerdict(asm, sep) && Agrees(r.value.1, a => UnityAssemblyVerdict(a, sep))
  {
    var f := a => UnityAssemblyVerdict(a, sep);
    GetAgrees(cache, f, asm, false);
    var g := NullableTryGetValue(cache, asm, false);
    AddAgrees(g.cache, f, asm);
  }

  /** `IsFromGameAssemblies`, stated over the verdict that a coherent cache reproduces
      (`IsGameAssemblyCoherent`): the handler and plugin classes count as game types wherever they live. */
  function IsFromGameAssemblies(t: Ty, sep: char): (r: bool)
    ensures t.Is(HandlerType) || t.Is(PluginTrait) ==> r
    ensures !t.Is(HandlerType) && !t.Is(PluginTrait) ==> (r <==> GameAssemblyVerdict(t.assembly, sep))
  {
    t.Is(HandlerType) || t.Is(PluginTrait) || GameAssemblyVerdict(t.assembly, sep)
  }

  /** `IsStandardCollection`: arrays and `IList`s, and dictionaries when asked for. */
  function IsStandardCollection(t: Ty, includeDictionaries: bool): (r: bool)
    ensures t.IsArray() || t.Is(ListTrait) ==> r
    ensures !t.IsArray() && !t.Is(ListTrait) ==> (r <==> includeDictionaries && t.Is(DictionaryTrait))
  {
    t.IsArray() || t.Is(ListTrait) || (includeDictionaries && t.Is(DictionaryTrait))
  }

  /** A structural size: one more than the sizes of the generic arguments and the element type together. */
  function Size(t: Ty): nat
    decreases t, |t.args| + 1
  {
    1 + ArgsSize(t, 0) + (match t.elem case None => 0 case Some(e) => Size(e))
  }

  function ArgsSize(t: Ty, i: nat): nat
    requires i <= |t.args|
    decreases t, |t.args| - i
  {
    if i == |t.args| then 0 else Size(t.args[i]) + ArgsSize(t, i + 1)
  }

  lemma {:induction false} ArgsSizeCovers(t: Ty, j: nat, i: nat)
    requires j <= i < |t.args|
    ensures Size(t.args[i]) <= ArgsSize(t, j)
    decreases i - j
  {
    if j < i {
      ArgsSizeCovers(t, j + 1, i);
    }
  }

  lemma ArgSmaller(t: Ty, i: nat)
    requires i < |t.args|
    ensures Size(t.args[i]) < Size(t)
  {
    ArgsSizeCovers(t, 0, i);
  }

  /** A type the unbounded expansion stops at: not a collection, or a collection with neither
      generic arguments nor an element type. */
  predicate Terminal(t: Ty) {
    !IsStandardCollection(t, true) || (!t.IsGenericType() && !t.IsArray())
  }

  /** `GetTypesFromArrayInternal`: depth-first expansion of nested collection types.
      Every leaf is the type itself or strictly smaller; with no depth limit every leaf is terminal. */
  function Leaves(t: Ty, layers: int, cur: int): (r: seq<Ty>)
    ensures |r| > 0
    ensures forall i :: 0 <= i < |r| ==> r[i] == t || Size(r[i]) < Size(t)
    ensures layers <= 0 ==> forall i :: 0 <= i < |r| ==> Terminal(r[i])
    decreases t, |t.args| + 1
  {
    if layers > 0 && cur >= layers then [t]
    else if !IsStandardCollection(t, true) then [t]
    else if t.IsGenericType() then ArgLeaves(t, 0, layers, cur + 1)
    else if t.IsArray() then Leaves(t.elem.value, layers, cur + 1)
    else [t]
  }

  /** The leaves of the generic arguments `i..`, in argument order. */
  function ArgLeaves(t: Ty, i: nat, layers: int, cur: int): (r: seq<Ty>)
    requires i <= |t.args|
    ensures i < |t.args| ==> |r| > 0
    ensures forall j :: 0 <= j < |r| ==> Size(r[j]) < Size(t)
    ensures layers <= 0 ==> forall j :: 0 <= j < |r| ==> Terminal(r[j])
    decreases t, |t.args| - i
  {
    if i == |t.args| then []
    else
      ArgSmaller(t, i);
      Leaves(t.args[i], layers, cur) + ArgLeaves(t, i + 1, layers, cur)
  }

  /** `layersToCheck <= 0` means "no limit", normalised to -1. */
  function NormalizeLayers(layers: int): (r: int)
    ensures layers > 0 ==> r == layers
    ensures layers <= 0 ==> r == -1
  {
    if layers <= 0 then -1 else layers
  }

  /** `GetTypesFromArray` without its cache (`GetTypesFromArrayCoherent` shows the cache changes nothing). */
  function TypesFromArray(t: Ty, layers: int): (r: seq<Ty>)
    ensures !IsStandardCollection(t, true) ==> r == [t]
  {
    Leaves(t, NormalizeLayers(layers), 0)
  }

  /** `GetTypesFromArray` over the optional `CollectionNestedElementTypesCache`, keyed by type and normalised depth. */
  function GetTypesFromArray(cache: Option<Cache<(Ty, int), seq<Ty>>>, t: Ty, layers: int)
    : (r: Result<(seq<Ty>, Option<Cache<(Ty, int), seq<Ty>>>)>)
    ensures cache.None? ==> r == Ok((TypesFromArray(t, layers), None))
    ensures var key := (t, NormalizeLayers(layers));
            cache.Some? && key in cache.value.index ==> r.Ok? && r.value.0 == cache.value.index[key].value
  {
    var key := (t, NormalizeLayers(layers));
    var g := NullableTryGetValue(cache, key, []);
    if g.found then Ok((g.value, g.cache))
    else
      var results := Leaves(t, key.1, 0);
      var c' :- NullableAdd(g.cache, key, results);
      Ok((results, c'))
  }

  /** The expansion cache, when it only ever held expansions, answers with the uncached expansion. */
  lemma GetTypesFromArrayCoherent(cache: Option<Cache<(Ty, int), seq<Ty>>>, t: Ty, layers: int)
    requires Agrees(cache, (p: (Ty, int)) => Leaves(p.0, p.1, 0))
    ensures var r := GetTypesFromArray(cache, t, layers);
            r.Ok? ==> r.value.0 == TypesFromArray(t, layers) && Agrees(r.value.1, (p: (Ty, int)) => Leaves(p.0, p.1, 0))
  {
    var f := (p: (Ty, int)) => Leaves(p.0, p.1, 0);
    var key := (t, NormalizeLayers(layers));
    GetAgrees(cache, f, key, []);
    var g := NullableTryGetValue(cache, key, []);
    AddAgrees(g.cache, f, key);
  }

  /** With a depth limit of one, a generic collection expands to exactly its type arguments, unexpanded. */
  lemma DepthOneGeneric(t: Ty)
    requires IsStandardCollection(t, true) && t.IsGenericType()
    ensures TypesFromArray(t, 1) == t.args
  {
    DepthOneArgs(t, 0);
  }

  lemma {:induction false} DepthOneArgs(t: Ty, i: nat)
    requires i <= |t.args|
    ensures ArgLeaves(t, i, 1, 1) == t.args[i..]
    decreases |t.args| - i
  {
    if i < |t.args| {
      DepthOneArgs(t, i + 1);
    }
  }

  /** Unbounded expansion is a closure: expanding any leaf again gives just that leaf. */
  lemma ExpansionIdempotent(t: Ty, layers: int, x: Ty)
    requires layers <= 0 && x in TypesFromArray(t, layers)
    ensures TypesFromArray(x, layers) == [x]
  {
  }

  /** The leaves of each generic argument occur among the leaves of the collection. */
  lemma {:induction false} ArgLeavesIncludes(t: Ty, j: nat, i: nat, layers: int, cur: int, x: Ty)
    requires j <= i < |t.args| && x in Leaves(t.args[i], layers, cur)
    ensures x in ArgLeaves(t, j, layers, cur)
    decreases i - j
  {
    if j < i {
      ArgLeavesIncludes(t, j + 1, i, layers, cur, x);
    }
  }

  /** `CanUnitySerialize`. `None` stands for the call that never returns: a collection that is its own
      leaf (a non-generic `IList` that is not an array) makes `TrueForAll` call back on the same type. */
  function CanUnitySerialize(t: Ty, sep: char): (r: Option<bool>)
    // a type that is not an array or a list always gets a verdict, and it is serializable iff it is
    // simple, or it is not a dictionary and is a Unity object or a class or value type of the game
    ensures !IsStandardCollection(t, false) ==> r.Some?
    ensures !IsStandardCollection(t, false) ==>
              (r == Some(true) <==> t.IsSimple() || (!t.Is(DictionaryTrait) &&
                                     (t.Is(UnityObject) || ((t.IsClass() || t.IsValueType()) && IsFromGameAssemblies(t, sep)))))
    decreases Size(t), 1, 0
  {
    if t.IsSimple() then Some(true)
    else if t.Is(DictionaryTrait) then Some(false)
    else if t.Is(UnityObject) then Some(true)
    else if !IsStandardCollection(t, false) then Some((t.IsClass() || t.IsValueType()) && IsFromGameAssemblies(t, sep))
    else AllSerialize(TypesFromArray(t, -1), t, sep)
  }

  /** `elementTypes.TrueForAll(CanUnitySerialize)`: stops at the first leaf that fails; a leaf equal
      to the collection itself never returns. */
  function AllSerialize(leaves: seq<Ty>, bound: Ty, sep: char): (r: Option<bool>)
    requires forall i :: 0 <= i < |leaves| ==> leaves[i] == bound || Size(leaves[i]) < Size(bound)
    decreases Size(bound), 0, |leaves|
  {
    if leaves == [] then Some(true)
    else if leaves[0] == bound then None
    else match CanUnitySerialize(leaves[0], sep)
      case None => None
      case Some(false) => Some(false)
      case Some(true) => AllSerialize(leaves[1..], bound, sep)
  }

  /** `TrueForAll` holds iff every leaf is serializable; a `false` verdict names a leaf that is not. */
  lemma {:induction false} AllSerializeMeaning(leaves: seq<Ty>, bound: Ty, sep: char)
    requires forall i :: 0 <= i < |leaves| ==> leaves[i] == bound || Size(leaves[i]) < Size(bound)
    ensures AllSerialize(leaves, bound, sep) == Some(true) <==>
              forall i :: 0 <= i < |leaves| ==> leaves[i] != bound && CanUnitySerialize(leaves[i], sep) == Some(true)
    ensures AllSerialize(leaves, bound, sep) == Some(false) ==>
              exists i :: 0 <= i < |leaves| && leaves[i] != bound && CanUnitySerialize(leaves[i], sep) == Some(false)
    decreases |leaves|
  {
    if leaves != [] && leaves[0] != bound && CanUnitySerialize(leaves[0], sep) == Some(true) {
      AllSerializeMeaning(leaves[1..], bound, sep);
      if AllSerialize(leaves, bound, sep) == Some(false) {
        var i :| 0 <= i < |leaves[1..]| && leaves[1..][i] != bound && CanUnitySerialize(leaves[1..][i], sep) == Some(false);
        assert leaves[i + 1] == leaves[1..][i];
      }
      assert (forall i :: 0 <= i < |leaves| ==> leaves[i] != bound && CanUnitySerialize(leaves[i], sep) == Some(true)) <==>
             (forall i :: 0 <= i < |leaves[1..]| ==> leaves[1..][i] != bound && CanUnitySerialize(leaves[1..][i], sep) == Some(true)) by {
        forall i | 0 < i < |leaves| ensures leaves[i] == leaves[1..][i - 1] {
        }
      }
    }
  }

  /** For an array or list type (no dictionary, no Unity object), Unity serializes it iff it
      serializes every leaf of its expansion. */
  lemma CollectionSerializableIffLeaves(t: Ty, sep: char)
    requires !t.IsSimple() && !t.Is(DictionaryTrait) && !t.Is(UnityObject) && IsStandardCollection(t, false)
    ensures CanUnitySerialize(t, sep) == Some(true) <==>
              forall x :: x in TypesFromArray(t, -1) ==> x != t && CanUnitySerialize(x, sep) == Some(true)
  {
    AllSerializeMeaning(TypesFromArray(t, -1), t, sep);
  }

  /** A non-generic `IList` that is not an array is its own only leaf, and `CanUnitySerialize` never returns on it. */
  lemma SelfLeafDiverges(t: Ty, sep: char)
    requires !t.IsSimple() && !t.Is(DictionaryTrait) && !t.Is(UnityObject)
    requires t.Is(ListTrait) && !t.IsArray() && !t.IsGenericType()
    ensures TypesFromArray(t, -1) == [t]
    ensures CanUnitySerialize(t, sep).None?
  {
  }

  /** `IsUnityComponentType`: some leaf of the expansion is `GameObject` or a `Component`. */
  function IsUnityComponentType(t: Ty): (r: bool)
    ensures !IsStandardCollection(t, true) ==> (r <==> t.Is(GameObjectType) || t.Is(ComponentTrait))
  {
    exists x :: x in TypesFromArray(t, -1) && (x.Is(GameObjectType) || x.Is(ComponentTrait))
  }

  /** A non-collection is a component type iff it is `GameObject` or a `Component`; a generic
      collection with a (non-collection) component argument is one too. */
  lemma ComponentTypeCases(t: Ty)
    ensures !IsStandardCollection(t, true) ==> (IsUnityComponentType(t) <==> t.Is(GameObjectType) || t.Is(ComponentTrait))
    ensures forall i :: (0 <= i < |t.args| && IsStandardCollection(t, true) &&
                         !IsStandardCollection(t.args[i], true) && t.args[i].Is(ComponentTrait)) ==> IsUnityComponentType(t)
  {
    if !IsStandardCollection(t, true) {
      assert TypesFromArray(t, -1) == [t];
    }
    forall i | 0 <= i < |t.args| && IsStandardCollection(t, true) &&
               !IsStandardCollection(t.args[i], true) && t.args[i].Is(ComponentTrait)
      ensures IsUnityComponentType(t)
    {
      assert Leaves(t.args[i], -1, 1) == [t.args[i]];
      ArgLeavesIncludes(t, 0, i, -1, 1, t.args[i]);
      assert t.args[i] in TypesFromArray(t, -1);
    }
  }
}

=== FILE: cache_utils.dfy ===
/** `CacheUtils`: null-tolerant wrappers around an optional LRU cache.

    A cache field that was never initialised is `None`; the wrappers then behave
    as if the cache were always empty and refused every insertion.
 */
module CacheUtils {
  import opened Wrappers
  import opened LruCache

  /** What `NullableTryGetValue` hands back: the bool, the out value, and the (possibly absent) cache after the call. */
  datatype NGot<K, V> = NGot(found: bool, value: V, cache: Option<Cache<K, V>>)

  /** `cache?.Add(key, value)`. */
  function NullableAdd<K, V>(c: Option<Cache<K, V>>, k: K, v: V): (r: Result<Option<Cache<K, V>>>)
    ensures c.None? ==> r == Ok(None)
    ensures c.Some? ==> (r.Ok? <==> Add(c.value, k, v).Ok?)
    ensures c.Some? && r.Ok? ==> r.value == Some(Add(c.value, k, v).value)
    ensures c.Some? && r.Err? ==> r.error == NullReference
  {
    match c
    case None => Ok(None)
    case Some(cache) =>
      var added :- Add(cache, k, v);
      Ok(Some(added))
  }

  /** `NullableTryGetValue`: false with the default on an absent cache or a miss; the stored value on a hit. */
  function NullableTryGetValue<K, V>(c: Option<Cache<K, V>>, k: K, dflt: V): (r: NGot<K, V>)
    ensures c.None? ==> r == NGot(false, dflt, None)
    ensures c.Some? ==> r.found == (k in c.value.index) && r.cache.Some?
    ensures c.Some? && k in c.value.index ==> r.value == c.value.index[k].value
    ensures c.Some? && k !in c.value.index ==> r.value == dflt && r.cache == c
    ensures r.cache.Some? ==> c.Some? && r.cache.value.index == c.value.index
  {
    match c
    case None => NGot(false, dflt, None)
    case Some(cache) =>
      var g := TryGetValue(cache, k, dflt);
      NGot(g.found, if g.found then g.value else dflt, Some(g.cache))
  }

  /** Every entry of the (possibly absent) cache holds what `f` says its key maps to. */
  ghost predicate Agrees<K, V>(c: Option<Cache<K, V>>, f: K -> V) {
    c.Some? ==> forall k :: k in c.value.index ==> c.value.index[k].value == f(k)
  }

  /** A cache that agrees with `f` answers every hit with `f`'s value and still agrees after the lookup. */
  lemma GetAgrees<K, V>(c: Option<Cache<K, V>>, f: K -> V, k: K, dflt: V)
    requires Agrees(c, f)
    ensures var g := NullableTryGetValue(c, k, dflt);
            (g.found ==> g.value == f(k)) && Agrees(g.cache, f)
  {
  }

  /** Inserting `f`'s own value keeps a cache in agreement with `f`. */
  lemma AddAgrees<K, V>(c: Option<Cache<K, V>>, f: K -> V, k: K)
    requires Agrees(c, f)
    ensures var r := NullableAdd(c, k, f(k));
            r.Ok? ==> Agrees(r.value, f)
  {
    if c.Some? && Add(c.value, k, f(k)).Ok? {
      AddOthers(c.value, k, f(k));
    }
  }

  /** Through the wrappers, a value just added is the value found next (on a present cache with room for one entry). */
  lemma NullableAddThenGet<K, V>(c: Option<Cache<K, V>>, k: K, v: V, dflt: V)
    requires c.Some? ==> Valid(c.value) && c.value.maxSize > 0
    ensures NullableAdd(c, k, v).Ok?
    ensures var g := NullableTryGetValue(NullableAdd(c, k, v).value, k, dflt);
            c.Some? ==> g.found && g.value == v
    ensures c.None? ==> !NullableTryGetValue(NullableAdd(c, k, v).value, k, dflt).found
  {
    if c.Some? {
      AddValid(c.value, k, v);
    }
  }
}

=== FILE: collection_utils.dfy ===
/** `CollectionUtils.HasOfType`: whether a list holds an element whose runtime type is exactly `t`.

    A list is given by the runtime types of its elements; `None` is a null element, whose
    `GetType()` throws.
 */
module CollectionUtils {
  import opened Wrappers
  import opened Types

  /** `elems[i]` is the first element that stops the scan: a null one or one of type exactly `t`. */
  predicate StopsAt(elems: seq<Option<Ty>>, t: Ty, i: int) {
    && 0 <= i < |elems|
    && (elems[i].None? || elems[i] == Some(t))
    && forall j :: 0 <= j < i ==> elems[j].Some? && elems[j] != Some(t)
  }

  /** The scan in index order, returning at the first element of type exactly `t`. */
  method HasOfType(elems: seq<Option<Ty>>, t: Ty) returns (r: Result<bool>)
    ensures r == Ok(true) <==> exists i :: StopsAt(elems, t, i) && elems[i] == Some(t)
    ensures r == Err(NullReference) <==> exists i :: StopsAt(elems, t, i) && elems[i].None?
    ensures r == Ok(false) <==> forall i :: 0 <= i < |elems| ==> elems[i].Some? && elems[i] != Some(t)
  {
    var i := 0;
    while i < |elems|
      invariant 0 <= i <= |elems|
      invariant forall j :: 0 <= j < i ==> elems[j].Some? && elems[j] != Some(t)
    {
      if elems[i].None? {
        assert StopsAt(elems, t, i);
        return Err(NullReference);
      }
      if elems[i] == Some(t) {
        assert StopsAt(elems, t, i);
        return Ok(true);
      }
      i := i + 1;
    }
    return Ok(false);
  }

  /** Reference definition: the verdict of the first stopping element, or false when there is none. */
  function Verdict(elems: seq<Option<Ty>>, t: Ty): (r: Result<bool>)
    ensures r == Ok(true) || r == Ok(false) || r == Err(NullReference)
    decreases |elems|
  {
    if elems == [] then Ok(false)
    else if elems[0].None? then Err(NullReference)
    else if elems[0] == Some(t) then Ok(true)
    else Verdict(elems[1..], t)
  }

  /** The scan agrees with the recursive reference definition on every list. */
  method HasOfTypeAgrees(elems: seq<Option<Ty>>, t: Ty) returns (r: Result<bool>)
    ensures r == Verdict(elems, t)
  {
    r := HasOfType(elems, t);
    VerdictMeaning(elems, t);
  }

  lemma {:induction false} VerdictMeaning(elems: seq<Option<Ty>>, t: Ty)
    ensures Verdict(elems, t) == Ok(true) <==> exists i :: StopsAt(elems, t, i) && elems[i] == Some(t)
    ensures Verdict(elems, t) == Err(NullReference) <==> exists i :: StopsAt(elems, t, i) && elems[i].None?
    ensures Verdict(elems, t) == Ok(false) <==> forall i :: 0 <= i < |elems| ==> elems[i].Some? && elems[i] != Some(t)
    decreases |elems|
  {
    if elems != [] && elems[0].Some? && elems[0] != Some(t) {
      var rest := elems[1..];
      VerdictMeaning(rest, t);
      forall i | StopsAt(rest, t, i) ensures StopsAt(elems, t, i + 1) {
        assert forall j :: 1 <= j < i + 1 ==> elems[j] == rest[j - 1];
      }
      forall i | StopsAt(elems, t, i) ensures i > 0 && StopsAt(rest, t, i - 1) {
        assert forall j :: 0 <= j < i - 1 ==> rest[j] == elems[j + 1];
      }
      assert forall i :: 0 < i < |elems| ==> elems[i] == rest[i - 1];
    } else if elems != [] {
      assert StopsAt(elems, t, 0);
      forall i | StopsAt(elems, t, i) ensures i == 0 {
      }
    }
  }

  /** An element of a proper subtype of `t` does not count: the test is type equality. */
  lemma SubtypeDoesNotCount(t: Ty, sub: Ty)
    requires sub.base == Some(t)
    ensures Verdict([Some(sub)], t) == Ok(false)
  {
  }
}

=== FILE: component_interrupter.dfy ===
/** `SerializationObserver.ComponentInterrupter`: while an instantiation is being observed, the
    Unity callbacks of the components involved are blocked. A table counts, per type, how many
    blocks are outstanding; every patched method returns at once for a receiver whose type is a key.
    Methods are patched at most once, and `GetDelegate` finds (and caches) the callback of a type,
    walking up its base types until a game-assembly type.
 */
module ComponentInterrupter {
  import opened Wrappers
  import opened Types
  import opened AssemblyUtils
  import opened LruCache
  import CU = CacheUtils

  /** `_blockedCalls`: type to the number of outstanding blocks. */
  type Blocked = map<Ty, int>

  /** The outstanding blocks of `t` (0 when it is not a key). */
  function Count(b: Blocked, t: Ty): int {
    if t in b then b[t] else 0
  }

  /** Every stored count is at least 1. */
  predicate AllPositive(b: Blocked) {
    forall t :: t in b ==> b[t] >= 1
  }

  /** `RegisterBlockedCall`: 1 for a new type, otherwise one more. */
  function RegisterBlockedCall(b: Blocked, t: Ty): (r: Blocked)
    ensures t in r && Count(r, t) == Count(b, t) + 1
    ensures forall u :: u != t ==> (u in r <==> u in b) && Count(r, u) == Count(b, u)
    ensures AllPositive(b) ==> AllPositive(r)
  {
    if t in b then b[t := b[t] + 1] else b[t := 1]
  }

  /** `RemoveBlockedCall`: nothing for an absent type; otherwise one fewer, and the key goes when no
      block is left. */
  function RemoveBlockedCall(b: Blocked, t: Ty): (r: Blocked)
    ensures t !in b ==> r == b
    ensures t in b ==> Count(r, t) == (if b[t] - 1 <= 0 then 0 else b[t] - 1)
    ensures t in b ==> (t in r <==> b[t] - 1 > 0)
    ensures forall u :: u != t ==> (u in r <==> u in b) && Count(r, u) == Count(b, u)
    ensures AllPositive(b) ==> AllPositive(r)
  {
    if t !in b then b
    else
      var decrement := b[t] - 1;
      if decrement <= 0 then b - {t} else b[t := decrement]
  }

  /** The block test the patch puts at the head of every patched method: `true` means the method
      returns before running its body. */
  predicate ReturnsEarly(b: Blocked, receiverType: Ty) {
    receiverType in b
  }

  /** With positive counts, a type is blocked exactly when it has an outstanding block. */
  lemma BlockedIffOutstanding(b: Blocked, t: Ty)
    requires AllPositive(b)
    ensures ReturnsEarly(b, t) <==> Count(b, t) > 0
  {
  }

  /** One `RegisterBlockedCall` per element, in order. */
  function RegisterAll(b: Blocked, ts: seq<Ty>): (r: Blocked)
    ensures AllPositive(b) ==> AllPositive(r)
    decreases |ts|
  {
    if ts == [] then b else RegisterAll(RegisterBlockedCall(b, ts[0]), ts[1..])
  }

  /** One `RemoveBlockedCall` per element, in order. */
  function RemoveAll(b: Blocked, ts: seq<Ty>): (r: Blocked)
    ensures AllPositive(b) ==> AllPositive(r)
    decreases |ts|
  {
    if ts == [] then b else RemoveAll(RemoveBlockedCall(b, ts[0]), ts[1..])
  }

  /** Registering adds each type's occurrences to its count. */
  lemma {:induction false} RegisterAllCounts(b: Blocked, ts: seq<Ty>, t: Ty)
    ensures Count(RegisterAll(b, ts), t) == Count(b, t) + multiset(ts)[t]
    decreases |ts|
  {
    if ts != [] {
      RegisterAllCounts(RegisterBlockedCall(b, ts[0]), ts[1..], t);
      assert ts == [ts[0]] + ts[1..];
      assert multiset(ts) == multiset([ts[0]]) + multiset(ts[1..]);
    }
  }

  /** With positive counts, removing at most the outstanding blocks of every type takes each type's
      occurrences off its count. */
  lemma {:induction false} RemoveAllCounts(b: Blocked, ts: seq<Ty>, t: Ty)
    requires AllPositive(b)
    requires forall u :: multiset(ts)[u] <= Count(b, u)
    ensures Count(RemoveAll(b, ts), t) == Count(b, t) - multiset(ts)[t]
    decreases |ts|
  {
    if ts != [] {
      var b' := RemoveBlockedCall(b, ts[0]);
      assert ts == [ts[0]] + ts[1..];
      assert multiset(ts) == multiset([ts[0]]) + multiset(ts[1..]);
      forall u ensures multiset(ts[1..])[u] <= Count(b', u) {
        assert multiset(ts)[u] == multiset([ts[0]])[u] + multiset(ts[1..])[u];
      }
      RemoveAllCounts(b', ts[1..], t);
    }
  }

  /** Two tables with positive counts are equal when they agree on every count. */
  lemma SameCountsSameTable(b: Blocked, b': Blocked)
    requires AllPositive(b) && AllPositive(b')
    requires forall t :: Count(b, t) == Count(b', t)
    ensures b == b'
  {
    assert forall t :: t in b <==> t in b' by {
      forall t ensures t in b <==> t in b' {
        assert Count(b, t) == Count(b', t);
      }
    }
    forall t | t in b ensures b[t] == b'[t] {
      assert Count(b, t) == Count(b', t);
    }
  }

  /** Registering a list of types and then removing the same types, in any order, restores a table
      whose counts were positive. */
  lemma RegisterThenRemoveRestores(b: Blocked, ts: seq<Ty>, us: seq<Ty>)
    requires AllPositive(b)
    requires multiset(us) == multiset(ts)
    ensures RemoveAll(RegisterAll(b, ts), us) == b
  {
    var mid := RegisterAll(b, ts);
    forall u ensures multiset(us)[u] <= Count(mid, u) {
      RegisterAllCounts(b, ts, u);
    }
    forall t ensures Count(RemoveAll(mid, us), t) == Count(b, t) {
      RegisterAllCounts(b, ts, t);
      RemoveAllCounts(mid, us, t);
    }
    SameCountsSameTable(RemoveAll(mid, us), b);
  }

  /** A method whose body can receive the block. */
  type MethodId = int

  /** `_patchedMethods` as its key set, and the log of `ApplyPermanentBlock` calls. */
  datatype Patches = Patches(patched: set<MethodId>, applied: seq<MethodId>)

  /** Each method was hooked once, and exactly the hooked methods are keys. */
  ghost predicate HookedOnce(p: Patches) {
    && (forall i, j :: 0 <= i < j < |p.applied| ==> p.applied[i] != p.applied[j])
    && (forall m :: m in p.patched <==> m in p.applied)
  }

  /** `EnsurePatched`: a non-null method not yet patched gets its hook. */
  function EnsurePatched(p: Patches, target: Option<MethodId>): (r: Patches)
    ensures target.Some? ==> r.patched == p.patched + {target.value}
    ensures target.None? || target.value in p.patched ==> r == p
    ensures target.Some? && target.value !in p.patched ==> r.applied == p.applied + [target.value]
    ensures HookedOnce(p) ==> HookedOnce(r)
  {
    if target.Some? && target.value !in p.patched then
      Patches(p.patched + {target.value}, p.applied + [target.value])
    else p
  }

  /** The compiled `(object obj) => ((objType)obj).method()`. */
  datatype Delegate = Delegate(ty: Ty, callee: MethodId)

  /** The delegate cache of one callback: an LRU cache that may be absent, holding `null` (`None`)
      for types without the method. */
  type DelegateCache = Option<Cache<Ty, Option<Delegate>>>

  /** `InstantiateContext`: whether an instantiation is being observed, and the types it blocked. */
  datatype Context = Context(active: bool, registeredCalls: seq<Ty>)

  /** Everything `GetDelegate` changes. */
  datatype Interrupter = Interrupter(blocked: Blocked, patches: Patches, cache: DelegateCache, ctx: Context)

  /** The entry a well-behaved cache holds for `t`: the delegate of `t`'s own method, or null. */
  function DelegateOf(methodOf: Ty -> Option<MethodId>): Ty -> Option<Delegate> {
    t => if methodOf(t).Some? then Some(Delegate(t, methodOf(t).value)) else None
  }

  /** A lookup in a cache that agrees with `DelegateOf` finds `DelegateOf`'s entry and keeps the
      agreement. */
  lemma LookupAgrees(c: DelegateCache, methodOf: Ty -> Option<MethodId>, t: Ty)
    ensures var g := CU.NullableTryGetValue(c, t, None);
            CU.Agrees(c, DelegateOf(methodOf)) ==> (g.found ==> g.value == DelegateOf(methodOf)(t)) && CU.Agrees(g.cache, DelegateOf(methodOf))
  {
    if CU.Agrees(c, DelegateOf(methodOf)) {
      CU.GetAgrees(c, DelegateOf(methodOf), t, None);
    }
  }

  /** Inserting `DelegateOf`'s own entry keeps a cache in agreement with it. */
  lemma InsertAgrees(c: DelegateCache, methodOf: Ty -> Option<MethodId>, t: Ty)
    ensures var r := CU.NullableAdd(c, t, DelegateOf(methodOf)(t));
            CU.Agrees(c, DelegateOf(methodOf)) && r.Ok? ==> CU.Agrees(r.value, DelegateOf(methodOf))
  {
    if CU.Agrees(c, DelegateOf(methodOf)) {
      CU.AddAgrees(c, DelegateOf(methodOf), t);
    }
  }

  /** The registration `GetDelegate` performs when the context is active. */
  function Block(st: Interrupter, t: Ty): (r: Interrupter)
    ensures st.ctx.active ==> r == st.(blocked := RegisterBlockedCall(st.blocked, t),
                                         ctx := st.ctx.(registeredCalls := st.ctx.registeredCalls + [t]))
    ensures !st.ctx.active ==> r == st
  {
    if st.ctx.active then
      st.(blocked := RegisterBlockedCall(st.blocked, t), ctx := st.ctx.(registeredCalls := st.ctx.registeredCalls + [t]))
    else st
  }

  /** The table holds the outstanding blocks of `b0` plus one per type the context logged since
      `log0`. */
  ghost predicate Tracks(st: Interrupter, b0: Blocked, log0: seq<Ty>) {
    && log0 <= st.ctx.registeredCalls
    && forall t :: Count(st.blocked, t) == Count(b0, t) + multiset(st.ctx.registeredCalls[|log0|..])[t]
  }

  /** A registration keeps the table in step with the context's log. */
  lemma BlockTracks(st: Interrupter, t: Ty, b0: Blocked, log0: seq<Ty>)
    requires Tracks(st, b0, log0)
    ensures Tracks(Block(st, t), b0, log0)
  {
    if st.ctx.active {
      var log := st.ctx.registeredCalls;
      assert (log + [t])[|log0|..] == log[|log0|..] + [t];
    }
  }

  /** `GetDelegate(objType, ...)`, with `methodOf(t)` standing for `t.GetMethod(methodName, flags)`.
      A cache hit answers the cached delegate, or, when null, the one found for the base types; a
      miss looks the method up, caches null when there is none, and otherwise blocks the type,
      patches the method, caches the new delegate and warms the cache for the base types. The walk
      up the base types stops before a game-assembly type. A block is registered only when the
      context is active. */
  function GetDelegate(st: Interrupter, t: Ty, methodOf: Ty -> Option<MethodId>, sep: char)
    : (r: (Result<Option<Delegate>>, Interrupter))
    ensures !st.ctx.active ==> r.1.blocked == st.blocked && r.1.ctx == st.ctx
    ensures r.1.ctx.active == st.ctx.active
    ensures forall m :: m in st.patches.patched ==> m in r.1.patches.patched
    ensures HookedOnce(st.patches) ==> HookedOnce(r.1.patches)
    ensures AllPositive(st.blocked) ==> AllPositive(r.1.blocked)
    ensures CU.Agrees(st.cache, DelegateOf(methodOf)) ==> CU.Agrees(r.1.cache, DelegateOf(methodOf))
    ensures CU.Agrees(st.cache, DelegateOf(methodOf)) && methodOf(t).Some? && r.0.Ok? ==>
              r.0.value == DelegateOf(methodOf)(t)
    ensures methodOf(t).Some? && r.0.Ok? ==> methodOf(t).value in r.1.patches.patched || CU.NullableTryGetValue(st.cache, t, None).found
    ensures methodOf(t).None? && !CU.NullableTryGetValue(st.cache, t, None).found && r.0.Ok? ==> r.0.value.None?
    decreases t
  {
    var hit := CU.NullableTryGetValue(st.cache, t, None);
    LookupAgrees(st.cache, methodOf, t);
    var st0 := st.(cache := hit.cache);
    if hit.found then
      var (res, st1) := if hit.value.Some? then (Ok(hit.value), st0) else Recursive(st0, t, methodOf, sep);
      match res
      case Err(e) => (Err(e), st1)
      case Ok(action) => (Ok(action), if action.Some? then Block(st1, t) else st1)
    else
      match methodOf(t)
      case None =>
        InsertAgrees(st0.cache, methodOf, t);
        (match CU.NullableAdd(st0.cache, t, None)
         case Err(e) => (Err(e), st0)
         case Ok(cache') =>
           var (res, st1) := Recursive(st0.(cache := cache'), t, methodOf, sep);
           match res
           case Err(e) => (Err(e), st1)
           case Ok(action) => (Ok(None), if action.Some? then Block(st1, t) else st1))
      case Some(m) =>
        var st1 := Block(st0, t);
        var st2 := st1.(patches := EnsurePatched(st1.patches, Some(m)));
        var lambda := Delegate(t, m);
        InsertAgrees(st2.cache, methodOf, t);
        match CU.NullableAdd(st2.cache, t, Some(lambda))
        case Err(e) => (Err(e), st2)
        case Ok(cache') =>
          var (res, st3) := Recursive(st2.(cache := cache'), t, methodOf, sep);
          match res
          case Err(e) => (Err(e), st3)
          case Ok(_) => (Ok(Some(lambda)), st3)
  }

  /** `RecursiveGetDelegate`: `GetDelegate` of the base type, unless there is none or it comes from
      a game assembly. */
  function Recursive(st: Interrupter, t: Ty, methodOf: Ty -> Option<MethodId>, sep: char)
    : (r: (Result<Option<Delegate>>, Interrupter))
    ensures t.base.None? || IsFromGameAssemblies(t.base.value, sep) ==> r == (Ok(None), st)
    ensures !st.ctx.active ==> r.1.blocked == st.blocked && r.1.ctx == st.ctx
    ensures r.1.ctx.active == st.ctx.active
    ensures forall m :: m in st.patches.patched ==> m in r.1.patches.patched
    ensures HookedOnce(st.patches) ==> HookedOnce(r.1.patches)
    ensures AllPositive(st.blocked) ==> AllPositive(r.1.blocked)
    ensures CU.Agrees(st.cache, DelegateOf(methodOf)) ==> CU.Agrees(r.1.cache, DelegateOf(methodOf))
    decreases t, 0
  {
    match t.base
    case Some(parent) =>
      if !IsFromGameAssemblies(parent, sep) then GetDelegate(st, parent, methodOf, sep) else (Ok(None), st)
    case None => (Ok(None), st)
  }

  /** The blocks `GetDelegate` registers are exactly the types it logs in the context: the table
      stays in step with the log, through the whole walk up the base types. */
  lemma {:induction false} GetDelegateTracks(st: Interrupter, t: Ty, methodOf: Ty -> Option<MethodId>, sep: char,
                                             b0: Blocked, log0: seq<Ty>)
    requires Tracks(st, b0, log0)
    ensures Tracks(GetDelegate(st, t, methodOf, sep).1, b0, log0)
    decreases t
  {
    var hit := CU.NullableTryGetValue(st.cache, t, None);
    var st0 := st.(cache := hit.cache);
    assert Tracks(st0, b0, log0);
    if hit.found {
      if hit.value.None? {
        RecursiveTracks(st0, t, methodOf, sep, b0, log0);
        var st1 := Recursive(st0, t, methodOf, sep).1;
        BlockTracks(st1, t, b0, log0);
      } else {
        BlockTracks(st0, t, b0, log0);
      }
    } else if methodOf(t).None? {
      var added := CU.NullableAdd(st0.cache, t, None);
      if added.Ok? {
        RecursiveTracks(st0.(cache := added.value), t, methodOf, sep, b0, log0);
        var st1 := Recursive(st0.(cache := added.value), t, methodOf, sep).1;
        BlockTracks(st1, t, b0, log0);
      }
    } else {
      BlockTracks(st0, t, b0, log0);
      var st1 := Block(st0, t);
      var st2 := st1.(patches := EnsurePatched(st1.patches, methodOf(t)));
      var added := CU.NullableAdd(st2.cache, t, Some(Delegate(t, methodOf(t).value)));
      if added.Ok? {
        RecursiveTracks(st2.(cache := added.value), t, methodOf, sep, b0, log0);
      }
    }
  }

  /** `GetDelegateTracks` for the step up to the base type. */
  lemma {:induction false} RecursiveTracks(st: Interrupter, t: Ty, methodOf: Ty -> Option<MethodId>, sep: char,
                                           b0: Blocked, log0: seq<Ty>)
    requires Tracks(st, b0, log0)
    ensures Tracks(Recursive(st, t, methodOf, sep).1, b0, log0)
    decreases t, 0
  {
    match t.base
    case Some(parent) =>
      if !IsFromGameAssemblies(parent, sep) {
        GetDelegateTracks(st, parent, methodOf, sep, b0, log0);
      }
    case None =>
  }

  /** A later hit on the null cached for that type answers the base type's delegate instead. */
  lemma NullHitAnswersBase(st: Interrupter, t: Ty, parent: Ty, methodOf: Ty -> Option<MethodId>, sep: char)
    requires CU.Agrees(st.cache, DelegateOf(methodOf))
    requires methodOf(t).None? && CU.NullableTryGetValue(st.cache, t, None).found
    requires t.base == Some(parent) && !IsFromGameAssemblies(parent, sep) && methodOf(parent).Some?
    ensures var r := GetDelegate(st, t, methodOf, sep).0;
            r.Ok? ==> r.value == Some(Delegate(parent, methodOf(parent).value))
  {
    LookupAgrees(st.cache, methodOf, t);
    var hit := CU.NullableTryGetValue(st.cache, t, None);
    assert hit.value.None?;
    var st0 := st.(cache := hit.cache);
    assert Recursive(st0, t, methodOf, sep) == GetDelegate(st0, parent, methodOf, sep);
  }
}

=== FILE: component_map.dfy ===
/** `ComponentMap.GetComponentsRegistered`: the list of a GameObject's components the mappers pair
    positionally with a clone's, leaving out the map itself, SerializationHandlers and Transforms. */
module ComponentMap {
  import opened Types

  /** A component the map keeps. */
  predicate Kept(self: ObjId, c: ObjId, typeOf: ObjId -> Ty) {
    c != self && !typeOf(c).Is(HandlerType) && !typeOf(c).Is(TransformTrait)
  }

  /** Reference definition: the kept components in `GetComponents` order. */
  function Registered(self: ObjId, comps: seq<ObjId>, typeOf: ObjId -> Ty): (r: seq<ObjId>)
    ensures |r| <= |comps|
    ensures forall i :: 0 <= i < |r| ==> Kept(self, r[i], typeOf) && r[i] in comps
    ensures forall i :: 0 <= i < |comps| && Kept(self, comps[i], typeOf) ==> comps[i] in r
    decreases |comps|
  {
    if comps == [] then []
    else
      assert forall i :: 1 <= i < |comps| ==> comps[i] == comps[1..][i - 1];
      (if Kept(self, comps[0], typeOf) then [comps[0]] else []) + Registered(self, comps[1..], typeOf)
  }

  /** `GetComponentsRegistered`: the previous list is cleared, then every kept component is appended. */
  method GetComponentsRegistered(self: ObjId, previous: seq<ObjId>, comps: seq<ObjId>, typeOf: ObjId -> Ty)
    returns (r: seq<ObjId>)
    ensures r == Registered(self, comps, typeOf)
  {
    r := previous;
    r := [];
    var i := 0;
    while i < |comps|
      invariant 0 <= i <= |comps|
      invariant r == Registered(self, comps[..i], typeOf)
    {
      RegisteredAppend(self, comps[..i], [comps[i]], typeOf);
      assert comps[..i + 1] == comps[..i] + [comps[i]];
      if Kept(self, comps[i], typeOf) {
        r := r + [comps[i]];
      }
      i := i + 1;
    }
    assert comps[..i] == comps;
  }

  /** The filter keeps order: it distributes over concatenation. */
  lemma {:induction false} RegisteredAppend(self: ObjId, a: seq<ObjId>, b: seq<ObjId>, typeOf: ObjId -> Ty)
    ensures Registered(self, a + b, typeOf) == Registered(self, a, typeOf) + Registered(self, b, typeOf)
    decreases |a|
  {
    if a == [] {
      assert a + b == b;
    } else {
      assert (a + b)[0] == a[0];
      assert (a + b)[1..] == a[1..] + b;
      RegisteredAppend(self, a[1..], b, typeOf);
    }
  }

  /** Filtering an already filtered list changes nothing, so refreshing twice gives the same list. */
  lemma {:induction false} RegisteredIdempotent(self: ObjId, comps: seq<ObjId>, typeOf: ObjId -> Ty)
    ensures Registered(self, Registered(self, comps, typeOf), typeOf) == Registered(self, comps, typeOf)
    decreases |comps|
  {
    if comps != [] {
      var rest := Registered(self, comps[1..], typeOf);
      RegisteredIdempotent(self, comps[1..], typeOf);
      if Kept(self, comps[0], typeOf) {
        var once := [comps[0]] + rest;
        assert once[0] == comps[0] && once[1..] == rest;
        assert Registered(self, comps, typeOf) == once;
        assert Registered(self, once, typeOf) == [comps[0]] + Registered(self, rest, typeOf);
      } else {
        assert Registered(self, comps, typeOf) == [] + rest == rest;
      }
    }
  }
}

=== FILE: component_mapper.dfy ===
/** `ComponentMapper`: the source-component to clone-component correlation, as two dictionaries
    that together form doubly linked chains `original -> clone -> clone of clone -> ...`.

    Keys and values are component instance ids; a key stays in a dictionary after its component is
    destroyed until a removal or a prune drops it. A value may be null (`None`).
 */
module ComponentMapper {
  import opened Wrappers
  import opened Types

  datatype Links = Links(childToParent: map<ObjId, Option<ObjId>>, parentToChild: map<ObjId, Option<ObjId>>)

  /** Unity's truth test on a possibly null, possibly destroyed object. */
  predicate Alive(x: Option<ObjId>, live: set<ObjId>) {
    x.Some? && x.value in live
  }

  const NoLinks := Links(map[], map[])

  /** `RegisterParentChild`: the child's back link is always set, the parent's forward link only
      when the parent is alive. */
  function RegisterParentChild(m: Links, parent: Option<ObjId>, child: ObjId, live: set<ObjId>): (r: Links)
    ensures r.childToParent == m.childToParent[child := parent]
    ensures Alive(parent, live) ==> r.parentToChild == m.parentToChild[parent.value := Some(child)]
    ensures !Alive(parent, live) ==> r.parentToChild == m.parentToChild
  {
    var c2p := m.childToParent[child := parent];
    if Alive(parent, live) then Links(c2p, m.parentToChild[parent.value := Some(child)]) else Links(c2p, m.parentToChild)
  }

  /** `RemoveComponentFromMap`: unlinks a live component, stitching its live neighbours to each
      other when it has both, and otherwise cutting the live neighbour's link to it. */
  function RemoveComponentFromMap(m: Links, comp: Option<ObjId>, live: set<ObjId>): (r: Links)
    ensures !Alive(comp, live) ==> r == m
    ensures Alive(comp, live) ==> comp.value !in r.childToParent && comp.value !in r.parentToChild
  {
    if !Alive(comp, live) then m
    else
      var c := comp.value;
      var hasParent := c in m.childToParent;
      var hasChild := c in m.parentToChild;
      var parent := if hasParent then m.childToParent[c] else None;
      var child := if hasChild then m.parentToChild[c] else None;
      var stitched :=
        if hasParent && hasChild && Alive(parent, live) && Alive(child, live) then
          Links(m.childToParent[child.value := parent], m.parentToChild[parent.value := child])
        else
          var c2p := if hasChild && Alive(child, live) then m.childToParent - {child.value} else m.childToParent;
          var p2c := if hasParent && Alive(parent, live) then m.parentToChild - {parent.value} else m.parentToChild;
          Links(c2p, p2c);
      Links(stitched.childToParent - {c}, stitched.parentToChild - {c})
  }

  /** Removing the middle of `parent <-> comp <-> child` (all live and distinct) links `parent` and
      `child` directly and leaves every other entry alone. */
  lemma RemoveStitches(m: Links, comp: ObjId, parent: ObjId, child: ObjId, live: set<ObjId>)
    requires comp in live && parent in live && child in live
    requires comp != parent && comp != child
    requires comp in m.childToParent && m.childToParent[comp] == Some(parent)
    requires comp in m.parentToChild && m.parentToChild[comp] == Some(child)
    ensures var r := RemoveComponentFromMap(m, Some(comp), live);
            && child in r.childToParent && r.childToParent[child] == Some(parent)
            && parent in r.parentToChild && r.parentToChild[parent] == Some(child)
            && (forall k :: k != comp && k != child && k in m.childToParent ==>
                  k in r.childToParent && r.childToParent[k] == m.childToParent[k])
            && (forall k :: k != comp && k != parent && k in m.parentToChild ==>
                  k in r.parentToChild && r.parentToChild[k] == m.parentToChild[k])
            && r.childToParent.Keys <= m.childToParent.Keys + {child}
            && r.parentToChild.Keys <= m.parentToChild.Keys + {parent}
  {
  }

  /** Removing an end of a chain (a neighbour missing or dead) cuts the live neighbour's link to the
      component, and leaves every other entry alone. */
  lemma RemoveCutsEnd(m: Links, comp: ObjId, live: set<ObjId>)
    requires comp in live
    requires var parent := if comp in m.childToParent then m.childToParent[comp] else None;
             var child := if comp in m.parentToChild then m.parentToChild[comp] else None;
             !(Alive(parent, live) && Alive(child, live))
    ensures var parent := if comp in m.childToParent then m.childToParent[comp] else None;
            var child := if comp in m.parentToChild then m.parentToChild[comp] else None;
            var r := RemoveComponentFromMap(m, Some(comp), live);
            && (Alive(child, live) ==> child.value !in r.childToParent)
            && (Alive(parent, live) ==> parent.value !in r.parentToChild)
            && (forall k :: k != comp && (!Alive(child, live) || k != child.value) && k in m.childToParent ==>
                  k in r.childToParent && r.childToParent[k] == m.childToParent[k])
            && (forall k :: k != comp && (!Alive(parent, live) || k != parent.value) && k in m.parentToChild ==>
                  k in r.parentToChild && r.parentToChild[k] == m.parentToChild[k])
            && r.childToParent.Keys <= m.childToParent.Keys
            && r.parentToChild.Keys <= m.parentToChild.Keys
  {
  }

  /** `GetParent`: null for a null, destroyed or unmapped component; a destroyed parent is cleaned
      up lazily by removing the component's links. Returns the parent and the maps after the call. */
  function GetParent(m: Links, comp: Option<ObjId>, live: set<ObjId>): (r: (Option<ObjId>, Links))
    ensures r.0.Some? ==> Alive(comp, live) && comp.value in m.childToParent
                          && m.childToParent[comp.value] == r.0 && r.0.value in live && r.1 == m
    ensures Alive(comp, live) && comp.value in m.childToParent && Alive(m.childToParent[comp.value], live) ==> r.0.Some?
    ensures Alive(comp, live) && comp.value in m.childToParent && !Alive(m.childToParent[comp.value], live) ==>
              r.0.None? && r.1 == RemoveComponentFromMap(m, comp, live)
    ensures !(Alive(comp, live) && comp.value in m.childToParent) ==> r == (None, m)
  {
    if !Alive(comp, live) then (None, m)
    else if comp.value in m.childToParent then
      var parent := m.childToParent[comp.value];
      if !Alive(parent, live) then (None, RemoveComponentFromMap(m, comp, live))
      else (parent, m)
    else (None, m)
  }

  /** Registering a link with both ends alive makes `GetParent` of the child answer the parent. */
  lemma RegisterThenGetParent(m: Links, parent: ObjId, child: ObjId, live: set<ObjId>)
    requires parent in live && child in live
    ensures var m' := RegisterParentChild(m, Some(parent), child, live);
            GetParent(m', Some(child), live) == (Some(parent), m')
  {
  }

  /** `GetFirstParentFromHierarchy`, run for at most `fuel` steps of its loop: follows `GetParent`
      from `cur` and answers the last live node, or `cur` itself when it is null or destroyed.
      `None` means the loop has not finished within `fuel` steps. */
  function FirstParent(m: Links, cur: Option<ObjId>, live: set<ObjId>, fuel: nat): (r: Option<(Option<ObjId>, Links)>)
    ensures r.Some? && Alive(cur, live) ==> Alive(r.value.0, live)
    ensures r.Some? && !Alive(cur, live) ==> r.value == (cur, m)
    ensures r.Some? ==> Alive(r.value.0, live) ==> GetParent(r.value.1, r.value.0, live).0.None?
    decreases fuel
  {
    if !Alive(cur, live) then Some((cur, m))
    else if fuel == 0 then None
    else
      var (parent, m') := GetParent(m, cur, live);
      if parent.None? then Some((cur, m'))
      else FirstParent(m', parent, live, fuel - 1)
  }

  /** The parent chain from `c` through live nodes is strictly ranked, so it ends. */
  ghost predicate Ranked(m: Links, live: set<ObjId>, rank: ObjId -> nat) {
    forall c :: c in m.childToParent && c in live && Alive(m.childToParent[c], live) ==>
      rank(m.childToParent[c].value) < rank(c)
  }

  /** Lazy cleanup only removes links, so a ranked map stays ranked. */
  lemma GetParentKeepsRanked(m: Links, cur: Option<ObjId>, live: set<ObjId>, rank: ObjId -> nat)
    requires Ranked(m, live, rank)
    ensures Ranked(GetParent(m, cur, live).1, live, rank)
  {
    if Alive(cur, live) && cur.value in m.childToParent && !Alive(m.childToParent[cur.value], live) {
      var c := cur.value;
      var r := RemoveComponentFromMap(m, cur, live);
      var parent := m.childToParent[c];
      var child := if c in m.parentToChild then m.parentToChild[c] else None;
      RemoveCutsEnd(m, c, live);
    }
  }

  /** On a ranked map the walk finishes within one more step than the rank of where it starts. */
  lemma {:induction false} FirstParentTerminates(m: Links, cur: Option<ObjId>, live: set<ObjId>, rank: ObjId -> nat, fuel: nat)
    requires Ranked(m, live, rank)
    requires Alive(cur, live) ==> fuel > rank(cur.value)
    ensures FirstParent(m, cur, live, fuel).Some?
    decreases fuel
  {
    if Alive(cur, live) {
      var (parent, m') := GetParent(m, cur, live);
      GetParentKeepsRanked(m, cur, live, rank);
      if parent.Some? {
        assert m.childToParent[cur.value] == parent;
        assert cur.value in m.childToParent && cur.value in live && Alive(m.childToParent[cur.value], live);
        var c := cur.value;
        assert Ranked(m, live, rank);
        assert rank(m.childToParent[c].value) < rank(c);
        assert rank(parent.value) < rank(cur.value);
        FirstParentTerminates(m', parent, live, rank, fuel - 1);
      }
    }
  }

  /** Two live components that are each other's parent make the loop run forever. */
  lemma CycleNeverEnds(a: ObjId, b: ObjId, live: set<ObjId>, fuel: nat)
    requires a in live && b in live
    ensures var m := Links(map[a := Some(b), b := Some(a)], map[a := Some(b), b := Some(a)]);
            FirstParent(m, Some(a), live, fuel).None?
    decreases fuel
  {
    var m := Links(map[a := Some(b), b := Some(a)], map[a := Some(b), b := Some(a)]);
    if fuel > 0 {
      assert GetParent(m, Some(a), live) == (Some(b), m);
      CycleNeverEnds(b, a, live, fuel - 1);
      assert m == Links(map[b := Some(a), a := Some(b)], map[b := Some(a), a := Some(b)]);
    }
  }

  /** The destroy patches' loop: `RemoveComponentFromMap` on each component in order. */
  function RemoveAll(m: Links, comps: seq<ObjId>, live: set<ObjId>): (r: Links)
    ensures (forall i :: 0 <= i < |comps| ==> comps[i] !in live) ==> r == m
    decreases |comps|
  {
    if comps == [] then m else RemoveAll(RemoveComponentFromMap(m, Some(comps[0]), live), comps[1..], live)
  }

  /** The two dictionaries agree: a live key's live parent has it as child, and a live key's live child
      has it as parent. */
  ghost predicate Consistent(m: Links, live: set<ObjId>) {
    && (forall x :: x in m.childToParent && x in live && Alive(m.childToParent[x], live) ==>
          m.childToParent[x].value in m.parentToChild && m.parentToChild[m.childToParent[x].value] == Some(x))
    && (forall y :: y in m.parentToChild && y in live && Alive(m.parentToChild[y], live) ==>
          m.parentToChild[y].value in m.childToParent && m.childToParent[m.parentToChild[y].value] == Some(y))
  }

  /** Neither end of a new link is already linked to a different live component: the child has no
      other live parent, and a live parent no other live child. */
  predicate Unclaimed(m: Links, parent: Option<ObjId>, child: ObjId, live: set<ObjId>) {
    && (child in m.childToParent && Alive(m.childToParent[child], live) ==> m.childToParent[child] == parent)
    && (Alive(parent, live) && parent.value in m.parentToChild && Alive(m.parentToChild[parent.value], live) ==>
          m.parentToChild[parent.value] == Some(child))
  }

  /** Registering a link between unclaimed ends keeps the two dictionaries in agreement. */
  lemma RegisterKeepsConsistent(m: Links, parent: Option<ObjId>, child: ObjId, live: set<ObjId>)
    requires Consistent(m, live) && Unclaimed(m, parent, child, live)
    ensures Consistent(RegisterParentChild(m, parent, child, live), live)
  {
    var r := RegisterParentChild(m, parent, child, live);
    forall x | x in r.childToParent && x in live && Alive(r.childToParent[x], live)
      ensures r.childToParent[x].value in r.parentToChild && r.parentToChild[r.childToParent[x].value] == Some(x)
    {
      if x != child {
        var p := m.childToParent[x].value;
        assert m.parentToChild[p] == Some(x);
        assert !(Alive(parent, live) && parent.value == p);
      }
    }
    forall y | y in r.parentToChild && y in live && Alive(r.parentToChild[y], live)
      ensures r.parentToChild[y].value in r.childToParent && r.childToParent[r.parentToChild[y].value] == Some(y)
    {
      if !(Alive(parent, live) && y == parent.value) {
        var c := m.parentToChild[y].value;
        assert m.childToParent[c] == Some(y);
        assert c != child;
      }
    }
  }

  /** The same source cloned twice: the first registration keeps the dictionaries in agreement, but
      the second finds the source already linked to the first clone, and afterwards the first clone
      names the source as parent while the source names only the second clone. */
  lemma SecondCloneBreaksConsistent()
    ensures var live := {1, 2, 3};
            var once := RegisterParentChild(Links(map[], map[]), Some(1), 2, live);
            && Consistent(once, live)
            && !Unclaimed(once, Some(1), 3, live)
            && !Consistent(RegisterParentChild(once, Some(1), 3, live), live)
  {
    var live := {1, 2, 3};
    var once := RegisterParentChild(Links(map[], map[]), Some(1), 2, live);
    RegisterKeepsConsistent(Links(map[], map[]), Some(1), 2, live);
    var twice := RegisterParentChild(once, Some(1), 3, live);
    assert twice.childToParent[2] == Some(1) && twice.parentToChild[1] == Some(3);
  }

  /** On consistent maps, removal keeps them consistent and never adds a key: stitching only rewrites
      entries of the neighbours, which are keys already. */
  lemma RemoveKeepsConsistent(m: Links, comp: ObjId, live: set<ObjId>)
    requires Consistent(m, live) && comp in live
    ensures var r := RemoveComponentFromMap(m, Some(comp), live);
            && Consistent(r, live)
            && r.childToParent.Keys <= m.childToParent.Keys
            && r.parentToChild.Keys <= m.parentToChild.Keys
  {
    var r := RemoveComponentFromMap(m, Some(comp), live);
    var hasParent := comp in m.childToParent;
    var hasChild := comp in m.parentToChild;
    var parent := if hasParent then m.childToParent[comp] else None;
    var child := if hasChild then m.parentToChild[comp] else None;
    if Alive(parent, live) {
      assert m.parentToChild[parent.value] == Some(comp);
    }
    if Alive(child, live) {
      assert m.childToParent[child.value] == Some(comp);
    }
    forall x | x in r.childToParent && x in live && Alive(r.childToParent[x], live)
      ensures r.childToParent[x].value in r.parentToChild && r.parentToChild[r.childToParent[x].value] == Some(x)
    {
      if !(Alive(child, live) && x == child.value) {
        assert r.childToParent[x] == m.childToParent[x];
        var y := m.childToParent[x].value;
        assert m.parentToChild[y] == Some(x);
      }
    }
    forall y | y in r.parentToChild && y in live && Alive(r.parentToChild[y], live)
      ensures r.parentToChild[y].value in r.childToParent && r.childToParent[r.parentToChild[y].value] == Some(y)
    {
      if !(Alive(parent, live) && y == parent.value) {
        assert r.parentToChild[y] == m.parentToChild[y];
        var x := m.parentToChild[y].value;
        assert m.childToParent[x] == Some(y);
      }
    }
  }

  /** On consistent maps, removing a list of live components unlinks every one of them: a removed
      component is never written back by a later stitch. */
  lemma {:induction false} RemoveAllUnlinks(m: Links, comps: seq<ObjId>, live: set<ObjId>)
    requires Consistent(m, live)
    requires forall i :: 0 <= i < |comps| ==> comps[i] in live
    ensures var r := RemoveAll(m, comps, live);
            && Consistent(r, live)
            && r.childToParent.Keys <= m.childToParent.Keys
            && r.parentToChild.Keys <= m.parentToChild.Keys
            && forall i :: 0 <= i < |comps| ==> comps[i] !in r.childToParent && comps[i] !in r.parentToChild
    decreases |comps|
  {
    if comps != [] {
      var m' := RemoveComponentFromMap(m, Some(comps[0]), live);
      RemoveKeepsConsistent(m, comps[0], live);
      RemoveAllUnlinks(m', comps[1..], live);
      assert forall i :: 1 <= i < |comps| ==> comps[i] == comps[1..][i - 1];
    }
  }

  /* ----- Prune ----- */

  /** What `Prune` leaves of one dictionary: live keys only, with every null or destroyed value
      replaced by null. */
  function Pruned(d: map<ObjId, Option<ObjId>>, live: set<ObjId>): (r: map<ObjId, Option<ObjId>>)
    ensures r.Keys == d.Keys * live
    ensures forall k :: k in r ==> r[k] == (if Alive(d[k], live) then d[k] else None)
  {
    map k | k in d && k in live :: if Alive(d[k], live) then d[k] else None
  }

  lemma NonEmpty(s: set<ObjId>)
    requires s != {}
    ensures exists k :: k in s
  {
    if forall k :: k !in s {
      assert false;
    }
  }

  /** The first loop of `Prune` over one dictionary: dead keys to remove, live keys whose value is
      null or dead to nullify. */
  method CollectDead(d: map<ObjId, Option<ObjId>>, live: set<ObjId>) returns (remove: set<ObjId>, nullify: set<ObjId>)
    ensures remove == d.Keys - live
    ensures nullify == set k | k in d && k in live && !Alive(d[k], live)
  {
    remove, nullify := {}, {};
    var todo := d.Keys;
    while todo != {}
      invariant todo <= d.Keys
      invariant remove == (d.Keys - todo) - live
      invariant nullify == set k | k in d && k !in todo && k in live && !Alive(d[k], live)
      decreases todo
    {
      NonEmpty(todo);
      var k :| k in todo;
      if k !in live {
        remove := remove + {k};
      } else if !Alive(d[k], live) {
        nullify := nullify + {k};
      }
      todo := todo - {k};
    }
  }

  /** The removal and nullification loops. */
  method Apply(d: map<ObjId, Option<ObjId>>, remove: set<ObjId>, nullify: set<ObjId>) returns (r: map<ObjId, Option<ObjId>>)
    requires nullify <= d.Keys && remove !! nullify
    ensures r.Keys == d.Keys - remove
    ensures forall k :: k in r ==> r[k] == (if k in nullify then None else d[k])
  {
    r := d;
    var todo := remove;
    while todo != {}
      invariant todo <= remove
      invariant r.Keys == d.Keys - (remove - todo)
      invariant forall k :: k in r ==> r[k] == d[k]
      decreases todo
    {
      NonEmpty(todo);
      var k :| k in todo;
      r := r - {k};
      todo := todo - {k};
    }
    todo := nullify;
    while todo != {}
      invariant todo <= nullify
      invariant r.Keys == d.Keys - remove
      invariant forall k :: k in r ==> r[k] == (if k in nullify - todo then None else d[k])
      decreases todo
    {
      NonEmpty(todo);
      var k :| k in todo;
      r := r[k := None];
      todo := todo - {k};
    }
  }

  /** `Prune` of one dictionary. */
  method PruneMap(d: map<ObjId, Option<ObjId>>, live: set<ObjId>) returns (r: map<ObjId, Option<ObjId>>)
    ensures r == Pruned(d, live)
  {
    var remove, nullify := CollectDead(d, live);
    r := Apply(d, remove, nullify);
    assert r.Keys == Pruned(d, live).Keys;
    assert forall k :: k in r ==> r[k] == Pruned(d, live)[k];
  }

  /** `Prune`: both dictionaries. */
  method Prune(m: Links, live: set<ObjId>) returns (r: Links)
    ensures r == PrunedLinks(m, live)
  {
    var c2p := PruneMap(m.childToParent, live);
    var p2c := PruneMap(m.parentToChild, live);
    r := Links(c2p, p2c);
  }

  /** The links `Prune` leaves. */
  function PrunedLinks(m: Links, live: set<ObjId>): (r: Links)
    ensures r.childToParent.Keys == m.childToParent.Keys * live
    ensures r.parentToChild.Keys == m.parentToChild.Keys * live
  {
    Links(Pruned(m.childToParent, live), Pruned(m.parentToChild, live))
  }

  /** Pruning keeps consistent maps consistent. */
  lemma PruneKeepsConsistent(m: Links, live: set<ObjId>)
    requires Consistent(m, live)
    ensures Consistent(PrunedLinks(m, live), live)
  {
    var r := PrunedLinks(m, live);
    forall x | x in r.childToParent && x in live && Alive(r.childToParent[x], live)
      ensures r.childToParent[x].value in r.parentToChild && r.parentToChild[r.childToParent[x].value] == Some(x)
    {
      assert r.childToParent[x] == m.childToParent[x];
    }
    forall y | y in r.parentToChild && y in live && Alive(r.parentToChild[y], live)
      ensures r.parentToChild[y].value in r.childToParent && r.childToParent[r.parentToChild[y].value] == Some(y)
    {
      assert r.parentToChild[y] == m.parentToChild[y];
    }
  }

  /** Pruning keeps live-to-live entries untouched and is idempotent. */
  lemma PrunedKeepsLiveLinks(d: map<ObjId, Option<ObjId>>, live: set<ObjId>)
    ensures forall k :: k in d && k in live && Alive(d[k], live) ==> k in Pruned(d, live) && Pruned(d, live)[k] == d[k]
    ensures Pruned(Pruned(d, live), live) == Pruned(d, live)
  {
  }
}

=== FILE: contract_resolver.dfy ===
/** `UnityContractResolver`: which members of a type the JSON serializer sees.

    `baseProp` and `baseProps` are Newtonsoft's own `CreateProperty` and `CreateProperties`;
    `fieldsOf` is `AccessTools.GetDeclaredFields`. The property cache is keyed by type; the list it
    holds is the very list the walk appends to, so it ends up holding the final result.
 */
module ContractResolver {
  import opened Wrappers
  import opened Types
  import opened AssemblyUtils
  import VRC = ValueReferenceConverter

  datatype JsonProperty = JsonProperty(declaring: Ty, name: string, propertyType: Ty,
                                       isReference: bool, itemIsReference: bool, unityConverter: bool,
                                       readable: bool, writable: bool)

  /** `CreateProperty`: drops `[NonSerialized]` members, and properties and backing fields declared
      outside Unity assemblies; marks `[SerializeReference]` members as references; attaches the
      Unity converter where it applies. */
  function CreateProperty(m: Member, baseProp: Member -> JsonProperty, sep: char): (r: Option<JsonProperty>)
    ensures r.None? <==>
              || NonSerializedAttr in m.attrs
              || (!UnityAssemblyVerdict(m.declaring.assembly, sep) && (m.isProperty || BackingField in m.attrs))
    ensures r.Some? ==>
              var p := baseProp(m);
              && r.value.(isReference := p.isReference, itemIsReference := p.itemIsReference,
                          unityConverter := p.unityConverter) == p
              && (r.value.isReference <==> p.isReference || SerializeReferenceAttr in m.attrs)
              && (r.value.itemIsReference <==> p.itemIsReference || SerializeReferenceAttr in m.attrs)
              && (r.value.unityConverter <==> p.unityConverter || VRC.CanConvert(p.propertyType))
  {
    if NonSerializedAttr in m.attrs then None
    else if !UnityAssemblyVerdict(m.declaring.assembly, sep) && (m.isProperty || BackingField in m.attrs) then None
    else
      var p := baseProp(m);
      var p := if SerializeReferenceAttr in m.attrs then p.(isReference := true, itemIsReference := true) else p;
      Some(if VRC.CanConvert(p.propertyType) then p.(unityConverter := true) else p)
  }

  /** A component-typed member of a component type: Unity serializes those itself. */
  predicate ComponentPair(declaring: Ty, memberType: Ty) {
    IsUnityComponentType(declaring) && IsUnityComponentType(memberType)
  }

  /** Reference definition of the base-property filter: drop component pairs, keep the order. */
  function Filter(props: seq<JsonProperty>): (r: seq<JsonProperty>)
    ensures |r| <= |props|
  {
    if props == [] then []
    else if ComponentPair(props[0].declaring, props[0].propertyType) then Filter(props[1..])
    else [props[0]] + Filter(props[1..])
  }

  /** The filter keeps exactly the properties that are not component pairs. */
  lemma {:induction false} FilterMembers(props: seq<JsonProperty>)
    ensures forall p :: p in Filter(props) <==> p in props && !ComponentPair(p.declaring, p.propertyType)
    decreases |props|
  {
    if props != [] {
      FilterMembers(props[1..]);
      assert props == [props[0]] + props[1..];
    }
  }

  /** The loop of `GetPropertiesFromCache`: from the last index down, `RemoveAt` every component pair. */
  method RemoveComponentPairs(props: seq<JsonProperty>) returns (r: seq<JsonProperty>)
    ensures r == Filter(props)
  {
    r := props;
    var i := |props| - 1;
    assert props[|props|..] == [];
    while i >= 0
      invariant -1 <= i < |props|
      invariant r == props[..i + 1] + Filter(props[i + 1..])
    {
      RemoveStep(props, i, r);
      if ComponentPair(r[i].declaring, r[i].propertyType) {
        r := r[..i] + r[i + 1..];
      }
      i := i - 1;
    }
    assert props[0..] == props;
  }

  /** One step of the removal loop: removing the entry at `i` when it is a component pair leaves
      the unvisited prefix followed by the filtered suffix from `i` on. */
  lemma RemoveStep(props: seq<JsonProperty>, i: nat, r: seq<JsonProperty>)
    requires i < |props| && r == props[..i + 1] + Filter(props[i + 1..])
    ensures r[i] == props[i]
    ensures (if ComponentPair(props[i].declaring, props[i].propertyType) then r[..i] + r[i + 1..] else r)
            == props[..i] + Filter(props[i..])
  {
    var tail := Filter(props[i + 1..]);
    assert props[i..][1..] == props[i + 1..];
    assert props[..i + 1] == props[..i] + [props[i]];
    if ComponentPair(props[i].declaring, props[i].propertyType) {
      assert r[..i] == props[..i];
      assert r[i + 1..] == tail;
    } else {
      AppendAssoc(props[..i], [props[i]], tail);
    }
  }

  /** `GetPropertiesFromCache`: a cached type answers with its list; otherwise the filtered base
      properties are cached and returned. A null cache is read safely but written through, so a miss
      throws. The result is the list, whether it came from the cache, and the cache after the call. */
  function GetPropertiesFromCache(cache: Option<map<Ty, seq<JsonProperty>>>, t: Ty, baseProps: Ty -> seq<JsonProperty>)
    : (r: Result<(seq<JsonProperty>, bool, Option<map<Ty, seq<JsonProperty>>>)>)
    ensures cache.Some? && t in cache.value <==> r.Ok? && r.value.1
    ensures r.Ok? && r.value.1 ==> r.value.0 == cache.value[t] && r.value.2 == cache
    ensures r.Err? <==> cache.None?
    ensures r.Err? ==> r.error == NullReference
    ensures r.Ok? && !r.value.1 ==>
              && r.value.0 == Filter(baseProps(t))
              && r.value.2 == Some(cache.value[t := r.value.0])
  {
    if cache.Some? && t in cache.value then Ok((cache.value[t], true, cache))
    else if cache.None? then Err(NullReference)
    else
      var props := Filter(baseProps(t));
      Ok((props, false, Some(cache.value[t := props])))
  }

  /** The deduplication key: declaring type name, a dot, and the property name. */
  function Key(p: JsonProperty): string {
    p.declaring.name + "." + p.name
  }

  function Keys(ps: seq<JsonProperty>): set<string> {
    set p | p in ps :: Key(p)
  }

  /** What the walk makes of one declared field: nothing for static or public fields, for fields
      without `[SerializeField]` or `[SerializeReference]`, for component pairs and for fields
      `CreateProperty` drops; otherwise the property, forced readable and writable. */
  function Candidate(f: Member, baseProp: Member -> JsonProperty, sep: char): (r: Option<JsonProperty>)
    ensures r.Some? ==> && !f.isStatic && !f.isPublic
                        && (SerializeFieldAttr in f.attrs || SerializeReferenceAttr in f.attrs)
                        && !ComponentPair(f.declaring, f.memberType)
                        && CreateProperty(f, baseProp, sep).Some?
                        && r.value == CreateProperty(f, baseProp, sep).value.(readable := true, writable := true)
    ensures (&& r.None? && !f.isStatic && !f.isPublic
             && (SerializeFieldAttr in f.attrs || SerializeReferenceAttr in f.attrs)
             && !ComponentPair(f.declaring, f.memberType)) ==> CreateProperty(f, baseProp, sep).None?
  {
    if f.isStatic || f.isPublic then None
    else if SerializeFieldAttr !in f.attrs && SerializeReferenceAttr !in f.attrs then None
    else if ComponentPair(f.declaring, f.memberType) then None
    else
      match CreateProperty(f, baseProp, sep)
      case None => None
      case Some(p) => Some(p.(readable := true, writable := true))
  }

  /** No property at or after `from` repeats the key of any earlier one. */
  predicate FreshFrom(ps: seq<JsonProperty>, from: int) {
    forall j, k :: 0 <= j < k < |ps| && from <= k ==> Key(ps[j]) != Key(ps[k])
  }

  /** One iteration of the inner loop: the field's candidate is appended unless its key is taken. */
  function AddOne(props: seq<JsonProperty>, f: Member, baseProp: Member -> JsonProperty, sep: char): seq<JsonProperty> {
    var c := Candidate(f, baseProp, sep);
    if c.Some? && Key(c.value) !in Keys(props) then props + [c.value] else props
  }

  /** The inner loop over one type's declared fields. */
  function AddFields(props: seq<JsonProperty>, fields: seq<Member>, baseProp: Member -> JsonProperty, sep: char)
    : (r: seq<JsonProperty>)
    decreases |fields|
  {
    if fields == [] then props
    else AddFields(AddOne(props, fields[0], baseProp, sep), fields[1..], baseProp, sep)
  }

  lemma PrefixKeys(a: seq<JsonProperty>, b: seq<JsonProperty>)
    requires a <= b
    ensures Keys(a) <= Keys(b)
  {
    forall p | p in a ensures p in b {
      var j :| 0 <= j < |a| && a[j] == p;
      assert b[j] == p;
    }
  }

  /** The inner loop only appends. */
  lemma {:induction false} AddFieldsGrows(props: seq<JsonProperty>, fields: seq<Member>, baseProp: Member -> JsonProperty, sep: char)
    ensures props <= AddFields(props, fields, baseProp, sep)
    decreases |fields|
  {
    if fields != [] {
      AddFieldsGrows(AddOne(props, fields[0], baseProp, sep), fields[1..], baseProp, sep);
    }
  }

  /** What the inner loop appends is readable and writable and comes from an admitted field. */
  lemma {:induction false} AddFieldsOrigin(props: seq<JsonProperty>, fields: seq<Member>, baseProp: Member -> JsonProperty, sep: char)
    ensures var r := AddFields(props, fields, baseProp, sep);
            forall j :: |props| <= j < |r| ==>
              r[j].readable && r[j].writable &&
              exists i :: 0 <= i < |fields| && Candidate(fields[i], baseProp, sep) == Some(r[j])
    decreases |fields|
  {
    if fields != [] {
      var props' := AddOne(props, fields[0], baseProp, sep);
      var rest := fields[1..];
      AddFieldsOrigin(props', rest, baseProp, sep);
      AddFieldsGrows(props', rest, baseProp, sep);
      var r := AddFields(props', rest, baseProp, sep);
      forall j | |props| <= j < |r|
        ensures r[j].readable && r[j].writable
        ensures exists i :: 0 <= i < |fields| && Candidate(fields[i], baseProp, sep) == Some(r[j])
      {
        if j < |props'| {
          assert r[j] == props'[j] == Candidate(fields[0], baseProp, sep).value;
        } else {
          var i :| 0 <= i < |rest| && Candidate(rest[i], baseProp, sep) == Some(r[j]);
          assert fields[i + 1] == rest[i];
        }
      }
    }
  }

  /** Every admitted field's key is present after the inner loop, and no key is lost. */
  lemma {:induction false} AddFieldsKeys(props: seq<JsonProperty>, fields: seq<Member>, baseProp: Member -> JsonProperty, sep: char)
    ensures var r := AddFields(props, fields, baseProp, sep);
            && (forall i :: 0 <= i < |fields| && Candidate(fields[i], baseProp, sep).Some? ==>
                  Key(Candidate(fields[i], baseProp, sep).value) in Keys(r))
            && Keys(props) <= Keys(r)
    decreases |fields|
  {
    if fields != [] {
      var c := Candidate(fields[0], baseProp, sep);
      var props' := AddOne(props, fields[0], baseProp, sep);
      var rest := fields[1..];
      AddFieldsKeys(props', rest, baseProp, sep);
      PrefixKeys(props, props');
      if c.Some? && Key(c.value) !in Keys(props) {
        assert props'[|props|] == c.value;
      }
      forall i | 1 <= i < |fields|
        ensures fields[i] == rest[i - 1]
      {
      }
    }
  }

  /** The inner loop repeats no key: what it appends differs in key from everything before it. */
  lemma {:induction false} AddFieldsFresh(props: seq<JsonProperty>, fields: seq<Member>, baseProp: Member -> JsonProperty, sep: char)
    requires FreshFrom(props, |props|)
    ensures FreshFrom(AddFields(props, fields, baseProp, sep), |props|)
    decreases |fields|
  {
    if fields != [] {
      var c := Candidate(fields[0], baseProp, sep);
      var props' := AddOne(props, fields[0], baseProp, sep);
      var rest := fields[1..];
      assert FreshFrom(props', |props|) by {
        if props' != props {
          forall j | 0 <= j < |props| ensures Key(props[j]) != Key(c.value) {
            assert props[j] in props;
          }
        }
      }
      AddFieldsFresh(props', rest, baseProp, sep);
      AddFieldsGrows(props', rest, baseProp, sep);
      var r := AddFields(props', rest, baseProp, sep);
      forall j, k | 0 <= j < k < |r| && |props| <= k ensures Key(r[j]) != Key(r[k]) {
        if k < |props'| {
          assert r[j] == props'[j] && r[k] == props'[k];
        }
      }
    }
  }

  /** The inner loop only appends; what it appends comes from admitted fields, is readable and
      writable, and repeats no earlier key; and every admitted field's key ends up present. */
  lemma AddFieldsMeaning(props: seq<JsonProperty>, fields: seq<Member>, baseProp: Member -> JsonProperty, sep: char)
    ensures var r := AddFields(props, fields, baseProp, sep);
            && props <= r
            && (forall j :: |props| <= j < |r| ==>
                  r[j].readable && r[j].writable &&
                  exists i :: 0 <= i < |fields| && Candidate(fields[i], baseProp, sep) == Some(r[j]))
            && (FreshFrom(props, |props|) ==> FreshFrom(r, |props|))
            && (forall i :: 0 <= i < |fields| && Candidate(fields[i], baseProp, sep).Some? ==>
                  Key(Candidate(fields[i], baseProp, sep).value) in Keys(r))
            && Keys(props) <= Keys(r)
  {
    AddFieldsGrows(props, fields, baseProp, sep);
    AddFieldsOrigin(props, fields, baseProp, sep);
    AddFieldsKeys(props, fields, baseProp, sep);
    if FreshFrom(props, |props|) {
      AddFieldsFresh(props, fields, baseProp, sep);
    }
  }

  /** The outer loop: `cur`'s declared fields, then its base type's, up to `System.Object` or null. */
  function WalkTypes(props: seq<JsonProperty>, cur: Option<Ty>, fieldsOf: Ty -> seq<Member>,
                     baseProp: Member -> JsonProperty, sep: char): (r: seq<JsonProperty>)
    decreases cur
  {
    if cur.None? || cur.value.Is(SystemObject) then props
    else WalkTypes(AddFields(props, fieldsOf(cur.value), baseProp, sep), cur.value.base, fieldsOf, baseProp, sep)
  }

  /** Whether `f` is a field declared by a type on the walk from `cur`. */
  predicate OnWalk(f: Member, cur: Option<Ty>, fieldsOf: Ty -> seq<Member>)
    decreases cur
  {
    if cur.None? || cur.value.Is(SystemObject) then false
    else f in fieldsOf(cur.value) || OnWalk(f, cur.value.base, fieldsOf)
  }

  /** `p` is readable and writable and is the property of an admitted field declared on the walk
      from `cur`. */
  ghost predicate FromWalk(p: JsonProperty, cur: Option<Ty>, fieldsOf: Ty -> seq<Member>, baseProp: Member -> JsonProperty, sep: char) {
    p.readable && p.writable && exists f :: OnWalk(f, cur, fieldsOf) && Candidate(f, baseProp, sep) == Some(p)
  }

  /** The walk only appends. */
  lemma {:induction false} WalkGrows(props: seq<JsonProperty>, cur: Option<Ty>, fieldsOf: Ty -> seq<Member>,
                                     baseProp: Member -> JsonProperty, sep: char)
    ensures props <= WalkTypes(props, cur, fieldsOf, baseProp, sep)
    decreases cur
  {
    if cur.Some? && !cur.value.Is(SystemObject) {
      var props' := AddFields(props, fieldsOf(cur.value), baseProp, sep);
      AddFieldsGrows(props, fieldsOf(cur.value), baseProp, sep);
      WalkGrows(props', cur.value.base, fieldsOf, baseProp, sep);
    }
  }

  /** What the walk appends is readable and writable and comes from an admitted field on the walk. */
  lemma {:induction false} WalkOrigin(props: seq<JsonProperty>, cur: Option<Ty>, fieldsOf: Ty -> seq<Member>,
                                      baseProp: Member -> JsonProperty, sep: char)
    ensures var r := WalkTypes(props, cur, fieldsOf, baseProp, sep);
            forall j :: |props| <= j < |r| ==>
              FromWalk(r[j], cur, fieldsOf, baseProp, sep)
    decreases cur
  {
    if cur.Some? && !cur.value.Is(SystemObject) {
      var fields := fieldsOf(cur.value);
      var props' := AddFields(props, fields, baseProp, sep);
      AddFieldsMeaning(props, fields, baseProp, sep);
      WalkOrigin(props', cur.value.base, fieldsOf, baseProp, sep);
      WalkGrows(props', cur.value.base, fieldsOf, baseProp, sep);
      var r := WalkTypes(props', cur.value.base, fieldsOf, baseProp, sep);
      assert r == WalkTypes(props, cur, fieldsOf, baseProp, sep);
      forall j | |props| <= j < |r|
        ensures FromWalk(r[j], cur, fieldsOf, baseProp, sep)
      {
        if j < |props'| {
          assert r[j] == props'[j];
          var i :| 0 <= i < |fields| && Candidate(fields[i], baseProp, sep) == Some(r[j]);
          assert OnWalk(fields[i], cur, fieldsOf);
        } else {
          var f :| OnWalk(f, cur.value.base, fieldsOf) && Candidate(f, baseProp, sep) == Some(r[j]);
          assert OnWalk(f, cur, fieldsOf);
        }
      }
    }
  }

  /** Every admitted field on the walk has its key present afterwards, and no key is lost. */
  lemma {:induction false} WalkKeys(props: seq<JsonProperty>, cur: Option<Ty>, fieldsOf: Ty -> seq<Member>,
                                    baseProp: Member -> JsonProperty, sep: char)
    ensures var r := WalkTypes(props, cur, fieldsOf, baseProp, sep);
            && (forall f :: OnWalk(f, cur, fieldsOf) && Candidate(f, baseProp, sep).Some? ==>
                  Key(Candidate(f, baseProp, sep).value) in Keys(r))
            && Keys(props) <= Keys(r)
    decreases cur
  {
    if cur.Some? && !cur.value.Is(SystemObject) {
      var fields := fieldsOf(cur.value);
      var props' := AddFields(props, fields, baseProp, sep);
      AddFieldsKeys(props, fields, baseProp, sep);
      WalkKeys(props', cur.value.base, fieldsOf, baseProp, sep);
      forall f | OnWalk(f, cur, fieldsOf) && Candidate(f, baseProp, sep).Some? && f in fields
        ensures Key(Candidate(f, baseProp, sep).value) in Keys(props')
      {
        var i :| 0 <= i < |fields| && fields[i] == f;
      }
    }
  }

  /** The walk repeats no key: what it appends differs in key from everything before it. */
  lemma {:induction false} WalkFresh(props: seq<JsonProperty>, cur: Option<Ty>, fieldsOf: Ty -> seq<Member>,
                                     baseProp: Member -> JsonProperty, sep: char)
    requires FreshFrom(props, |props|)
    ensures FreshFrom(WalkTypes(props, cur, fieldsOf, baseProp, sep), |props|)
    decreases cur
  {
    if cur.Some? && !cur.value.Is(SystemObject) {
      var props' := AddFields(props, fieldsOf(cur.value), baseProp, sep);
      AddFieldsFresh(props, fieldsOf(cur.value), baseProp, sep);
      AddFieldsGrows(props, fieldsOf(cur.value), baseProp, sep);
      assert FreshFrom(props', |props'|);
      WalkFresh(props', cur.value.base, fieldsOf, baseProp, sep);
      WalkGrows(props', cur.value.base, fieldsOf, baseProp, sep);
      var r := WalkTypes(props', cur.value.base, fieldsOf, baseProp, sep);
      forall j, k | 0 <= j < k < |r| && |props| <= k ensures Key(r[j]) != Key(r[k]) {
        if k < |props'| {
          assert r[j] == props'[j] && r[k] == props'[k];
        }
      }
    }
  }

  /** The walk only appends; what it appends comes from admitted fields on the walk, is readable and
      writable, and repeats no earlier key; every admitted field on the walk has its key present. */
  lemma WalkTypesMeaning(props: seq<JsonProperty>, cur: Option<Ty>, fieldsOf: Ty -> seq<Member>,
                         baseProp: Member -> JsonProperty, sep: char)
    ensures var r := WalkTypes(props, cur, fieldsOf, baseProp, sep);
            && props <= r
            && (forall j :: |props| <= j < |r| ==>
                  FromWalk(r[j], cur, fieldsOf, baseProp, sep))
            && (FreshFrom(props, |props|) ==> FreshFrom(r, |props|))
            && (forall f :: OnWalk(f, cur, fieldsOf) && Candidate(f, baseProp, sep).Some? ==>
                  Key(Candidate(f, baseProp, sep).value) in Keys(r))
  {
    WalkGrows(props, cur, fieldsOf, baseProp, sep);
    WalkOrigin(props, cur, fieldsOf, baseProp, sep);
    WalkKeys(props, cur, fieldsOf, baseProp, sep);
    if FreshFrom(props, |props|) {
      WalkFresh(props, cur, fieldsOf, baseProp, sep);
    }
  }

  /** `CreateProperties`: the cached list when there is one; otherwise the filtered base properties
      followed by the walk's additions, and the cache entry for the type holds that same final list.
      Returns the list and the cache after the call. */
  function CreateProperties(cache: Option<map<Ty, seq<JsonProperty>>>, t: Ty, baseProps: Ty -> seq<JsonProperty>,
                            fieldsOf: Ty -> seq<Member>, baseProp: Member -> JsonProperty, sep: char)
    : (r: Result<(seq<JsonProperty>, Option<map<Ty, seq<JsonProperty>>>)>)
    ensures cache.Some? && t in cache.value ==> r == Ok((cache.value[t], cache))
    ensures cache.None? ==> r == Err(NullReference)
    ensures r.Ok? ==> r.value.1.Some? && t in r.value.1.value && r.value.1.value[t] == r.value.0
  {
    var (props, usedCache, cache') :- GetPropertiesFromCache(cache, t, baseProps);
    if usedCache then Ok((props, cache'))
    else
      var final := WalkTypes(props, Some(t), fieldsOf, baseProp, sep);
      Ok((final, Some(cache'.value[t := final])))
  }

  /** On a cache miss the result starts with the filtered base properties, every addition comes from
      an admitted field of the type or an ancestor below `System.Object`, is readable and writable,
      and repeats no key seen before it; every admitted field's key is present. */
  lemma CreatePropertiesMeaning(cache: map<Ty, seq<JsonProperty>>, t: Ty, baseProps: Ty -> seq<JsonProperty>,
                                fieldsOf: Ty -> seq<Member>, baseProp: Member -> JsonProperty, sep: char)
    requires t !in cache
    ensures var r := CreateProperties(Some(cache), t, baseProps, fieldsOf, baseProp, sep);
            var base := Filter(baseProps(t));
            && r.Ok?
            && base <= r.value.0
            && (forall j :: |base| <= j < |r.value.0| ==>
                  FromWalk(r.value.0[j], Some(t), fieldsOf, baseProp, sep))
            && (FreshFrom(base, |base|) ==> FreshFrom(r.value.0, |base|))
            && (forall f :: OnWalk(f, Some(t), fieldsOf) && Candidate(f, baseProp, sep).Some? ==>
                  Key(Candidate(f, baseProp, sep).value) in Keys(r.value.0))
            && r.value.1 == Some(cache[t := r.value.0])
  {
    var base := Filter(baseProps(t));
    WalkTypesMeaning(base, Some(t), fieldsOf, baseProp, sep);
    var final := WalkTypes(base, Some(t), fieldsOf, baseProp, sep);
    assert GetPropertiesFromCache(Some(cache), t, baseProps) == Ok((base, false, Some(cache[t := base])));
    assert CreateProperties(Some(cache), t, baseProps, fieldsOf, baseProp, sep)
        == Ok((final, Some(cache[t := base][t := final])));
    assert cache[t := base][t := final] == cache[t := final];
  }

  /** A second call for the same type answers from the cache with the same list. */
  lemma CreatePropertiesCached(cache: map<Ty, seq<JsonProperty>>, t: Ty, baseProps: Ty -> seq<JsonProperty>,
                               fieldsOf: Ty -> seq<Member>, baseProp: Member -> JsonProperty, sep: char)
    ensures var r1 := CreateProperties(Some(cache), t, baseProps, fieldsOf, baseProp, sep);
            var r2 := CreateProperties(r1.value.1, t, baseProps, fieldsOf, baseProp, sep);
            r1.Ok? && r2 == r1
  {
    var r1 := CreateProperties(Some(cache), t, baseProps, fieldsOf, baseProp, sep);
    assert r1.Ok? && r1.value.1.Some? && t in r1.value.1.value;
  }
}

=== FILE: game_object_mapper.dfy ===
/** The `Instantiate` prefix and postfix of `GameObjectMapper`.

    The prefix walks the source hierarchy: it refreshes every GameObject's ComponentMap, and each
    GameObject not yet in `ContainerMap` is evaluated (every component's type registered) and entered
    as `(null, worth)`, with a SerializationHandler added when it is worth bridging.

    The postfix pairs the source and clone hierarchies by position: each clone is entered, each tracked
    source gets its forward and back links, the components of the two ComponentMaps are paired by
    index, and the clones' handlers run their lifecycle callbacks after the whole loop.

    `Instantiate` itself (copying the ComponentMap and the handler onto the clone) happens between
    the two and is outside the model: the postfix receives the state after it.
 */
module GameObjectMapper {
  import opened Wrappers
  import opened Types
  import opened UnityObjects
  import opened AssemblyUtils
  import SR = SerializationRegistry
  import CM = ComponentMapper
  import GM = GameObjectMaps
  import CMap = ComponentMap

  /** Host queries. */
  datatype Scene = Scene(
    live: set<ObjId>,
    hierarchyOf: ObjId -> seq<ObjId>,  // GameObjects of GetComponentsInChildren<Transform>(true), root first
    componentsOf: ObjId -> seq<ObjId>, // GetComponents<Component>()
    mapIdOf: ObjId -> ObjId,           // the GameObject's ComponentMap, found or added
    typeOf: ObjId -> Ty,               // GetType() of a component
    fieldsOf: Ty -> seq<Member>,
    sep: char)

  /** The bookkeeping the patches change: the GameObject chains, the component links, each
      GameObject's ComponentMap list (a key iff it has a ComponentMap), the GameObjects carrying a
      SerializationHandler, and the registry. */
  datatype Mapper = Mapper(chains: GM.Chains, links: CM.Links, maps: map<ObjId, seq<ObjId>>,
                           handlers: set<ObjId>, reg: SR.Registry)

  /** `EvaluateTypeRegistering`: game-assembly types are never registered; any other type gets the
      registry's verdict. */
  function EvaluateTypeRegistering(reg: SR.Registry, t: Ty, fieldsOf: Ty -> seq<Member>, sep: char)
    : (r: (Result<bool>, SR.Registry))
    ensures IsFromGameAssemblies(t, sep) ==> r == (Ok(false), reg)
    ensures !IsFromGameAssemblies(t, sep) ==> r == SR.Register(reg, t, fieldsOf, sep) && t in r.1.cache
    ensures reg.cache.Keys <= r.1.cache.Keys && reg.targets <= r.1.targets
  {
    SR.RegisterCaches(reg, t, fieldsOf, sep);
    if IsFromGameAssemblies(t, sep) then (Ok(false), reg)
    else SR.Register(reg, t, fieldsOf, sep)
  }

  /** The loop over a ComponentMap's list: every component is evaluated, even after one was found
      worth bridging, and the verdicts are OR-ed. */
  function Evaluate(reg: SR.Registry, comps: seq<ObjId>, worth: bool, typeOf: ObjId -> Ty,
                    fieldsOf: Ty -> seq<Member>, sep: char): (r: (Result<bool>, SR.Registry))
    ensures reg.cache.Keys <= r.1.cache.Keys && reg.targets <= r.1.targets
    ensures r.0.Ok? ==> forall i :: 0 <= i < |comps| && !IsFromGameAssemblies(typeOf(comps[i]), sep) ==>
                          typeOf(comps[i]) in r.1.cache
    ensures r.0.Ok? && worth ==> r.0.value
    ensures r.0 == Ok(true) && !worth ==> exists i :: 0 <= i < |comps| && !IsFromGameAssemblies(typeOf(comps[i]), sep)
    decreases |comps|
  {
    if comps == [] then (Ok(worth), reg)
    else
      var (res, reg') := EvaluateTypeRegistering(reg, typeOf(comps[0]), fieldsOf, sep);
      match res
      case Err(e) => (Err(e), reg')
      case Ok(w) =>
        assert forall i :: 1 <= i < |comps| ==> comps[i] == comps[1..][i - 1];
        Evaluate(reg', comps[1..], worth || w, typeOf, fieldsOf, sep)
  }

  /** One GameObject of the prefix's loop: its ComponentMap is refreshed; unless it is already in
      `ContainerMap` it is evaluated, entered as `(null, worth)`, and given a handler when worth.
      An exception in the evaluation leaves the refreshed ComponentMap and the types registered so
      far, and the GameObject out of `ContainerMap`. */
  function PrefixNode(st: Mapper, go: ObjId, scene: Scene): (r: (Mapper, Option<Exception>))
    ensures r.0.links == st.links && r.0.chains.parents == st.chains.parents
    ensures r.0.maps == st.maps[go := CMap.Registered(scene.mapIdOf(go), scene.componentsOf(go), scene.typeOf)]
    ensures st.reg.cache.Keys <= r.0.reg.cache.Keys
    ensures go in st.chains.container ==>
              r.1.None? && r.0.chains == st.chains && r.0.handlers == st.handlers && r.0.reg == st.reg
    ensures r.1.Some? ==> go !in r.0.chains.container && r.0.chains == st.chains && r.0.handlers == st.handlers
    ensures r.1.None? && go !in st.chains.container ==> go in r.0.chains.container
    ensures r.1.None? && go !in st.chains.container ==>
              var worth := r.0.chains.container[go].canBeSerialized;
              && r.0.chains.container == st.chains.container[go := GM.ChildGameObject(None, worth)]
              && r.0.handlers == (if worth then st.handlers + {go} else st.handlers)
  {
    var refreshed := CMap.Registered(scene.mapIdOf(go), scene.componentsOf(go), scene.typeOf);
    var st1 := st.(maps := st.maps[go := refreshed]);
    if go in st.chains.container then (st1, None)
    else
      var (res, reg') := Evaluate(st1.reg, refreshed, false, scene.typeOf, scene.fieldsOf, scene.sep);
      match res
      case Err(e) => (st1.(reg := reg'), Some(e))
      case Ok(worth) =>
        (st1.(reg := reg',
              chains := st1.chains.(container := st1.chains.container[go := GM.ChildGameObject(None, worth)]),
              handlers := if worth then st1.handlers + {go} else st1.handlers), None)
  }

  /** The prefix's loop over the source hierarchy; an exception ends it with the state so far. */
  function PrefixNodes(st: Mapper, gs: seq<ObjId>, scene: Scene): (r: (Mapper, Option<Exception>))
    ensures r.0.links == st.links && r.0.chains.parents == st.chains.parents
    ensures st.reg.cache.Keys <= r.0.reg.cache.Keys
    decreases |gs|
  {
    if gs == [] then (st, None)
    else
      var (st1, err) := PrefixNode(st, gs[0], scene);
      if err.Some? then (st1, err) else PrefixNodes(st1, gs[1..], scene)
  }

  /** One step of the prefix's loop: either the first GameObject throws and the loop ends with its
      state, or the loop goes on from the state after it. */
  lemma NodesStep(st: Mapper, gs: seq<ObjId>, scene: Scene) returns (st1: Mapper, rest: seq<ObjId>, ok: bool)
    requires gs != []
    ensures ok ==> PrefixNode(st, gs[0], scene) == (st1, None) && gs == [gs[0]] + rest
                   && PrefixNodes(st, gs, scene) == PrefixNodes(st1, rest, scene)
    ensures !ok ==> PrefixNodes(st, gs, scene) == PrefixNode(st, gs[0], scene) && PrefixNode(st, gs[0], scene).1.Some?
  {
    var step := PrefixNode(st, gs[0], scene);
    ok := step.1.None?;
    rest := gs[1..];
    st1 := step.0;
  }

  /** Where the prefix's loop stops on an exception: it ran without one over the GameObjects before
      position `k`, and the GameObject at `k` threw, leaving the state the loop ends with. */
  lemma {:induction false} PrefixFails(st: Mapper, gs: seq<ObjId>, scene: Scene) returns (k: nat, mid: Mapper)
    requires PrefixNodes(st, gs, scene).1.Some?
    ensures k < |gs| && PrefixNodes(st, gs[..k], scene) == (mid, None)
    ensures PrefixNode(mid, gs[k], scene) == PrefixNodes(st, gs, scene)
    decreases |gs|
  {
    var st1, rest, ok := NodesStep(st, gs, scene);
    if !ok {
      k, mid := 0, st;
    } else {
      var k1, mid1 := PrefixFails(st1, rest, scene);
      k, mid := k1 + 1, mid1;
      assert gs[..k][0] == gs[0] && gs[..k][1..] == rest[..k1];
      assert gs[k] == rest[k1];
    }
  }

  /** Every GameObject of the hierarchy has its ComponentMap refreshed; any other list stays. */
  ghost predicate Refreshed(m0: map<ObjId, seq<ObjId>>, gs: seq<ObjId>, m: map<ObjId, seq<ObjId>>, scene: Scene) {
    && (forall i :: 0 <= i < |gs| ==>
          gs[i] in m && m[gs[i]] == CMap.Registered(scene.mapIdOf(gs[i]), scene.componentsOf(gs[i]), scene.typeOf))
    && (forall g :: g in m0 && g !in gs ==> g in m && m[g] == m0[g])
  }

  lemma RefreshedJoin(m0: map<ObjId, seq<ObjId>>, go: ObjId, m1: map<ObjId, seq<ObjId>>, rest: seq<ObjId>,
                      m2: map<ObjId, seq<ObjId>>, scene: Scene)
    ensures Refreshed(m0, [go], m1, scene) && Refreshed(m1, rest, m2, scene) ==> Refreshed(m0, [go] + rest, m2, scene)
  {
    if Refreshed(m0, [go], m1, scene) && Refreshed(m1, rest, m2, scene) {
      var gs := [go] + rest;
      forall i | 0 <= i < |gs|
        ensures gs[i] in m2 && m2[gs[i]] == CMap.Registered(scene.mapIdOf(gs[i]), scene.componentsOf(gs[i]), scene.typeOf)
      {
        if i > 0 {
          assert gs[i] == rest[i - 1];
        } else if go !in rest {
          assert [go][0] == go;
        } else {
          var k :| 0 <= k < |rest| && rest[k] == go;
        }
      }
      forall g | g in m0 && g !in gs
        ensures g in m2 && m2[g] == m0[g]
      {
        assert g !in [go] && g !in rest;
      }
    }
  }

  /** The prefix refreshes the ComponentMap list of every GameObject of the hierarchy and leaves any
      other list alone. */
  lemma {:induction false} PrefixMaps(st: Mapper, gs: seq<ObjId>, scene: Scene)
    ensures var r := PrefixNodes(st, gs, scene);
            r.1.None? ==> Refreshed(st.maps, gs, r.0.maps, scene)
    decreases |gs|
  {
    if gs != [] {
      var st1, rest, ok := NodesStep(st, gs, scene);
      if ok {
        PrefixMaps(st1, rest, scene);
        var r := PrefixNodes(st1, rest, scene);
        if r.1.None? {
          RefreshedJoin(st.maps, gs[0], st1.maps, rest, r.0.maps, scene);
        }
      }
    }
  }

  /** What the prefix does to `ContainerMap` given the map `c0` before it and `c` after it: every
      GameObject of `gs` is tracked, no other key is added, entries already present are untouched,
      and each new entry is `(null, worth)`. */
  ghost predicate Entered(c0: map<ObjId, GM.ChildGameObject>, gs: seq<ObjId>, c: map<ObjId, GM.ChildGameObject>) {
    && (forall i :: 0 <= i < |gs| ==> gs[i] in c)
    && (forall g :: g in c ==> g in c0 || g in gs)
    && (forall g :: g in c0 ==> g in c && c[g] == c0[g])
    && (forall g :: g in c && g !in c0 ==> c[g].go.None?)
  }

  lemma EnteredJoin(c0: map<ObjId, GM.ChildGameObject>, go: ObjId, c1: map<ObjId, GM.ChildGameObject>, rest: seq<ObjId>,
                    c2: map<ObjId, GM.ChildGameObject>)
    ensures Entered(c0, [go], c1) && Entered(c1, rest, c2) ==> Entered(c0, [go] + rest, c2)
  {
    if Entered(c0, [go], c1) && Entered(c1, rest, c2) {
      var gs := [go] + rest;
      forall i | 0 <= i < |gs| ensures gs[i] in c2 {
        if i > 0 {
          assert gs[i] == rest[i - 1];
        } else {
          assert [go][0] == go;
        }
      }
      forall g | g in c2 ensures g in c0 || g in gs {
        if g !in c1 {
          assert g in rest;
        } else if g !in c0 {
          assert g in [go];
        }
      }
    }
  }

  /** One GameObject's step enters it as `(null, worth)` unless it was tracked. */
  lemma NodeEntered(st: Mapper, go: ObjId, scene: Scene)
    ensures var r := PrefixNode(st, go, scene);
            r.1.None? ==> Entered(st.chains.container, [go], r.0.chains.container)
  {
  }

  /** What the prefix does to `ContainerMap`: every GameObject of the hierarchy is tracked afterwards,
      no other key is added, entries already present are untouched, and each new entry is
      `(null, worth)`. */
  lemma {:induction false} PrefixEntries(st: Mapper, gs: seq<ObjId>, scene: Scene)
    ensures var r := PrefixNodes(st, gs, scene);
            r.1.None? ==> Entered(st.chains.container, gs, r.0.chains.container)
    decreases |gs|
  {
    if gs != [] {
      var st1, rest, ok := NodesStep(st, gs, scene);
      if ok {
        PrefixEntries(st1, rest, scene);
        NodeEntered(st, gs[0], scene);
        var r := PrefixNodes(st1, rest, scene);
        if r.1.None? {
          EnteredJoin(st.chains.container, gs[0], st1.chains.container, rest, r.0.chains.container);
        }
      }
    }
  }

  /** What the prefix does to the handlers given the map and handlers before (`c0`, `h0`) and after
      (`c`, `h`): none is removed, and a GameObject gains one exactly when it was newly entered as
      worth bridging. */
  ghost predicate Equipped(c0: map<ObjId, GM.ChildGameObject>, h0: set<ObjId>, c: map<ObjId, GM.ChildGameObject>, h: set<ObjId>) {
    && h0 <= h
    && (forall g :: g in c && g !in c0 ==> (g in h <==> g in h0 || c[g].canBeSerialized))
    && (forall g :: g in h ==> g in h0 || (g in c && g !in c0))
  }

  lemma EquippedJoin(c0: map<ObjId, GM.ChildGameObject>, h0: set<ObjId>, c1: map<ObjId, GM.ChildGameObject>, h1: set<ObjId>,
                     rest: seq<ObjId>, c2: map<ObjId, GM.ChildGameObject>, h2: set<ObjId>)
    ensures Equipped(c0, h0, c1, h1) && Equipped(c1, h1, c2, h2) && c0.Keys <= c1.Keys && Entered(c1, rest, c2) ==>
            Equipped(c0, h0, c2, h2)
  {
  }

  /** What the prefix does to the handlers: none is removed, and a GameObject gains one exactly when it
      was newly entered as worth bridging. */
  lemma {:induction false} PrefixHandlers(st: Mapper, gs: seq<ObjId>, scene: Scene)
    ensures var r := PrefixNodes(st, gs, scene);
            r.1.None? ==> Equipped(st.chains.container, st.handlers, r.0.chains.container, r.0.handlers)
    decreases |gs|
  {
    if gs != [] {
      var st1, rest, ok := NodesStep(st, gs, scene);
      if ok {
        PrefixHandlers(st1, rest, scene);
        PrefixEntries(st1, rest, scene);
        NodeEntered(st, gs[0], scene);
        var r := PrefixNodes(st1, rest, scene);
        if r.1.None? {
          EquippedJoin(st.chains.container, st.handlers, st1.chains.container, st1.handlers,
                       rest, r.0.chains.container, r.0.handlers);
        }
      }
    }
  }

  /** `TriggerBridgeCallbacks`: nothing happens when the original has no live GameObject. */
  function Prefix(st: Mapper, original: Obj, scene: Scene): (r: (Mapper, Option<Exception>))
    ensures RootOf(original, scene.live).None? ==> r == (st, None)
    ensures RootOf(original, scene.live).Some? ==> r == PrefixNodes(st, scene.hierarchyOf(RootOf(original, scene.live).value), scene)
  {
    match RootOf(original, scene.live)
    case None => (st, None)
    case Some(root) => PrefixNodes(st, scene.hierarchyOf(root), scene)
  }

  /** A GameObject already in `ContainerMap` keeps its entry, is not evaluated again and gets no
      handler, though its ComponentMap is still refreshed. */
  lemma TrackedNotReevaluated(st: Mapper, go: ObjId, scene: Scene)
    requires go in st.chains.container
    ensures var r := PrefixNodes(st, [go], scene);
            && r.1.None?
            && r.0.chains == st.chains && r.0.handlers == st.handlers && r.0.reg == st.reg
            && r.0.maps == st.maps[go := CMap.Registered(scene.mapIdOf(go), scene.componentsOf(go), scene.typeOf)]
  {
  }

  /** The inner loop of the postfix: pair the source and clone lists by index, stopping at the end of
      the shorter one. */
  function PairComponents(links: CM.Links, ps: seq<ObjId>, cs: seq<ObjId>, live: set<ObjId>): (r: CM.Links)
    ensures forall x :: x in links.childToParent && x !in cs ==> x in r.childToParent && r.childToParent[x] == links.childToParent[x]
    decreases |ps|
  {
    if ps == [] || cs == [] then links
    else PairComponents(CM.RegisterParentChild(links, Some(ps[0]), cs[0], live), ps[1..], cs[1..], live)
  }

  /** With distinct clone components, each is linked back to the source component at its index; with
      distinct live source components, each is linked forward to the clone component at its index. */
  lemma {:induction false} PairComponentsLinks(links: CM.Links, ps: seq<ObjId>, cs: seq<ObjId>, live: set<ObjId>)
    requires forall i, j :: 0 <= i < j < |cs| ==> cs[i] != cs[j]
    ensures var r := PairComponents(links, ps, cs, live);
            forall k :: 0 <= k < |ps| && k < |cs| ==> cs[k] in r.childToParent && r.childToParent[cs[k]] == Some(ps[k])
    ensures (forall i, j :: 0 <= i < j < |ps| ==> ps[i] != ps[j]) && (forall i :: 0 <= i < |ps| ==> ps[i] in live) ==>
            var r := PairComponents(links, ps, cs, live);
            forall k :: 0 <= k < |ps| && k < |cs| ==> ps[k] in r.parentToChild && r.parentToChild[ps[k]] == Some(cs[k])
    decreases |ps|
  {
    if ps != [] && cs != [] {
      var links' := CM.RegisterParentChild(links, Some(ps[0]), cs[0], live);
      PairComponentsLinks(links', ps[1..], cs[1..], live);
      if forall i, j :: 0 <= i < j < |ps| ==> ps[i] != ps[j] {
        assert forall k :: 1 <= k < |ps| ==> ps[k] != ps[0];
        PairKeepsParents(links', ps[1..], cs[1..], live, ps[0]);
      }
      assert forall k :: 1 <= k < |ps| ==> ps[k] == ps[1..][k - 1];
      assert forall k :: 1 <= k < |cs| ==> cs[k] == cs[1..][k - 1];
    }
  }

  /** Pairing leaves the forward link of a component that is not among the sources alone. */
  lemma {:induction false} PairKeepsParents(links: CM.Links, ps: seq<ObjId>, cs: seq<ObjId>, live: set<ObjId>, p: ObjId)
    requires p !in ps
    ensures var r := PairComponents(links, ps, cs, live);
            p in links.parentToChild ==> p in r.parentToChild && r.parentToChild[p] == links.parentToChild[p]
    decreases |ps|
  {
    if ps != [] && cs != [] {
      PairKeepsParents(CM.RegisterParentChild(links, Some(ps[0]), cs[0], live), ps[1..], cs[1..], live, p);
    }
  }

  /** The postfix's mapping loop over the two flattened hierarchies. Answers the state and the clones
      whose handlers are collected for the lifecycle callbacks, in order. */
  function PostfixNodes(st: Mapper, ss: seq<ObjId>, cs: seq<ObjId>, live: set<ObjId>, callbacks: seq<ObjId>)
    : (r: (Mapper, seq<ObjId>))
    requires |ss| == |cs|
    ensures r.0.handlers == st.handlers && r.0.reg == st.reg && r.0.maps.Keys == st.maps.Keys
    decreases |ss|
  {
    if ss == [] then (st, callbacks)
    else
      var sGo, cGo := ss[0], cs[0];
      var container :=
        if cGo in st.chains.container then st.chains.container
        else st.chains.container[cGo := GM.ChildGameObject(None, true)];
      var chains :=
        if sGo in container then
          GM.RegisterParent(GM.Chains(container[sGo := container[sGo].(go := Some(cGo))], st.chains.parents), Some(cGo), Some(sGo), live)
        else GM.Chains(container, st.chains.parents);
      var st1 := st.(chains := chains);
      if sGo in st.maps && cGo in st.maps then
        var links := PairComponents(st.links, st.maps[sGo], st.maps[cGo], live);
        var st2 := st1.(links := links, maps := st.maps[sGo := []][cGo := []]);
        var callbacks' := if cGo in st.handlers then callbacks + [cGo] else callbacks;
        PostfixNodes(st2, ss[1..], cs[1..], live, callbacks')
      else PostfixNodes(st1, ss[1..], cs[1..], live, callbacks)
  }

  /** One step of the postfix's mapping loop: the clone is tracked, no entry is dropped, and the
      clone is collected for its callbacks only when it carries a handler. */
  lemma PostfixNodesStep(st: Mapper, ss: seq<ObjId>, cs: seq<ObjId>, live: set<ObjId>, callbacks: seq<ObjId>)
    returns (st1: Mapper, callbacks1: seq<ObjId>)
    requires |ss| == |cs| && ss != []
    ensures PostfixNodes(st, ss, cs, live, callbacks) == PostfixNodes(st1, ss[1..], cs[1..], live, callbacks1)
    ensures cs[0] in st1.chains.container && st.chains.container.Keys <= st1.chains.container.Keys
    ensures st1.handlers == st.handlers && st1.maps.Keys == st.maps.Keys
    ensures callbacks1 == callbacks || (callbacks1 == callbacks + [cs[0]] && cs[0] in st.handlers)
    ensures ss[0] in st.maps && cs[0] in st.maps && cs[0] in st.handlers ==> callbacks1 == callbacks + [cs[0]]
  {
    var sGo, cGo := ss[0], cs[0];
    var container :=
      if cGo in st.chains.container then st.chains.container
      else st.chains.container[cGo := GM.ChildGameObject(None, true)];
    var chains :=
      if sGo in container then
        GM.RegisterParent(GM.Chains(container[sGo := container[sGo].(go := Some(cGo))], st.chains.parents), Some(cGo), Some(sGo), live)
      else GM.Chains(container, st.chains.parents);
    st1 := st.(chains := chains);
    callbacks1 := callbacks;
    if sGo in st.maps && cGo in st.maps {
      st1 := st1.(links := PairComponents(st.links, st.maps[sGo], st.maps[cGo], live), maps := st.maps[sGo := []][cGo := []]);
      callbacks1 := if cGo in st.handlers then callbacks + [cGo] else callbacks;
    }
  }

  /** The postfix's mapping loop tracks every clone GameObject and drops no entry of `ContainerMap`. */
  lemma {:induction false} PostfixTracks(st: Mapper, ss: seq<ObjId>, cs: seq<ObjId>, live: set<ObjId>, callbacks: seq<ObjId>)
    requires |ss| == |cs|
    ensures var r := PostfixNodes(st, ss, cs, live, callbacks).0;
            && (forall i :: 0 <= i < |cs| ==> cs[i] in r.chains.container)
            && st.chains.container.Keys <= r.chains.container.Keys
    decreases |ss|
  {
    if ss != [] {
      var st1, callbacks1 := PostfixNodesStep(st, ss, cs, live, callbacks);
      PostfixTracks(st1, ss[1..], cs[1..], live, callbacks1);
      assert forall i :: 1 <= i < |cs| ==> cs[i] == cs[1..][i - 1];
    }
  }

  /** The postfix's mapping loop only appends to the callback list, and only clone GameObjects that
      carry a handler; conversely, every clone that carries a handler and whose source and own
      ComponentMaps are both present is called back. */
  lemma {:induction false} PostfixCallbacks(st: Mapper, ss: seq<ObjId>, cs: seq<ObjId>, live: set<ObjId>, callbacks: seq<ObjId>)
    requires |ss| == |cs|
    ensures var r := PostfixNodes(st, ss, cs, live, callbacks).1;
            && callbacks <= r
            && (forall k :: |callbacks| <= k < |r| ==> r[k] in cs && r[k] in st.handlers)
            && (forall i :: 0 <= i < |cs| && cs[i] in st.handlers && ss[i] in st.maps && cs[i] in st.maps ==> cs[i] in r)
    decreases |ss|
  {
    if ss != [] {
      var st1, callbacks1 := PostfixNodesStep(st, ss, cs, live, callbacks);
      PostfixCallbacks(st1, ss[1..], cs[1..], live, callbacks1);
      var r := PostfixNodes(st, ss, cs, live, callbacks).1;
      forall k | |callbacks| <= k < |r|
        ensures r[k] in cs && r[k] in st.handlers
      {
        if k >= |callbacks1| {
          assert r[k] in cs[1..];
        }
      }
      forall i | 0 <= i < |cs| && cs[i] in st.handlers && ss[i] in st.maps && cs[i] in st.maps
        ensures cs[i] in r
      {
        if i == 0 {
          assert callbacks1[|callbacks|] == cs[0];
          assert r[|callbacks|] == cs[0];
        } else {
          assert cs[1..][i - 1] == cs[i] && ss[1..][i - 1] == ss[i];
        }
      }
    }
  }

  /** `GetChildGOAndCacheIt`: no mapping and no callback without two live roots or when the two
      hierarchies differ in size; otherwise the mapping loop runs over both hierarchies, every clone
      GameObject ends tracked, and only clones that carry a handler are called back. */
  function Postfix(st: Mapper, original: Obj, result: Obj, scene: Scene): (r: (Mapper, seq<ObjId>))
    ensures RootOf(original, scene.live).None? || RootOf(result, scene.live).None? ==> r == (st, [])
    ensures RootOf(original, scene.live).Some? && RootOf(result, scene.live).Some? &&
            |scene.hierarchyOf(RootOf(original, scene.live).value)| != |scene.hierarchyOf(RootOf(result, scene.live).value)| ==>
              r == (st, [])
    ensures r.0.handlers == st.handlers && r.0.reg == st.reg && st.chains.container.Keys <= r.0.chains.container.Keys
    ensures forall k :: 0 <= k < |r.1| ==> r.1[k] in st.handlers
    ensures RootOf(result, scene.live).Some? ==>
              var cs := scene.hierarchyOf(RootOf(result, scene.live).value);
              && (forall k :: 0 <= k < |r.1| ==> r.1[k] in cs)
              && (RootOf(original, scene.live).Some? && |scene.hierarchyOf(RootOf(original, scene.live).value)| == |cs| ==>
                    forall i :: 0 <= i < |cs| ==> cs[i] in r.0.chains.container)
  {
    match (RootOf(original, scene.live), RootOf(result, scene.live))
    case (Some(source), Some(clone)) =>
      var ss := scene.hierarchyOf(source);
      var cs := scene.hierarchyOf(clone);
      if |ss| != |cs| then (st, [])
      else
        PostfixCallbacks(st, ss, cs, scene.live, []);
        PostfixTracks(st, ss, cs, scene.live, []);
        PostfixNodes(st, ss, cs, scene.live, [])
    case _ => (st, [])
  }

  /* ----- Every position of the postfix's mapping loop. ----- */

  /** No GameObject occurs twice in the two flattened hierarchies together. */
  predicate DistinctNodes(ss: seq<ObjId>, cs: seq<ObjId>) {
    && (forall i, j :: 0 <= i < j < |ss| ==> ss[i] != ss[j])
    && (forall i, j :: 0 <= i < j < |cs| ==> cs[i] != cs[j])
    && (forall i, j :: 0 <= i < |ss| && 0 <= j < |cs| ==> ss[i] != cs[j])
  }

  /** The state one step of the mapping loop leaves, entry by entry. */
  lemma PostfixStepFacts(st: Mapper, ss: seq<ObjId>, cs: seq<ObjId>, live: set<ObjId>, callbacks: seq<ObjId>)
    returns (st1: Mapper, callbacks1: seq<ObjId>)
    requires |ss| == |cs| && ss != []
    ensures PostfixNodes(st, ss, cs, live, callbacks) == PostfixNodes(st1, ss[1..], cs[1..], live, callbacks1)
    ensures st1.chains.container.Keys == st.chains.container.Keys + {cs[0]} && st1.maps.Keys == st.maps.Keys
    ensures forall x :: x != ss[0] && x in st.chains.container ==> st1.chains.container[x] == st.chains.container[x]
    ensures cs[0] !in st.chains.container && cs[0] != ss[0] ==> st1.chains.container[cs[0]] == GM.ChildGameObject(None, true)
    ensures ss[0] in st.chains.container ==> st1.chains.container[ss[0]].go == Some(cs[0])
    ensures ss[0] in st.chains.container && ss[0] in live && cs[0] in live ==>
              cs[0] in st1.chains.parents && st1.chains.parents[cs[0]] == ss[0]
    ensures forall x :: x != cs[0] && x in st.chains.parents ==> x in st1.chains.parents && st1.chains.parents[x] == st.chains.parents[x]
    ensures forall x :: x != ss[0] && x != cs[0] && x in st.maps ==> st1.maps[x] == st.maps[x]
    ensures ss[0] in st.maps && cs[0] in st.maps ==>
              && st1.maps[ss[0]] == [] && st1.maps[cs[0]] == []
              && st1.links == PairComponents(st.links, st.maps[ss[0]], st.maps[cs[0]], live)
    ensures !(ss[0] in st.maps && cs[0] in st.maps) ==> st1.links == st.links && st1.maps == st.maps
  {
    var sGo, cGo := ss[0], cs[0];
    var container :=
      if cGo in st.chains.container then st.chains.container
      else st.chains.container[cGo := GM.ChildGameObject(None, true)];
    var chains :=
      if sGo in container then
        GM.RegisterParent(GM.Chains(container[sGo := container[sGo].(go := Some(cGo))], st.chains.parents), Some(cGo), Some(sGo), live)
      else GM.Chains(container, st.chains.parents);
    st1 := st.(chains := chains);
    callbacks1 := callbacks;
    if sGo in st.maps && cGo in st.maps {
      st1 := st1.(links := PairComponents(st.links, st.maps[sGo], st.maps[cGo], live), maps := st.maps[sGo := []][cGo := []]);
      callbacks1 := if cGo in st.handlers then callbacks + [cGo] else callbacks;
    }
  }

  /** The mapping loop leaves alone the `ContainerMap` entry of a GameObject that is no source, the
      back link of one that is no clone, and the ComponentMap list of one that is neither; a clone
      that was untracked ends as `(null, true)`. */
  lemma {:induction false} PostfixFrame(st: Mapper, ss: seq<ObjId>, cs: seq<ObjId>, live: set<ObjId>, callbacks: seq<ObjId>, x: ObjId)
    requires |ss| == |cs|
    ensures var r := PostfixNodes(st, ss, cs, live, callbacks).0;
            && (x !in ss && x in st.chains.container ==> x in r.chains.container && r.chains.container[x] == st.chains.container[x])
            && (x !in ss && x in cs && x !in st.chains.container ==>
                  x in r.chains.container && r.chains.container[x] == GM.ChildGameObject(None, true))
            && (x !in cs && x in st.chains.parents ==> x in r.chains.parents && r.chains.parents[x] == st.chains.parents[x])
            && (x !in ss && x !in cs && x in st.maps ==> x in r.maps && r.maps[x] == st.maps[x])
    decreases |ss|
  {
    if ss != [] {
      var st1, callbacks1 := PostfixStepFacts(st, ss, cs, live, callbacks);
      PostfixFrame(st1, ss[1..], cs[1..], live, callbacks1, x);
      assert x in ss[1..] ==> x in ss;
      assert x in cs ==> x == cs[0] || x in cs[1..];
    }
  }

  /** For every position of two hierarchies with no GameObject in common and all alive: a tracked
      source's forward link is the clone at its position and that clone's back link is the source; a
      clone that was untracked is entered as `(null, true)`; and when both ComponentMaps are present,
      both lists end empty. */
  lemma {:induction false} PostfixLinksAll(st: Mapper, ss: seq<ObjId>, cs: seq<ObjId>, live: set<ObjId>, callbacks: seq<ObjId>)
    requires |ss| == |cs| && DistinctNodes(ss, cs)
    requires forall i :: 0 <= i < |ss| ==> ss[i] in live && cs[i] in live
    ensures var r := PostfixNodes(st, ss, cs, live, callbacks).0;
            forall i :: 0 <= i < |ss| ==>
              && (ss[i] in st.chains.container ==>
                    && ss[i] in r.chains.container && r.chains.container[ss[i]].go == Some(cs[i])
                    && cs[i] in r.chains.parents && r.chains.parents[cs[i]] == ss[i])
              && (cs[i] !in st.chains.container ==> cs[i] in r.chains.container && r.chains.container[cs[i]] == GM.ChildGameObject(None, true))
              && (ss[i] in st.maps && cs[i] in st.maps ==> ss[i] in r.maps && cs[i] in r.maps && r.maps[ss[i]] == [] && r.maps[cs[i]] == [])
    decreases |ss|
  {
    if ss != [] {
      var st1, callbacks1 := PostfixStepFacts(st, ss, cs, live, callbacks);
      var ss', cs' := ss[1..], cs[1..];
      assert DistinctNodes(ss', cs') by {
        assert forall i :: 0 <= i < |ss'| ==> ss'[i] == ss[i + 1] && cs'[i] == cs[i + 1];
      }
      PostfixLinksAll(st1, ss', cs', live, callbacks1);
      var r := PostfixNodes(st, ss, cs, live, callbacks).0;
      assert ss[0] !in ss' && ss[0] !in cs' && cs[0] !in ss' && cs[0] !in cs' by {
        assert forall i :: 0 <= i < |ss'| ==> ss'[i] == ss[i + 1] && cs'[i] == cs[i + 1];
      }
      PostfixFrame(st1, ss', cs', live, callbacks1, ss[0]);
      PostfixFrame(st1, ss', cs', live, callbacks1, cs[0]);
      forall i | 0 <= i < |ss|
        ensures && (ss[i] in st.chains.container ==>
                      && ss[i] in r.chains.container && r.chains.container[ss[i]].go == Some(cs[i])
                      && cs[i] in r.chains.parents && r.chains.parents[cs[i]] == ss[i])
                && (cs[i] !in st.chains.container ==> cs[i] in r.chains.container && r.chains.container[cs[i]] == GM.ChildGameObject(None, true))
                && (ss[i] in st.maps && cs[i] in st.maps ==> ss[i] in r.maps && cs[i] in r.maps && r.maps[ss[i]] == [] && r.maps[cs[i]] == [])
      {
        if i > 0 {
          assert ss'[i - 1] == ss[i] && cs'[i - 1] == cs[i];
          assert ss[i] != cs[0] && cs[i] != cs[0];
        }
      }
    }
  }

  /** `x` is in none of the clone GameObjects' ComponentMap lists. */
  predicate InNoCloneList(maps: map<ObjId, seq<ObjId>>, cs: seq<ObjId>, x: ObjId) {
    forall j :: 0 <= j < |cs| && cs[j] in maps ==> x !in maps[cs[j]]
  }

  /** The mapping loop leaves the back link of a component alone when no clone's list holds it. */
  lemma {:induction false} PostfixBackFrame(st: Mapper, ss: seq<ObjId>, cs: seq<ObjId>, live: set<ObjId>, callbacks: seq<ObjId>, x: ObjId)
    requires |ss| == |cs| && InNoCloneList(st.maps, cs, x)
    ensures var r := PostfixNodes(st, ss, cs, live, callbacks).0;
            x in st.links.childToParent ==> x in r.links.childToParent && r.links.childToParent[x] == st.links.childToParent[x]
    decreases |ss|
  {
    if ss != [] {
      var st1, callbacks1 := PostfixStepFacts(st, ss, cs, live, callbacks);
      assert InNoCloneList(st1.maps, cs[1..], x) by {
        forall j | 0 <= j < |cs[1..]| && cs[1..][j] in st1.maps ensures x !in st1.maps[cs[1..][j]] {
          assert cs[1..][j] == cs[j + 1];
        }
      }
      PostfixBackFrame(st1, ss[1..], cs[1..], live, callbacks1, x);
    }
  }

  /** The clone GameObjects' ComponentMap lists: each without repeats, no two sharing a component. */
  predicate OwnComponents(maps: map<ObjId, seq<ObjId>>, cs: seq<ObjId>) {
    && (forall i, k, l :: 0 <= i < |cs| && cs[i] in maps && 0 <= k < l < |maps[cs[i]]| ==> maps[cs[i]][k] != maps[cs[i]][l])
    && (forall i, j, k :: 0 <= i < |cs| && 0 <= j < |cs| && i != j && cs[i] in maps && cs[j] in maps && 0 <= k < |maps[cs[i]]| ==>
          maps[cs[i]][k] !in maps[cs[j]])
  }

  /** After the first step, the rest of the two hierarchies still has no GameObject in common, and
      their ComponentMap lists are the ones they had before the step. */
  lemma PostfixTail(st: Mapper, st1: Mapper, ss: seq<ObjId>, cs: seq<ObjId>)
    requires |ss| == |cs| && ss != [] && DistinctNodes(ss, cs) && st1.maps.Keys == st.maps.Keys
    requires forall x :: x != ss[0] && x != cs[0] && x in st.maps ==> st1.maps[x] == st.maps[x]
    ensures DistinctNodes(ss[1..], cs[1..])
    ensures forall i :: 1 <= i < |ss| ==> ss[1..][i - 1] == ss[i] && cs[1..][i - 1] == cs[i]
    ensures forall i :: 1 <= i < |ss| && ss[i] in st.maps ==> st1.maps[ss[i]] == st.maps[ss[i]]
    ensures forall i :: 1 <= i < |ss| && cs[i] in st.maps ==> st1.maps[cs[i]] == st.maps[cs[i]]
    ensures OwnComponents(st.maps, ss) ==> OwnComponents(st1.maps, ss[1..])
    ensures OwnComponents(st.maps, cs) ==> OwnComponents(st1.maps, cs[1..])
    ensures forall j :: 0 <= j < |ss| - 1 && ss[1..][j] in st1.maps ==> st1.maps[ss[1..][j]] == st.maps[ss[j + 1]]
    ensures forall j :: 0 <= j < |cs| - 1 && cs[1..][j] in st1.maps ==> st1.maps[cs[1..][j]] == st.maps[cs[j + 1]]
  {
    var ss', cs' := ss[1..], cs[1..];
    assert forall i :: 0 <= i < |ss'| ==> ss'[i] == ss[i + 1] && cs'[i] == cs[i + 1];
    assert forall i :: 0 <= i < |ss'| ==> cs'[i] != ss[0] && cs'[i] != cs[0] && ss'[i] != ss[0] && ss'[i] != cs[0];
  }

  /** For every position whose two ComponentMaps are present, the clone's components are linked back
      to the source's components at the same index, up to the shorter list, provided no GameObject
      occurs twice and no component belongs to two clones. */
  lemma {:induction false} PostfixPairsAll(st: Mapper, ss: seq<ObjId>, cs: seq<ObjId>, live: set<ObjId>, callbacks: seq<ObjId>)
    requires |ss| == |cs| && DistinctNodes(ss, cs) && OwnComponents(st.maps, cs)
    ensures var r := PostfixNodes(st, ss, cs, live, callbacks).0;
            forall i, k :: 0 <= i < |ss| && ss[i] in st.maps && cs[i] in st.maps &&
                           0 <= k < |st.maps[ss[i]]| && k < |st.maps[cs[i]]| ==>
              st.maps[cs[i]][k] in r.links.childToParent && r.links.childToParent[st.maps[cs[i]][k]] == Some(st.maps[ss[i]][k])
    decreases |ss|
  {
    if ss != [] {
      var st1, callbacks1 := PostfixStepFacts(st, ss, cs, live, callbacks);
      var ss', cs' := ss[1..], cs[1..];
      PostfixTail(st, st1, ss, cs);
      PostfixPairsAll(st1, ss', cs', live, callbacks1);
      var r := PostfixNodes(st, ss, cs, live, callbacks).0;
      if ss[0] in st.maps && cs[0] in st.maps {
        var ps, cl := st.maps[ss[0]], st.maps[cs[0]];
        PairComponentsLinks(st.links, ps, cl, live);
        forall k | 0 <= k < |ps| && k < |cl|
          ensures cl[k] in r.links.childToParent && r.links.childToParent[cl[k]] == Some(ps[k])
        {
          assert InNoCloneList(st1.maps, cs', cl[k]);
          PostfixBackFrame(st1, ss', cs', live, callbacks1, cl[k]);
        }
      }
    }
  }

  /** The mapping loop leaves the forward link of a component alone when no source's list holds it. */
  lemma {:induction false} PostfixForwardFrame(st: Mapper, ss: seq<ObjId>, cs: seq<ObjId>, live: set<ObjId>, callbacks: seq<ObjId>, x: ObjId)
    requires |ss| == |cs| && InNoCloneList(st.maps, ss, x)
    ensures var r := PostfixNodes(st, ss, cs, live, callbacks).0;
            x in st.links.parentToChild ==> x in r.links.parentToChild && r.links.parentToChild[x] == st.links.parentToChild[x]
    decreases |ss|
  {
    if ss != [] {
      var st1, callbacks1 := PostfixStepFacts(st, ss, cs, live, callbacks);
      if ss[0] in st.maps && cs[0] in st.maps {
        PairKeepsParents(st.links, st.maps[ss[0]], st.maps[cs[0]], live, x);
      }
      assert InNoCloneList(st1.maps, ss[1..], x) by {
        forall j | 0 <= j < |ss[1..]| && ss[1..][j] in st1.maps ensures x !in st1.maps[ss[1..][j]] {
          assert ss[1..][j] == ss[j + 1];
        }
      }
      PostfixForwardFrame(st1, ss[1..], cs[1..], live, callbacks1, x);
    }
  }

  /** The first position of `PostfixForwardAll`: pairing links it, and no later step touches those links. */
  lemma PostfixForwardHead(st: Mapper, ss: seq<ObjId>, cs: seq<ObjId>, live: set<ObjId>, callbacks: seq<ObjId>)
    requires |ss| == |cs| && ss != [] && DistinctNodes(ss, cs) && OwnComponents(st.maps, ss) && OwnComponents(st.maps, cs)
    requires forall i, k :: 0 <= i < |ss| && ss[i] in st.maps && 0 <= k < |st.maps[ss[i]]| ==> st.maps[ss[i]][k] in live
    ensures var r := PostfixNodes(st, ss, cs, live, callbacks).0;
            ss[0] in st.maps && cs[0] in st.maps ==>
              forall k :: 0 <= k < |st.maps[ss[0]]| && k < |st.maps[cs[0]]| ==>
                st.maps[ss[0]][k] in r.links.parentToChild && r.links.parentToChild[st.maps[ss[0]][k]] == Some(st.maps[cs[0]][k])
  {
    var st1, callbacks1 := PostfixStepFacts(st, ss, cs, live, callbacks);
    PostfixTail(st, st1, ss, cs);
    if ss[0] in st.maps && cs[0] in st.maps {
      var ss', cs' := ss[1..], cs[1..];
      var ps, cl := st.maps[ss[0]], st.maps[cs[0]];
      assert forall k :: 0 <= k < |ps| ==> ps[k] in live;
      PairComponentsLinks(st.links, ps, cl, live);
      forall k | 0 <= k < |ps| && k < |cl|
        ensures ps[k] in PostfixNodes(st, ss, cs, live, callbacks).0.links.parentToChild
        ensures PostfixNodes(st, ss, cs, live, callbacks).0.links.parentToChild[ps[k]] == Some(cl[k])
      {
        assert InNoCloneList(st1.maps, ss', ps[k]);
        PostfixForwardFrame(st1, ss', cs', live, callbacks1, ps[k]);
      }
    }
  }

  /** For every position whose two ComponentMaps are present, each live source component is linked
      forward to the clone's component at the same index, up to the shorter list, provided no
      GameObject occurs twice, no component belongs to two sources or to two clones, and every
      source component is alive. */
  lemma {:induction false} PostfixForwardAll(st: Mapper, ss: seq<ObjId>, cs: seq<ObjId>, live: set<ObjId>, callbacks: seq<ObjId>)
    requires |ss| == |cs| && DistinctNodes(ss, cs) && OwnComponents(st.maps, ss) && OwnComponents(st.maps, cs)
    requires forall i, k :: 0 <= i < |ss| && ss[i] in st.maps && 0 <= k < |st.maps[ss[i]]| ==> st.maps[ss[i]][k] in live
    ensures var r := PostfixNodes(st, ss, cs, live, callbacks).0;
            forall i, k :: 0 <= i < |ss| && ss[i] in st.maps && cs[i] in st.maps &&
                           0 <= k < |st.maps[ss[i]]| && k < |st.maps[cs[i]]| ==>
              st.maps[ss[i]][k] in r.links.parentToChild && r.links.parentToChild[st.maps[ss[i]][k]] == Some(st.maps[cs[i]][k])
    decreases |ss|
  {
    if ss != [] {
      var st1, callbacks1 := PostfixStepFacts(st, ss, cs, live, callbacks);
      PostfixTail(st, st1, ss, cs);
      PostfixForwardAll(st1, ss[1..], cs[1..], live, callbacks1);
      PostfixForwardHead(st, ss, cs, live, callbacks);
    }
  }

  /** For one source GameObject already tracked and its live clone: the clone is entered as
      `(null, true)` if new, the source's forward link is the clone, the clone's back link is the
      source, both ComponentMap lists are emptied after pairing, and the clone's handler is called
      back. */
  lemma MapOneNode(st: Mapper, sGo: ObjId, cGo: ObjId, live: set<ObjId>)
    requires sGo != cGo && sGo in live && cGo in live
    requires sGo in st.chains.container && cGo !in st.chains.container
    requires sGo in st.maps && cGo in st.maps && cGo in st.handlers
    ensures var r := PostfixNodes(st, [sGo], [cGo], live, []);
            && cGo in r.0.chains.container && r.0.chains.container[cGo] == GM.ChildGameObject(None, true)
            && sGo in r.0.chains.container && r.0.chains.container[sGo].go == Some(cGo)
            && cGo in r.0.chains.parents && r.0.chains.parents[cGo] == sGo
            && sGo in r.0.maps && cGo in r.0.maps && r.0.maps[sGo] == [] && r.0.maps[cGo] == []
            && r.0.links == PairComponents(st.links, st.maps[sGo], st.maps[cGo], live)
            && r.1 == [cGo]
  {
    var container := st.chains.container[cGo := GM.ChildGameObject(None, true)];
    var chains := GM.RegisterParent(GM.Chains(container[sGo := container[sGo].(go := Some(cGo))], st.chains.parents), Some(cGo), Some(sGo), live);
    assert chains.parents == st.chains.parents[cGo := sGo];
  }
}

=== FILE: game_object_mapper_destroy.dfy ===
/** The `Object.Destroy` prefix of `GameObjectMapper`: a destroyed GameObject takes every tracked
    GameObject of its hierarchy out of the chains; a destroyed Component is unlinked alone.
    `Destroy` only marks the object, so at this point it is still live.
 */
module GameObjectMapperDestroy {
  import opened Wrappers
  import opened Types
  import opened UnityObjects
  import CM = ComponentMapper
  import GM = GameObjectMaps

  /** The loop over the hierarchy: each GameObject still tracked when reached is removed and stitched. */
  function RemoveTracked(ch: GM.Chains, links: CM.Links, hierarchy: seq<ObjId>, componentsOf: ObjId -> seq<ObjId>, live: set<ObjId>)
    : (r: (GM.Chains, CM.Links))
    ensures r.0.container.Keys <= ch.container.Keys
    ensures (forall i :: 0 <= i < |hierarchy| ==> hierarchy[i] in live) ==>
              forall i :: 0 <= i < |hierarchy| ==> hierarchy[i] !in r.0.container
    decreases |hierarchy|
  {
    if hierarchy == [] then (ch, links)
    else
      var go := hierarchy[0];
      var step := if GM.IsTracked(ch, go) then GM.RemoveNodeAndStitch(ch, links, go, componentsOf, live) else (ch, links);
      assert forall i :: 1 <= i < |hierarchy| ==> hierarchy[i] == hierarchy[1..][i - 1];
      RemoveTracked(step.0, step.1, hierarchy[1..], componentsOf, live)
  }

  /** `RemoveCache`. `hierarchyOf(go)` is the GameObjects of `go.GetComponentsInChildren<Transform>(true)`,
      inactive ones included; `componentsOf(go)` is `go.GetComponents<Component>()`. */
  function RemoveCache(ch: GM.Chains, links: CM.Links, destroyed: Obj, hierarchyOf: ObjId -> seq<ObjId>,
                       componentsOf: ObjId -> seq<ObjId>, live: set<ObjId>): (r: (GM.Chains, CM.Links))
    ensures destroyed.NullObj? || destroyed.OtherObj? ==> r == (ch, links)
    ensures destroyed.CompObj? ==>
              r == (ch, CM.PrunedLinks(CM.RemoveComponentFromMap(links, Some(destroyed.comp), live), live))
    ensures destroyed.GoObj? ==> r.1.childToParent.Keys <= live && r.1.parentToChild.Keys <= live
  {
    match destroyed
    case GoObj(go) =>
      var (ch', links') := RemoveTracked(ch, links, hierarchyOf(go), componentsOf, live);
      (ch', CM.PrunedLinks(links', live))
    case CompObj(comp, _) => (ch, CM.PrunedLinks(CM.RemoveComponentFromMap(links, Some(comp), live), live))
    case _ => (ch, links)
  }

  /** On consistent chains, destroying a live hierarchy leaves none of its GameObjects tracked by
      either map, keeps the chains consistent, and adds no key. */
  lemma {:induction false} RemoveTrackedUntracks(ch: GM.Chains, links: CM.Links, hierarchy: seq<ObjId>,
                                                  componentsOf: ObjId -> seq<ObjId>, live: set<ObjId>)
    requires GM.Consistent(ch, live)
    requires forall i :: 0 <= i < |hierarchy| ==> hierarchy[i] in live
    ensures var r := RemoveTracked(ch, links, hierarchy, componentsOf, live).0;
            && GM.Consistent(r, live)
            && r.parents.Keys <= ch.parents.Keys
            && forall i :: 0 <= i < |hierarchy| ==> !GM.IsTracked(r, hierarchy[i])
    decreases |hierarchy|
  {
    if hierarchy != [] {
      var go := hierarchy[0];
      var step := if GM.IsTracked(ch, go) then GM.RemoveNodeAndStitch(ch, links, go, componentsOf, live) else (ch, links);
      if GM.IsTracked(ch, go) {
        GM.StitchKeepsConsistent(ch, links, go, componentsOf, live);
      }
      RemoveTrackedUntracks(step.0, step.1, hierarchy[1..], componentsOf, live);
      assert forall i :: 1 <= i < |hierarchy| ==> hierarchy[i] == hierarchy[1..][i - 1];
      assert !GM.IsTracked(step.0, go);
    }
  }
}

=== FILE: game_object_maps.dfy ===
/** The GameObject chains of `GameObjectMapper`: `ContainerMap` maps a GameObject to its forward
    link (the clone made from it, possibly null) and whether it is worth bridging; `ParentMap` maps a
    clone back to the GameObject it was made from. Together they encode linked chains
    `prefab -> clone -> clone of clone -> ...`. Keys are compared by instance id, so a destroyed
    GameObject stays a key until it is removed or pruned.
 */
module GameObjectMaps {
  import opened Wrappers
  import opened Types
  import CM = ComponentMapper

  datatype ChildGameObject = ChildGameObject(go: Option<ObjId>, canBeSerialized: bool)

  datatype Chains = Chains(container: map<ObjId, ChildGameObject>, parents: map<ObjId, ObjId>)

  /** `RemoveNodeAndStitch`: a live node leaves both maps; its parent's forward link skips to the
      node's child, the child's back link skips to the node's parent (or goes when there is none),
      and every component of the node is unlinked in the component maps. */
  function RemoveNodeAndStitch(ch: Chains, links: CM.Links, target: ObjId, componentsOf: ObjId -> seq<ObjId>, live: set<ObjId>)
    : (r: (Chains, CM.Links))
    ensures target !in live ==> r == (ch, links)
    ensures target in live ==> target !in r.0.container && target !in r.0.parents
    ensures target in live ==> r.1 == CM.RemoveAll(links, componentsOf(target), live)
  {
    if target !in live then (ch, links)
    else
      var parent := if target in ch.parents then Some(ch.parents[target]) else None;
      var child := if target in ch.container then ch.container[target].go else None;
      var container :=
        if CM.Alive(parent, live) && parent.value in ch.container then
          ch.container[parent.value := ch.container[parent.value].(go := child)]
        else ch.container;
      var parents :=
        if CM.Alive(child, live) then
          (if CM.Alive(parent, live) then ch.parents[child.value := parent.value] else ch.parents - {child.value})
        else ch.parents;
      (Chains(container - {target}, parents - {target}), CM.RemoveAll(links, componentsOf(target), live))
  }

  /** The neighbours of a removed live node are rewired and nothing else changes. */
  lemma StitchRewires(ch: Chains, links: CM.Links, target: ObjId, componentsOf: ObjId -> seq<ObjId>, live: set<ObjId>)
    requires target in live
    ensures var parent := if target in ch.parents then Some(ch.parents[target]) else None;
            var child := if target in ch.container then ch.container[target].go else None;
            var r := RemoveNodeAndStitch(ch, links, target, componentsOf, live).0;
            && (CM.Alive(parent, live) && parent.value in ch.container && parent.value != target ==>
                  parent.value in r.container && r.container[parent.value] == ch.container[parent.value].(go := child))
            && (CM.Alive(child, live) && CM.Alive(parent, live) && child.value != target ==>
                  child.value in r.parents && r.parents[child.value] == parent.value)
            && (CM.Alive(child, live) && !CM.Alive(parent, live) ==> child.value !in r.parents)
            && (forall g :: g in ch.container && g != target && (parent.None? || g != parent.value) ==>
                  g in r.container && r.container[g] == ch.container[g])
            && (forall g :: g in ch.parents && g != target && (child.None? || g != child.value) ==>
                  g in r.parents && r.parents[g] == ch.parents[g])
            && r.container.Keys == ch.container.Keys - {target}
  {
  }

  /** Every live node's live forward link is answered by the back link of its clone. */
  ghost predicate Consistent(ch: Chains, live: set<ObjId>) {
    forall q :: q in ch.container && q in live && CM.Alive(ch.container[q].go, live) ==>
      ch.container[q].go.value in ch.parents && ch.parents[ch.container[q].go.value] == q
  }

  /** On consistent maps, removing a node keeps them consistent and adds no key to either map. */
  lemma StitchKeepsConsistent(ch: Chains, links: CM.Links, target: ObjId, componentsOf: ObjId -> seq<ObjId>, live: set<ObjId>)
    requires Consistent(ch, live) && target in live
    ensures var r := RemoveNodeAndStitch(ch, links, target, componentsOf, live).0;
            && Consistent(r, live)
            && r.container.Keys <= ch.container.Keys
            && r.parents.Keys <= ch.parents.Keys
  {
    var r := RemoveNodeAndStitch(ch, links, target, componentsOf, live).0;
    var parent := if target in ch.parents then Some(ch.parents[target]) else None;
    var child := if target in ch.container then ch.container[target].go else None;
    StitchRewires(ch, links, target, componentsOf, live);
    if CM.Alive(child, live) {
      assert ch.parents[child.value] == target;
    }
    forall q | q in r.container && q in live && CM.Alive(r.container[q].go, live)
      ensures r.container[q].go.value in r.parents && r.parents[r.container[q].go.value] == q
    {
      if parent.Some? && q == parent.value {
        assert child.value != target;
      } else {
        var g := ch.container[q].go.value;
        assert ch.parents[g] == q;
        assert g != target;
      }
    }
  }

  /** `GetChild`: the forward link of a live tracked node, otherwise null. */
  function GetChild(ch: Chains, go: Option<ObjId>, live: set<ObjId>): (r: Option<ObjId>)
    ensures CM.Alive(go, live) && go.value in ch.container ==> r == ch.container[go.value].go
    ensures !(CM.Alive(go, live) && go.value in ch.container) ==> r.None?
  {
    if CM.Alive(go, live) && go.value in ch.container then ch.container[go.value].go else None
  }

  /** `GetLastChild`, run for at most `fuel` steps: follows `GetChild` while the link is live and
      answers the last live node (or `go` itself when it is not live). `None`: not finished within
      `fuel` steps. */
  function GetLastChild(ch: Chains, go: Option<ObjId>, live: set<ObjId>, fuel: nat): (r: Option<Option<ObjId>>)
    ensures r.Some? && CM.Alive(go, live) ==> CM.Alive(r.value, live) && !CM.Alive(GetChild(ch, r.value, live), live)
    ensures r.Some? && !CM.Alive(go, live) ==> r.value == go
    decreases fuel
  {
    if !CM.Alive(go, live) then Some(go)
    else if !CM.Alive(GetChild(ch, go, live), live) then Some(go)
    else if fuel == 0 then None
    else GetLastChild(ch, GetChild(ch, go, live), live, fuel - 1)
  }

  /** `gs` is a chain of live, distinct GameObjects, each the forward link of the one before. */
  ghost predicate Linked(ch: Chains, gs: seq<ObjId>, live: set<ObjId>) {
    && (forall i :: 0 <= i < |gs| ==> gs[i] in live)
    && (forall i, j :: 0 <= i < j < |gs| ==> gs[i] != gs[j])
    && (forall i :: 0 <= i < |gs| - 1 ==> gs[i] in ch.container && ch.container[gs[i]].go == Some(gs[i + 1]))
  }

  /** On a chain whose last node has no live forward link, `GetLastChild` from the head answers the
      last node within `|gs|` steps. */
  lemma {:induction false} LastChildOfChain(ch: Chains, gs: seq<ObjId>, live: set<ObjId>, fuel: nat)
    requires |gs| > 0 && Linked(ch, gs, live)
    requires !CM.Alive(GetChild(ch, Some(gs[|gs| - 1]), live), live)
    requires fuel >= |gs| - 1
    ensures GetLastChild(ch, Some(gs[0]), live, fuel) == Some(Some(gs[|gs| - 1]))
    decreases |gs|
  {
    if |gs| > 1 {
      assert GetChild(ch, Some(gs[0]), live) == Some(gs[1]);
      var rest := gs[1..];
      assert forall i :: 0 <= i < |rest| ==> rest[i] == gs[i + 1];
      LastChildOfChain(ch, rest, live, fuel - 1);
    }
  }

  /** Two live GameObjects that are each other's forward link make `GetLastChild` loop forever. */
  lemma LastChildCycle(a: ObjId, b: ObjId, live: set<ObjId>, fuel: nat)
    requires a in live && b in live
    ensures var ch := Chains(map[a := ChildGameObject(Some(b), true), b := ChildGameObject(Some(a), true)], map[]);
            GetLastChild(ch, Some(a), live, fuel).None?
    decreases fuel
  {
    var ch := Chains(map[a := ChildGameObject(Some(b), true), b := ChildGameObject(Some(a), true)], map[]);
    if fuel > 0 {
      assert GetChild(ch, Some(a), live) == Some(b);
      LastChildCycle(b, a, live, fuel - 1);
      assert ch == Chains(map[b := ChildGameObject(Some(a), true), a := ChildGameObject(Some(b), true)], map[]);
    }
  }

  /** `RegisterParent`: a null or destroyed endpoint is ignored, otherwise the back link is upserted. */
  function RegisterParent(ch: Chains, child: Option<ObjId>, parent: Option<ObjId>, live: set<ObjId>): (r: Chains)
    ensures !CM.Alive(child, live) || !CM.Alive(parent, live) ==> r == ch
    ensures CM.Alive(child, live) && CM.Alive(parent, live) ==>
              r.container == ch.container && r.parents == ch.parents[child.value := parent.value]
  {
    if !CM.Alive(child, live) || !CM.Alive(parent, live) then ch
    else ch.(parents := ch.parents[child.value := parent.value])
  }

  /** `IsTracked`: a key of either map, live or not. */
  function IsTracked(ch: Chains, go: ObjId): (r: bool)
    ensures r <==> go in ch.container.Keys + ch.parents.Keys
  {
    go in ch.container || go in ch.parents
  }

  /** The removal loops of `Prune` over one map: every dead key goes, every live key keeps its value. */
  method RemoveDeadKeys<V>(d: map<ObjId, V>, live: set<ObjId>) returns (r: map<ObjId, V>)
    ensures r.Keys == d.Keys * live
    ensures forall k :: k in r ==> r[k] == d[k]
  {
    var dead: set<ObjId> := {};
    var todo := d.Keys;
    while todo != {}
      invariant todo <= d.Keys
      invariant dead == (d.Keys - todo) - live
      decreases todo
    {
      CM.NonEmpty(todo);
      var k :| k in todo;
      if k !in live {
        dead := dead + {k};
      }
      todo := todo - {k};
    }
    r := d;
    todo := dead;
    while todo != {}
      invariant todo <= dead
      invariant r.Keys == d.Keys - (dead - todo)
      invariant forall k :: k in r ==> r[k] == d[k]
      decreases todo
    {
      CM.NonEmpty(todo);
      var k :| k in todo;
      r := r - {k};
      todo := todo - {k};
    }
  }

  /** `Prune`: both maps lose exactly their dead keys. */
  method Prune(ch: Chains, live: set<ObjId>) returns (r: Chains)
    ensures forall g :: IsTracked(r, g) <==> IsTracked(ch, g) && g in live
    ensures r.container.Keys == ch.container.Keys * live && r.parents.Keys == ch.parents.Keys * live
    ensures forall g :: g in r.container ==> r.container[g] == ch.container[g]
    ensures forall g :: g in r.parents ==> r.parents[g] == ch.parents[g]
  {
    var container := RemoveDeadKeys(ch.container, live);
    var parents := RemoveDeadKeys(ch.parents, live);
    r := Chains(container, parents);
  }
}

=== FILE: json.dfy ===
/** The JSON tokens the converters read and write, and the host values they convert.

    A JSON object keeps its properties in order. `JObject.Load` keeps one property per name: a
    repeated name replaces the earlier value in place, so the object holds the LAST value written
    for that name, at the position of its first occurrence. `Get` takes the first property with the
    key, which on a loaded object is that single property; a `Json` built with a repeated key
    stands for the loaded object only when the first value is the one read last.
 */
module Json {
  import opened Wrappers
  import opened Types

  datatype Json =
    | JNull
    | JInt(n: int)
    | JStr(s: string)
    | JArr(items: seq<Json>)
    | JObj(props: seq<(string, Json)>)

  /** `jo.TryGetValue(key, out v)`: the first property named `key`. */
  function Get(props: seq<(string, Json)>, key: string): (r: Option<Json>)
    ensures r.None? <==> forall i :: 0 <= i < |props| ==> props[i].0 != key
    ensures r.Some? ==> (key, r.value) in props
  {
    if props == [] then None
    else if props[0].0 == key then Some(props[0].1)
    else
      assert forall i :: 1 <= i < |props| ==> props[i] == props[1..][i - 1];
      Get(props[1..], key)
  }

  /** `token?.ToString()` as far as the converters look at it: the text of a string token, the empty
      string for a null or missing token, and for any other token a non-empty text that is never a
      type tag (a number's digits, or the JSON text of an array or object, which starts with a bracket). */
  function Text(t: Option<Json>): (r: string)
    ensures t.Some? && t.value.JStr? ==> r == t.value.s
    ensures t.None? || t == Some(JNull) ==> r == ""
    ensures t.Some? && !t.value.JStr? && !t.value.JNull? ==> r != "" && r != "unity"
  {
    match t
    case None => ""
    case Some(JNull) => ""
    case Some(JStr(s)) => s
    case Some(_) => "#"
  }

  /* ----- `Value<int>()` and `ToObject<int>()` on a token. ----- */

  /** The range of a .NET `int`. */
  predicate IsInt32(n: int) {
    -0x8000_0000 <= n < 0x8000_0000
  }

  predicate IsDigit(c: char) {
    '0' <= c <= '9'
  }

  predicate AllDigits(s: string) {
    forall i :: 0 <= i < |s| ==> IsDigit(s[i])
  }

  /** The value of a run of decimal digits, most significant first. */
  function Digits(s: string): nat
    requires AllDigits(s)
  {
    if s == [] then 0 else 10 * Digits(s[..|s| - 1]) + (s[|s| - 1] as int - '0' as int)
  }

  /** The invariant-culture integer parse: an optional sign, then at least one decimal digit, in
      the range of `int`. */
  function ParseInt(s: string): (r: Result<int>)
    ensures r.Ok? ==> IsInt32(r.value)
    ensures r.Err? ==> r.error == Format || r.error == Overflow
    ensures s == [] ==> r == Err(Format)
    ensures AllDigits(s) && s != [] ==> r == (if IsInt32(Digits(s)) then Ok(Digits(s)) else Err(Overflow))
    ensures |s| > 1 && s[0] == '+' && AllDigits(s[1..]) ==>
              r == (if IsInt32(Digits(s[1..])) then Ok(Digits(s[1..])) else Err(Overflow))
    ensures |s| > 1 && s[0] == '-' && AllDigits(s[1..]) ==>
              r == (if IsInt32(0 - Digits(s[1..])) then Ok(0 - Digits(s[1..])) else Err(Overflow))
    ensures !AllDigits(s) && !(|s| > 1 && (s[0] == '-' || s[0] == '+') && AllDigits(s[1..])) ==> r == Err(Format)
  {
    var signed := |s| > 0 && (s[0] == '-' || s[0] == '+');
    var body := if signed then s[1..] else s;
    if body == [] || !AllDigits(body) then Err(Format)
    else
      var n: int := if signed && s[0] == '-' then 0 - Digits(body) as int else Digits(body);
      if IsInt32(n) then Ok(n) else Err(Overflow)
  }

  /** A token read as an `int`: an integer in range as itself, a string through `ParseInt`, and
      anything else a cast failure. */
  function ToInt(token: Json): (r: Result<int>)
    ensures r.Ok? ==> IsInt32(r.value)
    ensures token.JInt? ==> r == (if IsInt32(token.n) then Ok(token.n) else Err(Overflow))
    ensures token.JStr? ==> r == ParseInt(token.s)
    ensures !token.JInt? && !token.JStr? ==> r == Err(InvalidCast)
  {
    match token
    case JInt(n) => if IsInt32(n) then Ok(n) else Err(Overflow)
    case JStr(s) => ParseInt(s)
    case _ => Err(InvalidCast)
  }

  /** A token read as an `int` by `ToObject<int>()`: numbers and strings convert as `ToInt` does,
      while null, objects and arrays are not values that convert and are an argument error. */
  function ToObjectInt(token: Json): (r: Result<int>)
    ensures token.JNull? || token.JObj? || token.JArr? <==> r == Err(Argument)
    ensures token.JInt? || token.JStr? ==> r == ToInt(token)
  {
    match token
    case JInt(_) => ToInt(token)
    case JStr(_) => ToInt(token)
    case _ => Err(Argument)
  }

  /** The decimal text of a natural number, without leading zeros. */
  function ShowNat(n: nat): (r: string)
    decreases n
  {
    if n < 10 then [('0' as int + n) as char]
    else ShowNat(n / 10) + [('0' as int + n % 10) as char]
  }

  /** The decimal text of an integer: a minus sign before a negative one. */
  function Show(n: int): string {
    if n < 0 then "-" + ShowNat(-n) else ShowNat(n)
  }

  lemma {:induction false} ShowNatDigits(n: nat)
    ensures ShowNat(n) != [] && AllDigits(ShowNat(n)) && Digits(ShowNat(n)) == n
    decreases n
  {
    var s := ShowNat(n);
    if n >= 10 {
      ShowNatDigits(n / 10);
      assert s[..|s| - 1] == ShowNat(n / 10);
    }
  }

  /** Reading an integer back from its decimal text gives the integer, for every `int`. */
  lemma ParseShow(n: int)
    requires IsInt32(n)
    ensures ParseInt(Show(n)) == Ok(n)
    ensures ToInt(JStr(Show(n))) == Ok(n) && ToInt(JInt(n)) == Ok(n)
  {
    var m := if n < 0 then -n else n;
    ShowNatDigits(m);
    if n < 0 {
      assert Show(n)[1..] == ShowNat(m);
    }
  }

  /** A host value: null, a Unity object by instance id, a dictionary, an array or list, or any other
      object by identity. */
  datatype Value =
    | VNull
    | VUnity(id: ObjId)
    | VDict(ty: Ty, entries: seq<(Value, Value)>)
    | VList(ty: Ty, items: seq<Value>)
    | VPlain(ty: Ty, handle: nat)
}

=== FILE: lru_cache.dfy ===
/** `LRUCache<TKey, TValue>`: a dictionary from keys to nodes of a recency
    list whose front is the most recently used node.

    A `LinkedListNode` has an identity of its own; here it is the node's `id`,
    drawn from `nextId`. The dictionary is `index`, the linked list `history`
    (index 0 is `_history.First`, the last element `_history.Last`).
 */
module LruCache {
  import opened Wrappers

  /** One `LinkedListNode<CacheItem>`: identity, key and value. */
  datatype Node<K, V> = Node(id: nat, key: K, value: V)

  datatype Cache<K, V> = Cache(maxSize: int, index: map<K, Node<K, V>>, history: seq<Node<K, V>>, nextId: nat)

  /** What `TryGetValue` hands back: the bool it returns, the out value, and the cache after the call. */
  datatype Got<K, V> = Got(found: bool, value: V, cache: Cache<K, V>)

  /** `_cache.Count`. */
  function Count<K, V>(c: Cache<K, V>): nat {
    |c.index|
  }

  /** Node identities are fresh and pairwise distinct, and every key's node is in the history and carries that key. */
  ghost predicate Valid<K, V>(c: Cache<K, V>) {
    && (forall i :: 0 <= i < |c.history| ==> c.history[i].id < c.nextId)
    && (forall i, j :: 0 <= i < j < |c.history| ==> c.history[i].id != c.history[j].id)
    && (forall k :: k in c.index ==> c.index[k].key == k && c.index[k] in c.history)
  }

  /** Valid, and every node of the history is the current node of its key: no stale nodes. */
  ghost predicate Tidy<K, V>(c: Cache<K, V>) {
    && Valid(c)
    && (forall i :: 0 <= i < |c.history| ==> c.history[i].key in c.index && c.index[c.history[i].key] == c.history[i])
  }

  /** A fresh cache, `new LRUCache(maxSize)`. */
  function Empty<K, V>(maxSize: int): (c: Cache<K, V>)
    ensures Tidy(c) && Count(c) == 0 && c.maxSize == maxSize
  {
    Cache(maxSize, map[], [], 0)
  }

  /** `LinkedList.Remove(node)`: the history without the node of identity `id`. */
  function Without<K, V>(h: seq<Node<K, V>>, id: nat): (r: seq<Node<K, V>>)
    ensures |r| <= |h|
    ensures forall i :: 0 <= i < |r| ==> r[i] in h && r[i].id != id
    ensures forall i :: 0 <= i < |h| && h[i].id != id ==> h[i] in r
    ensures forall i :: 0 <= i < |h| && h[i].id == id ==> |r| < |h|
  {
    if h == [] then []
    else (if h[0].id == id then [] else [h[0]]) + Without(h[1..], id)
  }

  lemma WithoutKeepsDistinct<K, V>(h: seq<Node<K, V>>, id: nat)
    requires forall i, j :: 0 <= i < j < |h| ==> h[i].id != h[j].id
    ensures forall i, j :: 0 <= i < j < |Without(h, id)| ==> Without(h, id)[i].id != Without(h, id)[j].id
  {
    if h != [] {
      WithoutKeepsDistinct(h[1..], id);
      var r := Without(h, id);
      var tail := Without(h[1..], id);
      forall i, j | 0 <= i < j < |r| ensures r[i].id != r[j].id {
        if h[0].id != id && i == 0 {
          assert r[j] in tail;
          assert r[j] in h[1..];
        }
      }
    }
  }

  /** A node of the history whose identity differs from `id` survives `Without`. */
  lemma WithoutKeeps<K, V>(h: seq<Node<K, V>>, id: nat, x: Node<K, V>)
    requires x in h && x.id != id
    ensures x in Without(h, id)
  {
    var p :| 0 <= p < |h| && h[p] == x;
  }

  /** In a valid cache a node of the history is determined by its identity. */
  lemma SameIdSameNode<K, V>(c: Cache<K, V>, x: Node<K, V>, y: Node<K, V>)
    requires Valid(c) && x in c.history && y in c.history
    ensures x.id == y.id ==> x == y
  {
    var p :| 0 <= p < |c.history| && c.history[p] == x;
    var q :| 0 <= q < |c.history| && c.history[q] == y;
    assert p != q ==> c.history[p].id != c.history[q].id;
  }

  /** `TryGetValue`: on a hit the key's node moves to the front and its value is returned;
      on a miss the out value is `dflt` (C#'s `default`) and nothing changes. */
  function TryGetValue<K, V>(c: Cache<K, V>, k: K, dflt: V): (r: Got<K, V>)
    ensures r.found <==> k in c.index
    ensures k in c.index ==> r.value == c.index[k].value && |r.cache.history| > 0 && r.cache.history[0] == c.index[k]
    ensures k in c.index ==> r.cache.index == c.index && r.cache.maxSize == c.maxSize && r.cache.nextId == c.nextId
    ensures k !in c.index ==> r.value == dflt && r.cache == c
  {
    if k in c.index then
      var node := c.index[k];
      Got(true, node.value, c.(history := [node] + Without(c.history, node.id)))
    else
      Got(false, dflt, c)
  }

  /** Moving a node of a history with distinct identities to the front keeps the identities distinct,
      the length, and the set of nodes. */
  lemma MoveToFront<K, V>(h: seq<Node<K, V>>, node: Node<K, V>)
    requires forall i, j :: 0 <= i < j < |h| ==> h[i].id != h[j].id
    requires node in h
    ensures var h' := [node] + Without(h, node.id);
            && (forall i, j :: 0 <= i < j < |h'| ==> h'[i].id != h'[j].id)
            && |h'| == |h|
            && (forall x :: x in h' <==> x in h)
  {
    var rest := Without(h, node.id);
    var h' := [node] + rest;
    WithoutKeepsDistinct(h, node.id);
    forall i, j | 0 <= i < j < |h'| ensures h'[i].id != h'[j].id {
      assert h'[j] == rest[j - 1];
      if i > 0 {
        assert h'[i] == rest[i - 1];
        assert rest[i - 1].id != rest[j - 1].id;
      } else {
        assert rest[j - 1].id != node.id;
      }
    }
    var p :| 0 <= p < |h| && h[p] == node;
    WithoutLength(h, node.id, p);
    forall x ensures x in h' <==> x in h {
      if x in h && x != node {
        var q :| 0 <= q < |h| && h[q] == x;
        assert q != p;
        WithoutKeeps(h, node.id, x);
      }
      if x in h' && x != node {
        var i :| 0 <= i < |h'| && h'[i] == x;
        assert x == rest[i - 1];
      }
    }
  }

  /** A lookup keeps the cache valid (and tidy if it was), the history's length, and the set of its nodes. */
  lemma GetKeepsValid<K, V>(c: Cache<K, V>, k: K, dflt: V)
    requires Valid(c)
    ensures var c' := TryGetValue(c, k, dflt).cache;
            && Valid(c')
            && |c'.history| == |c.history|
            && (forall x :: x in c'.history <==> x in c.history)
            && (Tidy(c) ==> Tidy(c'))
  {
    if k in c.index {
      var c' := TryGetValue(c, k, dflt).cache;
      MoveToFront(c.history, c.index[k]);
      assert forall i :: 0 <= i < |c'.history| ==> c'.history[i] in c.history;
    }
  }

  /** Removing a node whose identity occurs exactly once shortens the history by one. */
  lemma WithoutLength<K, V>(h: seq<Node<K, V>>, id: nat, p: nat)
    requires forall i, j :: 0 <= i < j < |h| ==> h[i].id != h[j].id
    requires p < |h| && h[p].id == id
    ensures |Without(h, id)| == |h| - 1
  {
    if p == 0 {
      assert forall x :: x in h[1..] ==> x.id != id by {
        forall x | x in h[1..] ensures x.id != id {
          var q :| 0 <= q < |h[1..]| && h[1..][q] == x;
          assert h[q + 1] == x;
        }
      }
      WithoutIdentity(h[1..], id);
    } else {
      WithoutLength(h[1..], id, p - 1);
    }
  }

  lemma WithoutIdentity<K, V>(h: seq<Node<K, V>>, id: nat)
    requires forall x :: x in h ==> x.id != id
    ensures Without(h, id) == h
  {
    if h != [] {
      WithoutIdentity(h[1..], id);
    }
  }

  /** With distinct identities, `Without` cuts out exactly the one position holding `id` and keeps
      every other node in its order. */
  lemma {:induction false} WithoutSplices<K, V>(h: seq<Node<K, V>>, id: nat, p: nat)
    requires forall i, j :: 0 <= i < j < |h| ==> h[i].id != h[j].id
    requires p < |h| && h[p].id == id
    ensures Without(h, id) == h[..p] + h[p + 1..]
  {
    var t := h[1..];
    if p == 0 {
      WithoutHead(h, id);
    } else {
      assert t[p - 1] == h[p];
      assert h[0].id != id by {
        assert h[0].id != h[p].id;
      }
      DistinctTail(h);
      WithoutSplices(t, id, p - 1);
      assert Without(h, id) == [h[0]] + Without(t, id);
      SpliceCons(h, p);
    }
  }

  lemma SpliceCons<T>(h: seq<T>, p: nat)
    requires 0 < p < |h|
    ensures [h[0]] + (h[1..][..p - 1] + h[1..][p..]) == h[..p] + h[p + 1..]
  {
    assert h[1..][..p - 1] == h[1..p];
    assert h[1..][p..] == h[p + 1..];
    assert [h[0]] + h[1..p] == h[..p];
  }

  lemma WithoutHead<K, V>(h: seq<Node<K, V>>, id: nat)
    requires forall i, j :: 0 <= i < j < |h| ==> h[i].id != h[j].id
    requires 0 < |h| && h[0].id == id
    ensures Without(h, id) == h[1..]
  {
    assert forall x :: x in h[1..] ==> x.id != id by {
      forall x | x in h[1..] ensures x.id != id {
        var q :| 0 <= q < |h[1..]| && h[1..][q] == x;
        assert h[q + 1] == x;
      }
    }
    WithoutIdentity(h[1..], id);
  }

  lemma DistinctTail<K, V>(h: seq<Node<K, V>>)
    requires forall i, j :: 0 <= i < j < |h| ==> h[i].id != h[j].id
    requires 0 < |h|
    ensures forall i, j :: 0 <= i < j < |h[1..]| ==> h[1..][i].id != h[1..][j].id
  {
    forall i, j | 0 <= i < j < |h[1..]| ensures h[1..][i].id != h[1..][j].id {
      assert h[1..][i] == h[i + 1] && h[1..][j] == h[j + 1];
    }
  }

  /** A hit reorders the history and nothing else: the key's node, found at position `p`, goes to
      the front, and the nodes before and after it follow in their previous order. */
  lemma HitReorders<K, V>(c: Cache<K, V>, k: K, dflt: V, p: nat)
    requires Valid(c) && k in c.index
    requires p < |c.history| && c.history[p] == c.index[k]
    ensures TryGetValue(c, k, dflt).cache.history == [c.index[k]] + c.history[..p] + c.history[p + 1..]
  {
    WithoutSplices(c.history, c.index[k].id, p);
  }

  /** Pushes a fresh node for `(k, v)` to the front and points the dictionary at it (`LRUCache.cs` lines 47-49). */
  function PushFront<K, V>(c: Cache<K, V>, k: K, v: V): Cache<K, V> {
    var node := Node(c.nextId, k, v);
    c.(index := c.index[k := node], history := [node] + c.history, nextId := c.nextId + 1)
  }

  /** Drops the tail node and the dictionary entry of the tail node's key (`LRUCache.cs` lines 42-44). */
  function EvictTail<K, V>(c: Cache<K, V>): Cache<K, V>
    requires |c.history| > 0
  {
    var last := c.history[|c.history| - 1];
    c.(index := c.index - {last.key}, history := c.history[..|c.history| - 1])
  }

  /** `Add`, as written: when the cache is full and the key is new, the tail's key is evicted first;
      then a fresh node for the key goes to the front. A key already present gets a new front node
      while its old node stays in the history. A full cache with an empty history dereferences a null
      `Last`. */
  function Add<K, V>(c: Cache<K, V>, k: K, v: V): (r: Result<Cache<K, V>>)
    ensures r.Err? <==> Count(c) >= c.maxSize && k !in c.index && c.history == []
    ensures r.Err? ==> r.error == NullReference
    ensures r.Ok? ==> r.value.maxSize == c.maxSize && k in r.value.index && r.value.index[k].value == v
    ensures r.Ok? ==> |r.value.history| > 0 && r.value.history[0] == r.value.index[k]
  {
    if Count(c) >= c.maxSize && k !in c.index then
      if c.history == [] then Err(NullReference)
      else Ok(PushFront(EvictTail(c), k, v))
    else
      Ok(PushFront(c, k, v))
  }

  /** Which keys `Add` leaves: a present key changes no key; a new key joins, and when the cache was
      full the tail node's key leaves. The previous history survives behind the new front node,
      less its tail when one was evicted. */
  lemma AddKeys<K, V>(c: Cache<K, V>, k: K, v: V)
    requires Add(c, k, v).Ok?
    ensures var c' := Add(c, k, v).value;
            && (k in c.index ==> c'.index.Keys == c.index.Keys && c'.history[1..] == c.history)
            && (k !in c.index && Count(c) >= c.maxSize ==>
                  && c'.index.Keys == c.index.Keys - {c.history[|c.history| - 1].key} + {k}
                  && c'.history[1..] == c.history[..|c.history| - 1])
            && (k !in c.index && Count(c) < c.maxSize ==> c'.index.Keys == c.index.Keys + {k} && c'.history[1..] == c.history)
  {
  }

  /** `Add` leaves every other key's entry as it was, or drops it when it is the evicted tail key. */
  lemma AddOthers<K, V>(c: Cache<K, V>, k: K, v: V)
    requires Add(c, k, v).Ok?
    ensures forall k' :: k' in Add(c, k, v).value.index && k' != k ==>
              k' in c.index && Add(c, k, v).value.index[k'] == c.index[k']
  {
  }

  lemma PushValid<K, V>(c: Cache<K, V>, k: K, v: V)
    requires Valid(c)
    ensures Valid(PushFront(c, k, v))
  {
    var c' := PushFront(c, k, v);
    forall i, j | 0 <= i < j < |c'.history| ensures c'.history[i].id != c'.history[j].id {
      assert c'.history[j] == c.history[j - 1];
      if i > 0 {
        assert c'.history[i] == c.history[i - 1];
      }
    }
  }

  lemma EvictValid<K, V>(c: Cache<K, V>)
    requires Valid(c) && |c.history| > 0
    ensures Valid(EvictTail(c))
  {
    var c1 := EvictTail(c);
    var last := c.history[|c.history| - 1];
    forall k' | k' in c1.index ensures c1.index[k'] in c1.history {
      var p :| 0 <= p < |c.history| && c.history[p] == c.index[k'];
      assert p < |c.history| - 1 by {
        assert c.index[k'].key == k' != last.key;
      }
      assert c1.history[p] == c.index[k'];
    }
  }

  /** Every successful `Add` keeps the cache valid: fresh distinct identities, keys pointing into the history. */
  lemma AddValid<K, V>(c: Cache<K, V>, k: K, v: V)
    requires Valid(c)
    ensures c.maxSize > 0 ==> Add(c, k, v).Ok?
    ensures Add(c, k, v).Ok? ==> Valid(Add(c, k, v).value)
  {
    if Count(c) >= c.maxSize && k !in c.index && c.history != [] {
      EvictValid(c);
      PushValid(EvictTail(c), k, v);
    } else {
      PushValid(c, k, v);
    }
  }

  /** After `Add(k, v)` a lookup of `k` hits, yields `v`, and leaves `k`'s node at the front. */
  lemma AddThenGet<K, V>(c: Cache<K, V>, k: K, v: V, dflt: V)
    requires Valid(c) && c.maxSize > 0
    ensures Add(c, k, v).Ok?
    ensures var g := TryGetValue(Add(c, k, v).value, k, dflt);
            g.found && g.value == v && g.cache.history[0].key == k
  {
    AddValid(c, k, v);
  }

  /** A cache without stale nodes has exactly one history node per key. */
  lemma TidyCount<K, V>(c: Cache<K, V>)
    requires Tidy(c)
    ensures |c.history| == Count(c)
  {
    var keys := set i | 0 <= i < |c.history| :: c.history[i].key;
    assert keys == c.index.Keys by {
      forall k | k in c.index ensures k in keys {
        var p :| 0 <= p < |c.history| && c.history[p] == c.index[k];
      }
    }
    TidyKeysDistinct(c);
    DistinctKeysCount(c.history);
  }

  lemma DistinctKeysCount<K, V>(h: seq<Node<K, V>>)
    requires forall i, j :: 0 <= i < j < |h| ==> h[i].key != h[j].key
    ensures |set i | 0 <= i < |h| :: h[i].key| == |h|
  {
    if h != [] {
      var rest := h[1..];
      DistinctKeysCount(rest);
      var all := set i | 0 <= i < |h| :: h[i].key;
      var tail := set i | 0 <= i < |rest| :: rest[i].key;
      assert all == {h[0].key} + tail by {
        forall x | x in all ensures x in {h[0].key} + tail {
          var i :| 0 <= i < |h| && h[i].key == x;
          if i > 0 {
            assert rest[i - 1].key == x;
          }
        }
      }
      assert h[0].key !in tail;
    }
  }

  /** In a tidy cache two history nodes never share a key. */
  lemma TidyKeysDistinct<K, V>(c: Cache<K, V>)
    requires Tidy(c)
    ensures forall i, j :: 0 <= i < j < |c.history| ==> c.history[i].key != c.history[j].key
  {
    forall i, j | 0 <= i < j < |c.history| ensures c.history[i].key != c.history[j].key {
      assert c.index[c.history[i].key] == c.history[i];
      assert c.index[c.history[j].key] == c.history[j];
      assert c.history[i].id != c.history[j].id;
    }
  }

  lemma EvictTidy<K, V>(c: Cache<K, V>)
    requires Tidy(c) && |c.history| > 0
    ensures Tidy(EvictTail(c)) && Count(EvictTail(c)) == Count(c) - 1
  {
    var c1 := EvictTail(c);
    var last := c.history[|c.history| - 1];
    EvictValid(c);
    TidyKeysDistinct(c);
    forall i | 0 <= i < |c1.history|
      ensures c1.history[i].key in c1.index && c1.index[c1.history[i].key] == c1.history[i]
    {
      assert c1.history[i] == c.history[i];
    }
    assert last.key in c.index;
  }

  lemma TidyPush<K, V>(c: Cache<K, V>, k: K, v: V)
    requires Tidy(c) && k !in c.index
    ensures Tidy(PushFront(c, k, v)) && Count(PushFront(c, k, v)) == Count(c) + 1
  {
    PushValid(c, k, v);
    var c' := PushFront(c, k, v);
    forall i | 0 <= i < |c'.history|
      ensures c'.history[i].key in c'.index && c'.index[c'.history[i].key] == c'.history[i]
    {
      if i > 0 {
        assert c'.history[i] == c.history[i - 1];
      }
    }
  }

  /** Adding a key that is not present keeps a tidy cache tidy and within capacity. */
  lemma AddAbsentKeepsBound<K, V>(c: Cache<K, V>, k: K, v: V)
    requires Tidy(c) && c.maxSize > 0 && Count(c) <= c.maxSize && k !in c.index
    ensures Add(c, k, v).Ok?
    ensures Tidy(Add(c, k, v).value)
    ensures Count(Add(c, k, v).value) <= c.maxSize
  {
    if Count(c) >= c.maxSize {
      TidyCount(c);
      EvictTidy(c);
      TidyPush(EvictTail(c), k, v);
    } else {
      TidyPush(c, k, v);
    }
  }

  /** Re-adding a present key keeps the key count but leaves the key's previous node in the history,
      so the history outgrows `Count` and the cache is no longer tidy. */
  lemma ReAddLeavesStaleNode<K, V>(c: Cache<K, V>, k: K, v: V)
    requires Tidy(c) && k in c.index
    ensures Add(c, k, v).Ok?
    ensures var c' := Add(c, k, v).value;
            && Count(c') == Count(c)
            && |c'.history| == Count(c') + 1
            && c.index[k] in c'.history && c'.index[k] != c.index[k]
            && !Tidy(c')
  {
    TidyCount(c);
    var c' := Add(c, k, v).value;
    var p :| 0 <= p < |c.history| && c.history[p] == c.index[k];
    assert c'.history[p + 1] == c.index[k];
    assert c'.index[k].id == c.nextId != c.index[k].id;
    assert Count(c') == Count(c) by {
      assert c'.index.Keys == c.index.Keys;
    }
    assert c'.history[p + 1].key == k;
  }

  /** On a miss nothing changes; the out value is the default. */
  lemma MissChangesNothing<K, V>(c: Cache<K, V>, k: K, dflt: V)
    requires k !in c.index
    ensures TryGetValue(c, k, dflt) == Got(false, dflt, c)
  {
  }

  /** A key that was re-added and then evicted through its stale node lets the dictionary grow past
      `maxSize`: with `maxSize == 1`, adding 1, 1, 2, 3 leaves two keys. */
  lemma StaleEvictionOverflows()
    ensures var c0 := Empty<int, int>(1);
            var c1 := Add(c0, 1, 10);
            c1.Ok? &&
            var c2 := Add(c1.value, 1, 11);
            c2.Ok? &&
            var c3 := Add(c2.value, 2, 20);
            c3.Ok? &&
            var c4 := Add(c3.value, 3, 30);
            c4.Ok? && Count(c4.value) == 2 > c0.maxSize
  {
    StaleFirst();
    StaleReAdd();
    StaleEvictsStale();
    StaleOverflow();
    var index: map<int, Node<int, int>> := map[2 := Node(2, 2, 20), 3 := Node(3, 3, 30)];
    assert index.Keys == {2, 3};
  }

  /** Adding key 1 to an empty cache of size 1. */
  lemma StaleFirst()
    ensures Add(Empty<int, int>(1), 1, 10) == Ok(Cache(1, map[1 := Node(0, 1, 10)], [Node(0, 1, 10)], 1))
  {
    var c := Empty<int, int>(1);
    assert Count(c) == 0;
    assert PushFront(c, 1, 10).history == [Node(0, 1, 10)];
    assert PushFront(c, 1, 10).index == map[1 := Node(0, 1, 10)];
  }

  /** Re-adding key 1: a new front node, and the old one stays as the tail. */
  lemma StaleReAdd()
    ensures Add(Cache(1, map[1 := Node(0, 1, 10)], [Node(0, 1, 10)], 1), 1, 11)
         == Ok(Cache(1, map[1 := Node(1, 1, 11)], [Node(1, 1, 11), Node(0, 1, 10)], 2))
  {
    var c := Cache(1, map[1 := Node(0, 1, 10)], [Node(0, 1, 10)], 1);
    assert PushFront(c, 1, 11).index == map[1 := Node(1, 1, 11)];
    assert PushFront(c, 1, 11).history == [Node(1, 1, 11), Node(0, 1, 10)];
  }

  /** Adding key 2 evicts the stale tail, whose key is 1: the live node of key 1 stays in the history. */
  lemma StaleEvictsStale()
    ensures Add(Cache(1, map[1 := Node(1, 1, 11)], [Node(1, 1, 11), Node(0, 1, 10)], 2), 2, 20)
         == Ok(Cache(1, map[2 := Node(2, 2, 20)], [Node(2, 2, 20), Node(1, 1, 11)], 3))
  {
    var c := Cache(1, map[1 := Node(1, 1, 11)], [Node(1, 1, 11), Node(0, 1, 10)], 2);
    assert Count(c) == 1;
    var e := EvictTail(c);
    assert e.index == map[] && e.history == [Node(1, 1, 11)];
    assert PushFront(e, 2, 20).index == map[2 := Node(2, 2, 20)];
    assert PushFront(e, 2, 20).history == [Node(2, 2, 20), Node(1, 1, 11)];
  }

  /** Adding key 3 evicts the tail, whose key 1 is already gone, so key 2 stays. */
  lemma StaleOverflow()
    ensures Add(Cache(1, map[2 := Node(2, 2, 20)], [Node(2, 2, 20), Node(1, 1, 11)], 3), 3, 30)
         == Ok(Cache(1, map[2 := Node(2, 2, 20), 3 := Node(3, 3, 30)], [Node(3, 3, 30), Node(2, 2, 20)], 4))
  {
    var c := Cache(1, map[2 := Node(2, 2, 20)], [Node(2, 2, 20), Node(1, 1, 11)], 3);
    assert Count(c) == 1;
    var e := EvictTail(c);
    assert e.index == map[2 := Node(2, 2, 20)] && e.history == [Node(2, 2, 20)];
    assert PushFront(e, 3, 30).index == map[2 := Node(2, 2, 20), 3 := Node(3, 3, 30)];
    assert PushFront(e, 3, 30).history == [Node(3, 3, 30), Node(2, 2, 20)];
  }

  /** Unlinks a present key: its dictionary entry and its node go. */
  function Unlink<K, V>(c: Cache<K, V>, k: K): Cache<K, V>
    requires k in c.index
  {
    c.(index := c.index - {k}, history := Without(c.history, c.index[k].id))
  }

  lemma UnlinkValid<K, V>(c: Cache<K, V>, k: K)
    requires Valid(c) && k in c.index
    ensures Valid(Unlink(c, k))
  {
    var prev := c.index[k];
    var c1 := Unlink(c, k);
    WithoutKeepsDistinct(c.history, prev.id);
    assert forall i :: 0 <= i < |c1.history| ==> c1.history[i] in c.history;
    forall k' | k' in c1.index ensures c1.index[k'] in c1.history {
      UnlinkKeepsEntry(c, k, k');
    }
  }

  lemma UnlinkKeepsEntry<K, V>(c: Cache<K, V>, k: K, k': K)
    requires Valid(c) && k in c.index && k' in c.index && k' != k
    ensures c.index[k'] in Without(c.history, c.index[k].id)
  {
    SameIdSameNode(c, c.index[k'], c.index[k]);
    WithoutKeeps(c.history, c.index[k].id, c.index[k']);
  }

  lemma UnlinkTidy<K, V>(c: Cache<K, V>, k: K)
    requires Tidy(c) && k in c.index
    ensures Tidy(Unlink(c, k)) && Count(Unlink(c, k)) == Count(c) - 1
  {
    UnlinkValid(c, k);
    var prev := c.index[k];
    var c1 := Unlink(c, k);
    forall i | 0 <= i < |c1.history|
      ensures c1.history[i].key in c1.index && c1.index[c1.history[i].key] == c1.history[i]
    {
      assert c1.history[i] in c.history && c1.history[i].id != prev.id;
    }
  }

  /** `Add` with the evidently intended unlinking of a present key's old node: re-adding a key updates
      its entry instead of duplicating its node. */
  function AddFixed<K, V>(c: Cache<K, V>, k: K, v: V): (r: Result<Cache<K, V>>)
    ensures r.Ok? ==> k in r.value.index && r.value.index[k].value == v
    ensures r.Ok? ==> |r.value.history| > 0 && r.value.history[0] == r.value.index[k]
    ensures r.Ok? ==> r.value.maxSize == c.maxSize
    ensures k in c.index ==> r.Ok? && r.value.index.Keys == c.index.Keys
    ensures k !in c.index ==> r == Add(c, k, v)
  {
    if k in c.index then Ok(PushFront(Unlink(c, k), k, v))
    else Add(c, k, v)
  }

  /** The corrected `Add` keeps a tidy cache tidy and its key count within `maxSize`. */
  lemma AddFixedKeepsBound<K, V>(c: Cache<K, V>, k: K, v: V)
    requires Tidy(c) && c.maxSize > 0 && Count(c) <= c.maxSize
    ensures AddFixed(c, k, v).Ok?
    ensures Tidy(AddFixed(c, k, v).value) && Count(AddFixed(c, k, v).value) <= c.maxSize
  {
    if k in c.index {
      UnlinkTidy(c, k);
      TidyPush(Unlink(c, k), k, v);
    } else {
      AddAbsentKeepsBound(c, k, v);
    }
  }

  /** A cache operation: a lookup or an insertion. */
  datatype Op<K, V> = Get(key: K) | Put(key: K, value: V)

  /** Runs a sequence of lookups and insertions through the corrected cache: no sequence of operations
      grows the cache past its capacity. */
  function Run<K, V>(c: Cache<K, V>, ops: seq<Op<K, V>>, dflt: V): (r: Cache<K, V>)
    requires Tidy(c) && c.maxSize > 0 && Count(c) <= c.maxSize
    ensures Tidy(r) && r.maxSize == c.maxSize && Count(r) <= c.maxSize
    decreases |ops|
  {
    if ops == [] then c
    else
      var c' := match ops[0]
        case Get(k) => TryGetValue(c, k, dflt).cache
        case Put(k, v) => AddFixed(c, k, v).value;
      RunStep(c, ops[0], dflt);
      Run(c', ops[1..], dflt)
  }

  lemma RunStep<K, V>(c: Cache<K, V>, op: Op<K, V>, dflt: V)
    requires Tidy(c) && c.maxSize > 0 && Count(c) <= c.maxSize
    ensures op.Put? ==> AddFixed(c, op.key, op.value).Ok?
    ensures var c' := match op
              case Get(k) => TryGetValue(c, k, dflt).cache
              case Put(k, v) => AddFixed(c, k, v).value;
            Tidy(c') && c'.maxSize == c.maxSize && Count(c') <= c.maxSize
  {
    match op
    case Get(k) => GetKeepsValid(c, k, dflt);
    case Put(k, v) => AddFixedKeepsBound(c, k, v);
  }
}

=== FILE: serialization_detector.dfy ===
/** The `Instantiate` prefix and postfix of `SerializationDetector`, the simpler of the two
    instantiation patches.

    The prefix scans a GameObject not yet in the detector's `ContainerMap` (every component in its
    children has its type registered), enters it as `(null, worth)`, and when it is worth bridging
    finds or adds its SerializationHandler, which becomes the patch state. The postfix enters the
    clone as `(null, true)`, and with a state handler links the clone handler's referenced
    components back to the source handler's, index by index, then runs the clone handler's
    lifecycle callbacks.

    `Instantiate` itself (which copies the handler onto the clone) happens between the two and is
    outside the model: the postfix receives the state after it.
 */
module SerializationDetector {
  import opened Wrappers
  import opened Types
  import opened UnityObjects
  import opened AssemblyUtils
  import SR = SerializationRegistry
  import CM = ComponentMapper
  import GOM = GameObjectMapper
  import SDD = SerializationDetectorDestroy

  /** Host queries. */
  datatype Host = Host(
    live: set<ObjId>,
    componentsInChildren: ObjId -> seq<ObjId>, // GetComponentsInChildren<Component>()
    typeOf: ObjId -> Ty,                       // GetType() of a component
    fieldsOf: Ty -> seq<Member>,
    sep: char,
    newHandler: ObjId -> ObjId,                // the component AddComponent<SerializationHandler>() creates
    refsOf: ObjId -> seq<ObjId>)               // a handler's ReferencedComponents

  /** The detector's bookkeeping: its `ContainerMap`, the component links, the SerializationHandler
      each GameObject carries, and the registry. */
  datatype Detector = Detector(cmap: SDD.DetectorMap, links: CM.Links, handlers: map<ObjId, ObjId>, reg: SR.Registry)

  /** The entry step of the prefix: a tracked GameObject keeps its entry and is not scanned again;
      any other is scanned and entered as `(null, worth)`. Answers the state and the worth flag. An
      exception in the scan leaves the types it already registered in the registry, and the
      GameObject out of the map, since `ContainerMap.Add` comes after the loop. */
  function Enter(st: Detector, go: ObjId, host: Host): (r: (Detector, Result<bool>))
    ensures go in st.cmap ==> r == (st, Ok(st.cmap[go].1))
    ensures go !in st.cmap ==> st.reg.cache.Keys <= r.0.reg.cache.Keys && st.reg.targets <= r.0.reg.targets
    ensures go !in st.cmap && r.1.Err? ==> r.0 == st.(reg := r.0.reg)
    ensures go !in st.cmap && r.1.Ok? ==>
              var comps := host.componentsInChildren(go);
              && r.0 == st.(cmap := st.cmap[go := (None, r.1.value)], reg := r.0.reg)
              && (forall i :: 0 <= i < |comps| && !IsFromGameAssemblies(host.typeOf(comps[i]), host.sep) ==>
                    host.typeOf(comps[i]) in r.0.reg.cache)
              && (r.1.value ==> exists i :: 0 <= i < |comps| && !IsFromGameAssemblies(host.typeOf(comps[i]), host.sep))
  {
    if go in st.cmap then (st, Ok(st.cmap[go].1))
    else
      var (res, reg') := GOM.Evaluate(st.reg, host.componentsInChildren(go), false, host.typeOf, host.fieldsOf, host.sep);
      match res
      case Err(e) => (st.(reg := reg'), Err(e))
      case Ok(worth) => (st.(cmap := st.cmap[go := (None, worth)], reg := reg'), Ok(worth))
  }

  /** `TriggerBridgeCallbacks`. Answers the state and `__state`: the GameObject's handler when it is
      worth bridging (the one it has, or a new one), otherwise null. An exception in the scan
      propagates with the state the scan left. */
  function Prefix(st: Detector, original: Obj, host: Host): (r: (Detector, Result<Option<ObjId>>))
    ensures RootOf(original, host.live).None? ==> r == (st, Ok(None))
    ensures RootOf(original, host.live).Some? && r.1.Err? ==>
              var go := RootOf(original, host.live).value;
              && go !in st.cmap
              && r.0 == st.(reg := r.0.reg)
              && st.reg.cache.Keys <= r.0.reg.cache.Keys
    ensures RootOf(original, host.live).Some? && r.1.Ok? ==>
              var go := RootOf(original, host.live).value;
              var after := r.0;
              && go in after.cmap
              && (go in st.cmap ==> after.cmap == st.cmap && after.reg == st.reg)
              && (go !in st.cmap ==> after.cmap == st.cmap[go := (None, after.cmap[go].1)])
              && after.links == st.links
              && (r.1.value.Some? <==> after.cmap[go].1)
              && (r.1.value.Some? ==> go in after.handlers && after.handlers[go] == r.1.value.value)
              && (r.1.value.Some? && go in st.handlers ==> after.handlers == st.handlers)
              && (r.1.value.Some? && go !in st.handlers ==> after.handlers == st.handlers[go := host.newHandler(go)])
              && (r.1.value.None? ==> after.handlers == st.handlers)
  {
    match RootOf(original, host.live)
    case None => (st, Ok(None))
    case Some(go) =>
      var (st1, res) := Enter(st, go, host);
      match res
      case Err(e) => (st1, Err(e))
      case Ok(worth) =>
        if !worth then (st1, Ok(None))
        else if go in st1.handlers then (st1, Ok(Some(st1.handlers[go])))
        else
          var h := host.newHandler(go);
          (st1.(handlers := st1.handlers[go := h]), Ok(Some(h)))
  }

  /** The postfix's mapping loop: for every index of the clone handler's list, the clone component is
      linked back to the source component at that index. When the source list is shorter, indexing
      past its end throws after the earlier pairs were registered. */
  function PairRefs(links: CM.Links, srefs: seq<ObjId>, hrefs: seq<ObjId>, live: set<ObjId>)
    : (r: (CM.Links, Option<Exception>))
    ensures r.1.None? <==> |hrefs| <= |srefs|
    ensures r.1.Some? ==> r.1.value == ArgumentOutOfRange
    ensures r.0 == GOM.PairComponents(links, srefs, hrefs, live)
    decreases |hrefs|
  {
    if hrefs == [] then (links, None)
    else if srefs == [] then (links, Some(ArgumentOutOfRange))
    else PairRefs(CM.RegisterParentChild(links, Some(srefs[0]), hrefs[0], live), srefs[1..], hrefs[1..], live)
  }

  /** The part of the postfix after the clone was entered: without a live state handler, or when the
      clone has no handler, nothing more happens. Answers the state and either the handler whose
      lifecycle callbacks run or the exception thrown. */
  function MapRefs(st: Detector, childGo: ObjId, state: Option<ObjId>, host: Host): (r: (Detector, Result<Option<ObjId>>))
    ensures r.0 == st.(links := r.0.links)
    ensures !CM.Alive(state, host.live) || childGo !in st.handlers ==> r == (st, Ok(None))
    ensures CM.Alive(state, host.live) && childGo in st.handlers ==>
              var handler := st.handlers[childGo];
              && r.0.links == GOM.PairComponents(st.links, host.refsOf(state.value), host.refsOf(handler), host.live)
              && (|host.refsOf(handler)| <= |host.refsOf(state.value)| ==> r.1 == Ok(Some(handler)))
              && (|host.refsOf(handler)| > |host.refsOf(state.value)| ==> r.1 == Err(ArgumentOutOfRange))
  {
    if !CM.Alive(state, host.live) || childGo !in st.handlers then (st, Ok(None))
    else
      var handler := st.handlers[childGo];
      var (links, err) := PairRefs(st.links, host.refsOf(state.value), host.refsOf(handler), host.live);
      (st.(links := links), if err.Some? then Err(err.value) else Ok(Some(handler)))
  }

  /** The clone is entered as `(null, true)` unless it is already a key. */
  function EnterClone(cmap: SDD.DetectorMap, childGo: ObjId): (r: SDD.DetectorMap)
    ensures childGo in r && r.Keys == cmap.Keys + {childGo}
    ensures forall g :: g in cmap ==> r[g] == cmap[g]
    ensures childGo !in cmap ==> r[childGo] == (None, true)
  {
    if childGo in cmap then cmap else cmap[childGo := (None, true)]
  }

  /** `GetChildGOAndCacheIt`, as written. The source's entry is read into a local tuple and the
      local's first item is set to the clone, so the map itself is never changed there. */
  function Postfix(st: Detector, original: Obj, result: Obj, state: Option<ObjId>, host: Host)
    : (r: (Detector, Result<Option<ObjId>>))
    ensures RootOf(original, host.live).None? || RootOf(result, host.live).None? ==> r == (st, Ok(None))
    ensures RootOf(original, host.live).Some? && RootOf(result, host.live).Some? ==>
              r == MapRefs(st.(cmap := EnterClone(st.cmap, RootOf(result, host.live).value)),
                           RootOf(result, host.live).value, state, host)
    ensures forall g :: g in st.cmap ==> g in r.0.cmap && r.0.cmap[g] == st.cmap[g]
  {
    match (RootOf(original, host.live), RootOf(result, host.live))
    case (Some(parentGo), Some(childGo)) =>
      MapRefs(st.(cmap := EnterClone(st.cmap, childGo)), childGo, state, host)
    case _ => (st, Ok(None))
  }

  /** The corrected postfix: the source's entry in the map gets the clone as its forward link. */
  function PostfixFixed(st: Detector, original: Obj, result: Obj, state: Option<ObjId>, host: Host)
    : (r: (Detector, Result<Option<ObjId>>))
    ensures RootOf(original, host.live).None? || RootOf(result, host.live).None? ==> r == (st, Ok(None))
    ensures RootOf(original, host.live).Some? && RootOf(result, host.live).Some? ==>
              var parentGo, childGo := RootOf(original, host.live).value, RootOf(result, host.live).value;
              && childGo in r.0.cmap
              && (parentGo in st.cmap ==> parentGo in r.0.cmap && r.0.cmap[parentGo] == (Some(childGo), st.cmap[parentGo].1))
              && r.1 == Postfix(st, original, result, state, host).1
  {
    match (RootOf(original, host.live), RootOf(result, host.live))
    case (Some(parentGo), Some(childGo)) =>
      var cmap := EnterClone(st.cmap, childGo);
      var cmap' := if parentGo in cmap then cmap[parentGo := (Some(childGo), cmap[parentGo].1)] else cmap;
      MapRefs(st.(cmap := cmap'), childGo, state, host)
    case _ => (st, Ok(None))
  }

  /** Every entry of the map has a null forward link. */
  predicate NoForwardLinks(cmap: SDD.DetectorMap) {
    forall g :: g in cmap ==> cmap[g].0.None?
  }

  /** As written, no forward link is ever set: the prefix enters `(null, worth)`, the postfix enters
      `(null, true)` and changes no existing entry. */
  lemma ForwardLinksStayNull(st: Detector, original: Obj, result: Obj, state: Option<ObjId>, host: Host)
    requires NoForwardLinks(st.cmap)
    ensures NoForwardLinks(Prefix(st, original, host).0.cmap)
    ensures NoForwardLinks(Postfix(st, original, result, state, host).0.cmap)
  {
    PrefixLinksStayNull(st, original, host);
    var q := Postfix(st, original, result, state, host).0;
    if RootOf(original, host.live).Some? && RootOf(result, host.live).Some? {
      var childGo := RootOf(result, host.live).value;
      assert q.cmap == EnterClone(st.cmap, childGo);
    }
  }

  lemma PrefixLinksStayNull(st: Detector, original: Obj, host: Host)
    requires NoForwardLinks(st.cmap)
    ensures NoForwardLinks(Prefix(st, original, host).0.cmap)
  {
    var p := Prefix(st, original, host);
    if p.1.Ok? && RootOf(original, host.live).Some? {
      var go := RootOf(original, host.live).value;
      assert forall g :: g in p.0.cmap && g != go ==> p.0.cmap[g] == st.cmap[g];
    }
  }

  /** A tracked source `parent` with no forward link is cloned into a new live `child`. Destroying
      the source afterwards leaves the clone's entry behind as written, because the walk in the
      destroy patch never reaches it; after the corrected postfix it removes both. */
  lemma CloneNotReachedOnDestroy(st: Detector, parentGo: ObjId, childGo: ObjId, state: Option<ObjId>, host: Host)
    requires parentGo != childGo && parentGo in host.live && childGo in host.live
    requires parentGo in st.cmap && st.cmap[parentGo].0.None? && childGo !in st.cmap
    ensures var after := Postfix(st, GoObj(parentGo), GoObj(childGo), state, host).0;
            childGo in SDD.RemoveCache(after.cmap, after.links, GoObj(parentGo), host.componentsInChildren, host.live).0
    ensures var after := PostfixFixed(st, GoObj(parentGo), GoObj(childGo), state, host).0;
            var removed := SDD.RemoveCacheFixed(after.cmap, after.links, GoObj(parentGo), host.componentsInChildren, host.live).0;
            parentGo !in removed && childGo !in removed
  {
    var live := host.live;
    var after := Postfix(st, GoObj(parentGo), GoObj(childGo), state, host).0;
    assert after.cmap == EnterClone(st.cmap, childGo);
    SDD.ChainRemoveMeaning(after.cmap, [parentGo], live);
    var fixedAfter := PostfixFixed(st, GoObj(parentGo), GoObj(childGo), state, host).0;
    var cmap := EnterClone(st.cmap, childGo);
    assert fixedAfter.cmap == cmap[parentGo := (Some(childGo), cmap[parentGo].1)];
    assert fixedAfter.cmap[childGo] == (None, true);
    SDD.ChainRemoveMeaning(fixedAfter.cmap, [parentGo, childGo], live);
  }

  /* ----- The destroy finding on the map the corrected postfix builds. ----- */

  /** GameObjects `A`, `B`, `C` (1, 2, 3), each holding one component (11, 12, 13) and carrying a
      handler (21, 22, 23) that references that component. */
  function ChainHost(): Host {
    Host({1, 2, 3, 11, 12, 13, 21, 22, 23},
         g => if 1 <= g <= 3 then [g + 10] else [],
         c => Ty("T", ClassKind, {}, Assembly("Game.dll", None), [], None, None),
         t => [],
         '/',
         g => g + 20,
         h => if 21 <= h <= 23 then [h - 10] else [])
  }

  /** The detector once the prefix has entered `A` as worth bridging. */
  function ChainStart(): Detector {
    Detector(map[1 := (None, true)], CM.Links(map[], map[]), map[1 := 21, 2 := 22, 3 := 23], SR.Registry(map[], []))
  }

  /** After `A` was cloned into `B`. */
  function ChainAfterB(): Detector {
    ChainStart().(cmap := map[1 := (Some(2), true), 2 := (None, true)],
                  links := CM.Links(map[12 := Some(11)], map[11 := Some(12)]))
  }

  /** After `B` was cloned into `C`. */
  function ChainAfterC(): Detector {
    ChainStart().(cmap := map[1 := (Some(2), true), 2 := (Some(3), true), 3 := (None, true)],
                  links := SDD.ChainLinks())
  }

  /** Cloning the tracked `A` into `B`: the prefix hands over `A`'s handler, and the corrected
      postfix enters `B`, links `A` forward to it and pairs `a` with `b`. */
  lemma CloneIntoB()
    ensures Prefix(ChainStart(), GoObj(1), ChainHost()) == (ChainStart(), Ok(Some(21)))
    ensures PostfixFixed(ChainStart(), GoObj(1), GoObj(2), Some(21), ChainHost()) == (ChainAfterB(), Ok(Some(22)))
  {
    var host := ChainHost();
    var st := ChainStart();
    var p := Prefix(st, GoObj(1), host);
    assert p.0 == st;
    assert RootOf(GoObj(1), host.live) == Some(1) && RootOf(GoObj(2), host.live) == Some(2);
    var entered := EnterClone(st.cmap, 2);
    assert entered == map[1 := (None, true), 2 := (None, true)];
    var cmap := map[1 := (Some(2), true), 2 := (None, true)];
    assert entered[1 := (Some(2), entered[1].1)] == cmap;
    assert host.refsOf(21) == [11] && host.refsOf(22) == [12];
    var paired := GOM.PairComponents(st.links, [11], [12], host.live);
    assert paired == GOM.PairComponents(CM.RegisterParentChild(st.links, Some(11), 12, host.live), [], [], host.live);
    assert paired == ChainAfterB().links;
    assert MapRefs(st.(cmap := cmap), 2, Some(21), host) == (ChainAfterB(), Ok(Some(22)));
  }

  /** Cloning `B`, itself tracked since the postfix entered it, into `C`. */
  lemma CloneIntoC()
    ensures Prefix(ChainAfterB(), GoObj(2), ChainHost()) == (ChainAfterB(), Ok(Some(22)))
    ensures PostfixFixed(ChainAfterB(), GoObj(2), GoObj(3), Some(22), ChainHost()) == (ChainAfterC(), Ok(Some(23)))
  {
    var host := ChainHost();
    var st := ChainAfterB();
    var p := Prefix(st, GoObj(2), host);
    assert p.0 == st;
    assert RootOf(GoObj(2), host.live) == Some(2) && RootOf(GoObj(3), host.live) == Some(3);
    var entered := EnterClone(st.cmap, 3);
    assert entered == map[1 := (Some(2), true), 2 := (None, true), 3 := (None, true)];
    var cmap := map[1 := (Some(2), true), 2 := (Some(3), true), 3 := (None, true)];
    assert entered[2 := (Some(3), entered[2].1)] == cmap;
    assert host.refsOf(22) == [12] && host.refsOf(23) == [13];
    var paired := GOM.PairComponents(st.links, [12], [13], host.live);
    assert paired == GOM.PairComponents(CM.RegisterParentChild(st.links, Some(12), 13, host.live), [], [], host.live);
    assert paired == SDD.ChainLinks();
    assert MapRefs(st.(cmap := cmap), 3, Some(22), host) == (ChainAfterC(), Ok(Some(23)));
  }

  /** The destroy walk from `A` follows the forward links to `C`, removing all three entries. */
  lemma ChainWalk()
    ensures SDD.ChainRemove(ChainAfterC().cmap, 1, ChainHost().live) == (map[], 3)
  {
    var cmap, live := ChainAfterC().cmap, ChainHost().live;
    assert SDD.Chain(cmap, [1, 2, 3], live);
    SDD.ChainRemoveMeaning(cmap, [1, 2, 3], live);
    assert (map g | g in cmap && g !in [1, 2, 3] :: cmap[g]) == map[];
  }

  /** Prefab `A` cloned into `B`, and `B` into `C`, through the corrected postfix (the state
      `CloneIntoC` reaches). Destroying `A` then walks the forward links to `C`; as written it unlinks `c`, so `b` loses its clone and
      the destroyed `a` stays linked to `b`, while the corrected patch unlinks `a` and keeps
      `b -> c`. Both remove all three entries. */
  lemma DestroyUnlinksWrongComponents()
    ensures var host, after := ChainHost(), ChainAfterC();
            && SDD.RemoveCache(after.cmap, after.links, GoObj(1), host.componentsInChildren, host.live)
               == (map[], CM.Links(map[12 := Some(11)], map[11 := Some(12)]))
            && SDD.RemoveCacheFixed(after.cmap, after.links, GoObj(1), host.componentsInChildren, host.live)
               == (map[], CM.Links(map[13 := Some(12)], map[12 := Some(13)]))
  {
    DestroyAsWritten();
    DestroyCorrected();
  }

  /** As written: the walk ends at `C`, so `c` is unlinked. */
  lemma DestroyAsWritten()
    ensures var host, after := ChainHost(), ChainAfterC();
            SDD.RemoveCache(after.cmap, after.links, GoObj(1), host.componentsInChildren, host.live)
            == (map[], CM.Links(map[12 := Some(11)], map[11 := Some(12)]))
  {
    var host, after := ChainHost(), ChainAfterC();
    ChainWalk();
    assert host.componentsInChildren(3) == [13];
    SDD.ChainUnlinksBack(host.live);
  }

  /** Corrected: `A`'s own component `a` is unlinked. */
  lemma DestroyCorrected()
    ensures var host, after := ChainHost(), ChainAfterC();
            SDD.RemoveCacheFixed(after.cmap, after.links, GoObj(1), host.componentsInChildren, host.live)
            == (map[], CM.Links(map[13 := Some(12)], map[12 := Some(13)]))
  {
    var host, after := ChainHost(), ChainAfterC();
    ChainWalk();
    assert RootOf(GoObj(1), host.live) == Some(1);
    assert host.componentsInChildren(1) == [11];
    SDD.ChainUnlinksFront(host.live);
  }
}

=== FILE: serialization_detector_destroy.dfy ===
/** The `Object.Destroy` prefix of `SerializationDetector`: the destroyed object's GameObject and
    every clone after it leave the detector's `ContainerMap`, then component links are dropped. */
module SerializationDetectorDestroy {
  import opened Wrappers
  import opened Types
  import opened UnityObjects
  import CM = ComponentMapper

  /** The detector's `ContainerMap`: GameObject to (forward link, worth bridging). */
  type DetectorMap = map<ObjId, (Option<ObjId>, bool)>

  /** The `while` loop: remove the current entry and move to its child while that child is live. Each
      iteration removes a key, so the loop ends. Answers the map and the last GameObject reached. */
  function ChainRemove(cmap: DetectorMap, go: ObjId, live: set<ObjId>): (r: (DetectorMap, ObjId))
    ensures r.0.Keys <= cmap.Keys && go !in r.0 && r.1 !in r.0
    ensures forall g :: g in r.0 ==> r.0[g] == cmap[g]
    ensures go !in cmap ==> r == (cmap, go)
    ensures r.1 == go || r.1 in live
    decreases |cmap|
  {
    if go in cmap then
      var child := cmap[go].0;
      var next := if CM.Alive(child, live) then child.value else go;
      ChainRemove(cmap - {go}, next, live)
    else (cmap, go)
  }

  /** `gs` is a chain in the detector map: live, distinct, each the forward link of the one before. */
  ghost predicate Chain(cmap: DetectorMap, gs: seq<ObjId>, live: set<ObjId>) {
    && (forall i :: 0 <= i < |gs| ==> gs[i] in live)
    && (forall i, j :: 0 <= i < j < |gs| ==> gs[i] != gs[j])
    && (forall i :: 0 <= i < |gs| - 1 ==> gs[i] in cmap && cmap[gs[i]].0 == Some(gs[i + 1]))
  }

  /** On a chain whose last GameObject has no live forward link, the walk removes exactly the chain's
      entries and stops at its last GameObject. */
  lemma {:induction false} ChainRemoveMeaning(cmap: DetectorMap, gs: seq<ObjId>, live: set<ObjId>)
    requires |gs| > 0 && Chain(cmap, gs, live)
    requires var last := gs[|gs| - 1]; last !in cmap || !CM.Alive(cmap[last].0, live)
    ensures ChainRemove(cmap, gs[0], live) == (map g | g in cmap && g !in gs :: cmap[g], gs[|gs| - 1])
    decreases |gs|
  {
    var go := gs[0];
    if |gs| == 1 {
      if go in cmap {
        assert ChainRemove(cmap, go, live) == ChainRemove(cmap - {go}, go, live);
        assert cmap - {go} == (map g | g in cmap && g !in gs :: cmap[g]);
      } else {
        assert cmap == (map g | g in cmap && g !in gs :: cmap[g]);
      }
    } else {
      var rest := gs[1..];
      var cmap' := cmap - {go};
      assert forall i :: 0 <= i < |rest| ==> rest[i] == gs[i + 1];
      ChainRemoveMeaning(cmap', rest, live);
      assert (map g | g in cmap' && g !in rest :: cmap'[g]) == (map g | g in cmap && g !in gs :: cmap[g]);
    }
  }

  /** `RemoveCache`, as written. `componentsInChildren(go)` is `go.GetComponentsInChildren<Component>()`.
      A destroyed GameObject has the components under the LAST GameObject the walk reached unlinked,
      because the walk reuses the variable that held the destroyed object. */
  function RemoveCache(cmap: DetectorMap, links: CM.Links, destroyed: Obj,
                       componentsInChildren: ObjId -> seq<ObjId>, live: set<ObjId>): (r: (DetectorMap, CM.Links))
    ensures RootOf(destroyed, live).None? ==> r == (cmap, links)
    ensures RootOf(destroyed, live).Some? ==> r.0 == ChainRemove(cmap, RootOf(destroyed, live).value, live).0
    ensures destroyed.CompObj? && destroyed.comp in live && destroyed.owner in live ==>
              r.1 == CM.PrunedLinks(CM.RemoveComponentFromMap(links, Some(destroyed.comp), live), live)
    ensures destroyed.GoObj? && destroyed.go in live ==>
              var last := ChainRemove(cmap, destroyed.go, live).1;
              r.1 == CM.PrunedLinks(CM.RemoveAll(links, componentsInChildren(last), live), live)
  {
    var parentComponent := if destroyed.CompObj? then Some(destroyed.comp) else None;
    match RootOf(destroyed, live)
    case None => (cmap, links)
    case Some(go) =>
      var (cmap', last) := ChainRemove(cmap, go, live);
      if CM.Alive(parentComponent, live) then
        (cmap', CM.PrunedLinks(CM.RemoveComponentFromMap(links, parentComponent, live), live))
      else
        (cmap', CM.PrunedLinks(CM.RemoveAll(links, componentsInChildren(last), live), live))
  }

  /** The corrected `RemoveCache`: a destroyed GameObject has its own components unlinked. */
  function RemoveCacheFixed(cmap: DetectorMap, links: CM.Links, destroyed: Obj,
                            componentsInChildren: ObjId -> seq<ObjId>, live: set<ObjId>): (r: (DetectorMap, CM.Links))
    ensures RootOf(destroyed, live).None? ==> r == (cmap, links)
    ensures RootOf(destroyed, live).Some? ==> r.0 == ChainRemove(cmap, RootOf(destroyed, live).value, live).0
  {
    var parentComponent := if destroyed.CompObj? then Some(destroyed.comp) else None;
    match RootOf(destroyed, live)
    case None => (cmap, links)
    case Some(go) =>
      var (cmap', _) := ChainRemove(cmap, go, live);
      if CM.Alive(parentComponent, live) then
        (cmap', CM.PrunedLinks(CM.RemoveComponentFromMap(links, parentComponent, live), live))
      else
        (cmap', CM.PrunedLinks(CM.RemoveAll(links, componentsInChildren(go), live), live))
  }

  /** With consistent component links, the corrected patch leaves no component of a destroyed live
      GameObject linked, and the links stay consistent. */
  lemma FixedUnlinksDestroyed(cmap: DetectorMap, links: CM.Links, go: ObjId,
                              componentsInChildren: ObjId -> seq<ObjId>, live: set<ObjId>)
    requires go in live && CM.Consistent(links, live)
    requires forall i :: 0 <= i < |componentsInChildren(go)| ==> componentsInChildren(go)[i] in live
    ensures var r := RemoveCacheFixed(cmap, links, GoObj(go), componentsInChildren, live).1;
            var comps := componentsInChildren(go);
            && CM.Consistent(r, live)
            && forall i :: 0 <= i < |comps| ==> comps[i] !in r.childToParent && comps[i] !in r.parentToChild
  {
    var comps := componentsInChildren(go);
    CM.RemoveAllUnlinks(links, comps, live);
    CM.PruneKeepsConsistent(CM.RemoveAll(links, comps, live), live);
  }

  /** The component links after prefab `A` was cloned into `B` and `B` into `C`, each with one
      component (`a`, `b`, `c` = 11, 12, 13): `a -> b -> c`. */
  function ChainLinks(): CM.Links {
    CM.Links(map[12 := Some(11), 13 := Some(12)], map[11 := Some(12), 12 := Some(13)])
  }

  /** Unlinking the last component `c` cuts `b`'s forward link and leaves `a -> b`. */
  lemma {:induction false} ChainUnlinksBack(live: set<ObjId>)
    requires {11, 12, 13} <= live
    ensures CM.PrunedLinks(CM.RemoveAll(ChainLinks(), [13], live), live) == CM.Links(map[12 := Some(11)], map[11 := Some(12)])
  {
    var expected := CM.Links(map[12 := Some(11)], map[11 := Some(12)]);
    var once := CM.RemoveComponentFromMap(ChainLinks(), Some(13), live);
    assert once == expected;
    assert CM.RemoveAll(ChainLinks(), [13], live) == CM.RemoveAll(once, [], live);
    assert CM.Pruned(expected.childToParent, live) == expected.childToParent;
    assert CM.Pruned(expected.parentToChild, live) == expected.parentToChild;
  }

  /** Unlinking the first component `a` cuts `b`'s back link and leaves `b -> c`. */
  lemma {:induction false} ChainUnlinksFront(live: set<ObjId>)
    requires {11, 12, 13} <= live
    ensures CM.PrunedLinks(CM.RemoveAll(ChainLinks(), [11], live), live) == CM.Links(map[13 := Some(12)], map[12 := Some(13)])
  {
    var expected := CM.Links(map[13 := Some(12)], map[12 := Some(13)]);
    var once := CM.RemoveComponentFromMap(ChainLinks(), Some(11), live);
    assert once == expected;
    assert CM.RemoveAll(ChainLinks(), [11], live) == CM.RemoveAll(once, [], live);
    assert CM.Pruned(expected.childToParent, live) == expected.childToParent;
    assert CM.Pruned(expected.parentToChild, live) == expected.parentToChild;
  }
}

=== FILE: serialization_handler.dfy ===
/** `SerializationHandler`: the component a bridged GameObject carries. Before a clone it captures
    every registered field of its components as JSON into four parallel lists; after the clone it
    decodes each entry back onto the clone's component of the same type.

    The Unity and reflection calls it makes are parameters: `TryGetComponent`, the compiled field
    getter, `JsonUtils.ToJson` and `AssemblyQualifiedName` for capture (`Host`), and
    `TryGetComponent`, `AccessTools.Field`, `JsonConvert.DeserializeObject` and
    `ReflectionUtils.GetFastType` for restore (`Env`).
 */
module SerializationHandler {
  import opened Wrappers
  import opened Types
  import opened Json
  import LruCache
  import SR = SerializationRegistry

  /** A `Dictionary<string, FieldInfo>`: field name to what `AccessTools.Field` found, null included. */
  type FieldTable = map<string, Option<Member>>

  /** `FieldInfoCache`; absent when no cache was initialised. */
  type FieldCache = Option<LruCache.Cache<Ty, FieldTable>>

  /** The four serialized lists `_serializedData`, `_fields`, `_componentNames` and `_fieldTypes`. */
  datatype Captured = Captured(serializedData: seq<string>, fields: seq<string>,
                               componentNames: seq<string>, fieldTypes: seq<string>)

  /** One captured entry: one element of each list. */
  datatype Entry = Entry(json: string, field: string, componentName: string, fieldType: string)

  /** The value `JsonUtils.ToJson` is handed: the field's value, or a `DictionaryWrapper` around it. */
  datatype Boxed = Bare(v: Value) | Wrapped(dict: Value)

  /** What capture asks of the GameObject and the runtime. `componentOf` is `TryGetComponent`,
      `valueOf(c, f)` the field getter on component `c`, `toJson` is `JsonUtils.ToJson` and `nameOf`
      a type's `AssemblyQualifiedName`. */
  datatype Host = Host(componentOf: Ty -> Option<ObjId>, valueOf: (ObjId, Member) -> Value,
                       toJson: Boxed -> string, nameOf: Ty -> string)

  /** What restore asks of the clone and the runtime. `lookup` is `AccessTools.Field`, `decode` is
      `JsonConvert.DeserializeObject` with the bridge's settings (an error is any exception it throws)
      and `typeOf` is `ReflectionUtils.GetFastType`. `nullType` is what `TryGetComponent` does with a
      null type, a name that no longer resolves: find nothing (`None`) or throw. */
  datatype Env = Env(componentOf: Ty -> Option<ObjId>, lookup: (Ty, string) -> Option<Member>,
                     decode: (Option<Ty>, string) -> Result<Boxed>, typeOf: string -> Option<Ty>,
                     nullType: Option<Exception>)

  /** The clone's component fields as the field setters leave them. */
  type Fields = map<(ObjId, Member), Value>

  datatype State = State(values: Fields, fieldCache: FieldCache)

  const Cleared := Captured([], [], [], [])

  /** The four lists have one element per entry. */
  predicate Aligned(c: Captured) {
    |c.fields| == |c.serializedData| && |c.componentNames| == |c.serializedData| && |c.fieldTypes| == |c.serializedData|
  }

  function Append(c: Captured, e: Entry): Captured {
    Captured(c.serializedData + [e.json], c.fields + [e.field], c.componentNames + [e.componentName], c.fieldTypes + [e.fieldType])
  }

  /** Entry `j` of aligned lists. */
  function At(c: Captured, j: nat): Entry
    requires Aligned(c) && j < |c.serializedData|
  {
    Entry(c.serializedData[j], c.fields[j], c.componentNames[j], c.fieldTypes[j])
  }

  // ---------------------------------------------------------------- wrapping

  /** `DictionaryWrapper<TKey, TValue>` closed over the given generic arguments. */
  function WrapperType(args: seq<Ty>): Ty {
    Ty("BepInSoft.Core.Models.Wrappers.DictionaryWrapper`2", StructKind, {}, Assembly("UnitySerializationBridge.dll", None), args, None, None)
  }

  /** `WrapIfNecessary`: a dictionary travels inside a wrapper over its own generic arguments and the
      wrapper's type is reported; any other value travels as itself with no type. Unwrapping gives
      the value back either way. */
  function WrapIfNecessary(v: Value): (r: (Boxed, Option<Ty>))
    ensures UnwrapObject(r.0) == v
    ensures r.0.Wrapped? <==> v.VDict?
    ensures r.1.Some? <==> v.VDict?
    ensures v.VDict? ==> r.1 == Some(WrapperType(v.ty.args))
  {
    if v.VDict? then (Wrapped(v), Some(WrapperType(v.ty.args))) else (Bare(v), None)
  }

  /** `UnwrapObject`: a wrapper yields its dictionary, anything else itself. */
  function UnwrapObject(b: Boxed): Value {
    match b
    case Wrapped(d) => d
    case Bare(v) => v
  }

  // ---------------------------------------------------------------- capture

  /** The component a target is read from when it is recorded: present, with a non-null value. */
  predicate Recorded(t: SR.BridgeTarget, h: Host) {
    var comp := h.componentOf(t.componentType);
    comp.Some? && h.valueOf(comp.value, t.field) != VNull
  }

  /** The value capture reads for a recorded target. */
  function SourceValue(t: SR.BridgeTarget, h: Host): Value
    requires Recorded(t, h)
  {
    h.valueOf(h.componentOf(t.componentType).value, t.field)
  }

  /** The entry one target contributes, if any: its JSON, the field's name, the component type's
      name, and the wrapper's type name or else the field's declared type name. */
  function EntryOf(t: SR.BridgeTarget, h: Host): (r: Option<Entry>)
    ensures r.Some? <==> Recorded(t, h)
    ensures r.Some? ==> r.value.field == t.field.name && r.value.componentName == h.nameOf(t.componentType)
  {
    match h.componentOf(t.componentType)
    case None => None
    case Some(comp) =>
      var v := h.valueOf(comp, t.field);
      if v == VNull then None
      else
        var (boxed, wrapperType) := WrapIfNecessary(v);
        Some(Entry(h.toJson(boxed), t.field.name, h.nameOf(t.componentType),
                   h.nameOf(if wrapperType.Some? then wrapperType.value else t.field.memberType)))
  }

  /** The lists capture leaves for `targets`, taken one after the other. */
  function Capture(targets: seq<SR.BridgeTarget>, h: Host): (r: Captured)
    ensures Aligned(r) && |r.serializedData| <= |targets|
    decreases |targets|
  {
    if targets == [] then Cleared
    else
      var prev := Capture(targets[..|targets| - 1], h);
      match EntryOf(targets[|targets| - 1], h)
      case None => prev
      case Some(e) => Append(prev, e)
  }

  /** `PatchedBeforeSerializePoint`: the lists are cleared, then each registered target, in order,
      whose component is on the GameObject and whose value is not null adds one entry. Components
      found are memoised per type for the duration of the call. */
  method PatchedBeforeSerializePoint(previous: Captured, targets: seq<SR.BridgeTarget>, h: Host)
    returns (r: Captured)
    ensures r == Capture(targets, h)
  {
    r := Cleared;
    var buffer: map<Ty, ObjId> := map[];
    for i := 0 to |targets|
      invariant r == Capture(targets[..i], h)
      invariant forall t :: t in buffer ==> h.componentOf(t) == Some(buffer[t])
    {
      var target := targets[i];
      CaptureStep(targets, i, h);
      var root: ObjId;
      if target.componentType in buffer {
        root := buffer[target.componentType];
      } else {
        var found := h.componentOf(target.componentType);
        if found.None? {
          continue;
        }
        root := found.value;
        buffer := buffer[target.componentType := root];
      }
      var value := h.valueOf(root, target.field);
      if value != VNull {
        var (boxed, wrapperType) := WrapIfNecessary(value);
        var json := h.toJson(boxed);
        var typeName := h.nameOf(if wrapperType.Some? then wrapperType.value else target.field.memberType);
        r := Append(r, Entry(json, target.field.name, h.nameOf(target.componentType), typeName));
      }
    }
    assert targets[..|targets|] == targets;
  }

  /** The indices of the targets that are recorded, in increasing order. */
  function Kept(targets: seq<SR.BridgeTarget>, h: Host): (r: seq<nat>)
    decreases |targets|
  {
    if targets == [] then []
    else
      var prev := Kept(targets[..|targets| - 1], h);
      if Recorded(targets[|targets| - 1], h) then prev + [|targets| - 1] else prev
  }

  /** `Kept` lists exactly the recorded targets' indices, each once, in increasing order. */
  lemma {:induction false} KeptMeaning(targets: seq<SR.BridgeTarget>, h: Host)
    ensures var k := Kept(targets, h);
            && (forall j :: 0 <= j < |k| ==> k[j] < |targets| && Recorded(targets[k[j]], h))
            && (forall j1, j2 :: 0 <= j1 < j2 < |k| ==> k[j1] < k[j2])
            && (forall i :: 0 <= i < |targets| && Recorded(targets[i], h) ==> i in k)
    decreases |targets|
  {
    if targets != [] {
      var n := |targets| - 1;
      var front := targets[..n];
      KeptMeaning(front, h);
      assert forall i :: 0 <= i < n ==> front[i] == targets[i];
    }
  }

  /** Entry `j` of `r` is the entry of target `k[j]`. */
  ghost predicate Follows(r: Captured, k: seq<nat>, targets: seq<SR.BridgeTarget>, h: Host) {
    && Aligned(r) && |r.serializedData| == |k|
    && forall j :: 0 <= j < |k| ==> k[j] < |targets| && Some(At(r, j)) == EntryOf(targets[k[j]], h)
  }

  /** Entries that follow a prefix of the targets follow the targets. */
  lemma FollowsLonger(r: Captured, k: seq<nat>, targets: seq<SR.BridgeTarget>, n: nat, h: Host)
    requires n <= |targets| && Follows(r, k, targets[..n], h)
    ensures Follows(r, k, targets, h)
  {
    assert forall j :: 0 <= j < |k| ==> targets[..n][k[j]] == targets[k[j]];
  }

  /** A recorded target's entry appended at the end follows that target. */
  lemma FollowsAppend(r: Captured, k: seq<nat>, targets: seq<SR.BridgeTarget>, n: nat, h: Host)
    requires n < |targets| && Recorded(targets[n], h) && Follows(r, k, targets, h)
    ensures Follows(Append(r, EntryOf(targets[n], h).value), k + [n], targets, h)
  {
    var r' := Append(r, EntryOf(targets[n], h).value);
    assert forall j :: 0 <= j < |k| ==> At(r', j) == At(r, j);
  }

  /** Entry `j` of the captured lists is the entry of the `j`-th recorded target: capture follows the
      registered targets' order and skips exactly the others. */
  lemma {:induction false} CaptureFollowsTargets(targets: seq<SR.BridgeTarget>, h: Host)
    ensures Follows(Capture(targets, h), Kept(targets, h), targets, h)
    decreases |targets|
  {
    if targets != [] {
      var n := |targets| - 1;
      var r, k := Capture(targets[..n], h), Kept(targets[..n], h);
      CaptureFollowsTargets(targets[..n], h);
      FollowsLonger(r, k, targets, n, h);
      if Recorded(targets[n], h) {
        FollowsAppend(r, k, targets, n, h);
      }
    }
  }

  /** Capture over the first `i + 1` targets extends capture over the first `i` by target `i`'s entry. */
  lemma CaptureStep(targets: seq<SR.BridgeTarget>, i: nat, h: Host)
    requires i < |targets|
    ensures Capture(targets[..i + 1], h) ==
              if Recorded(targets[i], h) then Append(Capture(targets[..i], h), EntryOf(targets[i], h).value)
              else Capture(targets[..i], h)
  {
    assert targets[..i + 1][..i] == targets[..i];
  }

  // ---------------------------------------------------------------- field lookup

  /** Replaces the table of key `t` in place: the dictionary object is shared, so the node in the
      index and the same node in the history both see the change. */
  function Store(c: LruCache.Cache<Ty, FieldTable>, t: Ty, table: FieldTable): (r: LruCache.Cache<Ty, FieldTable>)
    requires t in c.index
    ensures r.index == c.index[t := c.index[t].(value := table)]
    ensures |r.history| == |c.history| && r.maxSize == c.maxSize && r.nextId == c.nextId
  {
    var node := c.index[t];
    var node' := node.(value := table);
    c.(index := c.index[t := node'],
       history := seq(|c.history|, i requires 0 <= i < |c.history| => if c.history[i].id == node.id then node' else c.history[i]))
  }

  /** `FieldInfoCache.GetValue(compType, t => [])`: the type's table, moved to the front on a hit,
      and a new empty table added on a miss. `LRUCache` in this revision has no `GetValue`; this is
      its lookup-or-add reading. */
  function GetTable(c: LruCache.Cache<Ty, FieldTable>, t: Ty): (r: Result<LruCache.Cache<Ty, FieldTable>>)
    ensures r.Ok? ==> t in r.value.index && r.value.maxSize == c.maxSize
    ensures r.Ok? && t in c.index ==> r.value.index == c.index
    ensures r.Ok? && t !in c.index ==> r.value.index[t].value == map[]
    ensures r.Err? <==> t !in c.index && LruCache.Add(c, t, map[]).Err?
    ensures r.Err? ==> r.error == NullReference
  {
    var got := LruCache.TryGetValue(c, t, map[]);
    if got.found then Ok(got.cache) else LruCache.Add(c, t, map[])
  }

  /** `GetFastField`: without a cache, a direct lookup. With one, the type's table answers a name it
      holds; otherwise the lookup's result, null included, is stored in the table and answered. The
      only failure is the cache's own `Add` dereferencing a null `Last`. */
  function GetFastField(fc: FieldCache, t: Ty, name: string, lookup: (Ty, string) -> Option<Member>)
    : (r: (Result<Option<Member>>, FieldCache))
    ensures fc.None? ==> r == (Ok(lookup(t, name)), None)
    ensures r.0.Err? ==> r.0.error == NullReference && r.1 == fc && fc.Some? && t !in fc.value.index
    ensures fc.Some? && r.0.Ok? ==>
              && r.1.Some? && t in r.1.value.index && name in r.1.value.index[t].value
              && r.1.value.index[t].value[name] == r.0.value
  {
    match fc
    case None => (Ok(lookup(t, name)), None)
    case Some(c) =>
      match GetTable(c, t)
      case Err(e) => (Err(e), fc)
      case Ok(c1) =>
        var table := c1.index[t].value;
        if name in table then (Ok(table[name]), Some(c1))
        else
          var field := lookup(t, name);
          (Ok(field), Some(Store(c1, t, table[name := field])))
  }

  /** Every table entry of the cache is what `lookup` finds for its type and name. */
  ghost predicate Coherent(fc: FieldCache, lookup: (Ty, string) -> Option<Member>) {
    fc.Some? ==> forall t, name :: t in fc.value.index && name in fc.value.index[t].value ==>
                   fc.value.index[t].value[name] == lookup(t, name)
  }

  /** A coherent cache answers what a direct lookup would, and stays coherent. */
  lemma GetFastFieldCoherent(fc: FieldCache, t: Ty, name: string, lookup: (Ty, string) -> Option<Member>)
    requires Coherent(fc, lookup)
    ensures var r := GetFastField(fc, t, name, lookup);
            && (r.0.Ok? ==> r.0.value == lookup(t, name))
            && Coherent(r.1, lookup)
  {
    if fc.Some? {
      var c := fc.value;
      var got := GetTable(c, t);
      if got.Ok? && t !in c.index {
        LruCache.AddOthers(c, t, map[]);
      }
    }
  }

  /** Once a name is in its type's table the answer no longer consults the lookup: a second call
      answers the first call's field, null included, whatever `lookup2` would now say. */
  lemma SecondLookupMemoised(fc: FieldCache, t: Ty, name: string, lookup: (Ty, string) -> Option<Member>,
                             lookup2: (Ty, string) -> Option<Member>)
    requires fc.Some?
    ensures var first := GetFastField(fc, t, name, lookup);
            first.0.Ok? ==> GetFastField(first.1, t, name, lookup2).0 == first.0
  {
    var first := GetFastField(fc, t, name, lookup);
    if first.0.Ok? {
      var c := first.1.value;
      assert LruCache.TryGetValue(c, t, map[]).found;
    }
  }

  /** Rewriting a table in place keeps the cache valid: identities and keys are unchanged. */
  lemma StoreValid(c: LruCache.Cache<Ty, FieldTable>, t: Ty, table: FieldTable)
    requires t in c.index && LruCache.Valid(c)
    ensures LruCache.Valid(Store(c, t, table))
  {
    var r := Store(c, t, table);
    var node := c.index[t];
    assert forall i :: 0 <= i < |r.history| ==> r.history[i].id == c.history[i].id;
    forall k | k in r.index ensures r.index[k] in r.history {
      var q :| 0 <= q < |c.history| && c.history[q] == c.index[k];
      if k != t && c.history[q].id == node.id {
        LruCache.SameIdSameNode(c, c.index[k], node);
        assert false;
      }
      if k == t {
        assert r.history[q] == r.index[k];
      }
    }
  }

  /** On a valid cache with room for an entry, `GetFastField` never throws and leaves the cache valid. */
  lemma GetFastFieldValid(fc: FieldCache, t: Ty, name: string, lookup: (Ty, string) -> Option<Member>)
    requires fc.Some? ==> LruCache.Valid(fc.value) && fc.value.maxSize > 0
    ensures var r := GetFastField(fc, t, name, lookup);
            r.0.Ok? && (r.1.Some? ==> LruCache.Valid(r.1.value) && r.1.value.maxSize > 0)
  {
    if fc.Some? {
      var c := fc.value;
      if t in c.index {
        LruCache.GetKeepsValid(c, t, map[]);
      } else {
        LruCache.AddValid(c, t, map[]);
      }
      var c1 := GetTable(c, t).value;
      var table := c1.index[t].value;
      if name !in table {
        StoreValid(c1, t, table[name := lookup(t, name)]);
      }
    }
  }

  // ---------------------------------------------------------------- restore

  /** `JsonUtils.FromJsonOverwrite`: an empty or `"null"` text is null without decoding. */
  function FromJsonOverwrite(t: Option<Ty>, json: string, decode: (Option<Ty>, string) -> Result<Boxed>): (r: Result<Boxed>)
    ensures json == "" || json == "null" ==> r == Ok(Bare(VNull))
    ensures json != "" && json != "null" ==> r == decode(t, json)
  {
    if json == "" || json == "null" then Ok(Bare(VNull)) else decode(t, json)
  }

  /** `ApplyJsonToPath`: nothing happens without the component or the field; the text `"null"` sets
      the field to null; otherwise the decoded value, unwrapped, is set, and a decoding failure is
      swallowed. The answered exception is thrown outside the `try`: the engine's answer to a null
      component type, or the field cache's own failure. */
  function ApplyJsonToPath(st: State, compType: Option<Ty>, fieldName: string, json: string,
                           fieldType: Option<Ty>, env: Env): (r: (Option<Exception>, State))
    ensures compType.None? ==> r == (env.nullType, st)
    ensures compType.Some? && env.componentOf(compType.value).None? ==> r == (None, st)
    ensures r.0.Some? ==> r.1 == st && (r.0 == Some(NullReference) || (compType.None? && r.0 == env.nullType))
    ensures r.0.None? && compType.Some? && env.componentOf(compType.value).Some? ==>
              var comp := env.componentOf(compType.value).value;
              var found := GetFastField(st.fieldCache, compType.value, fieldName, env.lookup);
              && r.1.fieldCache == found.1
              && (found.0 == Ok(None) ==> r.1.values == st.values)
              && (found.0.Ok? && found.0.value.Some? ==>
                    var key := (comp, found.0.value.value);
                    && (json == "null" ==> r.1.values == st.values[key := VNull])
                    && (json != "null" && FromJsonOverwrite(fieldType, json, env.decode).Err? ==> r.1.values == st.values)
                    && (FromJsonOverwrite(fieldType, json, env.decode).Ok? ==>
                          r.1.values == st.values[key := UnwrapObject(FromJsonOverwrite(fieldType, json, env.decode).value)]))
  {
    if compType.None? then (env.nullType, st)
    else match env.componentOf(compType.value)
      case None => (None, st)
      case Some(comp) =>
        match GetFastField(st.fieldCache, compType.value, fieldName, env.lookup)
        case (Err(e), _) => (Some(e), st)
        case (Ok(None), fc) => (None, st.(fieldCache := fc))
        case (Ok(Some(field)), fc) =>
          var st1 := st.(fieldCache := fc);
          if json == "null" then (None, st1.(values := st1.values[(comp, field) := VNull]))
          else
            match FromJsonOverwrite(fieldType, json, env.decode)
            case Err(_) => (None, st1)
            case Ok(decoded) => (None, st1.(values := st1.values[(comp, field) := UnwrapObject(decoded)]))
  }

  /** `ApplyJsonToPath` on one entry, with the type names resolved. */
  function ApplyEntry(st: State, e: Entry, env: Env): (Option<Exception>, State) {
    ApplyJsonToPath(st, env.typeOf(e.componentName), e.field, e.json, env.typeOf(e.fieldType), env)
  }

  /** `PatchedAfterDeserializePoint` from entry `i` on: the entries in index order up to
      `_serializedData.Count`. An index past the end of another list throws, as does the field
      cache's failure; either stops the loop. */
  function Restore(st: State, c: Captured, i: nat, env: Env): (r: (Option<Exception>, State))
    ensures r.0.Some? ==> r.0 == Some(ArgumentOutOfRange) || r.0 == Some(NullReference) || r.0 == env.nullType
    ensures r.0 == Some(ArgumentOutOfRange) && env.nullType != r.0 ==> !Aligned(c)
    decreases |c.serializedData| - i
  {
    if i >= |c.serializedData| then (None, st)
    else if i >= |c.componentNames| || i >= |c.fields| || i >= |c.fieldTypes| then (Some(ArgumentOutOfRange), st)
    else
      var (err, st1) := ApplyEntry(st, Entry(c.serializedData[i], c.fields[i], c.componentNames[i], c.fieldTypes[i]), env);
      if err.Some? then (err, st1) else Restore(st1, c, i + 1, env)
  }

  /** Restoring an entry appended to aligned lists runs it after all the earlier ones: restore is
      the entries applied one after another in index order, a swallowed decoding failure included. */
  lemma RestoreAppend(st: State, c: Captured, e: Entry, env: Env)
    requires Aligned(c)
    ensures var before := Restore(st, c, 0, env);
            Restore(st, Append(c, e), 0, env) == if before.0.Some? then before else ApplyEntry(before.1, e, env)
  {
    RestoreAppendFrom(st, c, e, 0, env);
  }

  lemma {:induction false} RestoreAppendFrom(st: State, c: Captured, e: Entry, i: nat, env: Env)
    requires Aligned(c) && i <= |c.serializedData|
    ensures var before := Restore(st, c, i, env);
            Restore(st, Append(c, e), i, env) == if before.0.Some? then before else ApplyEntry(before.1, e, env)
    decreases |c.serializedData| - i
  {
    var c' := Append(c, e);
    if i == |c.serializedData| {
      assert At(c', i) == e;
      var (err, st1) := ApplyEntry(st, e, env);
      if err.None? {
        assert Restore(st1, c', i + 1, env) == (None, st1);
      }
    } else {
      assert At(c', i) == At(c, i);
      var (err, st1) := ApplyEntry(st, At(c, i), env);
      if err.None? {
        RestoreAppendFrom(st1, c, e, i + 1, env);
      }
    }
  }

  /** Restoring aligned lists with no field cache, or a valid one with room for an entry, never
      throws, as long as every component type name resolves or a null type finds nothing. */
  lemma {:induction false} RestoreCompletes(st: State, c: Captured, i: nat, env: Env)
    requires Aligned(c)
    requires env.nullType.Some? ==> forall j :: i <= j < |c.componentNames| ==> env.typeOf(c.componentNames[j]).Some?
    requires st.fieldCache.Some? ==> LruCache.Valid(st.fieldCache.value) && st.fieldCache.value.maxSize > 0
    ensures Restore(st, c, i, env).0.None?
    decreases |c.serializedData| - i
  {
    if i < |c.serializedData| {
      var e := At(c, i);
      var compType := env.typeOf(e.componentName);
      if compType.Some? {
        GetFastFieldValid(st.fieldCache, compType.value, e.field, env.lookup);
      }
      var (err, st1) := ApplyEntry(st, e, env);
      RestoreCompletes(st1, c, i + 1, env);
    }
  }

  /** Capture then restore of one recorded target: when the component type's name and the recorded
      type's name resolve back, the lookup finds the target's field, and decoding inverts `toJson`,
      the clone's component field ends up holding the source's value. */
  lemma CaptureRestoreField(t: SR.BridgeTarget, h: Host, st: State, env: Env, clone: ObjId)
    requires Recorded(t, h)
    requires var e := EntryOf(t, h).value;
             var boxed := WrapIfNecessary(SourceValue(t, h)).0;
             && env.typeOf(e.componentName) == Some(t.componentType)
             && env.componentOf(t.componentType) == Some(clone)
             && env.lookup(t.componentType, t.field.name) == Some(t.field)
             && Coherent(st.fieldCache, env.lookup)
             && e.json != "" && e.json != "null"
             && env.decode(env.typeOf(e.fieldType), e.json) == Ok(boxed)
    ensures var r := ApplyEntry(st, EntryOf(t, h).value, env);
            r.0.None? ==> (clone, t.field) in r.1.values && r.1.values[(clone, t.field)] == SourceValue(t, h)
  {
    GetFastFieldCoherent(st.fieldCache, t.componentType, t.field.name, env.lookup);
  }
}

=== FILE: serialization_observer.dfy ===
/** `SerializationObserver`, the single-pass instantiation patch.

    The prefix walks the source hierarchy once. It records, per GameObject, how many components it
    has (`_compCountsPerGo`) and, per component, whether registering it found it worth bridging
    (`_prefixMetaCache`). Worth components have their callbacks sanitized and blocked. From the
    first worth component on, every GameObject gets a SerializationHandler, which joins its
    components and captures its state.

    The postfix walks the clone hierarchy in the same order. It checks each GameObject's component
    count against the recorded one and relates the k-th clone component to the k-th recorded one.
    Then every handler restores its state, and the blocked callbacks of the worth components run.

    Side effects on the host become an event trace. `SerializationRegistry.Register(component)` and
    the sanitizers' delegate lookups are parameters of the host.
 */
module SerializationObserver {
  import opened Wrappers
  import opened Types
  import opened UnityObjects

  datatype Callback = AwakeCall | BeforeSerializeCall | AfterDeserializeCall

  datatype Event =
    | Sanitize(callback: Callback, ty: Ty)   // Sanitize...AndGetDelegate(type)
    | Invoke(callback: Callback, comp: ObjId) // the delegate it answered, invoked on the component
    | BlockType(ty: Ty)                      // _blockedCalls.Add(type)
    | ClearBlocked                           // _blockedCalls.Clear()
    | HandlerBefore(handler: ObjId)          // PatchedBeforeSerializePoint()
    | HandlerAfter(handler: ObjId)           // PatchedAfterDeserializePoint()

  /** `ComponentMetadata`. */
  datatype Meta = Meta(comp: ObjId, worth: bool)

  /** Host queries. */
  datatype Host = Host(
    live: set<ObjId>,
    hierarchyOf: ObjId -> seq<ObjId>,          // GameObjects of GetComponentsInChildren<Transform>(true)
    componentsOf: ObjId -> seq<ObjId>,         // GetComponents(list) on entry, with any handler already carried
    typeOf: ObjId -> Ty,                       // GetType() of a component
    register: ObjId -> bool,                   // SerializationRegistry.Register(component)
    hasDelegate: (Callback, Ty) -> bool,       // whether the sanitizer answers a delegate
    newHandler: ObjId -> ObjId)                // AddComponent<SerializationHandler>() when none is carried

  /** The static caches of the observer, the handler each GameObject carries, the relationship
      registry of SerializationHandler (source object to clone object), and the event trace. */
  datatype Observer = Observer(meta: seq<Meta>, counts: seq<int>, handlers: map<ObjId, ObjId>,
                               relations: map<ObjId, ObjId>, events: seq<Event>)

  /** The sum of a list of counts. */
  function Sum(s: seq<int>): int
    decreases |s|
  {
    if s == [] then 0 else Sum(s[..|s| - 1]) + s[|s| - 1]
  }

  lemma SumAppend(s: seq<int>, x: int)
    ensures Sum(s + [x]) == Sum(s) + x
  {
    assert (s + [x])[..|s|] == s;
  }

  lemma SumBumpLast(s: seq<int>)
    requires |s| > 0
    ensures Sum(s[|s| - 1 := s[|s| - 1] + 1]) == Sum(s) + 1
  {
    assert s[|s| - 1 := s[|s| - 1] + 1][..|s| - 1] == s[..|s| - 1];
  }

  /** The sanitizing a worth component gets in the prefix: `Awake` for a MonoBehaviour; for a
      callback receiver, `OnBeforeSerialize` (run at once when there is one), `OnAfterDeserialize`,
      and a block on its type. */
  function SanitizeEvents(c: ObjId, host: Host): (r: seq<Event>)
    ensures var t := host.typeOf(c);
            (Sanitize(AwakeCall, t) in r <==> t.Is(MonoBehaviourTrait))
            && (BlockType(t) in r <==> t.Is(CallbackReceiver))
            && (Invoke(BeforeSerializeCall, c) in r <==> t.Is(CallbackReceiver) && host.hasDelegate(BeforeSerializeCall, t))
  {
    var t := host.typeOf(c);
    (if t.Is(MonoBehaviourTrait) then [Sanitize(AwakeCall, t)] else [])
    + (if t.Is(CallbackReceiver) then
         [Sanitize(BeforeSerializeCall, t)]
         + (if host.hasDelegate(BeforeSerializeCall, t) then [Invoke(BeforeSerializeCall, c)] else [])
         + [Sanitize(AfterDeserializeCall, t), BlockType(t)]
       else [])
  }

  /** Whether any of the components is worth bridging. */
  predicate AnyWorth(comps: seq<ObjId>, host: Host) {
    exists k :: 0 <= k < |comps| && host.register(comps[k])
  }

  /** `TryGetComponent<SerializationHandler>`: the first of the components that is a handler. */
  function Carried(comps: seq<ObjId>, host: Host): (r: Option<ObjId>)
    ensures r.Some? ==> r.value in comps && host.typeOf(r.value).Is(HandlerType)
    ensures r.None? <==> forall k :: 0 <= k < |comps| ==> !host.typeOf(comps[k]).Is(HandlerType)
    decreases |comps|
  {
    if comps == [] then None
    else if host.typeOf(comps[0]).Is(HandlerType) then Some(comps[0])
    else
      assert forall k :: 1 <= k < |comps| ==> comps[1..][k - 1] == comps[k];
      Carried(comps[1..], host)
  }

  /** The handler a GameObject ends up with once `TryGetComponent` or `AddComponent` has run: the
      one among its components, else a new one. */
  function HandlerFor(go: ObjId, host: Host): (h: ObjId)
    ensures Carried(host.componentsOf(go), host).Some? ==> h in host.componentsOf(go) && host.typeOf(h).Is(HandlerType)
    ensures Carried(host.componentsOf(go), host).None? ==> h == host.newHandler(go)
  {
    match Carried(host.componentsOf(go), host)
    case Some(h) => h
    case None => host.newHandler(go)
  }

  /** The metadata the prefix records for a GameObject's components: each with its verdict. */
  function Records(comps: seq<ObjId>, host: Host): (r: seq<Meta>)
    ensures |r| == |comps|
    ensures forall j :: 0 <= j < |comps| ==> r[j] == Meta(comps[j], host.register(comps[j]))
    decreases |comps|
  {
    if comps == [] then [] else [Meta(comps[0], host.register(comps[0]))] + Records(comps[1..], host)
  }

  /** The inner loop of the prefix over one GameObject's components: each is registered, recorded
      with its verdict, and sanitized when worth; the state accumulates the verdicts. */
  function ScanComps(state: bool, obs: Observer, comps: seq<ObjId>, host: Host): (r: (bool, Observer))
    ensures r.0 <==> state || AnyWorth(comps, host)
    ensures r.1 == obs.(meta := r.1.meta, events := r.1.events)
    ensures r.1.meta == obs.meta + Records(comps, host)
    ensures obs.events <= r.1.events
    decreases |comps|
  {
    if comps == [] then (state, obs)
    else
      var c := comps[0];
      var worth := host.register(c);
      var obs1 := obs.(meta := obs.meta + [Meta(c, worth)],
                       events := obs.events + (if worth then SanitizeEvents(c, host) else []));
      var r := ScanComps(state || worth, obs1, comps[1..], host);
      assert forall k :: 1 <= k < |comps| ==> comps[k] == comps[1..][k - 1];
      assert AnyWorth(comps, host) <==> worth || AnyWorth(comps[1..], host);
      assert Records(comps, host) == [Meta(c, worth)] + Records(comps[1..], host);
      AppendAssoc(obs.meta, [Meta(c, worth)], Records(comps[1..], host));
      r
  }

  /** One GameObject of the prefix: its count is recorded and its components scanned; once the state
      is true it gets a handler (a new one joins its components and its count), whose capture runs. */
  function PrefixGo(state: bool, obs: Observer, go: ObjId, host: Host): (r: (bool, Observer))
    ensures r.0 <==> state || AnyWorth(host.componentsOf(go), host)
    ensures var comps := host.componentsOf(go);
            var added := r.0 && Carried(comps, host).None?;
            && r.1.relations == obs.relations
            && r.1.counts == obs.counts + [|comps| + (if added then 1 else 0)]
            && r.1.meta == obs.meta + Records(comps, host) + (if added then [Meta(host.newHandler(go), false)] else [])
            && r.1.handlers == (if r.0 then obs.handlers[go := HandlerFor(go, host)] else obs.handlers)
    ensures obs.events <= r.1.events
    ensures r.0 ==> |r.1.events| > 0 && r.1.events[|r.1.events| - 1] == HandlerBefore(HandlerFor(go, host))
  {
    var comps := host.componentsOf(go);
    var (state', obs2) := ScanComps(state, obs.(counts := obs.counts + [|comps|]), comps, host);
    if !state' then (state', obs2)
    else
      assert obs2.counts[..|obs.counts|] == obs.counts;
      (state', EnsureHandler(obs2, go, host))
  }

  /** `TryGetComponent` or `AddComponent` of a SerializationHandler, whose capture then runs. A
      handler the GameObject carries is already among its records; a new one is recorded as one
      more, unworthy, component of the GameObject just counted. */
  function EnsureHandler(obs: Observer, go: ObjId, host: Host): (r: Observer)
    requires |obs.counts| > 0
    ensures go in r.handlers && r.handlers[go] == HandlerFor(go, host)
    ensures forall g :: g != go ==> (g in r.handlers <==> g in obs.handlers) && (g in obs.handlers ==> r.handlers[g] == obs.handlers[g])
    ensures r.events == obs.events + [HandlerBefore(HandlerFor(go, host))]
    ensures r.relations == obs.relations
    ensures Carried(host.componentsOf(go), host).Some? ==> r.meta == obs.meta && r.counts == obs.counts
    ensures Carried(host.componentsOf(go), host).None? ==>
              var last := |obs.counts| - 1;
              && r.meta == obs.meta + [Meta(host.newHandler(go), false)]
              && r.counts == obs.counts[..last] + [obs.counts[last] + 1]
  {
    var h := HandlerFor(go, host);
    if Carried(host.componentsOf(go), host).Some? then
      obs.(handlers := obs.handlers[go := h], events := obs.events + [HandlerBefore(h)])
    else
      var last := |obs.counts| - 1;
      assert obs.counts[last := obs.counts[last] + 1] == obs.counts[..last] + [obs.counts[last] + 1];
      obs.(handlers := obs.handlers[go := h],
           meta := obs.meta + [Meta(h, false)],
           counts := obs.counts[last := obs.counts[last] + 1],
           events := obs.events + [HandlerBefore(h)])
  }

  /** The outer loop of the prefix over the hierarchy. */
  function PrefixGos(state: bool, obs: Observer, gos: seq<ObjId>, host: Host): (r: (bool, Observer))
    ensures r.1.relations == obs.relations
    ensures |r.1.counts| == |obs.counts| + |gos|
    ensures state ==> r.0
    decreases |gos|
  {
    if gos == [] then (state, obs)
    else
      var (state', obs') := PrefixGo(state, obs, gos[0], host);
      PrefixGos(state', obs', gos[1..], host)
  }

  /** `r` only extends `o`: the counts, the metadata and the events by appending; a GameObject
      with a handler entry keeps one, which is either the earlier one or the handler it carries or
      was given. */
  ghost predicate Grown(o: Observer, r: Observer, host: Host) {
    && o.counts <= r.counts && o.meta <= r.meta && o.events <= r.events
    && forall g :: g in o.handlers ==> g in r.handlers && (r.handlers[g] == o.handlers[g] || r.handlers[g] == HandlerFor(g, host))
  }

  lemma GrownTrans(a: Observer, b: Observer, c: Observer, host: Host)
    ensures Grown(a, b, host) && Grown(b, c, host) ==> Grown(a, c, host)
  {
  }

  /** The prefix only appends: to the counts, the metadata and the events; and a GameObject's handler
      entry, once there, stays, holding the earlier handler or the one the GameObject ends up with. */
  lemma {:induction false} PrefixGrows(state: bool, obs: Observer, gos: seq<ObjId>, host: Host, r: Observer)
    requires r == PrefixGos(state, obs, gos, host).1
    ensures Grown(obs, r, host)
    decreases |gos|
  {
    if gos != [] {
      var s1, o1, rest := PrefixGrowStep(state, obs, gos, host);
      PrefixGrows(s1, o1, rest, host, r);
      GrownTrans(obs, o1, r, host);
    }
  }

  /** One step of the outer loop only appends. */
  lemma PrefixGrowStep(state: bool, obs: Observer, gos: seq<ObjId>, host: Host) returns (s1: bool, o1: Observer, rest: seq<ObjId>)
    requires 0 < |gos|
    ensures |rest| < |gos| && PrefixGos(state, obs, gos, host) == PrefixGos(s1, o1, rest, host)
    ensures Grown(obs, o1, host)
  {
    s1, o1 := PrefixGo(state, obs, gos[0], host).0, PrefixGo(state, obs, gos[0], host).1;
    rest := gos[1..];
    PrefixUnfold(state, obs, gos, host);
    PrefixGoGrown(state, obs, gos[0], host);
  }

  /** One GameObject's step only appends. */
  lemma PrefixGoGrown(state: bool, obs: Observer, go: ObjId, host: Host)
    ensures Grown(obs, PrefixGo(state, obs, go, host).1, host)
  {
    var o1 := PrefixGo(state, obs, go, host).1;
    assert o1.counts[..|obs.counts|] == obs.counts;
  }

  /** `TriggerBridgeCallbacks`: without a live GameObject the state is false and nothing changes;
      otherwise the caches and the blocks are cleared and the hierarchy is walked. */
  function Prefix(obs: Observer, original: Obj, host: Host): (r: (bool, Observer))
    ensures RootOf(original, host.live).None? ==> r == (false, obs)
    ensures RootOf(original, host.live).Some? ==>
              var start := obs.(meta := [], counts := [], events := obs.events + [ClearBlocked]);
              r == PrefixGos(false, start, host.hierarchyOf(RootOf(original, host.live).value), host)
  {
    match RootOf(original, host.live)
    case None => (false, obs)
    case Some(root) =>
      PrefixGos(false, obs.(meta := [], counts := [], events := obs.events + [ClearBlocked]), host.hierarchyOf(root), host)
  }

  /** The source components in traversal order: each GameObject's components, GameObject by
      GameObject. */
  function Flatten(gos: seq<ObjId>, host: Host): (r: seq<ObjId>)
    ensures gos != [] ==> r == host.componentsOf(gos[0]) + Flatten(gos[1..], host)
    decreases |gos|
  {
    if gos == [] then [] else host.componentsOf(gos[0]) + Flatten(gos[1..], host)
  }

  lemma AnyWorthAppend(a: seq<ObjId>, b: seq<ObjId>, host: Host)
    ensures AnyWorth(a + b, host) <==> AnyWorth(a, host) || AnyWorth(b, host)
  {
    if AnyWorth(a, host) {
      var k :| 0 <= k < |a| && host.register(a[k]);
      assert (a + b)[k] == a[k];
    }
    if AnyWorth(b, host) {
      var k :| 0 <= k < |b| && host.register(b[k]);
      assert (a + b)[|a| + k] == b[k];
    }
    if AnyWorth(a + b, host) {
      var k :| 0 <= k < |a + b| && host.register((a + b)[k]);
      if k >= |a| {
        assert b[k - |a|] == (a + b)[k];
      }
    }
  }

  /** The prefix's state is true exactly when some traversed component was worth bridging. */
  lemma {:induction false} PrefixState(state: bool, obs: Observer, gos: seq<ObjId>, host: Host)
    ensures PrefixGos(state, obs, gos, host).0 <==> state || AnyWorth(Flatten(gos, host), host)
    decreases |gos|
  {
    if gos != [] {
      var s1, o1 := PrefixStep(state, obs, gos, host);
      PrefixState(s1, o1, gos[1..], host);
      AnyWorthAppend(host.componentsOf(gos[0]), Flatten(gos[1..], host), host);
    }
  }

  /** The recorded metadata is as long as the counts add up to, an added handler included. */
  lemma {:induction false} PrefixCounts(state: bool, obs: Observer, gos: seq<ObjId>, host: Host)
    requires |obs.meta| == Sum(obs.counts)
    ensures var r := PrefixGos(state, obs, gos, host).1;
            |r.meta| == Sum(r.counts)
    decreases |gos|
  {
    if gos != [] {
      var s1, o1 := PrefixStep(state, obs, gos, host);
      PrefixCounts(s1, o1, gos[1..], host);
    }
  }

  /** Entry `n` of the counts exists, and the metadata from where the counts before it add up to
      holds `comps` with their verdicts, in order. */
  predicate Segment(r: Observer, n: nat, comps: seq<ObjId>, host: Host) {
    && n < |r.counts|
    && 0 <= Sum(r.counts[..n]) && Sum(r.counts[..n]) + |comps| <= |r.meta|
    && r.meta[Sum(r.counts[..n])..Sum(r.counts[..n]) + |comps|] == Records(comps, host)
  }

  /** The GameObject traversed at position `k` of the counts has its segment of the metadata where
      the counts before it add up to, holding its components with their verdicts, in order. */
  lemma {:induction false} PrefixSegments(state: bool, obs: Observer, gos: seq<ObjId>, host: Host, k: nat, r: Observer)
    requires |obs.meta| == Sum(obs.counts)
    requires |obs.counts| <= k < |obs.counts| + |gos|
    requires r == PrefixGos(state, obs, gos, host).1
    ensures Segment(r, k, host.componentsOf(gos[k - |obs.counts|]), host)
    decreases |gos|
  {
    if k == |obs.counts| {
      FirstSegment(state, obs, gos, host);
    } else {
      var s1, o1 := PrefixStep(state, obs, gos, host);
      assert gos[1..][k - |o1.counts|] == gos[k - |obs.counts|];
      PrefixSegments(s1, o1, gos[1..], host, k, r);
    }
  }

  /** One step of the outer loop: the state and observer it hands on. */
  lemma PrefixStep(state: bool, obs: Observer, gos: seq<ObjId>, host: Host) returns (s1: bool, o1: Observer)
    requires 0 < |gos|
    ensures PrefixGos(state, obs, gos, host) == PrefixGos(s1, o1, gos[1..], host)
    ensures s1 <==> state || AnyWorth(host.componentsOf(gos[0]), host)
    ensures |o1.counts| == |obs.counts| + 1
    ensures |obs.meta| == Sum(obs.counts) ==> |o1.meta| == Sum(o1.counts)
  {
    var step := PrefixGo(state, obs, gos[0], host);
    PrefixUnfold(state, obs, gos, host);
    s1, o1 := step.0, step.1;
    assert o1.counts == obs.counts + [o1.counts[|obs.counts|]];
    SumAppend(obs.counts, o1.counts[|obs.counts|]);
  }

  /** `PrefixSegments` for the first GameObject. */
  lemma FirstSegment(state: bool, obs: Observer, gos: seq<ObjId>, host: Host)
    requires |obs.meta| == Sum(obs.counts)
    requires 0 < |gos|
    ensures Segment(PrefixGos(state, obs, gos, host).1, |obs.counts|, host.componentsOf(gos[0]), host)
  {
    var step := PrefixGo(state, obs, gos[0], host);
    PrefixUnfold(state, obs, gos, host);
    PrefixGoSegment(state, obs, gos[0], host);
    PrefixGrows(step.0, step.1, gos[1..], host, PrefixGos(step.0, step.1, gos[1..], host).1);
    SegmentExtends(step.1, PrefixGos(step.0, step.1, gos[1..], host).1, |obs.counts|, host.componentsOf(gos[0]), host);
  }

  /** One GameObject's step records its segment where the counts before it add up to. */
  lemma PrefixGoSegment(state: bool, obs: Observer, go: ObjId, host: Host)
    requires |obs.meta| == Sum(obs.counts)
    ensures Segment(PrefixGo(state, obs, go, host).1, |obs.counts|, host.componentsOf(go), host)
  {
    var o1 := PrefixGo(state, obs, go, host).1;
    var comps := host.componentsOf(go);
    assert o1.counts[..|obs.counts|] == obs.counts;
    assert o1.meta[|obs.meta|..|obs.meta| + |comps|] == Records(comps, host);
  }

  /** A segment stays where it is when the metadata and the counts only grow at the end. */
  lemma SegmentExtends(o: Observer, r: Observer, n: nat, comps: seq<ObjId>, host: Host)
    requires Segment(o, n, comps, host)
    requires o.meta <= r.meta && o.counts <= r.counts
    ensures Segment(r, n, comps, host)
  {
    assert r.counts[..n] == o.counts[..n];
    var start := Sum(o.counts[..n]);
    assert r.meta[start..start + |comps|] == o.meta[start..start + |comps|];
  }

  /** Once the state is true, the GameObject being traversed, and every later one, has as its handler
      the one it carries or was given, and that handler's capture ran. */
  lemma {:induction false} PrefixHandlers(state: bool, obs: Observer, gos: seq<ObjId>, host: Host, i: nat, r: Observer)
    requires i < |gos|
    requires r == PrefixGos(state, obs, gos, host).1
    ensures state || AnyWorth(Flatten(gos[..i + 1], host), host) ==>
              && gos[i] in r.handlers && r.handlers[gos[i]] == HandlerFor(gos[i], host)
              && HandlerBefore(HandlerFor(gos[i], host)) in r.events
    decreases i
  {
    var head := gos[..i + 1];
    assert head[0] == gos[0] && head[1..] == gos[1..][..i];
    AnyWorthAppend(host.componentsOf(gos[0]), Flatten(head[1..], host), host);
    if i == 0 {
      assert Flatten(head[1..], host) == [];
      FirstHandler(state, obs, gos, host, r);
    } else {
      var s1, o1 := PrefixStep(state, obs, gos, host);
      assert gos[1..][i - 1] == gos[i];
      PrefixHandlers(s1, o1, gos[1..], host, i - 1, r);
    }
  }

  /** `PrefixHandlers` for the first GameObject. */
  lemma FirstHandler(state: bool, obs: Observer, gos: seq<ObjId>, host: Host, r: Observer)
    requires 0 < |gos|
    requires r == PrefixGos(state, obs, gos, host).1
    ensures state || AnyWorth(host.componentsOf(gos[0]), host) ==>
              && gos[0] in r.handlers && r.handlers[gos[0]] == HandlerFor(gos[0], host)
              && HandlerBefore(HandlerFor(gos[0], host)) in r.events
  {
    var step := PrefixGo(state, obs, gos[0], host);
    PrefixUnfold(state, obs, gos, host);
    PrefixGrows(step.0, step.1, gos[1..], host, r);
    if step.0 {
      assert step.1.events[|step.1.events| - 1] in step.1.events;
    }
  }

  /** The outer loop of the prefix, unrolled once. */
  lemma PrefixUnfold(state: bool, obs: Observer, gos: seq<ObjId>, host: Host)
    requires 0 < |gos|
    ensures var step := PrefixGo(state, obs, gos[0], host);
            PrefixGos(state, obs, gos, host) == PrefixGos(step.0, step.1, gos[1..], host)
  {
  }

  // ---------------------------------------------------------------------------------------------
  // Postfix

  /** No entry of `meta[lo..hi]` (as far as it exists) is the component `x`. */
  predicate Outside(x: ObjId, meta: seq<Meta>, lo: int, hi: int) {
    forall j :: lo <= j < hi && 0 <= j < |meta| ==> meta[j].comp != x
  }

  /** `AddComponentRelationShip(child, parent)` stores `parent -> child`; a later call for the same
      source component overwrites the earlier one. */
  function Relate(rel: map<ObjId, ObjId>, source: ObjId, clone: ObjId): (r: map<ObjId, ObjId>)
    ensures source in r && r[source] == clone
    ensures forall x :: x != source ==> (x in r <==> x in rel) && (x in rel ==> r[x] == rel[x])
  {
    rel[source := clone]
  }

  /** The inner loop of the postfix over one clone GameObject's components: each consumes the next
      metadata entry, and every component but a SerializationHandler is related to that entry's
      source component. Running past the metadata is the list indexer's exception; the relations
      made before it stay. */
  function PairComps(rel: map<ObjId, ObjId>, comps: seq<ObjId>, meta: seq<Meta>, idx: nat, host: Host)
    : (r: (map<ObjId, ObjId>, nat, Option<Exception>))
    ensures r.2.Some? <==> comps != [] && |meta| < idx + |comps|
    ensures r.2.Some? ==> r.2 == Some(ArgumentOutOfRange)
    ensures r.2.None? ==> r.1 == idx + |comps|
    ensures idx <= r.1 <= idx + |comps|
    ensures Keeps(rel, r.0, meta, idx, r.1)
    decreases |comps|
  {
    if comps == [] then (rel, idx, None)
    else if idx >= |meta| then (rel, idx, Some(ArgumentOutOfRange))
    else
      var c := comps[0];
      var rel1 := if host.typeOf(c).Is(HandlerType) then rel else Relate(rel, meta[idx].comp, c);
      var r := PairComps(rel1, comps[1..], meta, idx + 1, host);
      assert forall x {:trigger Outside(x, meta, idx, r.1)} :: Outside(x, meta, idx, r.1) ==>
               Outside(x, meta, idx + 1, r.1) && x != meta[idx].comp;
      r
  }

  /** The component of the a-th record. */
  function CompAt(meta: seq<Meta>, a: nat): ObjId
    requires a < |meta|
  {
    meta[a].comp
  }

  /** No component is recorded twice. */
  predicate Distinct(meta: seq<Meta>) {
    forall a, b :: 0 <= a < b < |meta| ==> CompAt(meta, a) != CompAt(meta, b)
  }

  /** A component recorded once is outside every range of the metadata after its entry. */
  lemma DistinctOutside(meta: seq<Meta>, a: nat, lo: int, hi: int)
    requires Distinct(meta) && a < |meta| && a < lo
    ensures Outside(meta[a].comp, meta, lo, hi)
  {
    forall j | lo <= j < hi && 0 <= j < |meta|
      ensures meta[j].comp != meta[a].comp
    {
      assert CompAt(meta, a) != CompAt(meta, j);
    }
  }

  /** Where the metadata entries are distinct, the j-th component of a paired GameObject that is not
      a handler is the clone of the (idx + j)-th recorded source component. */
  lemma {:induction false} PairCompsRelates(rel: map<ObjId, ObjId>, comps: seq<ObjId>, meta: seq<Meta>, idx: nat, host: Host)
    requires idx + |comps| <= |meta|
    requires Distinct(meta)
    ensures var r := PairComps(rel, comps, meta, idx, host).0;
            forall j {:trigger comps[j]} :: 0 <= j < |comps| && !host.typeOf(comps[j]).Is(HandlerType) ==>
              meta[idx + j].comp in r && r[meta[idx + j].comp] == comps[j]
    decreases |comps|
  {
    if comps != [] {
      var c := comps[0];
      var rel1 := if host.typeOf(c).Is(HandlerType) then rel else Relate(rel, meta[idx].comp, c);
      var rest := PairComps(rel1, comps[1..], meta, idx + 1, host);
      assert PairComps(rel, comps, meta, idx, host) == rest;
      PairCompsRelates(rel1, comps[1..], meta, idx + 1, host);
      if !host.typeOf(c).Is(HandlerType) {
        DistinctOutside(meta, idx, idx + 1, rest.1);
      }
      assert forall j :: 1 <= j < |comps| ==> comps[1..][j - 1] == comps[j];
    }
  }

  /** The clone GameObject's components as `GetComponents` lists them once it has a handler: the
      components it came with, which hold the handler copied along with its source's, and a new
      handler last only when it carried none. */
  function CloneComps(go: ObjId, host: Host): (r: seq<ObjId>)
    ensures HandlerFor(go, host) in r
    ensures Carried(host.componentsOf(go), host).Some? ==> r == host.componentsOf(go)
    ensures Carried(host.componentsOf(go), host).None? ==> r == host.componentsOf(go) + [host.newHandler(go)]
  {
    host.componentsOf(go) + (if Carried(host.componentsOf(go), host).Some? then [] else [host.newHandler(go)])
  }

  /** The clone components in traversal order, each GameObject's as it lists them after its handler
      was ensured. */
  function CloneFlatten(gos: seq<ObjId>, host: Host): seq<ObjId>
    decreases |gos|
  {
    if gos == [] then [] else CloneComps(gos[0], host) + CloneFlatten(gos[1..], host)
  }

  /** Each clone GameObject, with its handler ensured, has as many components as the count recorded
      at its position. */
  predicate Fits(gos: seq<ObjId>, counts: seq<int>, host: Host)
    decreases |gos|
  {
    gos == [] ||
    (&& |counts| > 0
     && |CloneComps(gos[0], host)| == counts[0]
     && Fits(gos[1..], counts[1..], host))
  }

  /** The postfix's walk over the clone hierarchy: the observer, `_handlerCache` and the metadata
      index. */
  datatype Walk = Walk(obs: Observer, cache: seq<ObjId>, idx: nat)

  /** The outer loop of the postfix. Each clone GameObject gets its handler ensured and listed first;
      only then is its component count checked against the one recorded at its position. */
  function PostfixGos(w: Walk, gos: seq<ObjId>, i: nat, host: Host): (r: (Walk, Option<Exception>))
    ensures r.0.obs == w.obs.(handlers := r.0.obs.handlers, relations := r.0.obs.relations)
    ensures gos != [] ==> |r.0.cache| > |w.cache|
    ensures w.cache <= r.0.cache && |r.0.cache| <= |w.cache| + |gos|
    ensures r.1.None? ==> |r.0.cache| == |w.cache| + |gos|
    ensures r.1.None? && gos != [] ==> i + |gos| <= |w.obs.counts|
    ensures r.1.Some? ==> r.1.value in {ArgumentOutOfRange, InvalidOperation}
    ensures r.1.None? && gos != [] ==>
              var comps := CloneComps(gos[0], host);
              && |comps| == w.obs.counts[i]
              && PairComps(w.obs.relations, comps, w.obs.meta, w.idx, host).2.None?
    ensures w.idx <= r.0.idx
    decreases |gos|
  {
    if gos == [] then (w, None)
    else
      var go := gos[0];
      var h := HandlerFor(go, host);
      var comps := CloneComps(go, host);
      var w1 := w.(obs := w.obs.(handlers := w.obs.handlers[go := h]), cache := w.cache + [h]);
      if i >= |w.obs.counts| then (w1, Some(ArgumentOutOfRange))
      else if |comps| != w.obs.counts[i] then (w1, Some(InvalidOperation))
      else
        var (rel, idx, err) := PairComps(w1.obs.relations, comps, w1.obs.meta, w1.idx, host);
        var w2 := w1.(obs := w1.obs.(relations := rel), idx := idx);
        if err.Some? then (w2, err)
        else
          PostfixGos(w2, gos[1..], i + 1, host)
  }

  /** One step of the postfix's outer loop that passes the count check and the pairing: the walk it
      hands on. */
  lemma PostfixStep(w: Walk, gos: seq<ObjId>, i: nat, host: Host) returns (w2: Walk)
    requires gos != [] && i < |w.obs.counts|
    requires |CloneComps(gos[0], host)| == w.obs.counts[i]
    requires PairComps(w.obs.relations, CloneComps(gos[0], host), w.obs.meta, w.idx, host).2.None?
    ensures PostfixGos(w, gos, i, host) == PostfixGos(w2, gos[1..], i + 1, host)
    ensures var comps := CloneComps(gos[0], host);
            var h := HandlerFor(gos[0], host);
            && w2.obs == w.obs.(handlers := w.obs.handlers[gos[0] := h],
                                relations := PairComps(w.obs.relations, comps, w.obs.meta, w.idx, host).0)
            && w2.idx == w.idx + |comps|
            && w2.cache == w.cache + [h]
  {
    var h := HandlerFor(gos[0], host);
    var comps := CloneComps(gos[0], host);
    var pc := PairComps(w.obs.relations, comps, w.obs.meta, w.idx, host);
    w2 := Walk(w.obs.(handlers := w.obs.handlers[gos[0] := h], relations := pc.0), w.cache + [h], pc.1);
  }

  /** From `o` to `r` no handler entry is dropped, and every entry of `r` is either as in `o` or
      belongs to a GameObject of `gos` and names the handler that GameObject ends up with. */
  ghost predicate HandlersKept(o: map<ObjId, ObjId>, r: map<ObjId, ObjId>, gos: seq<ObjId>, host: Host) {
    && (forall g :: g in o ==> g in r)
    && (forall g :: g in r ==> (g in o && r[g] == o[g]) || (g in gos && r[g] == HandlerFor(g, host)))
  }

  /** The walk drops no handler entry, and the only entries it sets are those of the visited
      GameObjects, each to the handler that GameObject carries or was given. */
  lemma {:induction false} PostfixKeepsHandlers(w: Walk, gos: seq<ObjId>, i: nat, host: Host)
    ensures HandlersKept(w.obs.handlers, PostfixGos(w, gos, i, host).0.obs.handlers, gos, host)
    decreases |gos|
  {
    if gos != [] {
      var comps := CloneComps(gos[0], host);
      if i < |w.obs.counts| && |comps| == w.obs.counts[i]
         && PairComps(w.obs.relations, comps, w.obs.meta, w.idx, host).2.None? {
        var w2 := PostfixStep(w, gos, i, host);
        PostfixKeepsHandlers(w2, gos[1..], i + 1, host);
        assert forall g :: g in gos[1..] ==> g in gos;
      }
    }
  }

  /** `rel2` agrees with `rel` on every component not recorded in `meta[lo..hi]`. */
  ghost predicate Keeps(rel: map<ObjId, ObjId>, rel2: map<ObjId, ObjId>, meta: seq<Meta>, lo: int, hi: int) {
    forall x {:trigger Outside(x, meta, lo, hi)} :: Outside(x, meta, lo, hi) ==>
      (x in rel2 <==> x in rel) && (x in rel ==> rel2[x] == rel[x])
  }

  /** Agreement outside two adjacent stretches is agreement outside their union. */
  lemma KeepsJoin(rel0: map<ObjId, ObjId>, rel1: map<ObjId, ObjId>, rel2: map<ObjId, ObjId>, meta: seq<Meta>,
                  lo: int, mid: int, hi: int)
    ensures lo <= mid <= hi && Keeps(rel0, rel1, meta, lo, mid) && Keeps(rel1, rel2, meta, mid, hi) ==>
            Keeps(rel0, rel2, meta, lo, hi)
  {
    if lo <= mid <= hi && Keeps(rel0, rel1, meta, lo, mid) && Keeps(rel1, rel2, meta, mid, hi) {
      forall x | Outside(x, meta, lo, hi)
        ensures (x in rel2 <==> x in rel0) && (x in rel0 ==> rel2[x] == rel0[x])
      {
        assert Outside(x, meta, lo, mid) && Outside(x, meta, mid, hi);
      }
    }
  }

  /** One step of the walk, for the proof that it keeps the relations outside what it consumed:
      either the walk stops here, or it goes on from `w2` having kept them outside its own pairing. */
  lemma OutsideStep(w: Walk, gos: seq<ObjId>, i: nat, host: Host) returns (w2: Walk, gos2: seq<ObjId>, i2: nat, more: bool)
    requires gos != []
    ensures var r := PostfixGos(w, gos, i, host).0;
            more ==> && |gos2| < |gos| && PostfixGos(w2, gos2, i2, host).0 == r && w2.obs.meta == w.obs.meta
                     && w.idx <= w2.idx && Keeps(w.obs.relations, w2.obs.relations, w.obs.meta, w.idx, w2.idx)
    ensures var r := PostfixGos(w, gos, i, host).0;
            !more ==> Keeps(w.obs.relations, r.obs.relations, w.obs.meta, w.idx, r.idx)
  {
    var comps := CloneComps(gos[0], host);
    more := i < |w.obs.counts| && |comps| == w.obs.counts[i]
            && PairComps(w.obs.relations, comps, w.obs.meta, w.idx, host).2.None?;
    if more {
      w2 := PostfixStep(w, gos, i, host);
      gos2, i2 := gos[1..], i + 1;
      var pc := PairComps(w.obs.relations, comps, w.obs.meta, w.idx, host);
      assert w2.obs.relations == pc.0 && w2.idx == pc.1;
    } else {
      w2, gos2, i2 := w, gos, i;
      OutsideStop(w, gos, i, host);
    }
  }

  /** Where the walk stops, it has kept the relations outside the stretch it paired. */
  lemma OutsideStop(w: Walk, gos: seq<ObjId>, i: nat, host: Host)
    requires gos != []
    requires var comps := CloneComps(gos[0], host);
             !(i < |w.obs.counts| && |comps| == w.obs.counts[i]
               && PairComps(w.obs.relations, comps, w.obs.meta, w.idx, host).2.None?)
    ensures var r := PostfixGos(w, gos, i, host).0;
            Keeps(w.obs.relations, r.obs.relations, w.obs.meta, w.idx, r.idx)
  {
    var comps := CloneComps(gos[0], host);
    var r := PostfixGos(w, gos, i, host).0;
    if i >= |w.obs.counts| || |comps| != w.obs.counts[i] {
      assert r.obs.relations == w.obs.relations && r.idx == w.idx;
    } else {
      var pc := PairComps(w.obs.relations, comps, w.obs.meta, w.idx, host);
      assert r.obs.relations == pc.0 && r.idx == pc.1;
    }
  }

  /** The walk touches only the relations of components recorded in the stretch of metadata it
      consumed. */
  lemma {:induction false} PostfixKeepsOutside(w: Walk, gos: seq<ObjId>, i: nat, host: Host)
    ensures var r := PostfixGos(w, gos, i, host).0;
            Keeps(w.obs.relations, r.obs.relations, w.obs.meta, w.idx, r.idx)
    decreases |gos|
  {
    if gos != [] {
      var w2, gos2, i2, more := OutsideStep(w, gos, i, host);
      if more {
        PostfixKeepsOutside(w2, gos2, i2, host);
        var r := PostfixGos(w, gos, i, host).0;
        KeepsJoin(w.obs.relations, w2.obs.relations, r.obs.relations, w.obs.meta, w.idx, w2.idx, r.idx);
      }
    }
  }

  /** Every clone component of `flat` that is not a handler is related as the clone of the recorded
      component at the same offset from `start`. */
  predicate Correlated(rel: map<ObjId, ObjId>, meta: seq<Meta>, start: int, flat: seq<ObjId>, host: Host) {
    forall k :: 0 <= k < |flat| && !host.typeOf(flat[k]).Is(HandlerType) ==>
      && 0 <= start + k < |meta|
      && meta[start + k].comp in rel && rel[meta[start + k].comp] == flat[k]
  }

  lemma CorrelatedAppend(rel: map<ObjId, ObjId>, meta: seq<Meta>, start: int, a: seq<ObjId>, b: seq<ObjId>, host: Host)
    requires Correlated(rel, meta, start, a, host) && Correlated(rel, meta, start + |a|, b, host)
    ensures Correlated(rel, meta, start, a + b, host)
  {
    forall k | 0 <= k < |a + b| && !host.typeOf((a + b)[k]).Is(HandlerType)
      ensures 0 <= start + k < |meta| && meta[start + k].comp in rel && rel[meta[start + k].comp] == (a + b)[k]
    {
      if k >= |a| {
        assert (a + b)[k] == b[k - |a|];
        assert start + k == (start + |a|) + (k - |a|);
      }
    }
  }

  /** What one successful step of the outer loop does on its way from `w` to `w2`, and what the rest
      of the walk, finishing in `r`, leaves alone: the GameObject's clone components `comps` were
      paired with the recorded entries from `w.idx` on, and no relation of a component recorded
      outside the rest's stretch changes afterwards. */
  ghost predicate Stepped(w: Walk, w2: Walk, r: Walk, comps: seq<ObjId>, host: Host) {
    && w2.obs.meta == w.obs.meta
    && w2.obs.relations == PairComps(w.obs.relations, comps, w.obs.meta, w.idx, host).0
    && w2.idx == w.idx + |comps|
    && (comps != [] ==> w2.idx <= |w.obs.meta|)
    && w2.idx <= r.idx
    && Keeps(w2.obs.relations, r.obs.relations, w2.obs.meta, w2.idx, r.idx)
  }

  /** The relations one GameObject's pairing makes survive the rest of the walk, which only touches
      entries recorded after them; with the correlation of the rest, the whole stretch is correlated. */
  lemma PairsCombine(w: Walk, w2: Walk, r: Walk, comps: seq<ObjId>, rest: seq<ObjId>, host: Host)
    ensures && Distinct(w.obs.meta) && Stepped(w, w2, r, comps, host)
            && r.idx == w2.idx + |rest| && Correlated(r.obs.relations, w.obs.meta, w2.idx, rest, host)
            ==> r.idx == w.idx + |comps + rest| && Correlated(r.obs.relations, w.obs.meta, w.idx, comps + rest, host)
  {
    if && Distinct(w.obs.meta) && Stepped(w, w2, r, comps, host)
       && r.idx == w2.idx + |rest| && Correlated(r.obs.relations, w.obs.meta, w2.idx, rest, host) {
      PairsExtend(w, w2, r, comps, rest, host);
    }
  }

  lemma PairsExtend(w: Walk, w2: Walk, r: Walk, comps: seq<ObjId>, rest: seq<ObjId>, host: Host)
    requires Distinct(w.obs.meta) && Stepped(w, w2, r, comps, host)
    requires r.idx == w2.idx + |rest| && Correlated(r.obs.relations, w.obs.meta, w2.idx, rest, host)
    ensures r.idx == w.idx + |comps + rest| && Correlated(r.obs.relations, w.obs.meta, w.idx, comps + rest, host)
  {
    if comps != [] {
      PairCompsRelates(w.obs.relations, comps, w.obs.meta, w.idx, host);
      forall k | 0 <= k < |comps| && !host.typeOf(comps[k]).Is(HandlerType)
        ensures 0 <= w.idx + k < |w.obs.meta|
        ensures w.obs.meta[w.idx + k].comp in r.obs.relations && r.obs.relations[w.obs.meta[w.idx + k].comp] == comps[k]
      {
        DistinctOutside(w.obs.meta, w.idx + k, w2.idx, r.idx);
      }
    }
    CorrelatedAppend(r.obs.relations, w.obs.meta, w.idx, comps, rest, host);
  }

  /** A successful step of the outer loop: the walk it hands on, which finishes the same way. */
  lemma PostfixStepOk(w: Walk, gos: seq<ObjId>, i: nat, host: Host, r: Walk) returns (w2: Walk, gos2: seq<ObjId>, i2: nat)
    requires gos != [] && PostfixGos(w, gos, i, host) == (r, None)
    ensures gos2 == gos[1..] && PostfixGos(w2, gos2, i2, host) == (r, None)
    ensures w2.obs.handlers == w.obs.handlers[gos[0] := HandlerFor(gos[0], host)]
    ensures Stepped(w, w2, r, CloneComps(gos[0], host), host)
  {
    w2 := PostfixStep(w, gos, i, host);
    gos2, i2 := gos[1..], i + 1;
    PostfixKeepsOutside(w2, gos2, i2, host);
  }

  /** Positional correlation: when the walk succeeds and the recorded components are distinct, the
      k-th clone component in traversal order that is not a handler is related as the clone of the
      recorded component k places on from where the walk started. */
  lemma {:induction false} PostfixPairs(w: Walk, gos: seq<ObjId>, i: nat, host: Host, r: Walk)
    requires Distinct(w.obs.meta) && PostfixGos(w, gos, i, host) == (r, None)
    ensures var flat := CloneFlatten(gos, host);
            r.idx == w.idx + |flat| && Correlated(r.obs.relations, w.obs.meta, w.idx, flat, host)
    decreases |gos|
  {
    if gos != [] {
      var w2, gos2, i2 := PostfixStepOk(w, gos, i, host, r);
      PostfixPairs(w2, gos2, i2, host, r);
      PairsCombine(w, w2, r, CloneComps(gos[0], host), CloneFlatten(gos2, host), host);
    }
  }

  /** The structure check: starting within the metadata, the walk succeeds exactly when every clone
      GameObject's component count equals the one recorded at its position and the metadata lasts for
      all clone components. */
  lemma {:induction false} PostfixSucceeds(w: Walk, gos: seq<ObjId>, i: nat, host: Host)
    requires w.idx <= |w.obs.meta| && i <= |w.obs.counts|
    ensures PostfixGos(w, gos, i, host).1.None? <==>
              Fits(gos, w.obs.counts[i..], host) && w.idx + |CloneFlatten(gos, host)| <= |w.obs.meta|
    decreases |gos|
  {
    if gos != [] {
      var comps := CloneComps(gos[0], host);
      assert CloneFlatten(gos, host) == comps + CloneFlatten(gos[1..], host);
      if i < |w.obs.counts| && |comps| == w.obs.counts[i] {
        assert w.obs.counts[i..][1..] == w.obs.counts[i + 1..];
        if PairComps(w.obs.relations, comps, w.obs.meta, w.idx, host).2.None? {
          var w2 := PostfixStep(w, gos, i, host);
          PostfixSucceeds(w2, gos[1..], i + 1, host);
        }
      }
    }
  }

  /** From position `start` on, `cache` lists the handler each GameObject of `gos` ends up with, in
      turn, as far as it reaches. */
  ghost predicate Lists(cache: seq<ObjId>, start: nat, gos: seq<ObjId>, host: Host) {
    forall k :: 0 <= k < |gos| && start + k < |cache| ==> cache[start + k] == HandlerFor(gos[k], host)
  }

  lemma ListsCons(cache: seq<ObjId>, start: nat, gos: seq<ObjId>, host: Host)
    requires gos != [] && start < |cache| && cache[start] == HandlerFor(gos[0], host)
    requires Lists(cache, start + 1, gos[1..], host)
    ensures Lists(cache, start, gos, host)
  {
    forall k | 1 <= k < |gos| && start + k < |cache|
      ensures cache[start + k] == HandlerFor(gos[k], host)
    {
      assert gos[k] == gos[1..][k - 1];
    }
  }

  /** Whatever happens later, the first clone GameObject's handler is listed first and stays its
      handler; when its step fails, nothing else is listed. */
  lemma PostfixHead(w: Walk, gos: seq<ObjId>, i: nat, host: Host, r: Walk, err: Option<Exception>)
    requires gos != [] && PostfixGos(w, gos, i, host) == (r, err)
    ensures var h := HandlerFor(gos[0], host);
            && |w.cache| < |r.cache| && r.cache[|w.cache|] == h
            && gos[0] in r.obs.handlers && r.obs.handlers[gos[0]] == h
  {
    var comps := CloneComps(gos[0], host);
    if i < |w.obs.counts| && |comps| == w.obs.counts[i]
       && PairComps(w.obs.relations, comps, w.obs.meta, w.idx, host).2.None? {
      var w2 := PostfixStep(w, gos, i, host);
      PostfixKeepsHandlers(w2, gos[1..], i + 1, host);
      assert w2.cache <= r.cache;
      assert gos[0] in w2.obs.handlers;
    }
  }

  /** One step of the walk, for the handler-cache proof: whether the walk goes on, with which walk,
      and how the listing of the rest extends to the whole. */
  lemma CacheStep(w: Walk, gos: seq<ObjId>, i: nat, host: Host, r: Walk, err: Option<Exception>)
    returns (w2: Walk, more: bool)
    requires gos != [] && PostfixGos(w, gos, i, host) == (r, err)
    ensures more ==> PostfixGos(w2, gos[1..], i + 1, host) == (r, err) && |w2.cache| == |w.cache| + 1
    ensures (more ==> Lists(r.cache, |w.cache| + 1, gos[1..], host)) ==> Lists(r.cache, |w.cache|, gos, host)
  {
    PostfixHead(w, gos, i, host, r, err);
    var comps := CloneComps(gos[0], host);
    more := i < |w.obs.counts| && |comps| == w.obs.counts[i]
            && PairComps(w.obs.relations, comps, w.obs.meta, w.idx, host).2.None?;
    if more {
      w2 := PostfixStep(w, gos, i, host);
    } else {
      w2 := w;
      assert |r.cache| == |w.cache| + 1;
    }
    if more ==> Lists(r.cache, |w.cache| + 1, gos[1..], host) {
      ListsCons(r.cache, |w.cache|, gos, host);
    }
  }

  /** `_handlerCache` lists, position by position, the handler each visited clone GameObject ends
      up with. */
  lemma {:induction false} PostfixCache(w: Walk, gos: seq<ObjId>, i: nat, host: Host, r: Walk, err: Option<Exception>)
    requires PostfixGos(w, gos, i, host) == (r, err)
    ensures Lists(r.cache, |w.cache|, gos, host)
    decreases |gos|
  {
    if gos != [] {
      var w2, more := CacheStep(w, gos, i, host, r, err);
      if more {
        PostfixCache(w2, gos[1..], i + 1, host, r, err);
      }
    }
  }

  /** The sanitize-and-invoke events of one recorded component after the handlers restored: nothing
      for a component not worth bridging; otherwise `OnAfterDeserialize` for a callback receiver,
      then `Awake` for a MonoBehaviour, each invoked when the sanitizer answers a delegate. */
  function Lifecycle(m: Meta, host: Host): (r: seq<Event>)
    ensures !m.worth ==> r == []
    ensures var t := host.typeOf(m.comp);
            && (Invoke(AfterDeserializeCall, m.comp) in r <==> m.worth && t.Is(CallbackReceiver) && host.hasDelegate(AfterDeserializeCall, t))
            && (Invoke(AwakeCall, m.comp) in r <==> m.worth && t.Is(MonoBehaviourTrait) && host.hasDelegate(AwakeCall, t))
    ensures forall a :: 0 <= a < |r| && r[a].Invoke? ==> r[a].comp == m.comp && r[a].callback != BeforeSerializeCall
    ensures forall a, b :: 0 <= a < |r| && 0 <= b < |r| && r[a] == Invoke(AfterDeserializeCall, m.comp) && r[b] == Invoke(AwakeCall, m.comp) ==> a < b
    ensures forall a :: 0 <= a < |r| ==> !r[a].HandlerAfter? && !r[a].ClearBlocked?
  {
    if !m.worth then []
    else
      var t := host.typeOf(m.comp);
      (if t.Is(CallbackReceiver) then
         [Sanitize(AfterDeserializeCall, t)]
         + (if host.hasDelegate(AfterDeserializeCall, t) then [Invoke(AfterDeserializeCall, m.comp)] else [])
       else [])
      + (if t.Is(MonoBehaviourTrait) then
           [Sanitize(AwakeCall, t)]
           + (if host.hasDelegate(AwakeCall, t) then [Invoke(AwakeCall, m.comp)] else [])
         else [])
  }

  /** The lifecycle loop: every recorded component's events, in capture order. */
  function Finalize(meta: seq<Meta>, host: Host): (r: seq<Event>)
    ensures forall a :: 0 <= a < |r| ==> !r[a].HandlerAfter? && !r[a].ClearBlocked?
    decreases |meta|
  {
    if meta == [] then [] else Lifecycle(meta[0], host) + Finalize(meta[1..], host)
  }

  /** The lifecycle loop runs component by component: the events of a list of records are those of
      its first part followed by those of the rest. */
  lemma {:induction false} FinalizeAppend(a: seq<Meta>, b: seq<Meta>, host: Host)
    ensures Finalize(a + b, host) == Finalize(a, host) + Finalize(b, host)
    decreases |a|
  {
    if a == [] {
      assert a + b == b;
    } else {
      assert (a + b)[0] == a[0] && (a + b)[1..] == a[1..] + b;
      FinalizeAppend(a[1..], b, host);
    }
  }

  /** A component is invoked in the lifecycle loop exactly when some worth record holds it and its
      type has that callback's delegate. */
  lemma {:induction false} FinalizeInvokes(meta: seq<Meta>, host: Host, cb: Callback, c: ObjId)
    ensures Invoke(cb, c) in Finalize(meta, host) <==>
              exists k :: 0 <= k < |meta| && meta[k].comp == c && Invoke(cb, c) in Lifecycle(meta[k], host)
    decreases |meta|
  {
    if meta != [] {
      FinalizeInvokes(meta[1..], host, cb, c);
      var r := Finalize(meta, host);
      assert r == Lifecycle(meta[0], host) + Finalize(meta[1..], host);
      if Invoke(cb, c) in Finalize(meta[1..], host) {
        var k :| 0 <= k < |meta[1..]| && meta[1..][k].comp == c && Invoke(cb, c) in Lifecycle(meta[1..][k], host);
        assert meta[k + 1] == meta[1..][k];
      }
      if exists k :: 0 <= k < |meta| && meta[k].comp == c && Invoke(cb, c) in Lifecycle(meta[k], host) {
        var k :| 0 <= k < |meta| && meta[k].comp == c && Invoke(cb, c) in Lifecycle(meta[k], host);
        if k > 0 {
          assert meta[1..][k - 1] == meta[k];
        }
      }
    }
  }

  /** `PatchedAfterDeserializePoint` of every listed handler, in list order. */
  function AfterAll(cache: seq<ObjId>): (r: seq<Event>)
    ensures |r| == |cache|
    ensures forall a :: 0 <= a < |r| ==> r[a] == HandlerAfter(cache[a])
  {
    seq(|cache|, a requires 0 <= a < |cache| => HandlerAfter(cache[a]))
  }

  /** `GetChildGOAndCacheIt`. With a false state or a null result only the blocks are cleared. With
      a result or original that has no live GameObject nothing happens. Otherwise the relations are
      cleared and the clone hierarchy walked; an exception leaves the handlers, relations and caches
      as the walk left them. On success the roots are related last; the result is the relation
      registry the handlers restore against. Then every handler restores, the blocks are cleared,
      the lifecycle runs, and the caches and relations are cleared. */
  function Postfix(obs: Observer, original: Obj, result: Obj, state: bool, host: Host)
    : (r: (Observer, Result<Option<map<ObjId, ObjId>>>))
    ensures !state || result.NullObj? ==> r == (obs.(events := obs.events + [ClearBlocked]), Ok(None))
    ensures state && !result.NullObj? && (RootOf(result, host.live).None? || RootOf(original, host.live).None?) ==>
              r == (obs, Ok(None))
    ensures r.1.Err? ==> r.1.error in {ArgumentOutOfRange, InvalidOperation}
                         && r.0.meta == obs.meta && r.0.counts == obs.counts && r.0.events == obs.events
    ensures r.1.Ok? && r.1.value.Some? ==>
              && RootOf(original, host.live).Some? && RootOf(result, host.live).Some?
              && RootOf(original, host.live).value in r.1.value.value
              && r.1.value.value[RootOf(original, host.live).value] == RootOf(result, host.live).value
              && r.0.meta == [] && r.0.counts == [] && r.0.relations == map[]
              && obs.events <= r.0.events
  {
    if !state || result.NullObj? then (obs.(events := obs.events + [ClearBlocked]), Ok(None))
    else
      match (RootOf(result, host.live), RootOf(original, host.live))
      case (Some(childRoot), Some(parentRoot)) =>
        var start := Walk(obs.(relations := map[]), [], 0);
        var (w, err) := PostfixGos(start, host.hierarchyOf(childRoot), 0, host);
        if err.Some? then (w.obs, Err(err.value))
        else
          var pairs := Relate(w.obs.relations, parentRoot, childRoot);
          var events := w.obs.events + AfterAll(w.cache) + [ClearBlocked] + Finalize(w.obs.meta, host);
          (w.obs.(meta := [], counts := [], relations := map[], events := events), Ok(Some(pairs)))
      case _ => (obs, Ok(None))
  }

  /** Whatever its outcome, a postfix drops no handler entry, and the only entries it sets are those
      of clone GameObjects, each to the handler that GameObject carries or was given. */
  lemma PostfixKeepsKnownHandlers(obs: Observer, original: Obj, result: Obj, state: bool, host: Host)
    ensures var r := Postfix(obs, original, result, state, host);
            HandlersKept(obs.handlers, r.0.handlers,
                         if RootOf(result, host.live).Some? then host.hierarchyOf(RootOf(result, host.live).value) else [], host)
  {
    if state && !result.NullObj? && RootOf(result, host.live).Some? && RootOf(original, host.live).Some? {
      var childRoot := RootOf(result, host.live).value;
      PostfixKeepsHandlers(Walk(obs.(relations := map[]), [], 0), host.hierarchyOf(childRoot), 0, host);
    }
  }

  /** A postfix that returns relations walked the whole clone hierarchy without an exception: what
      it is made of. */
  lemma PostfixOk(obs: Observer, original: Obj, result: Obj, state: bool, host: Host,
                  r: (Observer, Result<Option<map<ObjId, ObjId>>>))
    returns (childRoot: ObjId, parentRoot: ObjId, w: Walk)
    requires r == Postfix(obs, original, result, state, host) && r.1.Ok? && r.1.value.Some?
    ensures state && RootOf(result, host.live) == Some(childRoot) && RootOf(original, host.live) == Some(parentRoot)
    ensures PostfixGos(Walk(obs.(relations := map[]), [], 0), host.hierarchyOf(childRoot), 0, host) == (w, None)
    ensures w.obs.meta == obs.meta && w.obs.counts == obs.counts
    ensures r.0.handlers == w.obs.handlers
    ensures r.0.events == obs.events + (AfterAll(w.cache) + [ClearBlocked] + Finalize(obs.meta, host))
    ensures r.1.value.value == Relate(w.obs.relations, parentRoot, childRoot)
  {
    childRoot, parentRoot := RootOf(result, host.live).value, RootOf(original, host.live).value;
    w := PostfixGos(Walk(obs.(relations := map[]), [], 0), host.hierarchyOf(childRoot), 0, host).0;
    var after, fin := AfterAll(w.cache), Finalize(obs.meta, host);
    assert r.0.events == obs.events + after + [ClearBlocked] + fin;
    AppendAssoc(obs.events + after, [ClearBlocked], fin);
    AppendAssoc(obs.events, after, [ClearBlocked] + fin);
    AppendAssoc(after, [ClearBlocked], fin);
  }

  /** The replay order: every GameObject's handler restores (`PatchedAfterDeserializePoint`)
      before the blocks are cleared, and the blocked callbacks run only after that, each exactly for
      a recorded component worth bridging whose type has the delegate. */
  ghost predicate Replays(tail: seq<Event>, gos: seq<ObjId>, meta: seq<Meta>, host: Host) {
    && (forall g :: g in gos ==> HandlerAfter(HandlerFor(g, host)) in tail)
    && ClearBlocked in tail
    && (forall a, b :: 0 <= a < |tail| && 0 <= b < |tail| && tail[a].HandlerAfter? && tail[b].ClearBlocked? ==> a < b)
    && (forall a, b :: 0 <= a < |tail| && 0 <= b < |tail| && tail[a].ClearBlocked? && tail[b].Invoke? ==> a < b)
    && (forall cb, c :: Invoke(cb, c) in tail <==>
          exists k :: 0 <= k < |meta| && meta[k].comp == c && Invoke(cb, c) in Lifecycle(meta[k], host))
  }

  /** The events after the walk replay in that order when the handler list names every GameObject's
      handler. */
  lemma TailReplays(cache: seq<ObjId>, gos: seq<ObjId>, meta: seq<Meta>, host: Host)
    requires |cache| == |gos| && Lists(cache, 0, gos, host)
    ensures Replays(AfterAll(cache) + [ClearBlocked] + Finalize(meta, host), gos, meta, host)
  {
    var after := AfterAll(cache);
    var fin := Finalize(meta, host);
    var tail := after + [ClearBlocked] + fin;
    forall g | g in gos
      ensures HandlerAfter(HandlerFor(g, host)) in tail
    {
      var k :| 0 <= k < |gos| && gos[k] == g;
      assert tail[k] == after[k];
    }
    assert tail[|after|] == ClearBlocked;
    forall a | 0 <= a < |tail|
      ensures (tail[a].HandlerAfter? ==> a < |after|) && (tail[a].ClearBlocked? ==> a == |after|)
              && (tail[a].Invoke? ==> a > |after|)
    {
      if a > |after| {
        assert tail[a] == fin[a - |after| - 1];
      }
    }
    forall cb, c
      ensures Invoke(cb, c) in tail <==>
                exists k :: 0 <= k < |meta| && meta[k].comp == c && Invoke(cb, c) in Lifecycle(meta[k], host)
    {
      FinalizeInvokes(meta, host, cb, c);
      assert Invoke(cb, c) in tail <==> Invoke(cb, c) in fin;
    }
  }

  /** A successful postfix extends the event trace with the replay of the clone hierarchy. */
  lemma PostfixReplay(obs: Observer, original: Obj, result: Obj, state: bool, host: Host,
                      r: (Observer, Result<Option<map<ObjId, ObjId>>>))
    requires r == Postfix(obs, original, result, state, host) && r.1.Ok? && r.1.value.Some?
    ensures obs.events <= r.0.events
    ensures Replays(r.0.events[|obs.events|..], host.hierarchyOf(RootOf(result, host.live).value), obs.meta, host)
  {
    var childRoot, parentRoot, w := PostfixOk(obs, original, result, state, host, r);
    PostfixCache(Walk(obs.(relations := map[]), [], 0), host.hierarchyOf(childRoot), 0, host, w, None);
    var tail := AfterAll(w.cache) + [ClearBlocked] + Finalize(obs.meta, host);
    TailReplays(w.cache, host.hierarchyOf(childRoot), obs.meta, host);
    assert r.0.events[|obs.events|..] == tail;
  }

  /** The relation registry a successful postfix hands the handlers: with distinct recorded
      components, each clone component in traversal order that is not a handler is the clone of the
      recorded component at the same position, the clone root is the original root's clone, and no
      other component has a relation. */
  lemma PostfixRelates(obs: Observer, original: Obj, result: Obj, state: bool, host: Host,
                       r: (Observer, Result<Option<map<ObjId, ObjId>>>))
    requires Distinct(obs.meta)
    requires r == Postfix(obs, original, result, state, host) && r.1.Ok? && r.1.value.Some?
    ensures var flat := CloneFlatten(host.hierarchyOf(RootOf(result, host.live).value), host);
            var parentRoot := RootOf(original, host.live).value;
            var pairs := r.1.value.value;
            && |flat| <= |obs.meta|
            && (forall k :: 0 <= k < |flat| && !host.typeOf(flat[k]).Is(HandlerType) && obs.meta[k].comp != parentRoot ==>
                  obs.meta[k].comp in pairs && pairs[obs.meta[k].comp] == flat[k])
            && (forall x :: x in pairs && x != parentRoot ==> exists k :: 0 <= k < |obs.meta| && obs.meta[k].comp == x)
  {
    var childRoot, parentRoot, w := PostfixOk(obs, original, result, state, host, r);
    var start := Walk(obs.(relations := map[]), [], 0);
    PostfixPairs(start, host.hierarchyOf(childRoot), 0, host, w);
    PostfixKeepsOutside(start, host.hierarchyOf(childRoot), 0, host);
    PostfixSucceeds(start, host.hierarchyOf(childRoot), 0, host);
    forall x | x in r.1.value.value && x != parentRoot
      ensures exists k :: 0 <= k < |obs.meta| && obs.meta[k].comp == x
    {
      assert !Outside(x, start.obs.meta, start.idx, w.idx);
    }
  }

  /** The structure check of a postfix that reaches the walk: it returns relations exactly when
      every clone GameObject's component count, with its handler ensured, equals the one recorded at
      its position and the records last for all clone components. */
  lemma PostfixSucceedsIff(obs: Observer, original: Obj, result: Obj, host: Host)
    requires !result.NullObj? && RootOf(result, host.live).Some? && RootOf(original, host.live).Some?
    ensures var gos := host.hierarchyOf(RootOf(result, host.live).value);
            Postfix(obs, original, result, true, host).1.Ok? <==>
              Fits(gos, obs.counts, host) && |CloneFlatten(gos, host)| <= |obs.meta|
  {
    var gos := host.hierarchyOf(RootOf(result, host.live).value);
    PostfixSucceeds(Walk(obs.(relations := map[]), [], 0), gos, 0, host);
    assert obs.counts[0..] == obs.counts;
  }

  /** The handler is ensured before the count check: a clone whose first GameObject does not match
      the records fails, yet that GameObject has kept the handler the walk gave it. */
  lemma HandlerAddedBeforeCheck(obs: Observer, original: Obj, result: Obj, host: Host)
    requires !result.NullObj? && RootOf(result, host.live).Some? && RootOf(original, host.live).Some?
    requires var gos := host.hierarchyOf(RootOf(result, host.live).value);
             gos != [] && (obs.counts == [] || |CloneComps(gos[0], host)| != obs.counts[0])
    ensures var gos := host.hierarchyOf(RootOf(result, host.live).value);
            var r := Postfix(obs, original, result, true, host);
            && r.1 == Err(if obs.counts == [] then ArgumentOutOfRange else InvalidOperation)
            && gos[0] in r.0.handlers && r.0.handlers[gos[0]] == HandlerFor(gos[0], host)
  {
  }
  /** A component type with the given traits, for the worked example below. */
  function ExampleType(traits: set<Trait>): Ty {
    Ty("T", ClassKind, traits, Assembly("Game.dll", None), [], None, None)
  }

  /** The host of the worked example: the source GameObject 1 holds a Transform 2 and a worth
      MonoBehaviour 3 and carries no handler, so `AddComponent` gives it handler 4. Its clone 5 was
      copied with all three, as 6, 7 and 8, so it carries the copy 8 of the handler. */
  function ExampleHost(): Host {
    Host({1, 5},
         g => [g],
         g => if g == 1 then [2, 3] else if g == 5 then [6, 7, 8] else [],
         c => ExampleType(if c == 2 || c == 6 then {TransformTrait}
                          else if c == 4 || c == 8 then {HandlerType}
                          else {MonoBehaviourTrait}),
         c => c == 3,
         (cb, t) => false,
         g => g + 3)
  }

  lemma ExampleHandlers()
    ensures HandlerFor(1, ExampleHost()) == 4 && Carried([2, 3], ExampleHost()).None?
    ensures HandlerFor(5, ExampleHost()) == 8 && CloneComps(5, ExampleHost()) == [6, 7, 8]
  {
    var host := ExampleHost();
    assert host.typeOf(8) == ExampleType({HandlerType}) && host.typeOf(8).Is(HandlerType);
    assert host.typeOf(2) == ExampleType({TransformTrait}) && !host.typeOf(2).Is(HandlerType);
    assert host.typeOf(3) == ExampleType({MonoBehaviourTrait}) && !host.typeOf(3).Is(HandlerType);
    assert host.typeOf(6) == ExampleType({TransformTrait}) && !host.typeOf(6).Is(HandlerType);
    assert host.typeOf(7) == ExampleType({MonoBehaviourTrait}) && !host.typeOf(7).Is(HandlerType);
    assert [6, 7, 8][1..] == [7, 8] && [7, 8][1..] == [8];
    assert Carried([8], host) == Some(8);
  }

  /** The prefix of the worked example records one count of three: the two components and the
      new handler, after them. */
  lemma ExamplePrefix()
    ensures var pre := Prefix(Observer([], [], map[], map[], []), GoObj(1), ExampleHost());
            pre.0 && pre.1.counts == [3] && pre.1.meta == [Meta(2, false), Meta(3, true), Meta(4, false)]
  {
    var host := ExampleHost();
    ExampleHandlers();
    assert host.componentsOf(1) == [2, 3] && host.register(3) && !host.register(2);
    assert AnyWorth([2, 3], host) by {
      assert host.register([2, 3][1]);
    }
    assert Records([2, 3], host) == [Meta(2, false), Meta(3, true)] by {
      assert Records([2, 3], host)[0] == Meta(2, false);
      assert Records([2, 3], host)[1] == Meta(3, true);
    }
    var start := Observer([], [], map[], map[], [ClearBlocked]);
    assert RootOf(GoObj(1), host.live) == Some(1) && host.hierarchyOf(1) == [1];
    var empty := Observer([], [], map[], map[], []);
    assert empty.events + [ClearBlocked] == [ClearBlocked];
    assert empty.(meta := [], counts := [], events := empty.events + [ClearBlocked]) == start;
    assert Prefix(Observer([], [], map[], map[], []), GoObj(1), host) == PrefixGos(false, start, [1], host);
    PrefixUnfold(false, start, [1], host);
  }

  /** The postfix of the worked example: the clone matches the recorded count of three, and the
      relations pair 6 with 2, 7 with 3 and the clone root 5 with the original root 1; the
      carried handler 8 is skipped. */
  lemma ExamplePostfix(obs: Observer)
    requires obs.counts == [3] && obs.meta == [Meta(2, false), Meta(3, true), Meta(4, false)]
    ensures Postfix(obs, GoObj(1), GoObj(5), true, ExampleHost()).1 == Ok(Some(map[2 := 6, 3 := 7, 1 := 5]))
  {
    var host := ExampleHost();
    ExampleHandlers();
    var w := Walk(obs.(relations := map[]), [], 0);
    assert host.hierarchyOf(5) == [5];
    assert !host.typeOf(6).Is(HandlerType) && !host.typeOf(7).Is(HandlerType) && host.typeOf(8).Is(HandlerType);
    var pc := PairComps(map[], [6, 7, 8], obs.meta, 0, host);
    assert [6, 7, 8][1..] == [7, 8] && [7, 8][1..] == [8] && [8][1..] == [];
    assert pc == (map[2 := 6, 3 := 7], 3, None);
    var post := PostfixGos(w, [5], 0, host);
    assert post.1 == None && post.0.obs.relations == map[2 := 6, 3 := 7];
  }

  /** An ordinary instantiation succeeds: the prefix gives the source a handler, the clone arrives
      carrying its copy, and the postfix finds the counts in agreement and relates every
      non-handler component to its source and the clone root to the original root. */
  lemma OrdinaryCloneSucceeds()
    ensures var pre := Prefix(Observer([], [], map[], map[], []), GoObj(1), ExampleHost());
            Postfix(pre.1, GoObj(1), GoObj(5), pre.0, ExampleHost()).1 == Ok(Some(map[2 := 6, 3 := 7, 1 := 5]))
  {
    ExamplePrefix();
    ExamplePostfix(Prefix(Observer([], [], map[], map[], []), GoObj(1), ExampleHost()).1);
  }
}

=== FILE: serialization_registry.dfy ===
/** `SerializationRegistry`: decides whether a component type has fields worth bridging, records
    one `BridgeTarget` per such field, and caches a verdict per scanned type.

    `fieldsOf` is `AccessTools.GetDeclaredFields`; `sep` is the host's directory separator.
 */
module SerializationRegistry {
  import opened Wrappers
  import opened Types
  import opened AssemblyUtils

  /** `BridgeTarget`: which field of which component type needs bridging. */
  datatype BridgeTarget = BridgeTarget(componentType: Ty, field: Member)

  /** `_cachedRootTypes` (verdict per type) and `RegisteredTargets`. */
  datatype Registry = Registry(cache: map<Ty, bool>, targets: seq<BridgeTarget>)

  /** `IsTraversable`: only custom classes and structs, never primitives, strings, enums or Unity internals. */
  function IsTraversable(t: Ty): (r: bool)
    ensures r <==> !t.Is(UnityInternal) && (t.kind == ClassKind || t.kind == StructKind)
  {
    !t.IsSimple() && !t.Is(UnityInternal) && (t.IsClass() || t.IsValueType())
  }

  /** The filter of `ScanComponent`'s loop: instance fields of a traversable, serializable type
      that are public or carry `[SerializeField]`. */
  predicate Admits(f: Member) {
    && !f.isStatic
    && IsTraversable(f.memberType)
    && (f.isPublic || SerializeFieldAttr in f.attrs)
    && f.memberType.Is(SerializableTrait)
  }

  /** The targets `ScanComponent(t)` appends, in declaration order. */
  function ScanComponent(t: Ty, fields: seq<Member>): (r: seq<BridgeTarget>)
    ensures |r| <= |fields|
    ensures forall i :: 0 <= i < |r| ==> r[i].componentType == t && r[i].field in fields && Admits(r[i].field)
    ensures forall i :: 0 <= i < |fields| && Admits(fields[i]) ==> BridgeTarget(t, fields[i]) in r
    ensures |r| == 0 <==> forall i :: 0 <= i < |fields| ==> !Admits(fields[i])
  {
    if fields == [] then []
    else
      var rest := ScanComponent(t, fields[1..]);
      assert forall i :: 1 <= i < |fields| ==> fields[i] == fields[1..][i - 1];
      if Admits(fields[0]) then [BridgeTarget(t, fields[0])] + rest else rest
  }

  /** The scan runs field by field: scanning two runs of fields one after the other appends the
      second run's targets to the first's, and a single field yields its target exactly when it is
      admitted. So the targets are the admitted fields, each once, in declaration order. */
  lemma ScanConcat(t: Ty, a: seq<Member>, b: seq<Member>)
    ensures ScanComponent(t, a + b) == ScanComponent(t, a) + ScanComponent(t, b)
    ensures |a| == 1 ==> ScanComponent(t, a) == (if Admits(a[0]) then [BridgeTarget(t, a[0])] else [])
  {
    ScanAppend(t, a, b);
    if |a| == 1 {
      ScanOne(t, a[0]);
      assert a == [a[0]];
    }
  }

  /** The targets one field yields: itself when admitted, nothing otherwise. */
  function FieldTargets(t: Ty, f: Member): seq<BridgeTarget> {
    if Admits(f) then [BridgeTarget(t, f)] else []
  }

  lemma ScanOne(t: Ty, f: Member)
    ensures ScanComponent(t, [f]) == FieldTargets(t, f)
  {
    assert [f][1..] == [];
  }

  lemma {:induction false} ScanAppend(t: Ty, a: seq<Member>, b: seq<Member>)
    ensures ScanComponent(t, a + b) == ScanComponent(t, a) + ScanComponent(t, b)
    decreases |a|
  {
    if a == [] {
      assert a + b == b;
    } else {
      var ab := a + b;
      assert ab[0] == a[0] && ab[1..] == a[1..] + b;
      assert ScanComponent(t, ab) == FieldTargets(t, a[0]) + ScanComponent(t, a[1..] + b);
      assert ScanComponent(t, a) == FieldTargets(t, a[0]) + ScanComponent(t, a[1..]);
      ScanAppend(t, a[1..], b);
      AppendAssoc(FieldTargets(t, a[0]), ScanComponent(t, a[1..]), ScanComponent(t, b));
    }
  }

  /** `ScanComponent`'s return value: whether it appended anything. */
  predicate Worthy(t: Ty, fieldsOf: Ty -> seq<Member>) {
    |ScanComponent(t, fieldsOf(t))| > 0
  }

  /** The number of types in `t`'s inheritance chain. */
  function Depth(t: Ty): nat {
    |Ancestors(t)|
  }

  /** A base type sits one level lower in the chain. */
  lemma DepthBase(t: Ty)
    requires t.base.Some?
    ensures Depth(t.base.value) < Depth(t)
  {
    assert Ancestors(t) == [t] + Ancestors(t.base.value);
  }

  /** `Register`, as written: a cached root answers at once; otherwise the walk scans the root and
      then every second ancestor (two `BaseType` steps per iteration), until a null or game type.
      A scanned type whose base is null makes the second step dereference null. */
  function Register(reg: Registry, t: Ty, fieldsOf: Ty -> seq<Member>, sep: char): (r: (Result<bool>, Registry))
    ensures t in reg.cache ==> r == (Ok(reg.cache[t]), reg)
  {
    if t in reg.cache then (Ok(reg.cache[t]), reg)
    else Walk(reg, Some(t), false, fieldsOf, GameTest(sep))
  }

  /** `IsFromGameAssemblies` as the walk's stopping test. */
  function GameTest(sep: char): (f: Ty -> bool)
    ensures forall t :: f(t) == IsFromGameAssemblies(t, sep)
  {
    (t: Ty) => IsFromGameAssemblies(t, sep)
  }

  /** The loop of `Register` from `cur` with the verdict so far. */
  function Walk(reg: Registry, cur: Option<Ty>, worth: bool, fieldsOf: Ty -> seq<Member>, isGame: Ty -> bool)
    : (r: (Result<bool>, Registry))
    ensures cur.None? || isGame(cur.value) ==> r == (Ok(worth), reg)
    ensures reg.cache.Keys <= r.1.cache.Keys && reg.targets <= r.1.targets
    ensures r.0.Ok? && worth ==> r.0.value
    ensures cur.Some? && !isGame(cur.value) ==> cur.value in r.1.cache
    decreases cur
  {
    if cur.None? || isGame(cur.value) then (Ok(worth), reg)
    else
      var t := cur.value;
      var scanned := ScanComponent(t, fieldsOf(t));
      var w := |scanned| > 0;
      var reg' := Registry(reg.cache[t := w], reg.targets + scanned);
      match t.base
      case None => (Err(NullReference), reg')
      case Some(b) => Walk(reg', b.base, worth || w, fieldsOf, isGame)
  }

  /** The types the loop scans from `cur`: `cur`, then the grandparent, and so on. */
  function Visits(cur: Option<Ty>, isGame: Ty -> bool): (r: seq<Ty>)
    ensures forall i :: 0 <= i < |r| ==> !isGame(r[i])
    decreases cur
  {
    if cur.None? || isGame(cur.value) then []
    else
      match cur.value.base
      case None => [cur.value]
      case Some(b) => [cur.value] + Visits(b.base, isGame)
  }

  /** The walk from `cur` meets a null base type after a scan, and throws. */
  predicate WalkThrows(cur: Option<Ty>, isGame: Ty -> bool)
    decreases cur
  {
    if cur.None? || isGame(cur.value) then false
    else
      match cur.value.base
      case None => true
      case Some(b) => WalkThrows(b.base, isGame)
  }

  /** One step of the walk from a non-game type with a base: scan, cache, then continue two levels up. */
  lemma WalkStep(reg: Registry, cur: Option<Ty>, worth: bool, fieldsOf: Ty -> seq<Member>, isGame: Ty -> bool)
    requires cur.Some? && !isGame(cur.value) && cur.value.base.Some?
    ensures var t := cur.value;
            var scanned := ScanComponent(t, fieldsOf(t));
            var reg' := Registry(reg.cache[t := |scanned| > 0], reg.targets + scanned);
            && Walk(reg, cur, worth, fieldsOf, isGame) == Walk(reg', t.base.value.base, worth || |scanned| > 0, fieldsOf, isGame)
            && Visits(cur, isGame) == [t] + Visits(t.base.value.base, isGame)
            && (WalkThrows(cur, isGame) <==> WalkThrows(t.base.value.base, isGame))
  {
  }

  /** Some type of `vs` has fields worth bridging. */
  predicate AnyWorthy(vs: seq<Ty>, fieldsOf: Ty -> seq<Member>) {
    exists i :: 0 <= i < |vs| && Worthy(vs[i], fieldsOf)
  }

  lemma AnyWorthyCons(t: Ty, rest: seq<Ty>, fieldsOf: Ty -> seq<Member>)
    ensures AnyWorthy([t] + rest, fieldsOf) <==> Worthy(t, fieldsOf) || AnyWorthy(rest, fieldsOf)
  {
    var vs := [t] + rest;
    if AnyWorthy(rest, fieldsOf) {
      var i :| 0 <= i < |rest| && Worthy(rest[i], fieldsOf);
      assert vs[i + 1] == rest[i];
    }
    if AnyWorthy(vs, fieldsOf) {
      var i :| 0 <= i < |vs| && Worthy(vs[i], fieldsOf);
      if i > 0 {
        assert rest[i - 1] == vs[i];
      }
    }
    if Worthy(t, fieldsOf) {
      assert vs[0] == t;
    }
  }

  /** The walk throws exactly when it meets a null base type. */
  lemma {:induction false} WalkThrowsIff(reg: Registry, cur: Option<Ty>, worth: bool, fieldsOf: Ty -> seq<Member>, isGame: Ty -> bool)
    ensures Walk(reg, cur, worth, fieldsOf, isGame).0.Err? <==> WalkThrows(cur, isGame)
    decreases cur
  {
    if cur.Some? && !isGame(cur.value) && cur.value.base.Some? {
      var t := cur.value;
      var w := Worthy(t, fieldsOf);
      WalkStep(reg, cur, worth, fieldsOf, isGame);
      var reg' := Registry(reg.cache[t := w], reg.targets + ScanComponent(t, fieldsOf(t)));
      WalkThrowsIff(reg', t.base.value.base, worth || w, fieldsOf, isGame);
    }
  }

  /** The walk's verdict is the OR of the scans of the visited types; it throws exactly when it
      meets a null base type. */
  lemma {:induction false} WalkVerdict(reg: Registry, cur: Option<Ty>, worth: bool, fieldsOf: Ty -> seq<Member>, isGame: Ty -> bool)
    ensures var r := Walk(reg, cur, worth, fieldsOf, isGame);
            && (r.0.Err? <==> WalkThrows(cur, isGame))
            && (r.0.Ok? ==> (r.0.value <==> worth || AnyWorthy(Visits(cur, isGame), fieldsOf)))
    decreases cur
  {
    WalkThrowsIff(reg, cur, worth, fieldsOf, isGame);
    if cur.Some? && !isGame(cur.value) && cur.value.base.Some? {
      var t := cur.value;
      var w := Worthy(t, fieldsOf);
      var next := t.base.value.base;
      WalkStep(reg, cur, worth, fieldsOf, isGame);
      var reg' := Registry(reg.cache[t := w], reg.targets + ScanComponent(t, fieldsOf(t)));
      WalkVerdict(reg', next, worth || w, fieldsOf, isGame);
      AnyWorthyCons(t, Visits(next, isGame), fieldsOf);
    }
  }

  /** Each visited type caches its own scan, not the OR of the chain. */
  lemma {:induction false} WalkCachesOwnScan(reg: Registry, cur: Option<Ty>, worth: bool, fieldsOf: Ty -> seq<Member>, isGame: Ty -> bool)
    ensures var r := Walk(reg, cur, worth, fieldsOf, isGame);
            var vs := Visits(cur, isGame);
            forall i :: 0 <= i < |vs| ==> vs[i] in r.1.cache && r.1.cache[vs[i]] == Worthy(vs[i], fieldsOf)
    decreases cur
  {
    if cur.Some? && !isGame(cur.value) && cur.value.base.Some? {
      var t := cur.value;
      var next := t.base.value.base;
      WalkStep(reg, cur, worth, fieldsOf, isGame);
      var reg' := Registry(reg.cache[t := Worthy(t, fieldsOf)], reg.targets + ScanComponent(t, fieldsOf(t)));
      var worth' := worth || Worthy(t, fieldsOf);
      WalkCachesOwnScan(reg', next, worth', fieldsOf, isGame);
      WalkKeepsOthers(reg', next, worth', fieldsOf, isGame);
      DepthBase(t);
      if next.Some? {
        DepthBase(t.base.value);
      }
      VisitsBelow(next, isGame, t);
    }
  }

  /** The walk leaves the cached verdicts of types it does not visit alone, and adds only visited types. */
  lemma {:induction false} WalkKeepsOthers(reg: Registry, cur: Option<Ty>, worth: bool, fieldsOf: Ty -> seq<Member>, isGame: Ty -> bool)
    ensures var r := Walk(reg, cur, worth, fieldsOf, isGame);
            var vs := Visits(cur, isGame);
            && (forall k :: k in reg.cache && k !in vs ==> k in r.1.cache && r.1.cache[k] == reg.cache[k])
            && (forall k :: k in r.1.cache ==> k in reg.cache || k in vs)
    decreases cur
  {
    if cur.Some? && !isGame(cur.value) && cur.value.base.Some? {
      var t := cur.value;
      var next := t.base.value.base;
      WalkStep(reg, cur, worth, fieldsOf, isGame);
      var reg' := Registry(reg.cache[t := Worthy(t, fieldsOf)], reg.targets + ScanComponent(t, fieldsOf(t)));
      WalkKeepsOthers(reg', next, worth || Worthy(t, fieldsOf), fieldsOf, isGame);
    }
  }

  /** The walk only appends targets, each for a visited type and an admitted field. */
  lemma {:induction false} WalkTargets(reg: Registry, cur: Option<Ty>, worth: bool, fieldsOf: Ty -> seq<Member>, isGame: Ty -> bool)
    ensures var r := Walk(reg, cur, worth, fieldsOf, isGame);
            var vs := Visits(cur, isGame);
            && reg.targets <= r.1.targets
            && (forall j :: |reg.targets| <= j < |r.1.targets| ==>
                  r.1.targets[j].componentType in vs && Admits(r.1.targets[j].field))
    decreases cur
  {
    if cur.Some? && !isGame(cur.value) {
      var t := cur.value;
      var scanned := ScanComponent(t, fieldsOf(t));
      var targets' := reg.targets + scanned;
      assert forall j :: |reg.targets| <= j < |targets'| ==> targets'[j] == scanned[j - |reg.targets|];
      if t.base.Some? {
        var next := t.base.value.base;
        WalkStep(reg, cur, worth, fieldsOf, isGame);
        var reg' := Registry(reg.cache[t := |scanned| > 0], targets');
        WalkTargets(reg', next, worth || |scanned| > 0, fieldsOf, isGame);
      }
    }
  }

  /** `Register` never forgets a cached type, caches the type it was asked about unless that is a game
      type, and only appends targets. */
  lemma RegisterCaches(reg: Registry, t: Ty, fieldsOf: Ty -> seq<Member>, sep: char)
    ensures var r := Register(reg, t, fieldsOf, sep);
            && reg.cache.Keys <= r.1.cache.Keys
            && (!IsFromGameAssemblies(t, sep) ==> t in r.1.cache)
            && reg.targets <= r.1.targets
  {
    if t !in reg.cache {
      var game := GameTest(sep);
      WalkCachesOwnScan(reg, Some(t), false, fieldsOf, game);
      WalkKeepsOthers(reg, Some(t), false, fieldsOf, game);
      WalkTargets(reg, Some(t), false, fieldsOf, game);
      if !IsFromGameAssemblies(t, sep) {
        assert Visits(Some(t), game)[0] == t;
      }
    }
  }

  /** Every type the walk from below `t` visits is a proper ancestor of `t`, so differs from it. */
  lemma {:induction false} VisitsBelow(cur: Option<Ty>, isGame: Ty -> bool, t: Ty)
    requires cur.Some? ==> Depth(cur.value) < Depth(t)
    ensures forall i :: 0 <= i < |Visits(cur, isGame)| ==> Depth(Visits(cur, isGame)[i]) < Depth(t)
    ensures t !in Visits(cur, isGame)
    decreases cur
  {
    if cur.Some? && !isGame(cur.value) && cur.value.base.Some? {
      var b := cur.value.base.value;
      DepthBase(cur.value);
      if b.base.Some? {
        DepthBase(b);
      }
      VisitsBelow(b.base, isGame, t);
      var rest := Visits(b.base, isGame);
      assert Visits(cur, isGame) == [cur.value] + rest;
    }
  }

  /** The walk scans exactly the ancestors at even distance: the root, its grandparent, and so on,
      so a parent's fields are never registered through its child. It stops only at the end of the
      chain or at the first such ancestor that is a game type. */
  lemma VisitsAlternate(t: Ty, isGame: Ty -> bool)
    ensures var vs := Visits(Some(t), isGame);
            var anc := Ancestors(t);
            forall i :: 0 <= i < |vs| ==> 2 * i < |anc| && vs[i] == anc[2 * i]
    ensures var vs := Visits(Some(t), isGame);
            var anc := Ancestors(t);
            2 * |vs| >= |anc| || isGame(anc[2 * |vs|])
  {
    VisitsEven(t, isGame);
    VisitsStop(t, isGame);
  }

  lemma {:induction false} VisitsEven(t: Ty, isGame: Ty -> bool)
    ensures var vs := Visits(Some(t), isGame);
            var anc := Ancestors(t);
            forall i :: 0 <= i < |vs| ==> 2 * i < |anc| && vs[i] == anc[2 * i]
    decreases t
  {
    var vs := Visits(Some(t), isGame);
    var anc := Ancestors(t);
    if !isGame(t) && t.base.Some? {
      var b := t.base.value;
      if b.base.Some? {
        var g := b.base.value;
        VisitsEven(g, isGame);
        assert Ancestors(b) == [b] + Ancestors(g);
        assert anc == [t] + Ancestors(b);
        forall i | 0 <= i < |vs| ensures 2 * i < |anc| && vs[i] == anc[2 * i] {
          if i > 0 {
            assert vs[i] == Visits(Some(g), isGame)[i - 1];
          }
        }
      }
    }
  }

  lemma {:induction false} VisitsStop(t: Ty, isGame: Ty -> bool)
    ensures var vs := Visits(Some(t), isGame);
            var anc := Ancestors(t);
            2 * |vs| >= |anc| || isGame(anc[2 * |vs|])
    decreases t
  {
    if !isGame(t) && t.base.Some? {
      var b := t.base.value;
      if b.base.Some? {
        var g := b.base.value;
        VisitsStop(g, isGame);
        var rest := Visits(Some(g), isGame);
        assert Visits(Some(t), isGame) == [t] + rest;
        assert Ancestors(t) == [t, b] + Ancestors(g);
      }
    }
  }

  /* ----- A concrete chain: a mod component `Leaf : Mid : Top : object`. ----- */

  const ModAssembly := Assembly("Mod.dll", Some("Game/BepInEx/plugins"))
  const CoreAssembly := Assembly("mscorlib.dll", None)

  const ObjectTy := Ty("System.Object", ClassKind, {SystemObject}, CoreAssembly, [], None, None)
  const PayloadTy := Ty("Mod.Payload", ClassKind, {SerializableTrait}, ModAssembly, [], None, None)

  function ModClass(name: string, base: Ty): Ty {
    Ty(name, ClassKind, {}, ModAssembly, [], None, Some(base))
  }

  lemma ModIsNotGame(t: Ty)
    requires t.assembly == ModAssembly && !t.Is(HandlerType) && !t.Is(PluginTrait)
    ensures !IsFromGameAssemblies(t, '/')
  {
    assert OccursAt("Game/BepInEx/plugins", PluginsFolder('/'), 5);
  }

  /** `Leaf : Mid : Top : object` where only `Mid` declares a bridgeable field: `Register(Leaf)` steps
      from `Leaf` straight to `Top`, so it reports nothing worth bridging and registers no target. */
  lemma SkippedParentLosesTargets()
    ensures var top := ModClass("Mod.Top", ObjectTy);
            var mid := ModClass("Mod.Mid", top);
            var leaf := ModClass("Mod.Leaf", mid);
            var field := Member("payload", mid, PayloadTy, false, false, true, {});
            var fieldsOf := (ty: Ty) => if ty == mid then [field] else [];
            var r := Register(Registry(map[], []), leaf, fieldsOf, '/');
            && Worthy(mid, fieldsOf)
            && r.0 == Ok(false) && r.1.targets == [] && mid !in r.1.cache
  {
    var top := ModClass("Mod.Top", ObjectTy);
    var mid := ModClass("Mod.Mid", top);
    var leaf := ModClass("Mod.Leaf", mid);
    var field := Member("payload", mid, PayloadTy, false, false, true, {});
    var fieldsOf := (ty: Ty) => if ty == mid then [field] else [];
    ModIsNotGame(leaf);
    ModIsNotGame(top);
    assert Admits(field);
    assert ScanComponent(mid, fieldsOf(mid)) == [BridgeTarget(mid, field)];
    assert leaf != mid && top != mid;
    assert ScanComponent(leaf, fieldsOf(leaf)) == [];
    assert ScanComponent(top, fieldsOf(top)) == [];
    var game := GameTest('/');
    var reg0 := Registry(map[], []);
    var reg1 := Registry(map[leaf := false], []);
    assert Register(reg0, leaf, fieldsOf, '/') == Walk(reg0, Some(leaf), false, fieldsOf, game);
    WalkStep(reg0, Some(leaf), false, fieldsOf, game);
    assert reg0.targets + ScanComponent(leaf, fieldsOf(leaf)) == [];
    assert Walk(reg0, Some(leaf), false, fieldsOf, game) == Walk(reg1, Some(top), false, fieldsOf, game);
    var reg2 := Registry(map[leaf := false, top := false], []);
    WalkStep(reg1, Some(top), false, fieldsOf, game);
    assert Walk(reg1, Some(top), false, fieldsOf, game) == Walk(reg2, None, false, fieldsOf, game);
    assert mid != leaf && mid != top;
  }

  /** With `Leaf : Mid : Top : object` and only `Top` declaring a bridgeable field, the first
      `Register(Leaf)` answers true (from `Top`) but caches `Leaf`'s own scan, false, so a second
      call answers false: the registry is not idempotent. */
  lemma SecondRegisterDisagrees()
    ensures var top := ModClass("Mod.Top", ObjectTy);
            var mid := ModClass("Mod.Mid", top);
            var leaf := ModClass("Mod.Leaf", mid);
            var field := Member("payload", top, PayloadTy, false, false, true, {});
            var fieldsOf := (ty: Ty) => if ty == top then [field] else [];
            var r1 := Register(Registry(map[], []), leaf, fieldsOf, '/');
            var r2 := Register(r1.1, leaf, fieldsOf, '/');
            r1.0 == Ok(true) && r2.0 == Ok(false)
  {
    var top := ModClass("Mod.Top", ObjectTy);
    var mid := ModClass("Mod.Mid", top);
    var leaf := ModClass("Mod.Leaf", mid);
    var field := Member("payload", top, PayloadTy, false, false, true, {});
    var fieldsOf := (ty: Ty) => if ty == top then [field] else [];
    ModIsNotGame(leaf);
    ModIsNotGame(top);
    assert Admits(field);
    assert leaf != top;
    assert ScanComponent(leaf, fieldsOf(leaf)) == [];
    assert ScanComponent(top, fieldsOf(top)) == [BridgeTarget(top, field)];
    var game := GameTest('/');
    var reg0 := Registry(map[], []);
    var reg1 := Registry(map[leaf := false], []);
    assert Register(reg0, leaf, fieldsOf, '/') == Walk(reg0, Some(leaf), false, fieldsOf, game);
    WalkStep(reg0, Some(leaf), false, fieldsOf, game);
    assert reg0.targets + ScanComponent(leaf, fieldsOf(leaf)) == [];
    assert Walk(reg0, Some(leaf), false, fieldsOf, game) == Walk(reg1, Some(top), false, fieldsOf, game);
    var reg2 := Registry(map[leaf := false, top := true], [BridgeTarget(top, field)]);
    WalkStep(reg1, Some(top), false, fieldsOf, game);
    assert reg1.targets + ScanComponent(top, fieldsOf(top)) == [BridgeTarget(top, field)];
    assert Walk(reg1, Some(top), false, fieldsOf, game) == Walk(reg2, None, true, fieldsOf, game);
    assert reg2.cache[leaf] == false;
  }

  /* ----- The evidently intended registry: every ancestor, cached verdicts that mean the same thing. ----- */

  /** Whether some non-game ancestor from `cur` up to the first game type declares a bridgeable field. */
  predicate Worth(cur: Option<Ty>, fieldsOf: Ty -> seq<Member>, sep: char)
    decreases cur
  {
    if cur.None? || IsFromGameAssemblies(cur.value, sep) then false
    else Worthy(cur.value, fieldsOf) || Worth(cur.value.base, fieldsOf, sep)
  }

  /** Every cached verdict is what `Register` of that type means. */
  ghost predicate Coherent(reg: Registry, fieldsOf: Ty -> seq<Member>, sep: char) {
    forall k :: k in reg.cache ==> reg.cache[k] == Worth(Some(k), fieldsOf, sep)
  }

  /** The corrected walk: one `BaseType` step per iteration, a cached ancestor answers for the rest of
      the chain, and each type caches the verdict for its whole chain. */
  function WalkFixed(reg: Registry, cur: Option<Ty>, fieldsOf: Ty -> seq<Member>, sep: char): (r: (bool, Registry))
    ensures reg.targets <= r.1.targets
    ensures reg.cache.Keys <= r.1.cache.Keys
    ensures cur.Some? && !IsFromGameAssemblies(cur.value, sep) ==> cur.value in r.1.cache && r.1.cache[cur.value] == r.0
    decreases cur
  {
    if cur.None? || IsFromGameAssemblies(cur.value, sep) then (false, reg)
    else if cur.value in reg.cache then (reg.cache[cur.value], reg)
    else
      var t := cur.value;
      var scanned := ScanComponent(t, fieldsOf(t));
      var below := WalkFixed(Registry(reg.cache, reg.targets + scanned), t.base, fieldsOf, sep);
      var w := |scanned| > 0 || below.0;
      (w, below.1.(cache := below.1.cache[t := w]))
  }

  /** The corrected `Register`. */
  function RegisterFixed(reg: Registry, t: Ty, fieldsOf: Ty -> seq<Member>, sep: char): (r: (bool, Registry))
    ensures t in reg.cache ==> r == (reg.cache[t], reg)
    ensures !IsFromGameAssemblies(t, sep) ==> t in r.1.cache && r.1.cache[t] == r.0
  {
    if t in reg.cache then (reg.cache[t], reg) else WalkFixed(reg, Some(t), fieldsOf, sep)
  }

  /** On a coherent registry the corrected walk answers `Worth` and keeps the registry coherent. */
  lemma {:induction false} WalkFixedSound(reg: Registry, cur: Option<Ty>, fieldsOf: Ty -> seq<Member>, sep: char)
    requires Coherent(reg, fieldsOf, sep)
    ensures var r := WalkFixed(reg, cur, fieldsOf, sep);
            r.0 == Worth(cur, fieldsOf, sep) && Coherent(r.1, fieldsOf, sep)
    decreases cur
  {
    if cur.None? || IsFromGameAssemblies(cur.value, sep) || cur.value in reg.cache {
    } else {
      var t := cur.value;
      var scanned := ScanComponent(t, fieldsOf(t));
      WalkFixedSound(Registry(reg.cache, reg.targets + scanned), t.base, fieldsOf, sep);
    }
  }

  /** The corrected `Register` answers whether any ancestor is worth bridging, and asking again gives
      the same answer and changes nothing. */
  lemma RegisterFixedIdempotent(reg: Registry, t: Ty, fieldsOf: Ty -> seq<Member>, sep: char)
    requires Coherent(reg, fieldsOf, sep)
    ensures var r1 := RegisterFixed(reg, t, fieldsOf, sep);
            && r1.0 == Worth(Some(t), fieldsOf, sep)
            && Coherent(r1.1, fieldsOf, sep)
            && (!IsFromGameAssemblies(t, sep) ==> RegisterFixed(r1.1, t, fieldsOf, sep) == r1)
  {
    if t !in reg.cache {
      WalkFixedSound(reg, Some(t), fieldsOf, sep);
    }
  }
}

=== FILE: types.dfy ===
/** Host metadata: .NET types, assemblies, fields and Unity object identities, reduced to
    plain values.

    A `Ty` carries exactly the facts the modelled code asks of `System.Type`: its kind, which
    well-known types it is assignable to (`traits`), its assembly, its generic arguments, its
    element type when it is an array, and its base type. Two `Ty` values are the same type iff
    they are equal, so `type == typeof(X)` is equality and `IsAssignableFrom` is a trait test.
 */
module Types {
  import opened Wrappers

  /** A Unity instance id: `Object.GetInstanceID()`. */
  type ObjId = int

  datatype Kind = Primitive | StringKind | EnumKind | ClassKind | StructKind | InterfaceKind

  /** Well-known types a `Ty` is assignable to, or is. */
  datatype Trait =
    | UnityObject        // assignable to UnityEngine.Object
    | ComponentTrait     // assignable to UnityEngine.Component
    | GameObjectType     // is UnityEngine.GameObject
    | TransformTrait     // assignable to UnityEngine.Transform
    | MonoBehaviourTrait // assignable to UnityEngine.MonoBehaviour
    | CallbackReceiver   // implements ISerializationCallbackReceiver
    | PluginTrait        // assignable to BepInEx.BaseUnityPlugin
    | HandlerType        // is the plugin's SerializationHandler
    | ListTrait          // assignable to System.Collections.IList
    | DictionaryTrait    // assignable to System.Collections.IDictionary
    | SerializableTrait  // Type.IsSerializable
    | UnityInternal      // the plugin's IsUnityInternalType verdict
    | SystemObject       // is System.Object

  /** An assembly: the file name of its location, and its directory when that can be determined. */
  datatype Assembly = Assembly(fileName: string, directory: Option<string>)

  datatype Ty = Ty(name: string, kind: Kind, traits: set<Trait>, assembly: Assembly,
                   args: seq<Ty>, elem: Option<Ty>, base: Option<Ty>)
  {
    predicate Is(t: Trait) {
      t in traits
    }

    predicate IsArray() {
      elem.Some?
    }

    predicate IsGenericType() {
      |args| > 0
    }

    predicate IsClass() {
      kind == ClassKind || kind == StringKind
    }

    predicate IsValueType() {
      kind == Primitive || kind == EnumKind || kind == StructKind
    }

    /** Primitives, `string` and enums: what Unity serializes natively. */
    predicate IsSimple() {
      kind == Primitive || kind == StringKind || kind == EnumKind
    }
  }

  /** Attributes the modelled code tests on fields and properties. */
  datatype Attr = SerializeFieldAttr | SerializeReferenceAttr | NonSerializedAttr | BackingField

  /** A `FieldInfo` or `PropertyInfo`. */
  datatype Member = Member(name: string, declaring: Ty, memberType: Ty, isProperty: bool,
                           isStatic: bool, isPublic: bool, attrs: set<Attr>)

  /** The inheritance chain from `t` upwards: `t`, `t.BaseType`, ... */
  function Ancestors(t: Ty): (r: seq<Ty>)
    ensures |r| > 0 && r[0] == t
    ensures forall i :: 0 < i < |r| ==> r[i - 1].base == Some(r[i])
    ensures r[|r| - 1].base.None?
    decreases t
  {
    match t.base
    case None => [t]
    case Some(b) => [t] + Ancestors(b)
  }
}

=== FILE: unity_converters.dfy ===
/** `UniversalUnityValueConverter` and `UniversalUnityReferenceConverter`: both write a Unity object
    as `{"$type": "unity", "$hash": id}` and read that envelope back, the first as a fresh copy of
    the object, the second as the object itself.
 */
module UnityConverters {
  import opened Wrappers
  import opened Types
  import opened Json

  /** Both `CanConvert`s: the type is assignable to `UnityEngine.Object`. */
  function CanConvert(t: Ty): (r: bool)
    ensures r <==> t.Is(UnityObject)
  {
    t.Is(UnityObject)
  }

  /** The envelope of a Unity object. */
  function Envelope(id: ObjId): Json {
    JObj([("$type", JStr("unity")), ("$hash", JInt(id))])
  }

  /** Both `WriteJson`s: null is JSON null, a Unity object its envelope (destroyed or not), and any
      other value the empty object. */
  function WriteJson(v: Value): (r: Json)
    ensures v.VNull? <==> r == JNull
    ensures v.VUnity? <==> r.JObj? && Get(r.props, "$hash").Some?
    ensures v.VUnity? ==> r == Envelope(v.id)
    ensures !v.VNull? && !v.VUnity? ==> r == JObj([])
  {
    match v
    case VNull => JNull
    case VUnity(id) => Envelope(id)
    case _ => JObj([])
  }

  /** What both `ReadJson`s extract before they differ: the tag text and the id. `None` stands for
      the early return of null (a null token, an empty or missing tag, or a missing "$hash"); the
      "$hash" token is read by `ToObject<int>()`, so a numeric string is accepted as well, and a
      null, object or array "$hash" is an argument error. */
  function ReadEnvelope(token: Json): (r: Result<Option<(string, int)>>)
    ensures token == JNull ==> r == Ok(None)
    ensures token != JNull && !token.JObj? ==> r == Err(JsonReader)
    ensures token.JObj? && (Text(Get(token.props, "$type")) == "" || Get(token.props, "$hash").None?) ==> r == Ok(None)
    ensures token.JObj? && Text(Get(token.props, "$type")) != "" && Get(token.props, "$hash").Some? ==>
              && (r.Err? <==> ToObjectInt(Get(token.props, "$hash").value).Err?)
              && (r.Err? ==> r.error == ToObjectInt(Get(token.props, "$hash").value).error)
              && (var h := Get(token.props, "$hash").value; h.JNull? || h.JObj? || h.JArr? ==> r == Err(Argument))
    ensures r.Ok? && r.value.Some? ==>
              && token.JObj? && Get(token.props, "$hash").Some?
              && ToObjectInt(Get(token.props, "$hash").value) == Ok(r.value.value.1)
              && r.value.value.0 == Text(Get(token.props, "$type")) != ""
  {
    match token
    case JNull => Ok(None)
    case JObj(props) =>
      var tag := Text(Get(props, "$type"));
      if tag == "" || Get(props, "$hash").None? then Ok(None)
      else
        var id :- ToObjectInt(Get(props, "$hash").value);
        Ok(Some((tag, id)))
    case _ => Err(JsonReader)
  }

  /** `UniversalUnityValueConverter.ReadJson`: any tag will do; a live id yields a fresh copy
      (`instantiate`), a destroyed or unknown one null. */
  function ValueReadJson(token: Json, live: set<ObjId>, instantiate: ObjId -> ObjId): (r: Result<Value>)
    ensures r.Ok? ==> r.value == VNull || (r.value.VUnity? && exists id :: id in live && r.value.id == instantiate(id))
  {
    var env :- ReadEnvelope(token);
    match env
    case None => Ok(VNull)
    case Some((_, id)) => if id in live then Ok(VUnity(instantiate(id))) else Ok(VNull)
  }

  /** `UniversalUnityReferenceConverter.ReadJson`: only the "unity" tag resolves, to the live object
      with that id; any other tag, and a destroyed or unknown id, give null. */
  function ReferenceReadJson(token: Json, live: set<ObjId>): (r: Result<Value>)
    ensures r.Ok? ==> r.value == VNull || (r.value.VUnity? && r.value.id in live)
  {
    var env :- ReadEnvelope(token);
    match env
    case None => Ok(VNull)
    case Some((tag, id)) => if tag == "unity" && id in live then Ok(VUnity(id)) else Ok(VNull)
  }

  /** The reference converter's round trip: a live object comes back as itself, a destroyed one as
      null, and anything that is not a Unity object as null; an id outside `int` cannot be read back. */
  lemma ReferenceRoundTrip(v: Value, live: set<ObjId>)
    ensures ReferenceReadJson(WriteJson(v), live) ==
            if v.VUnity? && !IsInt32(v.id) then Err(Overflow)
            else Ok(if v.VUnity? && v.id in live then v else VNull)
  {
    if v.VUnity? {
      assert Get(Envelope(v.id).props, "$type") == Some(JStr("unity"));
    }
  }

  /** The value converter's round trip: a live object comes back as a copy of itself; an id outside
      `int` cannot be read back. */
  lemma ValueRoundTrip(v: Value, live: set<ObjId>, instantiate: ObjId -> ObjId)
    ensures ValueReadJson(WriteJson(v), live, instantiate) ==
            if v.VUnity? && !IsInt32(v.id) then Err(Overflow)
            else Ok(if v.VUnity? && v.id in live then VUnity(instantiate(v.id)) else VNull)
  {
    if v.VUnity? {
      assert Get(Envelope(v.id).props, "$type") == Some(JStr("unity"));
    }
  }

  /** Any tag other than "unity" reads as null through the reference converter, but still resolves
      through the value converter. */
  lemma ForeignTagDiffers(tag: string, id: ObjId, live: set<ObjId>, instantiate: ObjId -> ObjId)
    requires tag != "" && tag != "unity" && id in live && IsInt32(id)
    ensures var token := JObj([("$type", JStr(tag)), ("$hash", JInt(id))]);
            && ReferenceReadJson(token, live) == Ok(VNull)
            && ValueReadJson(token, live, instantiate) == Ok(VUnity(instantiate(id)))
  {
    var token := JObj([("$type", JStr(tag)), ("$hash", JInt(id))]);
    assert Get(token.props, "$type") == Some(JStr(tag));
    assert Get(token.props, "$hash") == Some(JInt(id));
  }

  /** A "$hash" written as the decimal text of the id reads exactly as the number itself. */
  lemma StringHashReads(id: ObjId, live: set<ObjId>, instantiate: ObjId -> ObjId)
    requires IsInt32(id)
    ensures var token := JObj([("$type", JStr("unity")), ("$hash", JStr(Show(id)))]);
            && ReferenceReadJson(token, live) == ReferenceReadJson(Envelope(id), live)
            && ValueReadJson(token, live, instantiate) == ValueReadJson(Envelope(id), live, instantiate)
  {
    var token := JObj([("$type", JStr("unity")), ("$hash", JStr(Show(id)))]);
    ParseShow(id);
    assert Get(token.props, "$type") == Some(JStr("unity")) == Get(Envelope(id).props, "$type");
    assert Get(token.props, "$hash") == Some(JStr(Show(id)));
    assert Get(Envelope(id).props, "$hash") == Some(JInt(id));
  }
}

=== FILE: unity_objects.dfy ===
/** The `UnityEngine.Object` argument of a patched `Instantiate` or `Destroy`, and the GameObject the
    patches take it for. */
module UnityObjects {
  import opened Wrappers
  import opened Types

  /** A null reference, a GameObject, a Component together with the GameObject it is attached to, or
      any other kind of Unity object (an asset, a ScriptableObject). */
  datatype Obj = NullObj | GoObj(go: ObjId) | CompObj(comp: ObjId, owner: ObjId) | OtherObj

  /** `original as GameObject`, or else the component's `gameObject`, kept only when it passes
      Unity's truth test. A destroyed GameObject argument gives null, as it fails the test and is not
      a Component. */
  function RootOf(o: Obj, live: set<ObjId>): (r: Option<ObjId>)
    ensures r.Some? ==> r.value in live
    ensures r.Some? <==> (o.GoObj? && o.go in live) || (o.CompObj? && o.owner in live)
    ensures r.Some? ==> r.value == (if o.GoObj? then o.go else o.owner)
  {
    match o
    case GoObj(g) => if g in live then Some(g) else None
    case CompObj(_, owner) => if owner in live then Some(owner) else None
    case _ => None
  }
}

=== FILE: value_reference_converter.dfy ===
/** `UniversalUnityReferenceValueConverter`: the converter the contract resolver attaches to Unity
    references and collections.

    Encoding: a live Unity object becomes `{"$hash": id}`, a destroyed one or null becomes JSON
    null, a dictionary becomes an array of `{"$keys": k, "$values": v}` objects, an array or list
    becomes an array, and anything else becomes `{"$type": name, "$default": payload}` where the
    payload comes from the serializer.

    Decoding maps a component id to its clone through the parent-to-child pairs of the current
    restore, and copies any other Unity asset.
 */
module ValueReferenceConverter {
  import opened Wrappers
  import opened Types
  import opened Json
  import opened AssemblyUtils
  import UC = UnityConverters

  /** What the converter asks of the host and of the serializer it delegates to. */
  datatype Env = Env(
    live: set<ObjId>,                      // Unity objects not destroyed
    typeOf: ObjId -> Ty,                   // `GetType()` of a Unity object
    copyOf: ObjId -> ObjId,                // the self-activator or `Instantiate` copy of a non-component object
    findType: Json -> Option<Ty>,          // `ReflectionUtils.GetFastType` of a "$type" tag
    serialize: (Value, bool) -> Json,      // `serializer.Serialize` (true) or `SerializeDefault` (false)
    toObject: (Json, Ty) -> Result<Value>, // `JToken.ToObject(type, serializer)`
    convert: (Json, Ty) -> Result<Value>,  // `JToken.ToObject(type)`, without the serializer
    listOf: Ty -> Ty,                      // `List<elem>`
    sep: char)                             // the host's directory separator

  /** `CanConvert`: never strings or primitives; otherwise whatever the two Unity converters take,
      and the standard collections, dictionaries included. */
  function CanConvert(t: Ty): (r: bool)
    ensures t.kind == StringKind || t.kind == Primitive ==> !r
    ensures t.kind != StringKind && t.kind != Primitive ==> (r <==> UC.CanConvert(t) || IsStandardCollection(t, true))
    ensures t.kind != StringKind && t.kind != Primitive && t.Is(DictionaryTrait) ==> r
  {
    if t.kind == StringKind || t.kind == Primitive then false
    else t.Is(UnityObject) || IsStandardCollection(t, true)
  }

  /** `UpdateComponentRegister`: an empty pair map is stored as null. */
  function UpdateComponentRegister(pairs: map<ObjId, ObjId>): (r: Option<map<ObjId, ObjId>>)
    ensures r.None? <==> |pairs| == 0
    ensures r.Some? ==> r.value == pairs
  {
    if |pairs| == 0 then None else Some(pairs)
  }

  /** `{"$hash": id}`. */
  function HashObject(id: ObjId): Json {
    JObj([("$hash", JInt(id))])
  }

  /** `{"$type": name, "$default": payload}`; a type outside the game assemblies that is a class or a
      value type is serialized through the contract resolver, anything else with the default contract. */
  function Envelope(v: Value, ty: Ty, env: Env): Json {
    var viaResolver := !IsFromGameAssemblies(ty, env.sep) && (ty.IsClass() || ty.IsValueType());
    JObj([("$type", JStr(ty.name)), ("$default", env.serialize(v, viaResolver))])
  }

  /** `WriteJson`. */
  function WriteJson(v: Value, env: Env): (r: Json)
    ensures v.VNull? ==> r == JNull
    ensures v.VUnity? ==> r == (if v.id in env.live then HashObject(v.id) else JNull)
    ensures v.VDict? ==> r.JArr? && |r.items| == |v.entries|
    ensures v.VList? && IsStandardCollection(v.ty, false) ==> r.JArr? && |r.items| == |v.items|
    ensures v.VPlain? || (v.VList? && !IsStandardCollection(v.ty, false)) ==>
              r.JObj? && Get(r.props, "$type") == Some(JStr(v.ty.name)) && Get(r.props, "$default").Some?
    decreases v
  {
    match v
    case VNull => JNull
    case VUnity(id) => if id in env.live then HashObject(id) else JNull
    case VDict(_, entries) =>
      JArr(seq(|entries|, i requires 0 <= i < |entries| =>
        JObj([("$keys", WriteJson(entries[i].0, env)), ("$values", WriteJson(entries[i].1, env))])))
    case VList(ty, items) =>
      if IsStandardCollection(ty, false) then JArr(seq(|items|, i requires 0 <= i < |items| => WriteJson(items[i], env)))
      else Envelope(v, ty, env)
    case VPlain(ty, _) => Envelope(v, ty, env)
  }

  /** Each element of an encoded collection is the encoding of the element at the same position. */
  lemma WriteJsonElements(v: Value, env: Env)
    requires v.VDict? || (v.VList? && IsStandardCollection(v.ty, false))
    ensures var r := WriteJson(v, env);
            && (v.VDict? ==> forall i :: 0 <= i < |v.entries| ==>
                  r.items[i] == JObj([("$keys", WriteJson(v.entries[i].0, env)), ("$values", WriteJson(v.entries[i].1, env))]))
            && (v.VList? ==> forall i :: 0 <= i < |v.items| ==> r.items[i] == WriteJson(v.items[i], env))
  {
  }

  /** A list or dictionary the decoder has just built: a new object, which the dictionary's default
      comparer tells apart from every other object by reference. */
  predicate FreshObject(k: Value) {
    k.VList? || k.VDict?
  }

  /** Whether `Dictionary.Add` finds `k` already a key of the dictionary being built. A freshly decoded
      list or dictionary equals no earlier key, whatever its contents; a Unity object resolves to the
      live object itself, and a plain object's handle stands for its identity under its own `Equals`. */
  predicate HasKey(entries: seq<(Value, Value)>, k: Value) {
    !FreshObject(k) && exists i :: 0 <= i < |entries| && entries[i].0 == k
  }

  /** How a "$type" tag names the concrete type: `Value<string>()` casts the tag to a JSON value, so an
      object or array tag throws `InvalidCastException`; a JSON null reads as a null name, which
      `GetFastType` rejects with `ArgumentNullException`; any other tag is looked up by its text, and a
      name that does not resolve leaves the declared type. */
  function TagType(tag: Json, target: Ty, env: Env): (r: Result<Ty>)
    ensures tag.JObj? || tag.JArr? <==> r == Err(InvalidCast)
    ensures tag.JNull? <==> r == Err(ArgumentNull)
    ensures r.Ok? ==> (r.value == target || env.findType(tag) == Some(r.value))
    ensures r.Ok? && env.findType(tag).Some? ==> r.value == env.findType(tag).value
  {
    match tag
    case JObj(_) => Err(InvalidCast)
    case JArr(_) => Err(InvalidCast)
    case JNull => Err(ArgumentNull)
    case _ => Ok(env.findType(tag).GetOr(target))
  }

  /** `ProcessToken`: decodes `token` as a value of type `target`. */
  function ProcessToken(token: Json, target: Ty, env: Env, pairs: Option<map<ObjId, ObjId>>): (r: Result<Value>)
    // null, and a Unity reference
    ensures token.JNull? ==> r == Ok(VNull)
    ensures token.JObj? && Get(token.props, "$hash").Some? ==> r == ResolveHash(Get(token.props, "$hash").value, env, pairs)
    // any other object goes to the serializer as its "$type", or as the declared type, unless the tag throws
    ensures token.JObj? && Get(token.props, "$hash").None? ==>
              var actual := match Get(token.props, "$type") { case None => Ok(target) case Some(tag) => TagType(tag, target, env) };
              var content := match Get(token.props, "$default") { case None => token case Some(c) => c };
              r == (if actual.Err? then Err(actual.error) else env.toObject(content, actual.value))
    // an array becomes a dictionary, an array or a list of the same length, or the generic argument is missing
    ensures token.JArr? && target.Is(DictionaryTrait) ==>
              (|target.args| < 2 ==> r == Err(IndexOutOfRange)) &&
              (r.Ok? ==> r.value.VDict? && r.value.ty == target && |r.value.entries| <= |token.items|)
    ensures token.JArr? && !target.Is(DictionaryTrait) && target.IsArray() ==>
              r.Ok? ==> r.value.VList? && r.value.ty == target && |r.value.items| == |token.items|
    ensures token.JArr? && !target.Is(DictionaryTrait) && !target.IsArray() ==>
              (|target.args| == 0 ==> r == Err(IndexOutOfRange)) &&
              (r.Ok? ==> r.value.VList? && r.value.ty == env.listOf(target.args[0]) && |r.value.items| == |token.items|)
    // numbers and strings convert without the serializer
    ensures token.JInt? || token.JStr? ==> r == env.convert(token, target)
    decreases token, 1
  {
    match token
    case JNull => Ok(VNull)
    case JObj(props) =>
      if Get(props, "$hash").Some? then ResolveHash(Get(props, "$hash").value, env, pairs)
      else
        var actual :- match Get(props, "$type") { case None => Ok(target) case Some(tag) => TagType(tag, target, env) };
        (match Get(props, "$default")
         case Some(content) => env.toObject(content, actual)
         case None => env.toObject(token, actual))
    case JArr(items) =>
      if target.Is(DictionaryTrait) then
        if |target.args| < 2 then Err(IndexOutOfRange)
        else
          var entries :- DecodeEntries(token, 0, target.args[0], target.args[1], [], env, pairs);
          Ok(VDict(target, entries))
      else if target.IsArray() then
        var vs :- DecodeItems(token, 0, target.elem.value, [], env, pairs);
        Ok(VList(target, vs))
      else if |target.args| == 0 then Err(IndexOutOfRange)
      else
        var vs :- DecodeItems(token, 0, target.args[0], [], env, pairs);
        Ok(VList(env.listOf(target.args[0]), vs))
    case _ => env.convert(token, target)
  }

  /** The "$hash" branch: the token is read as an `int` (a number in range, or its decimal text); a
      destroyed or unknown id is null; a component maps to its clone through the pairs, or stays
      itself; any other Unity object is copied. */
  function ResolveHash(hash: Json, env: Env, pairs: Option<map<ObjId, ObjId>>): (r: Result<Value>)
    ensures ToInt(hash).Err? ==> r == Err(ToInt(hash).error)
    ensures ToInt(hash).Ok? && ToInt(hash).value !in env.live ==> r == Ok(VNull)
    ensures ToInt(hash).Ok? && ToInt(hash).value in env.live && IsUnityComponentType(env.typeOf(ToInt(hash).value)) ==>
              var id := ToInt(hash).value;
              r == (if pairs.None? then Err(NullReference)
                    else if id in pairs.value then Ok(VUnity(pairs.value[id]))
                    else Ok(VUnity(id)))
    ensures ToInt(hash).Ok? && ToInt(hash).value in env.live && !IsUnityComponentType(env.typeOf(ToInt(hash).value)) ==>
              r == Ok(VUnity(env.copyOf(ToInt(hash).value)))
  {
    var id :- ToInt(hash);
    if id !in env.live then Ok(VNull)
    else if IsUnityComponentType(env.typeOf(id)) then
      match pairs
      case None => Err(NullReference)
      case Some(m) => if id in m then Ok(VUnity(m[id])) else Ok(VUnity(id))
    else Ok(VUnity(env.copyOf(id)))
  }

  /** The dictionary loop from item `i` on, over the entries built so far: every item must be an
      object, an entry whose key decodes to null is dropped, a repeated key throws. */
  function DecodeEntries(whole: Json, i: nat, keyTy: Ty, valTy: Ty, acc: seq<(Value, Value)>, env: Env,
                         pairs: Option<map<ObjId, ObjId>>): (r: Result<seq<(Value, Value)>>)
    requires whole.JArr? && i <= |whole.items|
    // `item["$keys"]` on an array item rejects the string key; on any other non-object item there is no child to read
    ensures i < |whole.items| && whole.items[i].JArr? ==> r == Err(Argument)
    ensures i < |whole.items| && !whole.items[i].JArr? && !whole.items[i].JObj? ==> r == Err(InvalidOperation)
    ensures r.Ok? ==> acc <= r.value && |r.value| <= |acc| + |whole.items| - i
    ensures r.Ok? ==> forall j :: i <= j < |whole.items| ==> whole.items[j].JObj?
    decreases whole, 0, |whole.items| - i
  {
    if i == |whole.items| then Ok(acc)
    else
      var item := whole.items[i];
      if item.JArr? then Err(Argument)
      else if !item.JObj? then Err(InvalidOperation)
      else
        // A missing "$keys" or "$values" reads as a null token, which decodes to null.
        var k :- match Get(item.props, "$keys") { case None => Ok(VNull) case Some(kt) => ProcessToken(kt, keyTy, env, pairs) };
        var v :- match Get(item.props, "$values") { case None => Ok(VNull) case Some(vt) => ProcessToken(vt, valTy, env, pairs) };
        if k == VNull then DecodeEntries(whole, i + 1, keyTy, valTy, acc, env, pairs)
        else if HasKey(acc, k) then Err(DuplicateKey)
        else DecodeEntries(whole, i + 1, keyTy, valTy, acc + [(k, v)], env, pairs)
  }

  /** The list loop from item `i` on: every element decodes in order. */
  function DecodeItems(whole: Json, i: nat, elemTy: Ty, acc: seq<Value>, env: Env,
                       pairs: Option<map<ObjId, ObjId>>): (r: Result<seq<Value>>)
    requires whole.JArr? && i <= |whole.items|
    ensures r.Ok? ==> |r.value| == |acc| + |whole.items| - i && acc <= r.value
    decreases whole, 0, |whole.items| - i
  {
    if i == |whole.items| then Ok(acc)
    else
      var v :- ProcessToken(whole.items[i], elemTy, env, pairs);
      DecodeItems(whole, i + 1, elemTy, acc + [v], env, pairs)
  }

  /** The dictionary loop only appends, and what it appends has non-null keys that no earlier entry
      has, unless the key is a freshly decoded list or dictionary. */
  lemma {:induction false} DecodeEntriesKeys(whole: Json, i: nat, keyTy: Ty, valTy: Ty, acc: seq<(Value, Value)>,
                                             env: Env, pairs: Option<map<ObjId, ObjId>>)
    requires whole.JArr? && i <= |whole.items|
    ensures var r := DecodeEntries(whole, i, keyTy, valTy, acc, env, pairs);
            r.Ok? ==> && acc <= r.value
                      && (forall j :: |acc| <= j < |r.value| ==> r.value[j].0 != VNull)
                      && (forall j, k :: 0 <= j < k < |r.value| && |acc| <= k && !FreshObject(r.value[k].0) ==>
                            r.value[j].0 != r.value[k].0)
    decreases |whole.items| - i
  {
    if i < |whole.items| && whole.items[i].JObj? {
      var item := whole.items[i];
      var kr := match Get(item.props, "$keys") { case None => Ok(VNull) case Some(kt) => ProcessToken(kt, keyTy, env, pairs) };
      var vr := match Get(item.props, "$values") { case None => Ok(VNull) case Some(vt) => ProcessToken(vt, valTy, env, pairs) };
      if kr.Ok? && vr.Ok? {
        var k := kr.value;
        if k == VNull {
          DecodeEntriesKeys(whole, i + 1, keyTy, valTy, acc, env, pairs);
        } else if !HasKey(acc, k) {
          var acc' := acc + [(k, vr.value)];
          DecodeEntriesKeys(whole, i + 1, keyTy, valTy, acc', env, pairs);
          var r := DecodeEntries(whole, i + 1, keyTy, valTy, acc', env, pairs);
          if r.Ok? {
            forall j, k' | 0 <= j < k' < |r.value| && |acc| <= k' && !FreshObject(r.value[k'].0)
              ensures r.value[j].0 != r.value[k'].0
            {
              if k' == |acc| {
                assert r.value[k'] == acc'[|acc|];
                assert r.value[j] == acc[j];
              }
            }
          }
        }
      }
    }
  }

  /** A dictionary entry whose key token is null is dropped, not added under a null key. */
  lemma NullKeyDropped(target: Ty, value: Json, env: Env, pairs: Option<map<ObjId, ObjId>>)
    requires target.Is(DictionaryTrait) && |target.args| >= 2
    requires ProcessToken(value, target.args[1], env, pairs).Ok?
    ensures ProcessToken(JArr([JObj([("$keys", JNull), ("$values", value)])]), target, env, pairs) == Ok(VDict(target, []))
  {
    var item := JObj([("$keys", JNull), ("$values", value)]);
    var whole := JArr([item]);
    assert Get(item.props, "$keys") == Some(JNull);
    assert Get(item.props, "$values") == Some(value);
    assert DecodeEntries(whole, 1, target.args[0], target.args[1], [], env, pairs) == Ok([]);
    assert DecodeEntries(whole, 0, target.args[0], target.args[1], [], env, pairs) == Ok([]);
  }

  /** The same item twice: a key that decodes to a list or dictionary is a new object each time, so
      both entries go in; any other non-null key is a duplicate the second time. */
  lemma RepeatedItem(target: Ty, key: Json, value: Json, env: Env, pairs: Option<map<ObjId, ObjId>>)
    requires target.Is(DictionaryTrait) && |target.args| >= 2
    requires ProcessToken(key, target.args[0], env, pairs).Ok? && ProcessToken(key, target.args[0], env, pairs).value != VNull
    requires ProcessToken(value, target.args[1], env, pairs).Ok?
    ensures var k := ProcessToken(key, target.args[0], env, pairs).value;
            var v := ProcessToken(value, target.args[1], env, pairs).value;
            var item := JObj([("$keys", key), ("$values", value)]);
            ProcessToken(JArr([item, item]), target, env, pairs) ==
              if FreshObject(k) then Ok(VDict(target, [(k, v), (k, v)])) else Err(DuplicateKey)
  {
    var k := ProcessToken(key, target.args[0], env, pairs).value;
    var v := ProcessToken(value, target.args[1], env, pairs).value;
    var item := JObj([("$keys", key), ("$values", value)]);
    var whole := JArr([item, item]);
    assert Get(item.props, "$keys") == Some(key);
    assert Get(item.props, "$values") == Some(value);
    assert DecodeEntries(whole, 2, target.args[0], target.args[1], [(k, v), (k, v)], env, pairs) == Ok([(k, v), (k, v)]);
    assert HasKey([(k, v)], k) <==> !FreshObject(k) by {
      assert [(k, v)][0].0 == k;
    }
    assert [(k, v)] + [(k, v)] == [(k, v), (k, v)];
    var second := DecodeEntries(whole, 1, target.args[0], target.args[1], [(k, v)], env, pairs);
    assert second == if FreshObject(k) then Ok([(k, v), (k, v)]) else Err(DuplicateKey);
    assert whole.items[0] == item && [] + [(k, v)] == [(k, v)];
    assert DecodeEntries(whole, 0, target.args[0], target.args[1], [], env, pairs) == second;
  }

  /** The list loop decodes element `k` of the array into position `k` of the result. */
  lemma {:induction false} DecodeItemsOrder(whole: Json, i: nat, elemTy: Ty, acc: seq<Value>, env: Env,
                                            pairs: Option<map<ObjId, ObjId>>)
    requires whole.JArr? && i <= |whole.items|
    ensures var r := DecodeItems(whole, i, elemTy, acc, env, pairs);
            r.Ok? ==> forall k :: i <= k < |whole.items| ==>
                        ProcessToken(whole.items[k], elemTy, env, pairs) == Ok(r.value[|acc| + k - i])
    ensures (forall k :: i <= k < |whole.items| ==> ProcessToken(whole.items[k], elemTy, env, pairs).Ok?) ==>
              DecodeItems(whole, i, elemTy, acc, env, pairs).Ok?
    decreases |whole.items| - i
  {
    if i < |whole.items| {
      var v := ProcessToken(whole.items[i], elemTy, env, pairs);
      if v.Ok? {
        DecodeItemsOrder(whole, i + 1, elemTy, acc + [v.value], env, pairs);
      }
    }
  }

  /* ----- Round trip. ----- */

  /** The element type the decoder uses for a list target. */
  function ElemType(ty: Ty): Ty
    requires ty.IsArray() || |ty.args| > 0
  {
    if ty.IsArray() then ty.elem.value else ty.args[0]
  }

  /** No key repeats an earlier one, except a list or dictionary key, which is a new object each time. */
  predicate KeysDistinct(entries: seq<(Value, Value)>) {
    forall i, j :: 0 <= i < j < |entries| && !FreshObject(entries[j].0) ==> entries[i].0 != entries[j].0
  }

  /** Values whose encoding decodes back to themselves as `target`: live components, with an `int`
      instance id, that the pairs do not remap, arrays and lists typed as their target (a list type
      being the `List<T>` the decoder builds), dictionaries with non-null keys that repeat no earlier key unless they are lists or dictionaries, and other objects whose payload the
      serializer reads back as the type named by the tag. */
  ghost predicate RoundTrips(v: Value, target: Ty, env: Env, pairs: map<ObjId, ObjId>)
    decreases v
  {
    match v
    case VNull => true
    case VUnity(id) => id in env.live && IsInt32(id) && IsUnityComponentType(env.typeOf(id)) && id !in pairs
    case VList(ty, items) =>
      && ty == target && !ty.Is(DictionaryTrait)
      && (ty.IsArray() || (ty.Is(ListTrait) && |ty.args| > 0 && env.listOf(ty.args[0]) == ty))
      && forall i :: 0 <= i < |items| ==> RoundTrips(items[i], ElemType(ty), env, pairs)
    case VDict(ty, entries) =>
      && ty == target && ty.Is(DictionaryTrait) && |ty.args| >= 2 && KeysDistinct(entries)
      && forall i :: 0 <= i < |entries| ==>
           && entries[i].0 != VNull
           && RoundTrips(entries[i].0, ty.args[0], env, pairs)
           && RoundTrips(entries[i].1, ty.args[1], env, pairs)
    case VPlain(ty, _) =>
      var viaResolver := !IsFromGameAssemblies(ty, env.sep) && (ty.IsClass() || ty.IsValueType());
      && env.findType(JStr(ty.name)).GetOr(target) == ty
      && env.toObject(env.serialize(v, viaResolver), ty) == Ok(v)
  }

  /** Decoding the encoding of such a value, with the pairs registered, gives the value back. */
  lemma {:induction false} RoundTrip(v: Value, target: Ty, env: Env, pairs: map<ObjId, ObjId>)
    requires RoundTrips(v, target, env, pairs)
    ensures ProcessToken(WriteJson(v, env), target, env, Some(pairs)) == Ok(v)
    decreases v, 1
  {
    match v
    case VNull =>
    case VUnity(id) =>
      assert Get(HashObject(id).props, "$hash") == Some(JInt(id));
    case VPlain(ty, _) =>
      var props := WriteJson(v, env).props;
      assert Get(props, "$hash").None?;
      assert Get(props, "$type") == Some(JStr(ty.name));
    case VList(ty, items) =>
      var whole := WriteJson(v, env);
      ItemsRoundTrip(v, 0, env, pairs);
      assert items[..0] + items[0..] == items;
    case VDict(ty, entries) =>
      EntriesRoundTrip(v, 0, env, pairs);
      assert entries[..0] + entries[0..] == entries;
  }

  lemma {:induction false} ItemsRoundTrip(v: Value, i: nat, env: Env, pairs: map<ObjId, ObjId>)
    requires v.VList? && RoundTrips(v, v.ty, env, pairs) && i <= |v.items|
    ensures WriteJson(v, env).JArr? && |WriteJson(v, env).items| == |v.items|
    ensures DecodeItems(WriteJson(v, env), i, ElemType(v.ty), v.items[..i], env, Some(pairs)) == Ok(v.items)
    decreases v, 0, |v.items| - i
  {
    var whole := WriteJson(v, env);
    WriteJsonElements(v, env);
    if i < |v.items| {
      RoundTrip(v.items[i], ElemType(v.ty), env, pairs);
      assert v.items[..i] + [v.items[i]] == v.items[..i + 1];
      ItemsRoundTrip(v, i + 1, env, pairs);
    } else {
      assert v.items[..i] == v.items;
    }
  }

  lemma {:induction false} EntriesRoundTrip(v: Value, i: nat, env: Env, pairs: map<ObjId, ObjId>)
    requires v.VDict? && RoundTrips(v, v.ty, env, pairs) && i <= |v.entries|
    ensures WriteJson(v, env).JArr? && |WriteJson(v, env).items| == |v.entries|
    ensures DecodeEntries(WriteJson(v, env), i, v.ty.args[0], v.ty.args[1], v.entries[..i], env, Some(pairs)) == Ok(v.entries)
    decreases v, 0, |v.entries| - i
  {
    var whole := WriteJson(v, env);
    WriteJsonElements(v, env);
    if i < |v.entries| {
      var e := v.entries[i];
      RoundTrip(e.0, v.ty.args[0], env, pairs);
      RoundTrip(e.1, v.ty.args[1], env, pairs);
      var item := whole.items[i];
      assert Get(item.props, "$keys") == Some(WriteJson(e.0, env));
      assert Get(item.props, "$values") == Some(WriteJson(e.1, env));
      NoEarlierKey(v.entries, i);
      assert v.entries[..i] + [e] == v.entries[..i + 1];
      EntriesRoundTrip(v, i + 1, env, pairs);
    } else {
      assert v.entries[..i] == v.entries;
    }
  }

  /** With such keys, the dictionary loop never finds an entry's key among the entries before it. */
  lemma NoEarlierKey(entries: seq<(Value, Value)>, i: nat)
    requires KeysDistinct(entries) && i < |entries|
    ensures !HasKey(entries[..i], entries[i].0)
  {
    if !FreshObject(entries[i].0) {
      forall j | 0 <= j < i ensures entries[..i][j].0 != entries[i].0 {
        assert entries[..i][j] == entries[j];
      }
    }
  }

  /* ----- An empty pair map is stored as null. ----- */

  /** When a restore registers no pairs, the register is null and decoding a reference to any live
      component throws instead of returning the component. */
  lemma EmptyPairsThrow(id: ObjId, target: Ty, env: Env)
    requires id in env.live && IsInt32(id) && IsUnityComponentType(env.typeOf(id))
    ensures ProcessToken(HashObject(id), target, env, UpdateComponentRegister(map[])) == Err(NullReference)
  {
    assert Get(HashObject(id).props, "$hash") == Some(JInt(id));
  }

  /** The evidently intended register: the pairs as given, empty or not. */
  function UpdateComponentRegisterFixed(pairs: map<ObjId, ObjId>): (r: Option<map<ObjId, ObjId>>)
    ensures r.Some? && r.value == pairs
  {
    Some(pairs)
  }

  /** With the corrected register a live component reference always decodes, to its clone when the
      pairs map it and to itself otherwise. */
  lemma FixedRegisterResolves(id: ObjId, target: Ty, env: Env, pairs: map<ObjId, ObjId>)
    requires id in env.live && IsInt32(id) && IsUnityComponentType(env.typeOf(id))
    ensures ProcessToken(HashObject(id), target, env, UpdateComponentRegisterFixed(pairs))
            == Ok(VUnity(if id in pairs then pairs[id] else id))
  {
    assert Get(HashObject(id).props, "$hash") == Some(JInt(id));
  }
}

=== FILE: wrappers.dfy ===
/** Failure-compatible wrappers shared by every module of the model.

    `Option` stands for a nullable .NET reference, `Result` for a call that
    either returns or throws one of the exceptions the modelled code can raise.
 */
module Wrappers {

  /** A nullable reference: `None` is `null`. */
  datatype Option<+T> = None | Some(value: T) {

    predicate IsFailure() {
      None?
    }

    function PropagateFailure<U>(): Option<U>
      requires None?
    {
      None
    }

    function Extract(): T
      requires Some?
    {
      value
    }

    /** The value, or `default` when null (C#'s `?? default`). */
    function GetOr(default: T): T {
      match this
      case Some(v) => v
      case None => default
    }
  }

  /** The .NET exceptions the modelled code can raise. */
  datatype Exception =
    | NullReference          // dereferencing null (`last.Value`, `x.BaseType`, ...)
    | ArgumentOutOfRange     // list index out of range
    | IndexOutOfRange        // array index out of range
    | DuplicateKey           // `Dictionary.Add` of a key already present
    | InvalidOperation       // explicit `throw new InvalidOperationException`, or a child lookup on a JSON value
    | Argument               // a string key on a JSON array (`ArgumentException`)
    | ArgumentNull           // a null type name (`ArgumentNullException`)
    | InvalidCast            // a JSON token that does not convert to the requested type
    | JsonReader             // a token of the wrong shape for `JObject.Load`
    | Format                 // a string token whose text is not a number
    | Overflow               // a number outside the range of `int`

  /** The outcome of a call: a value, or the exception it throws. */
  datatype Result<+T> = Ok(value: T) | Err(error: Exception) {

    predicate IsFailure() {
      Err?
    }

    function PropagateFailure<U>(): Result<U>
      requires Err?
    {
      Err(error)
    }

    function Extract(): T
      requires Ok?
    {
      value
    }
  }

  /** Concatenation regrouped: a step the solver does not always take by itself. */
  lemma AppendAssoc<T>(a: seq<T>, b: seq<T>, c: seq<T>)
    ensures (a + b) + c == a + (b + c)
  {
  }
}
